=== FILE: README.md ===
# SIMON core, modelled in Dafny

SIMON is a remote-object RPC runtime built on Apache MINA. A client looks up an
object bound in a server's `Registry`, gets back a `SimonProxy`, and every call
on the proxy travels as a framed message through the session's `Dispatcher`.
The server's `ProcessMessageRunnable` answers it, and the reply is matched to
the waiting caller by its sequence id. Objects passed as callbacks are
reference-counted per session in the `LookupTable`. Connections to a server
are pooled and counted in `AbstractLookup`. A `PingWatchdog` closes sessions
whose pongs stop coming. Raw channels give a byte stream beside the RPC
traffic. A session can be tunnelled through an HTTP proxy with a CONNECT
handshake.

This project models that bookkeeping as pure state transitions on immutable
maps and sequences. Each `synchronized` section is one atomic step. Clocks,
polls and garbage collection are explicit inputs. MINA's session writes and
closes are effects returned in a trace.

| file | module | what it models |
|---|---|---|
| errors.dfy | Errors | the exceptions the core throws, `Result` and `Option` |
| javaint.dfy | JavaInt | Java `int`/`long`, 32-bit wrap-around, truncating division, big-endian int bytes |
| numerals.dfy | Numerals | decimal rendering of integers, as string concatenation does it |
| lists.dfy | Lists | `List.remove(Object)` on sequences |
| utils.dfy | Utils | `Utils`: hex formatting, boolean bytes, hash mixing, root cause, method-hash packing |
| seqids.dfy | SequenceIds | the dispatcher's sequence-id counter |
| pending.dfy | PendingRequests | outstanding requests per session, monitors and results, waiting with a timeout |
| dispatcher.dfy | Dispatcher | state checks, blocking and one-way calls, closed listeners, `sessionClosed` |
| rawchannels.dfy | RawChannels | raw-channel tokens and listeners in `Dispatcher`, the `RawChannel` state machine |
| pingwatchdog.dfy | PingWatchdog | waiters per session, the close-or-keep decision, the pong retry loop |
| connpool.dfy | ConnectionPool | the per-server dispatcher pool of `AbstractLookup`, with reference counts |
| lookups.dfy | Lookups | `NameLookup` and `InterfaceLookup`: argument checks, acquiring and releasing the pool |
| lookuptable.dfy | LookupTable | callback reference counts, remote bindings and instances, unreferencing a session |
| refqueue.dfy | RefQueue | `SimonRefQueue`: the tracked proxies and the release sent when one is collected |
| remoteref.dfy | RemoteRef | the id and `toString` of `SimonRemoteRef` |
| proxy.dfy | Proxies | `SimonProxy`: invocation routing, release, shutting the connection down |
| routing.dfy | Routing | `ProcessMessageRunnable`: the reply or effect for every kind of inbound message |
| registry.dfy | Registry | the `Registry` life cycle: start, stop, bind, unbind, rebind, keep-alive settings |
| simonconfig.dfy | SimonStatics | the static helpers of `Simon` |
| classloader.dfy | ClassLoaderHelper | `SimonClassLoaderHelper`: the ancestor relation and the loader choice |
| wire.dfy | Wire | prefixed strings, serialized objects, ints and bytes in an `IoBuffer` |
| bodies.dfy | Bodies | the body encoders and decoders of the message codecs |
| framing.dfy | Framing | the nine-byte frame header, the encoder's error path, the resumable decoder |
| base64.dfy | Base64 | Base64 (section 4 of RFC 4648) for the proxy credentials |
| proxyfilter.dfy | ProxyFilter | `SimonProxyFilter`: the CONNECT request lines and the response-line state machine |

Sources are cited by path and line below. `SimonMessageConstants`,
`Statics`, `MsgError` and `SimonProxyConfig` are not part of this model.
The constants the model needs from them are handled in one of three ways:
- The monitor wait interval is a parameter.
- The message types are constructors of a datatype.
- The 10000 ms default wait timeout is a named constant.

## Model

| member | source | states |
|---|---|---|
| Utils.BooleanToByte | src/main/java/host/anzo/simon/utils/Utils.java:166-168 | true is written as 0xFF and false as 0x00, and no other byte |
| Utils.ByteToBoolean | src/main/java/host/anzo/simon/utils/Utils.java:177-188 | 0xFF reads as true and 0x00 as false; every other byte is rejected with IllegalArgumentException |
| Utils.BooleanByteRoundTrip | src/main/java/host/anzo/simon/utils/Utils.java:166-188 | a boolean written and read back is the same boolean |
| Utils.ByteBooleanRoundTrip | src/main/java/host/anzo/simon/utils/Utils.java:166-188 | every byte accepted as a boolean is exactly that boolean's wire form |
| Utils.PadZeros | src/main/java/host/anzo/simon/utils/Utils.java:152-154 | zeros are inserted in front until the width is reached; the original digits stay at the end |
| Utils.LongToHexString | src/main/java/host/anzo/simon/utils/Utils.java:147-158 | "0x" followed by at least eight upper-case hex digits; beyond eight there is no leading zero |
| Utils.HexStringRoundTrip | src/main/java/host/anzo/simon/utils/Utils.java:147-158 | the hex digits denote the unsigned 64-bit value of the long, negative longs included |
| Utils.HexStringInjective | src/main/java/host/anzo/simon/utils/Utils.java:147-158 | two different longs never print the same hex string |
| Utils.Hash | src/main/java/host/anzo/simon/utils/Utils.java:485-500 | null hashes to 0, as does the hash code 0 and no other; the two xor-shift stages leave small hash codes unchanged |
| Utils.MixInjective | src/main/java/host/anzo/simon/utils/Utils.java:495-499 | the two xor-shift stages never merge two different hash codes |
| Utils.HashInjective | src/main/java/host/anzo/simon/utils/Utils.java:485-500 | two non-null objects with different hash codes get different hashes |
| Utils.FoldInjective | src/main/java/host/anzo/simon/utils/Utils.java:499 | the stage `h ^ (h >>> 7) ^ (h >>> 4)` is one-to-one on 32-bit values |
| Utils.SpreadInjective | src/main/java/host/anzo/simon/utils/Utils.java:498 | the stage `h ^ (h >>> 20) ^ (h >>> 12)` is one-to-one on 32-bit values |
| Utils.GetRootCause | src/main/java/host/anzo/simon/utils/Utils.java:460-476 | the result is the last throwable on the chain of SAX wrapped exceptions, SQL next exceptions and causes, and has no further link; a throwable without a link is its own root cause |
| Utils.RootCauseIdempotent | src/main/java/host/anzo/simon/utils/Utils.java:460-476 | the root cause of a root cause is itself |
| Utils.PackDigestBytes | src/main/java/host/anzo/simon/utils/Utils.java:89-92 | byte i of the long is digest byte i, for the first eight bytes; missing digest bytes leave zeros |
| Utils.ComputeMethodHash | src/main/java/host/anzo/simon/utils/Utils.java:67-107 | a cached hash is returned unchanged; a miss computes the packed digest (-1 on an I/O failure) and caches it under the method |
| Utils.MethodHashStable | src/main/java/host/anzo/simon/utils/Utils.java:67-107 | once a method's hash is cached, later requests return the same hash whatever digest they would compute |
| SequenceIds.Generate | src/main/java/host/anzo/simon/Dispatcher.java:805-809 | the id handed out is the counter plus one; when it reaches Integer.MAX_VALUE the counter is set back to zero |
| SequenceIds.RunClosedForm | src/main/java/host/anzo/simon/Dispatcher.java:805-809 | after k calls the counter is (start + k) mod MAX_VALUE and call i returned (start + i) mod MAX_VALUE + 1 |
| SequenceIds.IdsDistinct | src/main/java/host/anzo/simon/Dispatcher.java:805-809 | any MAX_VALUE consecutive ids are pairwise distinct |
| SequenceIds.AfterMaxComesOne | src/main/java/host/anzo/simon/Dispatcher.java:805-809 | the id after MAX_VALUE is 1; ids stay in 1..MAX_VALUE |
| PendingRequests.CreateMonitor | src/main/java/host/anzo/simon/Dispatcher.java:733-757 | the id joins the session's list of placed requests (the list is created on first use), its slot holds a monitor, other sessions are untouched |
| PendingRequests.CreateMonitorValid | src/main/java/host/anzo/simon/Dispatcher.java:733-757 | registering a fresh id keeps every session list non-empty and duplicate-free and every listed id backed by a monitor slot |
| PendingRequests.Unplace | src/main/java/host/anzo/simon/Dispatcher.java:605-612 | the id leaves the session's list, and a list that becomes empty is dropped from the map |
| PendingRequests.PutResultToQueue | src/main/java/host/anzo/simon/Dispatcher.java:586-635 | a result for an outstanding request takes the id off the session's list and replaces the monitor by the result; a result nobody waits for is dropped and changes nothing |
| PendingRequests.PutValid | src/main/java/host/anzo/simon/Dispatcher.java:586-635 | delivering a result keeps the table consistent and leaves the id outstanding for no session |
| PendingRequests.LateReplyDropped | src/main/java/host/anzo/simon/Dispatcher.java:586-635 | a second result for the same request is dropped |
| PendingRequests.IsRequestResultPresent | src/main/java/host/anzo/simon/Dispatcher.java:787-796 | a result is present unless the slot holds a monitor, so an unknown id counts as present |
| PendingRequests.GetRequestResult | src/main/java/host/anzo/simon/Dispatcher.java:769-779 | the slot is removed from the table; a remote exception stored there is thrown, anything else is returned |
| PendingRequests.ResultConsumedOnce | src/main/java/host/anzo/simon/Dispatcher.java:769-779 | a result can be taken only once; a second fetch finds nothing |
| PendingRequests.GetValid | src/main/java/host/anzo/simon/Dispatcher.java:769-779 | taking out a present result keeps the table consistent |
| PendingRequests.WaitForResult | src/main/java/host/anzo/simon/Dispatcher.java:549-574 | the loop polls timeout / MONITOR_WAIT_TIMEOUT + 1 times at most; a reply that arrives in time fills the slot, otherwise the loop itself files an InvokeTimeoutException through putResultToQueue |
| PendingRequests.ReplyAfterTimeoutDropped | src/main/java/host/anzo/simon/Dispatcher.java:549-574 | once the timeout was filed, the real reply arriving later is dropped |
| PendingRequests.PutAllPlaced | src/main/java/host/anzo/simon/Dispatcher.java:817-828 | answering the session's list one id after another keeps the table consistent, removes the session's list and leaves every other session's list alone |
| PendingRequests.PutAllSlots | src/main/java/host/anzo/simon/Dispatcher.java:817-828 | answering the session's list fills the slot of every listed id with the result and leaves every other slot as it was |
| PendingRequests.InterruptAnswersEverything | src/main/java/host/anzo/simon/Dispatcher.java:817-828 | every request the session still waits for is answered with a SimonRemoteException, the session's list disappears, other sessions are untouched |
| PendingRequests.InterruptWaitingRequests | src/main/java/host/anzo/simon/Dispatcher.java:817-828 | a session with no outstanding request is left alone (the general case is InterruptAnswersEverything) |
| PendingRequests.ReusedIdStrandsEarlierWaiter | src/main/java/host/anzo/simon/Dispatcher.java:733-797 | when a sequence id that is still awaited on one session is reused for another, the new reply is delivered to the new request but the earlier waiter stays listed, finds a present slot and gets nothing, and the table is no longer consistent |
| Dispatcher.NewDispatcher | src/main/java/host/anzo/simon/Dispatcher.java:217-234 | a new dispatcher runs, is not shutting down or released, and hands out 1 as its first sequence id |
| Dispatcher.CheckForInvalidState | src/main/java/host/anzo/simon/Dispatcher.java:712-724 | a call passes iff the dispatcher runs, no shutdown is in progress and the session is not closing; otherwise SessionException |
| Dispatcher.ShutdownAsWritten | src/main/java/host/anzo/simon/Dispatcher.java:649-671 | as written: the reference queue is drained and every connected session's reference released; with two or more sessions the table cleanup fails with ConcurrentModificationException, a binding survives and the dispatcher keeps running; with fewer it ends as the corrected cleanup does; every later call is refused either way |
| Dispatcher.Shutdown | src/main/java/host/anzo/simon/Dispatcher.java:649-671 | corrected: the reference queue is drained and every connected session's reference released, the lookup table ends empty, exactly the aware objects bound under a listed name are told, and the dispatcher stops running and refuses every call |
| Dispatcher.InvokeWaitTimeout | src/main/java/host/anzo/simon/Dispatcher.java:389-395 | a positive custom timeout is used as is, otherwise the 10000 ms default of waitForResult |
| Dispatcher.ReplyResult | src/main/java/host/anzo/simon/Dispatcher.java:769-779 | the caller receives the reply message, or the remote exception stored instead |
| Dispatcher.CreateThenUnplace | src/main/java/host/anzo/simon/Dispatcher.java:733-757 | registering a request and delivering its result leaves the session lists as they were |
| Dispatcher.BlockingCall | src/main/java/host/anzo/simon/Dispatcher.java:367-401 | a refused call changes nothing and fails with SessionException; otherwise the next sequence id is used, the table ends without that id, and the caller gets the reply or the timeout |
| Dispatcher.Request | src/main/java/host/anzo/simon/Dispatcher.java:371-397 | past the state check: the id is the counter's next id, its slot is gone afterwards, and the result is what arrived within the polls |
| Dispatcher.FetchFilled | src/main/java/host/anzo/simon/Dispatcher.java:769-779 | fetching a filled slot removes exactly that slot, keeps the table consistent, and a stored exception is the one the caller gets |
| Dispatcher.SendOneWay | src/main/java/host/anzo/simon/Dispatcher.java:338-354 | a one-way send (an asynchronous invocation, a ping, a pong or a release; sendPong at lines 991-1002 is exactly this) checks the state and takes a sequence id but registers no monitor |
| Dispatcher.PrepareArgumentsForSend | src/main/java/host/anzo/simon/Dispatcher.java:306-336 | proxies and exportable objects become remote instances carrying their id and everything else goes as given, position by position; each exportable occurrence adds one callback reference for the session and nothing else is counted |
| Dispatcher.ExportsCounted | src/main/java/host/anzo/simon/Dispatcher.java:306-336 | an object passed twice in one call is counted twice, a proxy with the same id not at all |
| Dispatcher.InvokeMethod | src/main/java/host/anzo/simon/Dispatcher.java:367-401 | a refused call prepares nothing and fails with SessionException; otherwise the arguments are prepared into the table and the request goes out under the next sequence id, which is gone from the table afterwards |
| Dispatcher.SendAsyncInvoke | src/main/java/host/anzo/simon/Dispatcher.java:338-354 | the state check and id as for every one-way send; a refused call prepares nothing, an accepted one sends the prepared arguments under that id |
| Dispatcher.SendPing | src/main/java/host/anzo/simon/Dispatcher.java:975-989 | a refused ping changes nothing; otherwise a pong waiter is installed for the session and the ping goes out under the next id |
| Dispatcher.PingThenPongFindsWaiter | src/main/java/host/anzo/simon/Dispatcher.java:975-989 | the pong answering a ping that went out finds the waiter the ping installed; a refused ping installs none |
| Dispatcher.OneWayKeepsPending | src/main/java/host/anzo/simon/Dispatcher.java:338-354 | a one-way send leaves exactly the same requests outstanding |
| Dispatcher.AddClosedListener | src/main/java/host/anzo/simon/Dispatcher.java:171-179 | the listener is appended to the name's list, created on first use; other names are untouched |
| Dispatcher.RemoveClosedListener | src/main/java/host/anzo/simon/Dispatcher.java:189-204 | true iff the listener was registered for the name; one occurrence is removed and an emptied list is dropped |
| Dispatcher.AddRemoveClosedListener | src/main/java/host/anzo/simon/Dispatcher.java:171-204 | adding a listener and removing it again restores the registry and reports true |
| Dispatcher.RemoveClosedListenerList | src/main/java/host/anzo/simon/Dispatcher.java:160-162 | the name's list is returned (null if absent) and the name is gone from the map |
| Dispatcher.GetClosedListenerList | src/main/java/host/anzo/simon/Dispatcher.java:1245-1247 | returns the list the removal would return, without removing it |
| Dispatcher.NotificationsComplete | src/main/java/host/anzo/simon/Dispatcher.java:898-904 | walking the names notifies every listener registered under them and nobody else |
| Dispatcher.ReleaseStep | src/main/java/host/anzo/simon/Dispatcher.java:906-912 | the dispatcher is released at the end of sessionClosed iff it was not released before |
| Dispatcher.OnSessionClosedAsWritten | src/main/java/host/anzo/simon/Dispatcher.java:868-916 | as written: with two or more names the key-set iteration fails with ConcurrentModificationException and the release is never reached |
| Dispatcher.SessionClosedAsWrittenLosesListener | src/main/java/host/anzo/simon/Dispatcher.java:898-904 | with names "a" and "b" registered, b's listener is never notified and no release happens |
| Dispatcher.OnSessionClosed | src/main/java/host/anzo/simon/Dispatcher.java:868-916 | the session is unreferenced first, waiting requests fail, all listeners are dropped, and the release happens iff the dispatcher was not released |
| Dispatcher.OnSessionClosedNotifiesAll | src/main/java/host/anzo/simon/Dispatcher.java:868-916 | the corrected sessionClosed notifies exactly the registered listeners, whatever the key order |
| RawChannels.GetRawChannelToken | src/main/java/host/anzo/simon/Dispatcher.java:1105-1116 | the smallest int not yet in the token list is appended and returned; when every int below MAX_VALUE is taken the call fails with "no more token available" and the list is unchanged |
| RawChannels.Register | src/main/java/host/anzo/simon/Dispatcher.java:1071-1078 | the token is appended to the token list and mapped to the listener |
| RawChannels.PrepareRawChannel | src/main/java/host/anzo/simon/Dispatcher.java:1071-1078 | a fresh token is handed out and the listener is registered under it; when the tokens run out nothing changes; the registry stays consistent |
| RawChannels.IsRawChannelDataListenerRegistered | src/main/java/host/anzo/simon/Dispatcher.java:1083-1098 | true iff a listener can be fetched for the token |
| RawChannels.GetRawChannelDataListener | src/main/java/host/anzo/simon/Dispatcher.java:1093-1098 | the listener registered under the token, or null iff none is |
| RawChannels.RegisteredListenerFound | src/main/java/host/anzo/simon/Dispatcher.java:1071-1098 | the listener registered under a token is the one found for it, and every other token finds what it found before |
| RawChannels.ReleaseToken | src/main/java/host/anzo/simon/Dispatcher.java:1121-1129 | one occurrence of the token value (not the index) leaves the token list; the listener map is untouched |
| RawChannels.UnprepareRawChannel | src/main/java/host/anzo/simon/Dispatcher.java:1136-1143 | the token is released and its listener removed and handed back to be closed; an unknown token ends in a NullPointerException after the release |
| RawChannels.UnprepareValid | src/main/java/host/anzo/simon/Dispatcher.java:1136-1143 | unpreparing keeps the registry consistent and the token is free again |
| RawChannels.PrepareUnprepareRoundTrip | src/main/java/host/anzo/simon/Dispatcher.java:1071-1143 | preparing with a fresh token and unpreparing it restores the registry and yields the registered listener |
| RawChannels.NewRawChannel | src/main/java/host/anzo/simon/RawChannel.java:91-96 | a new channel is open and carries its token |
| RawChannels.IsClosed | src/main/java/host/anzo/simon/RawChannel.java:126-128 | closed iff not open |
| RawChannels.Write | src/main/java/host/anzo/simon/RawChannel.java:111-119 | a closed channel throws IllegalStateException; an open one forwards to the dispatcher and reports its outcome |
| RawChannels.Close | src/main/java/host/anzo/simon/RawChannel.java:139-146 | a closed channel throws IllegalStateException; an open one is marked closed iff the remote close succeeded |
| RawChannels.ClosedStaysClosed | src/main/java/host/anzo/simon/RawChannel.java:130-146 | after a successful close every write and close fails with IllegalStateException |
| PingWatchdog.WaiterTimeout | src/main/java/host/anzo/simon/PingWatchdog.java:50-53 | the waiter's timeout is pingTimeout * 1000 in 32-bit int arithmetic, exact whenever the product fits |
| PingWatchdog.WaitForPong | src/main/java/host/anzo/simon/PingWatchdog.java:112-117 | a new waiter for the session replaces any earlier one; other sessions keep theirs |
| PingWatchdog.PongReceived | src/main/java/host/anzo/simon/PingWatchdog.java:95-101 | the waiter records the pong and keeps its identity and timeout |
| PingWatchdog.NotifyPongReceived | src/main/java/host/anzo/simon/PingWatchdog.java:119-126 | the session's waiter is removed from the map and told of the pong iff there was one; other sessions are untouched |
| PingWatchdog.SecondPongFindsNone | src/main/java/host/anzo/simon/PingWatchdog.java:119-126 | a second pong for the same ping finds no waiter |
| PingWatchdog.CloseSession | src/main/java/host/anzo/simon/PingWatchdog.java:70-85 | the session stays open iff the pong was received and the elapsed time is below the timeout |
| PingWatchdog.TimelyPongKeepsSession | src/main/java/host/anzo/simon/PingWatchdog.java:112-126 | a pong answered within the ping timeout reaches its waiter and the session stays open |
| PingWatchdog.ReplacedWaiterCloses | src/main/java/host/anzo/simon/PingWatchdog.java:112-126 | with two pings outstanding the pong reaches only the second waiter, so the first one closes the session |
| PingWatchdog.RetryAsWritten | src/main/java/host/anzo/simon/PingWatchdog.java:128-149 | as written: the retry loop can only end at a tick where the waiter is present, and then notifies again |
| PingWatchdog.AsWrittenSpinsWithoutWaiter | src/main/java/host/anzo/simon/PingWatchdog.java:131 | as written: if no waiter ever appears, the loop never ends, whatever the waited time |
| PingWatchdog.AsWrittenWaitsForPresentWaiter | src/main/java/host/anzo/simon/PingWatchdog.java:131 | as written: a waiter that is already present does not end the loop before the full 10000 ms |
| PingWatchdog.RetryCorrected | src/main/java/host/anzo/simon/PingWatchdog.java:128-149 | with the intended `&&`: the loop ends at the first tick with a waiter (and notifies again) or when the time is up (and aborts) |
| PingWatchdog.CorrectedTerminates | src/main/java/host/anzo/simon/PingWatchdog.java:128-149 | with the intended `&&` the loop ends within WAIT_FOR_WAITRUNNABLE_TIMEOUT / tick + 1 ticks |
| PingWatchdog.CorrectedAbortsWithoutWaiter | src/main/java/host/anzo/simon/PingWatchdog.java:143-149 | with the intended `&&`, a waiter that never appears makes the notify abort |
| ConnectionPool.CreateServerString | src/main/java/host/anzo/simon/AbstractLookup.java:150-152 | the key is `source@host:port`, or `host:port` without a source address |
| ConnectionPool.ServerStringInjective | src/main/java/host/anzo/simon/AbstractLookup.java:150-152 | for addresses without '@', different (source, host, port) triples get different keys, so two servers never share a connection |
| ConnectionPool.Acquire | src/main/java/host/anzo/simon/AbstractLookup.java:167-332 | a known server's connection is shared and its count goes up by one; otherwise a successful connect stores a new connection with count 1, and a failed one stores nothing, shuts the new dispatcher down and fails with EstablishConnectionFailed; the pool stays consistent |
| ConnectionPool.ReleaseDispatcher | src/main/java/host/anzo/simon/AbstractLookup.java:353-408 | an unknown server gives false; otherwise the count drops by one, and at zero the connection leaves the pool, its dispatcher is shut down and marked released, its session closed on flush, and the result is true |
| ConnectionPool.CloseCompleted | src/main/java/host/anzo/simon/AbstractLookup.java:379-396 | once a close completes, complete shutdown is signalled iff the pool is empty |
| ConnectionPool.AcquireReleaseShared | src/main/java/host/anzo/simon/AbstractLookup.java:178-186 | acquiring a shared connection and releasing it restores the pool and tears nothing down |
| ConnectionPool.AcquireReleaseNew | src/main/java/host/anzo/simon/AbstractLookup.java:305-326 | releasing a freshly opened connection removes it and tears it down |
| ConnectionPool.TeardownExactlyAtZero | src/main/java/host/anzo/simon/AbstractLookup.java:367-401 | of n releases of a connection held n times only the last reports true, and the connection is then gone |
| ConnectionPool.ReleaseAfterTeardown | src/main/java/host/anzo/simon/AbstractLookup.java:362-404 | a release after the teardown finds nothing and reports false |
| Lookups.CheckArgument | src/main/java/host/anzo/simon/NameLookup.java:44-50 | the argument passes iff it is neither null nor empty; otherwise IllegalArgumentException |
| Lookups.UnreleasedFailure | src/main/java/host/anzo/simon/NameLookup.java:62-76 | a failure after the acquire that the source does not release (the blocking request throws, the interfaces do not load) either keeps the connection reference (as written) or releases it |
| Lookups.LookupAsWritten | src/main/java/host/anzo/simon/NameLookup.java:40-95 | as written: a null or empty argument fails before any connection is taken; a successful lookup returns a regular-lookup proxy on the acquired connection |
| Lookups.ClassLoadFailureLeaks | src/main/java/host/anzo/simon/NameLookup.java:72-76 | as written: when the interfaces do not load, the lookup fails but the connection keeps the extra reference it took |
| Lookups.RequestFailureLeaks | src/main/java/host/anzo/simon/NameLookup.java:62 | as written: when the blocking lookup request throws, the lookup passes that exception on but the connection keeps the extra reference it took |
| Lookups.Lookup | src/main/java/host/anzo/simon/InterfaceLookup.java:96-150 | with every failure after the acquire releasing the connection: same results as written, and the same state on success |
| Lookups.FailedLookupLeavesPool | src/main/java/host/anzo/simon/NameLookup.java:62-76 | every failed lookup, including one whose blocking request threw, leaves the pool's connections as they were |
| Lookups.ReleaseUndoesAcquire | src/main/java/host/anzo/simon/AbstractLookup.java:167-408 | a release right after a successful acquire gives back the pool's connections |
| Lookups.Release | src/main/java/host/anzo/simon/AbstractLookup.java:81-121 | null, a non-proxy or a callback proxy throws IllegalArgumentException; a proxy without dispatcher gives false; otherwise the name's closed listeners are removed and notified, the proxy forgets its name, and the result is whether the connection was torn down |
| Lookups.LookupReleaseRoundTrip | src/main/java/host/anzo/simon/AbstractLookup.java:81-121 | a lookup followed by the release of its proxy leaves the pool's connections as they were |
| Lookups.SecondReleaseDecrementsAgain | src/main/java/host/anzo/simon/AbstractLookup.java:98-121 | the released proxy keeps its dispatcher, so releasing it again lowers the count a second time and notifies nobody |
| LookupTable.AddCallbackRef | src/main/java/host/anzo/simon/LookupTable.java:147-176 | the (session, refId) count goes up by one, creating the session's map on first use; every other count is untouched |
| LookupTable.RemoveCount | src/main/java/host/anzo/simon/LookupTable.java:180-210 | the (session, refId) count goes down by one, an entry reaching zero is dropped and so is an emptied session map; an unknown pair changes nothing |
| LookupTable.AddRemoveCount | src/main/java/host/anzo/simon/LookupTable.java:147-210 | adding a callback reference and removing it restores the counts |
| LookupTable.PutRemoteBinding | src/main/java/host/anzo/simon/LookupTable.java:107-123 | the name is bound to a container of the object and its interfaces, replacing an older binding; the object joins the object set and the method maps |
| LookupTable.GetRemoteObjectContainer | src/main/java/host/anzo/simon/LookupTable.java:285-299 | the bound container, or LookupFailedException iff the name is not bound |
| LookupTable.ReleaseRemoteBinding | src/main/java/host/anzo/simon/LookupTable.java:307-337 | the binding, its object and the object's method map are removed; an unbound name changes nothing |
| LookupTable.BindReleaseRoundTrip | src/main/java/host/anzo/simon/LookupTable.java:107-337 | binding a new name and releasing it restores the table |
| LookupTable.PutRemoteInstance | src/main/java/host/anzo/simon/LookupTable.java:239-274 | the reference is counted; the name is listed for the session and bound only the first time, a repeat just counts again |
| LookupTable.BoundOncePerSession | src/main/java/host/anzo/simon/LookupTable.java:259-272 | sending the same callback twice binds it once and counts it twice |
| LookupTable.RemoveCallbackRef | src/main/java/host/anzo/simon/LookupTable.java:180-221 | the count goes down by one, and the binding and one listing of the name are removed whatever the count |
| LookupTable.RemoveUnbindsWhileReferenced | src/main/java/host/anzo/simon/LookupTable.java:180-221 | after two sends and one release the reference is still counted but the name no longer resolves |
| LookupTable.UnbindAll | src/main/java/host/anzo/simon/LookupTable.java:465-490 | every listed name is unbound and every other binding stays as it was; the session lists and counts are not touched |
| LookupTable.UnbindAllTells | src/main/java/host/anzo/simon/LookupTable.java:465-490 | exactly the unreferenced-aware objects bound under a listed name are told |
| LookupTable.Unreference | src/main/java/host/anzo/simon/LookupTable.java:447-494 | the session's list and counts are dropped, its listed names are unbound, and their unreferenced-aware objects are told |
| LookupTable.Cleared | src/main/java/host/anzo/simon/LookupTable.java:429-435 | bindings, counts and method maps are emptied and the table is marked cleaned up |
| LookupTable.CleanupAsWritten | src/main/java/host/anzo/simon/LookupTable.java:422-437 | as written: with two or more sessions, unreferencing the first one removes from the key set being iterated, so the loop fails with ConcurrentModificationException and the second session stays |
| LookupTable.CleanupAsWrittenLeavesBinding | src/main/java/host/anzo/simon/LookupTable.java:426-428 | with sessions 1 and 2, session 2's binding survives and its object is never told, while the corrected cleanup tells it |
| LookupTable.CleanupAsWrittenAgreesOnOneSession | src/main/java/host/anzo/simon/LookupTable.java:422-437 | with at most one session the cleanup as written succeeds and does exactly what the corrected one does |
| LookupTable.UnreferenceAllDropsSessions | src/main/java/host/anzo/simon/LookupTable.java:426-428 | unreferencing every session in turn drops exactly those sessions' lists |
| LookupTable.Cleanup | src/main/java/host/anzo/simon/LookupTable.java:422-437 | corrected: the table ends empty and marked cleaned up, and exactly the aware objects bound under some session's listed name are told |
| LookupTable.CleanupTellsListed | src/main/java/host/anzo/simon/LookupTable.java:426-428 | the objects told are exactly the aware ones bound under a listed name of some session |
| LookupTable.GetRemoteObjectContainerByInterface | src/main/java/host/anzo/simon/LookupTable.java:532-562 | failure is always a LookupFailedException and happens whenever no binding implements the interface; a found container is a bound one that implements it |
| LookupTable.ByInterfaceUnique | src/main/java/host/anzo/simon/LookupTable.java:532-562 | the lookup succeeds iff some binding implements the interface and all that do hold the same object, whose container is returned |
| RefQueue.NewQueue | src/main/java/host/anzo/simon/SimonRefQueue.java:47-52 | a new queue's cleaner runs and it holds no references |
| RefQueue.AddRef | src/main/java/host/anzo/simon/SimonRefQueue.java:54-62 | a reference is appended iff the cleaner is still active; otherwise IllegalStateException |
| RefQueue.AddRefValid | src/main/java/host/anzo/simon/SimonRefQueue.java:54-62 | every reference added is a new one |
| RefQueue.SendRelease | src/main/java/host/anzo/simon/SimonRefQueue.java:104-116 | a release message goes out iff the reference's session is connected; a failed send is swallowed |
| RefQueue.Collected | src/main/java/host/anzo/simon/SimonRefQueue.java:68-74 | a collected reference leaves the list and its release is sent |
| RefQueue.CollectedForgets | src/main/java/host/anzo/simon/SimonRefQueue.java:68-74 | the collected reference is gone and every other reference stays |
| RefQueue.ReleasesExact | src/main/java/host/anzo/simon/SimonRefQueue.java:95-99 | the releases sent for a list are exactly one per reference whose session is connected |
| RefQueue.Cleanup | src/main/java/host/anzo/simon/SimonRefQueue.java:90-102 | the cleaner is stopped, the list ends empty, and one release per connected reference is sent, in list order |
| RefQueue.AddAfterCleanupRefused | src/main/java/host/anzo/simon/SimonRefQueue.java:54-57 | after cleanup every addRef throws IllegalStateException |
| LookupTable.ScanOutcome | src/main/java/host/anzo/simon/LookupTable.java:532-562 | the scan over the bound names succeeds iff every implementing name holds the same object as the others and as the one already found; starting from none, it finds a container iff some name implements the interface, and the container is one of theirs |
| Proxies.NewProxy | src/main/java/host/anzo/simon/SimonProxy.java:90-103 | a proxy holds its name, connection and interfaces; only a name with the callback prefix registers a phantom reference, which fails with IllegalStateException once the queue's cleaner stopped |
| Proxies.ShutdownServerConnection | src/main/java/host/anzo/simon/SimonProxy.java:234-238 | the proxy's connection is released once and the proxy forgets its dispatcher |
| Proxies.Invoke | src/main/java/host/anzo/simon/SimonProxy.java:110-232 | a proxy without dispatcher throws SimonRemoteException; equals with a non-serializable argument throws IllegalArgumentException; a void call returns null unless a SimonRemoteException escapes; a remote failure of hashCode or a returned SimonRemoteException releases the connection, and nothing else does; a toString call returns the remote text inside the proxy's description and a non-text answer is a ClassCastException; any other value a call returns is handed over by Reimplant, and only a returned callback touches the reference queue |
| Proxies.RemoteToString | src/main/java/host/anzo/simon/SimonProxy.java:271-275 | the proxy's description holds the remote text exactly once, between the part naming the object and its handler and the part listing the interfaces and the session id; it opens with `[Proxy=` and closes with `]` |
| Proxies.RemoteToStringInjective | src/main/java/host/anzo/simon/SimonProxy.java:271-275 | two remote texts give the same description only if they are equal, so the remote answer can be read back |
| Proxies.ToStringWrapsAnswer | src/main/java/host/anzo/simon/SimonProxy.java:271-275 | for a proxy named `c` on session 1 exporting `I`, remote text `x` is returned as `[Proxy=c\|invocationHandler=h\|remote=x\|interfaces=[interface I]\|sessionId=0x00000001]` |
| Proxies.Reimplant | src/main/java/host/anzo/simon/SimonProxy.java:202-226 | an endpoint reference comes back as the local object bound under its name (LookupFailedException if none is); a remote instance becomes a callback proxy on the same connection named by its id, ClassNotFoundException when its interfaces do not load and IllegalStateException when the reference queue refuses it; any other value is returned as it came |
| Proxies.EndpointComesBackAsObject | src/main/java/host/anzo/simon/SimonProxy.java:202-210 | an object bound here and returned by the remote side as an endpoint reference reaches the caller as the object itself |
| Proxies.ReturnedCallbackTracked | src/main/java/host/anzo/simon/SimonProxy.java:211-226 | a returned callback is tracked by the running reference queue, and refused with IllegalStateException once the queue was cleaned up |
| Proxies.ReleasedProxyRefuses | src/main/java/host/anzo/simon/SimonProxy.java:113-117 | after a returned SimonRemoteException released the connection, every later call on the proxy throws SimonRemoteException |
| Proxies.ApplicationExceptionKeepsConnection | src/main/java/host/anzo/simon/SimonProxy.java:192-199 | an application exception returned by the remote method is thrown to the caller and the connection stays |
| Proxies.Release | src/main/java/host/anzo/simon/SimonProxy.java:306-310 | the proxy forgets its remote object name and hands back its dispatcher, which it keeps |
| Routing.AnswerNameLookup | src/main/java/host/anzo/simon/ProcessMessageRunnable.java:287-331 | the reply carries the request's sequence; it fails iff the name is unbound; otherwise it lists the container's interfaces for a marked object and the object's remote interfaces otherwise |
| Routing.AnswerInterfaceLookup | src/main/java/host/anzo/simon/ProcessMessageRunnable.java:336-366 | the reply fails iff the lookup by interface fails; otherwise it names a binding that implements the interface and lists that binding's interfaces |
| Routing.InvokeResultOf | src/main/java/host/anzo/simon/ProcessMessageRunnable.java:397-472 | no reply iff the request decoded, the method resolved, arguments and target resolve and a void method returned; a decode error, unresolved method, argument or target gives a SimonRemoteException; only a returned remote object changes the table, and the reference queue is what rebuilding the arguments left |
| Routing.RebuildArguments | src/main/java/host/anzo/simon/ProcessMessageRunnable.java:418-438 | rebuilding succeeds iff every endpoint argument is bound and every callback argument's interfaces load and the queue accepts it; the queue only grows, by one reference per tracked callback on success |
| Routing.CallbackArgumentTracked | src/main/java/host/anzo/simon/ProcessMessageRunnable.java:420-428 | a callback passed as an argument is tracked by the running reference queue; once the queue was cleaned up the invocation fails with SimonRemoteException |
| Routing.EqualsResult | src/main/java/host/anzo/simon/ProcessMessageRunnable.java:535-562 | an unbound target or an unbound instance comparand answers false, and a null comparand answers false; otherwise the target's own equals decides, applied to the value or to the object bound under the comparand's name; an exception from that equals, or from the toString of the target or of a non-null comparand, escapes (with the equals exception first), exactly when EqualsThrows holds |
| Routing.AnswerEquals | src/main/java/host/anzo/simon/ProcessMessageRunnable.java:535-570 | the equals reply carries the request's sequence and EqualsResult's answer; no reply iff EqualsThrows holds for the bound target |
| Routing.EqualsSeesBoundObject | src/main/java/host/anzo/simon/ProcessMessageRunnable.java:535-562 | a comparand naming an object bound on this side is compared as that object: when the target's equals accepts it and neither toString throws, the answer is true |
| Routing.CloseRawChannel | src/main/java/host/anzo/simon/ProcessMessageRunnable.java:226-245 | the listener is unprepared and one reply always goes out; it carries the sequence and true only if the listener existed and closed cleanly, an error message iff its close threw RawChannelException, and anything else escapes |
| Routing.RawChannelData | src/main/java/host/anzo/simon/ProcessMessageRunnable.java:256-282 | one reply always goes out; it carries the sequence only if a listener took the data, an error message iff the listener threw RawChannelException, and any other exception escapes |
| Routing.Report | src/main/java/host/anzo/simon/ProcessMessageRunnable.java:629-648 | the exception text starts with the reading or writing opening, names the remote object right after it when the name is non-empty, is opening, separator and message alone otherwise, and always ends with the error message |
| Routing.AnswerToString | src/main/java/host/anzo/simon/ProcessMessageRunnable.java:502-523 | the reply carries the bound object's text, or null iff the name is unbound; an exception from the object's toString escapes with no reply |
| Routing.AnswerHashCode | src/main/java/host/anzo/simon/ProcessMessageRunnable.java:582-605 | the reply carries the bound object's hash, or -1 with an error message iff the name is unbound; an exception from the object's hashCode escapes with no reply |
| Routing.AnswerObjectMethod | src/main/java/host/anzo/simon/ProcessMessageRunnable.java:502-605 | a toString, equals or hashCode request writes one reply with its sequence, unless the application's method throws, which escapes exactly then with nothing written |
| Routing.AnswerInvoke | src/main/java/host/anzo/simon/ProcessMessageRunnable.java:474-482 | one invoke reply with the request's sequence, unless the invocation produced none |
| Routing.Process | src/main/java/host/anzo/simon/ProcessMessageRunnable.java:62-167 | a return message is forwarded to the waiting caller and nothing else is; only error, close and data messages, and an exception from the application's toString, hashCode or equals, let an exception escape, and such an exception leaves nothing written; only a close changes the raw channels; only invoke and release-ref change the table; at most one reply |
| Routing.ControlMessages | src/main/java/host/anzo/simon/ProcessMessageRunnable.java:145-164 | a ping is answered with a pong, a pong notifies the watchdog, a release-ref removes the callback reference, an unknown type exits the VM with status 1 |
| Routing.ErrorClosesSession | src/main/java/host/anzo/simon/ProcessMessageRunnable.java:618-656 | an error message closes the session and throws a SimonException carrying the report text |
| Routing.OneReplyPerRequest | src/main/java/host/anzo/simon/ProcessMessageRunnable.java:62-167 | every request is answered exactly once, except an invocation that sends no reply and a request whose handler meets an exception from the application's toString, hashCode or equals; nothing else writes a reply |
| Routing.ReplyCarriesSequence | src/main/java/host/anzo/simon/ProcessMessageRunnable.java:287-605 | the reply to a lookup, invoke, toString, equals, hashCode or open request carries the request's sequence |
| Routing.UnsequencedRawReplies | src/main/java/host/anzo/simon/ProcessMessageRunnable.java:226-282 | a close that fails and data for a token without a listener are answered without a sequence |
| Routing.OpenAnswersRegistered | src/main/java/host/anzo/simon/ProcessMessageRunnable.java:203-215 | an open request is answered true exactly when a listener waits on the token |
| Routing.UnboundAndNullAnswers | src/main/java/host/anzo/simon/ProcessMessageRunnable.java:544-602 | hashCode on an unbound name answers -1 with an error; equals against null answers false, unless the target is bound and its toString throws, which escapes with nothing written |
| Routing.ReleasedCallbackGone | src/main/java/host/anzo/simon/ProcessMessageRunnable.java:658-668 | after a release-ref the name no longer resolves: the toString reply has a null text and an invoke answers with a SimonRemoteException; the null text becomes an error report on the wire (Framing.NullToStringClosesSession) |
| Registry.NewRegistry | src/main/java/host/anzo/simon/Registry.java:112-140 | a new registry is neither started nor stopped and has no acceptor yet |
| Registry.SetKeepAliveTimeout | src/main/java/host/anzo/simon/Registry.java:260-264 | the acceptor's write timeout and the dispatcher's ping timeout both become the given seconds; without an acceptor it throws NullPointerException |
| Registry.SetKeepAliveInterval | src/main/java/host/anzo/simon/Registry.java:271-274 | the acceptor's idle time becomes the given seconds; without an acceptor it throws NullPointerException |
| Registry.GetKeepAliveTimeout | src/main/java/host/anzo/simon/Registry.java:281-283 | the acceptor's write timeout |
| Registry.KeepAliveTimeoutRoundTrip | src/main/java/host/anzo/simon/Registry.java:260-283 | the keep-alive timeout read back is the one set, and the ping timeout follows it |
| Registry.Start | src/main/java/host/anzo/simon/Registry.java:145-253 | a stopped or started registry throws IllegalStateException; otherwise the acceptor and an empty lookup table are built, the default keep-alive settings applied, and the registry counts as started iff the codec factory loads and the bind succeeds |
| Registry.Stop | src/main/java/host/anzo/simon/Registry.java:299-318 | corrected: the registry is marked stopped first; with an acceptor it is unbound, the dispatcher shut down (clearing the table with the corrected cleanup), and the acceptor disposed, in that order; without one it throws NullPointerException |
| Registry.StopAsWritten | src/main/java/host/anzo/simon/Registry.java:299-318 | as written: with two or more sessions holding references the dispatcher's shutdown throws ConcurrentModificationException after the acceptor was unbound, so the acceptor is never disposed and the second session keeps its references; with fewer it is Registry.Stop; without an acceptor it throws NullPointerException |
| Registry.StopIsPermanent | src/main/java/host/anzo/simon/Registry.java:145-148 | a stopped registry cannot start again |
| Registry.FailedStartRetryable | src/main/java/host/anzo/simon/Registry.java:246-252 | a start that failed leaves the registry not started, so a later start can succeed |
| Registry.Bind | src/main/java/host/anzo/simon/Registry.java:329-351 | binding succeeds iff the registry runs, the object is a valid remote and the name is free; otherwise IllegalStateException, IllegalArgumentException or NameBindingException, in that order |
| Registry.Unbind | src/main/java/host/anzo/simon/Registry.java:391-395 | the binding is released and the publication withdrawn; the result says whether it was published |
| Registry.BindUnbindRoundTrip | src/main/java/host/anzo/simon/Registry.java:329-395 | binding a new name and unbinding it restores the registry |
| Registry.BindAndPublish | src/main/java/host/anzo/simon/Registry.java:362-370 | a failed bind is passed on; a failed publish unbinds the name again and throws NameBindingException |
| Registry.FailedPublishUnbinds | src/main/java/host/anzo/simon/Registry.java:364-369 | when the publish service cannot open, the registry ends as it began |
| Registry.Rebind | src/main/java/host/anzo/simon/Registry.java:420-428 | the old binding is dropped and the new object bound; NameBindingException cannot escape, but the state and argument checks of bind still can |
| SimonStatics.SetCustomInvokeTimeout | src/main/java/host/anzo/simon/Simon.java:911-917 | a positive timeout is stored for the method, anything else removes its entry; other methods keep theirs |
| SimonStatics.GetCustomInvokeTimeout | src/main/java/host/anzo/simon/Simon.java:925-931 | the stored timeout when it is positive, otherwise 0 |
| SimonStatics.CustomTimeoutRoundTrip | src/main/java/host/anzo/simon/Simon.java:911-931 | a timeout read back is the one set (or 0 when it was not positive), and other methods are unaffected |
| SimonStatics.GetThreadPool | src/main/java/host/anzo/simon/Simon.java:424-433 | -1 gives a cached pool, 1 a single thread, n >= 2 a fixed pool of n; any other size throws IllegalArgumentException |
| SimonStatics.SetDgcInterval | src/main/java/host/anzo/simon/Simon.java:458-461 | the idle time becomes the milliseconds divided by 1000, truncated toward zero |
| SimonStatics.GetDgcInterval | src/main/java/host/anzo/simon/Simon.java:469-472 | the idle time times 1000 in 32-bit int arithmetic |
| SimonStatics.DgcIntervalRoundTrip | src/main/java/host/anzo/simon/Simon.java:458-472 | the interval read back is the one set, rounded toward zero to whole seconds |
| SimonStatics.DgcIntervalWraps | src/main/java/host/anzo/simon/Simon.java:469-472 | an idle time of 3000000 s reads back as a negative interval |
| SimonStatics.MarkAsRemote | src/main/java/host/anzo/simon/Simon.java:843-851 | an object without interfaces throws IllegalRemoteObjectException; otherwise the marker keeps the object and its interfaces |
| SimonStatics.Publish | src/main/java/host/anzo/simon/Simon.java:596-602 | the first publication starts the publish service (an I/O failure adds nothing); every publication is appended |
| SimonStatics.Unpublish | src/main/java/host/anzo/simon/Simon.java:624-630 | one occurrence is removed, the result says whether it was there, and the service stops once the list is empty |
| SimonStatics.PublishUnpublishRoundTrip | src/main/java/host/anzo/simon/Simon.java:596-630 | publishing a new publication and unpublishing it restores the list, and the service runs again only if others remain |
| SimonStatics.SessionIdOf | src/main/java/host/anzo/simon/Simon.java:414-417 | the session of a proxy; anything else throws IllegalArgumentException |
| SimonStatics.CurrentSessionId | src/main/java/host/anzo/simon/Simon.java:896-903 | the session of the message thread running the call; any other thread throws IllegalStateException |
| SimonStatics.DenoteSameAsWritten | src/main/java/host/anzo/simon/Simon.java:865-890 | as written: when both are proxies and the first was released, the name comparison throws NullPointerException; otherwise the answer is the corrected one |
| SimonStatics.DenoteSameReleasedThrows | src/main/java/host/anzo/simon/Simon.java:874 | as written: comparing a released proxy with any proxy throws NullPointerException |
| SimonStatics.DenoteSame | src/main/java/host/anzo/simon/Simon.java:865-890 | true iff both are proxies with the same non-null remote object name on the same session |
| SimonStatics.DenoteSameSymmetric | src/main/java/host/anzo/simon/Simon.java:865-890 | the corrected comparison is symmetric, and a released proxy denotes nothing |
| RemoteRef.RemoteObjectName | src/main/java/host/anzo/simon/SimonRemoteRef.java:58-62 | the proxy's name, or the not-available marker when the object is no proxy |
| RemoteRef.IdDeterminesFields | src/main/java/host/anzo/simon/SimonRemoteRef.java:47-73 | the id determines the class name, address, session id and hash, given that class names hold no '\|' and addresses no ';' |
| RemoteRef.ToString | src/main/java/host/anzo/simon/SimonRemoteRef.java:85-88 | the text is `SimonRemoteRef{id=` followed by the id and `}` |
| RemoteRef.ToStringInjective | src/main/java/host/anzo/simon/SimonRemoteRef.java:85-88 | two references print the same iff they have the same id |
| RemoteRef.IdIgnoresRemoteName | src/main/java/host/anzo/simon/SimonRemoteRef.java:58-68 | the looked-up remote object name does not enter the id |
| RemoteRef.IdDistinguishesObjects | src/main/java/host/anzo/simon/SimonRemoteRef.java:64-68 | for the same class and address, a different session id or hash gives a different id |
| ClassLoaderHelper.OnChainIsAncestor | src/main/java/host/anzo/simon/utils/SimonClassLoaderHelper.java:93-97 | the parent walk finds a loader iff it is an ancestor of (or equal to) the start |
| ClassLoaderHelper.IsChild | src/main/java/host/anzo/simon/utils/SimonClassLoaderHelper.java:79-100 | a loader is its own child, the bootstrap (null) loader is everyone's ancestor, and nothing is a child of null except null |
| ClassLoaderHelper.IsChildTransitive | src/main/java/host/anzo/simon/utils/SimonClassLoaderHelper.java:79-100 | the child relation is transitive |
| ClassLoaderHelper.IsChildAntisymmetric | src/main/java/host/anzo/simon/utils/SimonClassLoaderHelper.java:79-100 | two loaders that are each other's child are the same loader |
| ClassLoaderHelper.GetClassLoader | src/main/java/host/anzo/simon/utils/SimonClassLoaderHelper.java:44-71 | the choice is the caller's (or special) loader, the context loader or the system loader; of two related loaders the child wins; with no relation the special or context loader is used; an ancestor of the system loader is replaced by it |
| ClassLoaderHelper.GetClassLoaderFor | src/main/java/host/anzo/simon/utils/SimonClassLoaderHelper.java:23-25 | without a special loader the choice is the caller's, the context or the system loader, never an ancestor of the system loader |
| ClassLoaderHelper.ChoiceIsDescendant | src/main/java/host/anzo/simon/utils/SimonClassLoaderHelper.java:51-68 | when the two loaders are related, the choice is the system loader or a descendant of both |
| JavaInt.Wrap32 | src/main/java/host/anzo/simon/PingWatchdog.java:52 | the 32-bit int that Java arithmetic leaves: congruent modulo 2^32, and the value itself when it fits |
| JavaInt.JavaDiv | src/main/java/host/anzo/simon/Simon.java:459-460 | int division truncating toward zero: the remainder has the sign of the dividend |
| JavaInt.IntBytes | src/main/java/host/anzo/simon/codec/base/AbstractMessageEncoder.java:112-113 | `putInt` writes four big-endian bytes that `getInt` reads back as the same int |
| JavaInt.IntBytesRead | src/main/java/host/anzo/simon/codec/base/AbstractMessageDecoder.java:77-78 | any four bytes are the encoding of the int `getInt` reads from them |
| JavaInt.IntBytesInjective | src/main/java/host/anzo/simon/codec/base/AbstractMessageEncoder.java:112-113 | different ints are written as different bytes |
| Numerals.Decimal | src/main/java/host/anzo/simon/SimonRemoteRef.java:67-68 | the decimal text of a number: digits only, with a leading '-' iff it is negative |
| Numerals.ParseDecimalOfDecimal | src/main/java/host/anzo/simon/SimonRemoteRef.java:67-68 | the decimal text reads back as the number, so different numbers print differently |
| Numerals.DecimalOfIntShort | src/main/java/host/anzo/simon/codec/base/AbstractMessageEncoder.java:57-61 | an int prints in at most eleven characters |
| Wire.Text | src/main/java/host/anzo/simon/codec/base/MsgErrorEncoder.java:45-49 | an ASCII literal is a Java string of the same length with no surrogates |
| Wire.PutPrefixed | src/main/java/host/anzo/simon/codec/base/MsgErrorEncoder.java:59-60 | a two-byte length, then the string's bytes; more than 65535 code units throw IllegalArgumentException before any encoding, whether or not the string is well formed; otherwise an unpaired surrogate throws CharacterCodingException, and an encoding too long for the prefix throws IllegalArgumentException |
| Wire.GetPrefixed | src/main/java/host/anzo/simon/codec/base/MsgErrorDecoder.java:57-58 | too few bytes throw BufferUnderflowException; bytes that are not a well-formed string throw CharacterCodingException (the model then resumes after the field); a string read is exactly what PutPrefixed writes for it |
| Wire.PrefixedRoundTrip | src/main/java/host/anzo/simon/codec/base/MsgErrorDecoder.java:57-58 | a prefixed string reads back as itself whatever follows it |
| Wire.PrefixedInjective | src/main/java/host/anzo/simon/codec/base/MsgErrorEncoder.java:59-60 | two strings written the same are the same string |
| Wire.PutObject | src/main/java/host/anzo/simon/codec/base/MsgErrorEncoder.java:64 | a four-byte length, then the serialized bytes |
| Wire.GetObject | src/main/java/host/anzo/simon/codec/base/MsgErrorDecoder.java:59 | the payload and the bytes after it, exactly as PutObject wrote them; too few bytes throw BufferUnderflowException |
| Wire.ObjectRoundTrip | src/main/java/host/anzo/simon/codec/base/MsgErrorDecoder.java:59 | a serialized object reads back as itself |
| Wire.GetInt | src/main/java/host/anzo/simon/codec/base/MsgErrorDecoder.java:60 | the int and the rest iff four bytes remain, otherwise BufferUnderflowException |
| Wire.IntRoundTrip | src/main/java/host/anzo/simon/codec/base/MsgErrorDecoder.java:60 | an int written with putInt reads back |
| Wire.GetByte | src/main/java/host/anzo/simon/codec/base/MsgErrorDecoder.java:61 | one byte and the rest, or BufferUnderflowException on an empty buffer |
| Bodies.Sent | src/main/java/host/anzo/simon/codec/base/MsgErrorEncoder.java:43-56 | a null name, message or throwable is replaced by its placeholder; set fields and the sequence and decode flag are kept |
| Bodies.ErrorStrings | src/main/java/host/anzo/simon/codec/base/MsgErrorEncoder.java:58-63 | both strings are written when both encode; a CharacterCodingException is swallowed, and the only exception passed on is IllegalArgumentException, which an oversized string raises even when ill-formed |
| Bodies.EncodeError | src/main/java/host/anzo/simon/codec/base/MsgErrorEncoder.java:39-69 | the body ends with the init sequence and the decode-error byte; only IllegalArgumentException can escape |
| Bodies.DecodeErrorBody | src/main/java/host/anzo/simon/codec/base/MsgErrorDecoder.java:46-79 | the fields are read in the encoder's order; a CharacterCodingException keeps the fields read so far and the defaults for the rest |
| Bodies.ErrorRoundTrip | src/main/java/host/anzo/simon/codec/base/MsgErrorDecoder.java:46-79 | an error body whose strings encode reads back as what was sent, placeholders included |
| Bodies.Replaced | src/main/java/host/anzo/simon/codec/base/AbstractMessageEncoder.java:144-149 | sendEncodingError clears the buffer, which then holds the error body alone |
| Bodies.EncodingError | src/main/java/host/anzo/simon/codec/base/MsgToStringReturnEncoder.java:38-55 | the error an encoder reports: no name, an encode error, the message's sequence and the cause |
| Bodies.StringRequestsRoundTrip | src/main/java/host/anzo/simon/codec/base/MsgInterfaceLookupDecoder.java:45-64 | name lookup, interface lookup and hashCode requests read back the name the peer wrote |
| Bodies.DecodeReleaseRef | src/main/java/host/anzo/simon/codec/base/MsgReleaseRefDecoder.java:45-59 | the reference id the peer wrote, or a null id when it cannot be decoded |
| Bodies.EncodeToStringReturn | src/main/java/host/anzo/simon/codec/base/MsgToStringReturnEncoder.java:38-55 | the text as a prefixed string; a text that cannot be written, including a null text (NullPointerException), becomes an encoding error carrying the message's sequence and the exception as its cause |
| Bodies.ToStringReturnRoundTrip | src/main/java/host/anzo/simon/codec/base/MsgToStringReturnDecoder.java:46-60 | a toString reply reads back as the text sent |
| Bodies.EncodeHashCodeReturn | src/main/java/host/anzo/simon/codec/base/MsgHashCodeReturnEncoder.java:39-57 | the hash, then the error text; an unencodable text becomes an encoding error; a text of more than 65535 code units throws IllegalArgumentException, even an ill-formed one |
| Bodies.DecodeHashCodeReturn | src/main/java/host/anzo/simon/codec/base/MsgHashCodeReturnDecoder.java:46-60 | the hash and then the error text, or a local error for an undecodable text |
| Bodies.HashCodeReturnRoundTrip | src/main/java/host/anzo/simon/codec/base/MsgHashCodeReturnDecoder.java:46-60 | a hashCode reply reads back as the hash and text sent |
| Bodies.StringsRoundTrip | src/main/java/host/anzo/simon/codec/base/MsgInterfaceLookupReturnDecoder.java:43-71 | n prefixed strings read back in order |
| Bodies.DecodeInterfaceLookupReturn | src/main/java/host/anzo/simon/codec/base/MsgInterfaceLookupReturnDecoder.java:43-71 | the looked-up name, the interface count and names, the error text; a negative count throws NegativeArraySizeException |
| Bodies.InterfaceLookupReturnRoundTrip | src/main/java/host/anzo/simon/codec/base/MsgInterfaceLookupReturnDecoder.java:43-71 | a reply laid out as name, count, names and text reads back whole |
| Bodies.ResendError | src/main/java/host/anzo/simon/codec/base/AbstractMessageEncoder.java:144-149 | the buffer restarts with the error body and remembers the error |
| Bodies.NameError | src/main/java/host/anzo/simon/codec/base/MsgNameLookupReturnEncoder.java:49-58 | an interface name that cannot be encoded gives an encode error with the message's sequence and no name |
| Bodies.PutNamesAppends | src/main/java/host/anzo/simon/codec/base/MsgNameLookupReturnEncoder.java:45-60 | names that all encode are appended in order and no error is recorded |
| Bodies.PutNamesOutcome | src/main/java/host/anzo/simon/codec/base/MsgNameLookupReturnEncoder.java:45-60 | only a name too long for its prefix, or an error body too long, throws (IllegalArgumentException); an error once handed to `sendEncodingError` stays reported; starting clean, the names leave no error iff every one encodes |
| Bodies.Finish | src/main/java/host/anzo/simon/codec/base/AbstractMessageEncoder.java:101-122 | what the encoder leaves: the body, the body replaced by an error, or an exception together with the error latched before it |
| Bodies.PutErrorText | src/main/java/host/anzo/simon/codec/base/MsgNameLookupReturnEncoder.java:61-74 | the error text is appended after the names; an undecodable text restarts the buffer with its error; a text too long throws IllegalArgumentException and keeps the error latched by an earlier name |
| Bodies.EncodeNameLookupReturn | src/main/java/host/anzo/simon/codec/base/MsgNameLookupReturnEncoder.java:39-77 | the reply is sent as written iff every name and the text encode; the only exception that escapes is IllegalArgumentException |
| Bodies.NameLatchedBeforeTextThrows | src/main/java/host/anzo/simon/codec/base/MsgNameLookupReturnEncoder.java:45-74 | an undecodable name followed by a text too long: the name's error is latched by `sendEncodingError`, then IllegalArgumentException escapes with that latch |
| Bodies.ReadNameLookupReturn | src/main/java/host/anzo/simon/codec/base/MsgNameLookupReturnEncoder.java:43-63 | the layout the peer reads: count, names, error text |
| Bodies.NameLookupReturnRoundTrip | src/main/java/host/anzo/simon/codec/base/MsgNameLookupReturnEncoder.java:39-77 | a reply whose strings all encode is written whole and reads back whole |
| Bodies.NameLookupReturnWhole | src/main/java/host/anzo/simon/codec/base/MsgNameLookupReturnEncoder.java:39-77 | names and text that all encode give exactly count, names, text |
| Bodies.LaterNamesStillAppended | src/main/java/host/anzo/simon/codec/base/MsgNameLookupReturnEncoder.java:45-74 | after a name fails to encode the error body replaces the buffer, but the loop goes on and the later names and the text are appended behind it |
| Bodies.NewNameLookupReturn | src/main/java/host/anzo/simon/codec/messages/MsgNameLookupReturn.java:35-40 | a fresh reply lists java.lang.Object and carries no error |
| Bodies.NewInterfaceLookupReturn | src/main/java/host/anzo/simon/codec/messages/MsgInterfaceLookupReturn.java:36-45 | a fresh reply lists java.lang.Object and has no looked-up name |
| Bodies.DescribeLookedUpName | src/main/java/host/anzo/simon/codec/messages/MsgInterfaceLookupReturn.java:77-81 | the name, `<NullLength>` for an empty one, and NullPointerException when it is null |
| Bodies.FreshReplyCannotBePrinted | src/main/java/host/anzo/simon/codec/messages/MsgInterfaceLookupReturn.java:77-81 | printing a reply before its name is set throws NullPointerException |
| Bodies.Sendable | src/main/java/host/anzo/simon/codec/base/MsgRawChannelDataEncoder.java:37-50 | the bytes sent: up to the position of a written-to buffer, else up to the limit |
| Bodies.EncodeRawChannelData | src/main/java/host/anzo/simon/codec/base/MsgRawChannelDataEncoder.java:37-50 | the token, then the sendable bytes; the buffer is left flipped with the same content |
| Bodies.RawChannelDataResendable | src/main/java/host/anzo/simon/codec/base/MsgRawChannelDataEncoder.java:37-50 | sending the same buffer again sends the same bytes |
| Bodies.DecodeRawChannelData | src/main/java/host/anzo/simon/codec/base/MsgRawChannelDataDecoder.java:44-62 | the token, then body size minus four bytes into a buffer whose position and limit are at its end |
| Bodies.RawChannelDataRoundTrip | src/main/java/host/anzo/simon/codec/base/MsgRawChannelDataDecoder.java:44-62 | with the header's body size the receiver gets the token and exactly the bytes sent |
| Bodies.EncodeCloseRawChannel | src/main/java/host/anzo/simon/codec/base/MsgCloseRawChannelEncoder.java:35-40 | the token alone, four bytes |
| Bodies.DecodeCloseRawChannel | src/main/java/host/anzo/simon/codec/base/MsgCloseRawChannelDecoder.java:43-51 | the token, failing iff fewer than four bytes remain |
| Bodies.CloseRawChannelRoundTrip | src/main/java/host/anzo/simon/codec/base/MsgCloseRawChannelDecoder.java:43-51 | a close request reads back its token |
| Bodies.DecodeRawChannelDataReturn | src/main/java/host/anzo/simon/codec/base/MsgRawChannelDataReturnDecoder.java:48-58 | one byte, whatever it is, is consumed |
| Bodies.BooleanBody | src/main/java/host/anzo/simon/codec/base/MsgEqualsReturnDecoder.java:43-50 | one boolean byte; any byte other than 0x00 and 0xFF throws IllegalArgumentException |
| Bodies.BooleanRepliesRoundTrip | src/main/java/host/anzo/simon/codec/base/MsgCloseRawChannelReturnDecoder.java:43-51 | the equals and close replies read back the boolean the peer wrote |
| Bodies.DecodeBody | src/main/java/host/anzo/simon/codec/base/AbstractMessageDecoder.java:102 | the decoder bound to a message type produces only messages of that type |
| Bodies.DecodeNameLookup | src/main/java/host/anzo/simon/codec/base/MsgNameLookupDecoder.java:48-66 | the body becomes a name lookup or, when the name cannot be decoded, a locally built error message; it never yields a partly read message |
| Bodies.DecodeInterfaceLookup | src/main/java/host/anzo/simon/codec/base/MsgInterfaceLookupDecoder.java:45-64 | the body becomes an interface lookup or, when the name cannot be decoded, a locally built error message |
| Bodies.DecodeHashCode | src/main/java/host/anzo/simon/codec/base/MsgHashCodeDecoder.java:46-62 | the body becomes a hashCode request or, when the name cannot be decoded, a locally built error message |
| Bodies.DecodeToStringReturn | src/main/java/host/anzo/simon/codec/base/MsgToStringReturnDecoder.java:46-60 | the body becomes a toString reply or, when the text cannot be decoded, a locally built error message |
| Bodies.StringBody | src/main/java/host/anzo/simon/codec/base/MsgNameLookupDecoder.java:48-66 | a short buffer throws BufferUnderflowException; a decodable string becomes the message with the reader past it; an undecodable one becomes a local error about CharacterCodingException |
| Bodies.DecodeCloseRawChannelReturn | src/main/java/host/anzo/simon/codec/base/MsgCloseRawChannelReturnDecoder.java:43-51 | the body always decodes to a close-raw-channel reply or fails on the buffer, never as a coding error |
| Bodies.DecodeEqualsReturn | src/main/java/host/anzo/simon/codec/base/MsgEqualsReturnDecoder.java:43-50 | the body always decodes to an equals reply or fails on the buffer, never as a coding error |
| Numerals.DecimalInjective | src/main/java/host/anzo/simon/SimonRemoteRef.java:67-68 | distinct numbers have distinct decimal renderings, which is what makes the id of a reference identify it |
| Framing.Frame | src/main/java/host/anzo/simon/codec/base/AbstractMessageEncoder.java:101-122 | a frame is the type byte, the sequence, the body length and the body, in that order |
| Framing.FrameHeader | src/main/java/host/anzo/simon/codec/base/AbstractMessageDecoder.java:75-80 | the decoder reads back the sequence and the body size the encoder wrote |
| Framing.Deliver | src/main/java/host/anzo/simon/codec/base/AbstractMessageEncoder.java:68-75 | a body replaced by an error latches that error; the frame is written, with close-on-flush iff an error is latched |
| Framing.EncodeAsWritten | src/main/java/host/anzo/simon/codec/base/AbstractMessageEncoder.java:44-92 | as written: an exception from the body encoder escapes and nothing is written (the re-encode of the same message fails again), and an error the body encoder latched through `sendEncodingError` before it threw stays latched; otherwise the frame is written and the session closes on flush iff an error was ever latched, so a latch is never undone |
| Framing.LatchOutlivesEscape | src/main/java/host/anzo/simon/codec/base/AbstractMessageEncoder.java:44-75 | a name-lookup reply with an undecodable name and a text too long: the exception escapes, the name's error stays latched, and every later frame of the encoder closes the session on flush |
| Framing.EncodingFailure | src/main/java/host/anzo/simon/codec/base/AbstractMessageEncoder.java:54-63 | the error reported for a message that cannot be encoded: its sequence, an encode error, the text naming sequence and type |
| Framing.FailureBodyEncodes | src/main/java/host/anzo/simon/codec/base/AbstractMessageEncoder.java:54-63 | that error body always encodes and fits a frame |
| Framing.EncodeCorrected | src/main/java/host/anzo/simon/codec/base/AbstractMessageEncoder.java:44-92 | corrected: an exception from the body encoder writes the error body in its place, latches the error and closes the session on flush; everything else is as written |
| Framing.LatchedEncoderAlwaysCloses | src/main/java/host/anzo/simon/codec/base/AbstractMessageEncoder.java:41 | once an error is latched, every later frame closes the session on flush |
| Framing.IllFormedLongTextEscapes | src/main/java/host/anzo/simon/codec/base/AbstractMessageEncoder.java:50-69 | a hashCode reply whose error text has 65536 code units and starts with an unpaired surrogate is not caught as a CharacterCodingException: the IllegalArgumentException escapes encode and nothing is latched |
| Framing.NullToStringClosesSession | src/main/java/host/anzo/simon/codec/base/MsgToStringReturnEncoder.java:41-53 | a toString reply with a null text (an unbound name) is replaced by an error report whose cause is the NullPointerException; the encoder latches it, so the session closes after this frame and after every later one, and the peer reads the report back |
| Framing.EncodeFailureEscapes | src/main/java/host/anzo/simon/codec/base/AbstractMessageEncoder.java:50-69 | a hashCode reply whose error text has 65536 code units, more than a two-byte prefix counts: as written the exception escapes and nothing is sent; corrected, the peer reads the encoding-failure error |
| Framing.Decodable | src/main/java/host/anzo/simon/codec/base/AbstractMessageDecoder.java:55-70 | fewer than nine bytes need more data; otherwise a decoder claims the frame iff its type byte matches |
| Framing.FrameClaimedByItsType | src/main/java/host/anzo/simon/codec/base/AbstractMessageDecoder.java:55-70 | a frame is claimed by the decoder of its own type and refused by every other |
| Framing.Fresh | src/main/java/host/anzo/simon/codec/base/AbstractMessageDecoder.java:43-53 | a new decoder has no header read |
| Framing.ReadHeader | src/main/java/host/anzo/simon/codec/base/AbstractMessageDecoder.java:75-80 | the header is read once: sequence and body size from the first nine bytes |
| Framing.Decode | src/main/java/host/anzo/simon/codec/base/AbstractMessageDecoder.java:73-131 | without a header and with fewer than nine bytes it throws BufferUnderflowException; OK iff the header is reset and exactly one message with the header's sequence is delivered; NEED_DATA iff nothing is output; NOT_OK reports the failure and keeps the header |
| Framing.BodyDecoderOf | src/main/java/host/anzo/simon/codec/base/AbstractMessageDecoder.java:102-105 | the modelled body decoders never ask for more data |
| Framing.FrameRoundTrip | src/main/java/host/anzo/simon/codec/base/AbstractMessageDecoder.java:73-131 | a whole frame decodes to its message with its sequence, and the bytes after it are left |
| Framing.SplitFrameDelivered | src/main/java/host/anzo/simon/codec/base/AbstractMessageDecoder.java:83-90 | a frame split anywhere inside its body first gives NEED_DATA, then the message once the rest arrives |
| Framing.CloseRawChannelFrameRoundTrip | src/main/java/host/anzo/simon/codec/base/MsgCloseRawChannelDecoder.java:43-51 | a close-raw-channel frame decodes to its token with its sequence |
| Framing.FailureKeepsHeader | src/main/java/host/anzo/simon/codec/base/AbstractMessageDecoder.java:113-130 | when the body decoder throws, the failure is reported with the header's sequence and body size, and the header stays marked read |
| ProxyFilter.NewFilter | src/main/java/host/anzo/simon/codec/SimonProxyFilter.java:94-102 | a new filter has no answer, no OK yet, and keeps the chain to restore |
| ProxyFilter.Concat | src/main/java/host/anzo/simon/codec/SimonProxyFilter.java:136 | a string concatenated as itself, and null as "null" |
| ProxyFilter.Authority | src/main/java/host/anzo/simon/codec/SimonProxyFilter.java:121 | `host:port` with the port in decimal |
| ProxyFilter.Credentials | src/main/java/host/anzo/simon/codec/SimonProxyFilter.java:136 | `username:password` |
| ProxyFilter.SessionCreated | src/main/java/host/anzo/simon/codec/SimonProxyFilter.java:105-140 | the chain is (logging when tracing,) text-line codec, this filter; the writes are CONNECT, Host and with authentication the Basic credentials line, the last write carrying the extra newline |
| ProxyFilter.LinesTransmitted | src/main/java/host/anzo/simon/codec/SimonProxyFilter.java:121-139 | lines without newlines, each sent with its line ending, split back into the same lines |
| ProxyFilter.RequestLines | src/main/java/host/anzo/simon/codec/SimonProxyFilter.java:121-139 | the proxy receives the CONNECT line, the Host line, the credentials line when required, then an empty line |
| ProxyFilter.CredentialsRecoverable | src/main/java/host/anzo/simon/codec/SimonProxyFilter.java:135-136 | the credentials line starts with the Basic prefix and its token decodes back to the credential bytes |
| ProxyFilter.MessageReceived | src/main/java/host/anzo/simon/codec/SimonProxyFilter.java:143-174 | every line is added to the answer; a line containing `HTTP/1.1 200` sets the OK flag; an empty line restores the saved chain if OK was seen and otherwise fails with the whole answer |
| ProxyFilter.HandshakeOutcome | src/main/java/host/anzo/simon/codec/SimonProxyFilter.java:143-174 | the first empty line decides: the tunnel is up iff some line up to it contained the OK marker, and a failure reports every line received |
| ProxyFilter.OkNeverReset | src/main/java/host/anzo/simon/codec/SimonProxyFilter.java:150-153 | once OK was seen, no later line makes the handshake fail |
| Base64.Encode | src/main/java/host/anzo/simon/codec/SimonProxyFilter.java:135-136 | four characters for every three bytes, the last group padded |
| Base64.DecodeEncode | src/main/java/host/anzo/simon/codec/SimonProxyFilter.java:135-136 | decoding an encoding gives back the bytes |
| Base64.EncodeDecode | src/main/java/host/anzo/simon/codec/SimonProxyFilter.java:135-136 | whatever decodes is exactly the encoding of what it decodes to |
| Base64.EncodeInjective | src/main/java/host/anzo/simon/codec/SimonProxyFilter.java:135-136 | different credentials give different tokens |

## Left out

- Threads, monitor waits and sleeps are left out. Elapsed time and poll counts are inputs, and each `synchronized` section is one atomic step.
- MINA's session, connector and filter-chain plumbing is left out. `write`, `closeNow`, `closeOnFlush` and listener calls are effects in a returned trace, and `ConnectFuture` outcomes are inputs.
- Reflection and dynamic proxies (`Proxy.newProxyInstance`, `Method.invoke`, `Class.forName`, annotation scanning) are left out. Their outcomes are opaque inputs or predicates.
- Java serialization is left out. Serialized objects and throwables are opaque payloads. `MsgInvokeEncoder`, `MsgInvokeDecoder`, `MsgInvokeReturnDecoder` and `MsgEqualsEncoder` consist of that and reflective method resolution, so they are not modelled.
- `MsgNameLookupReturnDecoder` is not part of this model. The name-lookup reply is read back by `Bodies.ReadNameLookupReturn`, which follows the layout its encoder writes.
- The charset inside `putPrefixedString` is abstract. Each code unit takes two bytes, and an unpaired surrogate cannot be encoded. Only injectivity, self-delimitation and the failure cases matter to the contracts.
- Wire.PutPrefixed: the length limit is on the encoded bytes (at most 65535, so at most 32767 code units at two bytes each). MINA checks the string's length in characters against 65535 before encoding, so with UTF-8 a text of 32768 to 65535 ASCII characters passes that check in the source but is refused in the model. Strings of 65536 or more code units fail the first check and throw IllegalArgumentException in both, whether or not they are well formed.
- The position of an `IoBuffer` after a read that throws BufferUnderflowException is not modelled. Such a read yields only the exception.
- Wire.GetPrefixed, Bodies.StringBody, Bodies.DecodeNameLookup: after an undecodable string the model resumes after the field. MINA leaves the position at the offending byte, with the limit at the end of the field. Nothing in the core reads on from that position: the decoders turn the failure into a local error message.
- Bodies.ErrorStrings: a string that fails with CharacterCodingException leaves no bytes in the model. MINA's `putPrefixedString` has already skipped the two prefix bytes and written the part it encoded. `sendEncodingError` clears the buffer before writing the report, so only the bytes of an error body that swallowed the failure are affected.
- Proxies.RemoteToString: the text of the inherited `Object.toString` (class name and identity hash) is an input, and the session id is printed modulo 2^64; MINA's ids stay far below that.
- Routing.AnswerToString: an application `toString` that returns null is not modelled. The source sends that null as it sends the one for an unbound name.
- The SHA digest in `Utils.computeMethodHash` is foreign crypto and is an input. Only the packing of its first eight bytes is modelled.
- Canonical and binary class names are not distinguished. An interface is identified by one name.
- `PublishService` and the multicast I/O behind `Simon.publish`/`unpublish` are left out. Publishing is a change to the set of published services.
- `Registry.unpublish` only forwards to `Simon.unpublish`, so it has no member of its own.
- A failed `sendPong` in `processPing` is swallowed in the source. The model leaves out the exception and keeps the write effect.
- The platform charset the proxy filter uses for the credentials is a parameter, a function from string to bytes.
- `System.exit` in the default branch of `ProcessMessageRunnable.run` is an effect, `Exit`.
- Logging, JMX statistics, SSL setup, the write timeout and idle-time configuration are left out. They are I/O or pass-through settings with nothing to state.
- `SimonException` is built at `AbstractMessageEncoder.java:76-91` and never thrown, so it is not modelled.
- Garbage collection of proxies is a "collected" event chosen by the caller. Phantom references are not modelled.
- `Framing.EncodeCorrected` requires the serialized placeholder throwable to be at most 1 MiB, so that the error report it sends is known to fit its frame. The source makes no such assumption.
- `SequenceIds.IdsDistinct` states distinctness only within `Integer.MAX_VALUE` consecutive ids. Beyond that the ids repeat by design.
- Dispatcher.BlockingCall, Dispatcher.Request, Dispatcher.InvokeMethod: these require that the next sequence id is not awaited by any session. The source does not check this. Ids wrap after `Integer.MAX_VALUE`, and `PendingRequests.ReusedIdStrandsEarlierWaiter` shows what happens when an id is reused while it is still awaited.
- Dispatcher.InvokeMethod prepares the arguments before it takes the sequence id and registers the monitor, whereas the source prepares them after. The two steps touch disjoint state, the lookup table and the pending-request table, so the order does not change any result.
- Failure to load the interfaces of a returned or passed callback (`Class.forName`) is an input. It surfaces as `ClassNotFoundException` in `Proxies.Reimplant`, and inside a `SimonRemoteException` in `Routing.RebuildArguments`.
- RemoteRef.IdDeterminesFields assumes that the class name holds no '|' and the socket address text no ';'. The source does not check either. Java class names cannot contain '|', and the address texts MINA produces contain no ';'.

## Findings

The source was read, not executed, so each row below is a reading of the code. Each row names a member that models the code as written, with the lemma that exhibits the problem. It also names a corrected member, with the lemma proving the intended property. The rest of the model uses the corrected member.

| source | as written | input that shows it | evidently intended | confidence | as-written member | corrected member |
|---|---|---|---|---|---|---|
| src/main/java/host/anzo/simon/PingWatchdog.java:131 | the retry loop continues while `waitRunnable == null \|\| waited < 10000`, so it can only leave when a waiter is present and the full 10000 ms have passed | `notifyPongReceived` for a session that has no waiter: the loop never ends | continue while no waiter has appeared and the 10000 ms are not yet over (`&&`), so the loop ends when a waiter appears or the time runs out | high; not executed | PingWatchdog.RetryAsWritten, PingWatchdog.AsWrittenSpinsWithoutWaiter | PingWatchdog.RetryCorrected, PingWatchdog.CorrectedTerminates |
| src/main/java/host/anzo/simon/codec/base/AbstractMessageEncoder.java:50-69 | after a body fails to encode, the catch block builds an error message and then encodes the original message again, which throws again | a hashCode reply whose error text has 65536 code units, more than the two-byte prefix can count whatever the charset: the exception escapes and no error report is sent | encode and send the error message that was just built | high; not executed | Framing.EncodeAsWritten, Framing.EncodeFailureEscapes | Framing.EncodeCorrected, Framing.EncodeFailureEscapes |
| src/main/java/host/anzo/simon/NameLookup.java:72-76 | when the remote interfaces cannot be loaded, the lookup throws `LookupFailedException` without releasing the dispatcher it acquired (same at `InterfaceLookup.java:129-133`) | a lookup whose reply carries no error but whose interfaces fail to load: the pool keeps one more reference than before | release the dispatcher on every failure after the acquire, as the error-reply path does; an exception from the blocking request (line 62) leaks the same way | medium; not executed | Lookups.LookupAsWritten, Lookups.ClassLoadFailureLeaks, Lookups.RequestFailureLeaks | Lookups.Lookup, Lookups.FailedLookupLeavesPool |
| src/main/java/host/anzo/simon/Dispatcher.java:898-904 | `sessionClosed` iterates the key set of the closed-listener map while removing each key from the map | closed listeners registered under two names "a" and "b": the second step throws `ConcurrentModificationException`, so b's listener is not notified and the dispatcher is not released | notify every registered listener, then clear the map | high; not executed | Dispatcher.OnSessionClosedAsWritten, Dispatcher.SessionClosedAsWrittenLosesListener | Dispatcher.OnSessionClosed, Dispatcher.OnSessionClosedNotifiesAll |
| src/main/java/host/anzo/simon/LookupTable.java:426-428 | `cleanup` iterates the key set of `gcRemoteInstances` while `unreference` removes each key from it | remote instances for two sessions: the second step throws `ConcurrentModificationException`, and the second session's binding is never released; `shutdown` then leaves the dispatcher running (Dispatcher.ShutdownAsWritten), and `Registry.stop` never disposes the acceptor (Registry.StopAsWritten) | unreference every session listed at the start | high; not executed | LookupTable.CleanupAsWritten, LookupTable.CleanupAsWrittenLeavesBinding, Registry.StopAsWritten | LookupTable.Cleanup, LookupTable.CleanupTellsListed, Registry.Stop |
| src/main/java/host/anzo/simon/Simon.java:874 | `denoteSameRemoteObjekt` compares the proxies' remote object names, and a released proxy's name is null | a released proxy compared with any other proxy: `NullPointerException` | a released proxy denotes no remote object, so the answer is false | medium; not executed | SimonStatics.DenoteSameAsWritten, SimonStatics.DenoteSameReleasedThrows | SimonStatics.DenoteSame, SimonStatics.DenoteSameSymmetric |

=== FILE: base64.dfy ===
/** The Base64 encoding of section 4 of RFC 4648, as the proxy handshake uses it
    for the credentials of a `Proxy-Authorization: Basic` line: the standard
    alphabet, `=` padding, no line breaks.

    Each group of three bytes becomes four digits of six bits each; a final
    group of one or two bytes becomes two or three digits padded with `=` to
    four. The decoder accepts exactly the encoder's output: padding only in
    the last group, and the bits a short group leaves over are zero.

    The model works in two layers: bytes to symbols (six-bit values and the
    pad), and symbols to characters.
 */
module Base64 {
  import opened Errors
  import opened JavaInt

  /** A six-bit value. */
  type Sextet = v: int | 0 <= v < 64

  /** One character of an encoding: a digit's value, or the pad `=`. */
  datatype Sym = D(v: Sextet) | Pad

  // ---------------------------------------------------------------------------
  // Symbols and characters

  /** The digit for a six-bit value (Table 1 of RFC 4648). */
  function Digit(v: Sextet): (c: char)
    ensures c != '='
  {
    if v < 26 then ('A' as int + v) as char
    else if v < 52 then ('a' as int + (v - 26)) as char
    else if v < 62 then ('0' as int + (v - 52)) as char
    else if v == 62 then '+'
    else '/'
  }

  /** The six-bit value of a digit; `None` for any other character. */
  function Value(c: char): (r: Option<Sextet>)
    ensures r.Some? ==> Digit(r.value) == c
  {
    if 'A' <= c <= 'Z' then Some(c as int - 'A' as int)
    else if 'a' <= c <= 'z' then Some(c as int - 'a' as int + 26)
    else if '0' <= c <= '9' then Some(c as int - '0' as int + 52)
    else if c == '+' then Some(62)
    else if c == '/' then Some(63)
    else None
  }

  /** Distinct values have distinct digits, and every digit reads back. */
  lemma ValueOfDigit(v: Sextet)
    ensures Value(Digit(v)) == Some(v)
  {
  }

  function Char(y: Sym): char {
    if y.D? then Digit(y.v) else '='
  }

  /** The symbol a character stands for; `None` outside the alphabet. */
  function SymOf(c: char): (r: Option<Sym>)
    ensures r.Some? ==> Char(r.value) == c
  {
    if c == '=' then Some(Pad)
    else match Value(c)
      case None => None
      case Some(v) => Some(D(v))
  }

  lemma SymOfChar(y: Sym)
    ensures SymOf(Char(y)) == Some(y)
  {
    if y.D? {
      ValueOfDigit(y.v);
    }
  }

  function Render(ys: seq<Sym>): (s: string)
    ensures |s| == |ys| && forall i :: 0 <= i < |ys| ==> s[i] == Char(ys[i])
  {
    seq(|ys|, i requires 0 <= i < |ys| => Char(ys[i]))
  }

  /** The symbols of a string, if every character is in the alphabet. */
  function Parse(s: string): (r: Option<seq<Sym>>)
    ensures r.Some? ==> Render(r.value) == s
  {
    if forall i :: 0 <= i < |s| ==> SymOf(s[i]).Some? then
      var ys := seq(|s|, i requires 0 <= i < |s| => SymOf(s[i]).value);
      assert Render(ys) == s;
      Some(ys)
    else None
  }

  lemma ParseRender(ys: seq<Sym>)
    ensures Parse(Render(ys)) == Some(ys)
  {
    var s := Render(ys);
    forall i | 0 <= i < |ys|
      ensures SymOf(s[i]) == Some(ys[i])
    {
      SymOfChar(ys[i]);
    }
    assert seq(|s|, i requires 0 <= i < |s| => SymOf(s[i]).value) == ys;
  }

  // ---------------------------------------------------------------------------
  // Bytes and symbols

  /** The symbols of the bytes, three bytes to four symbols. */
  function Groups(bs: seq<Byte>): (ys: seq<Sym>)
    ensures |ys| == 4 * ((|bs| + 2) / 3)
  {
    if |bs| == 0 then []
    else if |bs| == 1 then [D(bs[0] / 4), D((bs[0] % 4) * 16), Pad, Pad]
    else if |bs| == 2 then [D(bs[0] / 4), D((bs[0] % 4) * 16 + bs[1] / 16), D((bs[1] % 16) * 4), Pad]
    else [D(bs[0] / 4), D((bs[0] % 4) * 16 + bs[1] / 16), D((bs[1] % 16) * 4 + bs[2] / 64), D(bs[2] % 64)]
         + Groups(bs[3..])
  }

  /** The bytes of a symbol sequence the encoder can have produced. */
  function Ungroup(ys: seq<Sym>): (r: Option<seq<Byte>>)
  {
    if ys == [] then Some([])
    else if |ys| < 4 || ys[0].Pad? || ys[1].Pad? then None
    else
      var v0, v1 := ys[0].v, ys[1].v;
      match (ys[2], ys[3])
      case (Pad, Pad) =>
        if |ys| == 4 && v1 % 16 == 0 then Some([v0 * 4 + v1 / 16]) else None
      case (D(v2), Pad) =>
        if |ys| == 4 && v2 % 4 == 0 then Some([v0 * 4 + v1 / 16, (v1 % 16) * 16 + v2 / 4]) else None
      case (Pad, D(_)) => None
      case (D(v2), D(v3)) =>
        match Ungroup(ys[4..])
        case None => None
        case Some(tail) => Some([v0 * 4 + v1 / 16, (v1 % 16) * 16 + v2 / 4, (v2 % 4) * 64 + v3] + tail)
  }

  /** Regrouping three bytes into sextets and back gives the same bytes. */
  lemma SplitJoin(b0: Byte, b1: Byte, b2: Byte)
    ensures var v1 := (b0 % 4) * 16 + b1 / 16;
            var v2 := (b1 % 16) * 4 + b2 / 64;
            (b0 / 4) * 4 + v1 / 16 == b0 && (v1 % 16) * 16 + v2 / 4 == b1 && (v2 % 4) * 64 + b2 % 64 == b2
  {
    assert ((b0 % 4) * 16 + b1 / 16) / 16 == b0 % 4 && ((b0 % 4) * 16 + b1 / 16) % 16 == b1 / 16;
    assert ((b1 % 16) * 4 + b2 / 64) / 4 == b1 % 16 && ((b1 % 16) * 4 + b2 / 64) % 4 == b2 / 64;
  }

  /** Regrouping four sextets into bytes and back gives the same sextets. */
  lemma JoinSplit(v0: Sextet, v1: Sextet, v2: Sextet, v3: Sextet)
    ensures var b0 := v0 * 4 + v1 / 16;
            var b1 := (v1 % 16) * 16 + v2 / 4;
            var b2 := (v2 % 4) * 64 + v3;
            0 <= b0 < 256 && 0 <= b1 < 256 && 0 <= b2 < 256
            && b0 / 4 == v0 && (b0 % 4) * 16 + b1 / 16 == v1 && (b1 % 16) * 4 + b2 / 64 == v2 && b2 % 64 == v3
  {
    assert (v0 * 4 + v1 / 16) / 4 == v0 && (v0 * 4 + v1 / 16) % 4 == v1 / 16;
    assert ((v1 % 16) * 16 + v2 / 4) / 16 == v1 % 16 && ((v1 % 16) * 16 + v2 / 4) % 16 == v2 / 4;
    assert ((v2 % 4) * 64 + v3) / 64 == v2 % 4 && ((v2 % 4) * 64 + v3) % 64 == v3;
  }

  /** The symbols of one full group read back as its three bytes, ahead of
      whatever the rest reads as. */
  lemma UngroupFull(b0: Byte, b1: Byte, b2: Byte, rest: seq<Sym>)
    ensures var ys := [D(b0 / 4), D((b0 % 4) * 16 + b1 / 16), D((b1 % 16) * 4 + b2 / 64), D(b2 % 64)] + rest;
            Ungroup(ys) == if Ungroup(rest).None? then None else Some([b0, b1, b2] + Ungroup(rest).value)
  {
    var ys := [D(b0 / 4), D((b0 % 4) * 16 + b1 / 16), D((b1 % 16) * 4 + b2 / 64), D(b2 % 64)] + rest;
    SplitJoin(b0, b1, b2);
    assert ys[4..] == rest;
  }

  /** A final group of one byte reads back as that byte. */
  lemma UngroupOne(b0: Byte)
    ensures Ungroup(Groups([b0])) == Some([b0])
  {
    assert ((b0 % 4) * 16) % 16 == 0 && ((b0 % 4) * 16) / 16 == b0 % 4;
  }

  /** A final group of two bytes reads back as those bytes. */
  lemma UngroupTwo(b0: Byte, b1: Byte)
    ensures Ungroup(Groups([b0, b1])) == Some([b0, b1])
  {
    SplitJoin(b0, b1, 0);
  }

  lemma {:induction false} UngroupGroups(bs: seq<Byte>)
    ensures Ungroup(Groups(bs)) == Some(bs)
    decreases |bs|
  {
    if |bs| == 1 {
      assert bs == [bs[0]];
      UngroupOne(bs[0]);
    } else if |bs| == 2 {
      assert bs == [bs[0], bs[1]];
      UngroupTwo(bs[0], bs[1]);
    } else if |bs| >= 3 {
      var b0, b1, b2 := bs[0], bs[1], bs[2];
      var head := [D(b0 / 4), D((b0 % 4) * 16 + b1 / 16), D((b1 % 16) * 4 + b2 / 64), D(b2 % 64)];
      assert Groups(bs) == head + Groups(bs[3..]);
      UngroupGroups(bs[3..]);
      UngroupFull(b0, b1, b2, Groups(bs[3..]));
      assert bs == [b0, b1, b2] + bs[3..];
    }
  }

  lemma {:induction false} GroupsUngroup(ys: seq<Sym>)
    requires Ungroup(ys).Some?
    ensures Groups(Ungroup(ys).value) == ys
    decreases |ys|
  {
    if ys != [] {
      var bs := Ungroup(ys).value;
      var v0: int, v1: int := ys[0].v, ys[1].v;
      if ys[2].Pad? {
        JoinSplit(v0, v1, 0, 0);
        assert ys == [ys[0], ys[1], ys[2], ys[3]];
      } else if ys[3].Pad? {
        JoinSplit(v0, v1, ys[2].v, 0);
        assert ys == [ys[0], ys[1], ys[2], ys[3]];
      } else {
        JoinSplit(v0, v1, ys[2].v, ys[3].v);
        GroupsUngroup(ys[4..]);
        assert bs[3..] == Ungroup(ys[4..]).value;
        assert ys == ys[..4] + ys[4..];
      }
    }
  }

  // ---------------------------------------------------------------------------
  // The encoding

  /** `Base64.encodeBase64(data)`. */
  function Encode(bs: seq<Byte>): (s: string)
    ensures |s| == 4 * ((|bs| + 2) / 3)
  {
    Render(Groups(bs))
  }

  /** The bytes of an encoding: `None` for anything the encoder cannot have
      produced. */
  function Decode(s: string): (r: Option<seq<Byte>>)
  {
    match Parse(s)
    case None => None
    case Some(ys) => Ungroup(ys)
  }

  /** Decoding recovers the encoded bytes. */
  lemma DecodeEncode(bs: seq<Byte>)
    ensures Decode(Encode(bs)) == Some(bs)
  {
    ParseRender(Groups(bs));
    UngroupGroups(bs);
  }

  /** Only an encoding decodes: whatever `Decode` accepts, `Encode` gives back
      character for character. */
  lemma EncodeDecode(s: string)
    requires Decode(s).Some?
    ensures Encode(Decode(s).value) == s
  {
    GroupsUngroup(Parse(s).value);
  }

  /** Distinct byte strings have distinct encodings. */
  lemma EncodeInjective(a: seq<Byte>, b: seq<Byte>)
    requires Encode(a) == Encode(b)
    ensures a == b
  {
    DecodeEncode(a);
    DecodeEncode(b);
  }
}

=== FILE: bodies.dfy ===
/** The fixed-layout message bodies of `codec.base`: what each body encoder
    writes, what each body decoder reads back, and what each does when a
    string cannot be encoded or decoded.

    A body decoder is handed everything the reader has not consumed yet (it is
    not cut off at the header's body size) and answers with the message and the
    bytes after what it read, or with the exception that escapes it. A body
    encoder answers with the body bytes, with the replacement error body that
    `sendEncodingError` put in their place, or with the exception that escapes.
 */
module Bodies {
  import opened Errors
  import opened JavaInt
  import opened Wire
  import Utils

  const NO_REMOTE_OBJECT_NAME: string := "<NoRemoteObjectNameAvailable>"
  const NO_ERROR_MSG: string := "<NoErrorMsgAvailable>"
  const NO_REMOTE_OBJECT_NAME_TEXT: JString := Text(NO_REMOTE_OBJECT_NAME)
  const NO_ERROR_MSG_TEXT: JString := Text(NO_ERROR_MSG)
  const OBJECT_CLASS: string := "java.lang.Object"

  /** An `MsgError` with every field it carries over the wire. `None` is a null
      reference; `decodeError` is false for an encode error. */
  datatype ErrorMsg = ErrorMsg(remoteObjectName: Option<JString>, errorMessage: Option<JString>,
                               throwable: Option<Payload>, initSequenceId: Int32, decodeError: bool)

  /** A `java.nio.ByteBuffer`: its backing bytes, position and limit. */
  datatype ByteBuffer = ByteBuffer(content: seq<Byte>, position: nat, limit: nat) {
    predicate Valid() {
      position <= limit <= |content|
    }
  }

  /** The messages whose bodies are modelled, without their header sequence.
      `LocalError` is an `MsgError` a body decoder built itself: only its
      message (fixed per decoder, so named here by the decoder), its null remote
      name and its cause are set. */
  datatype Message =
    | NameLookup(remoteObjectName: JString)
    | InterfaceLookup(canonicalInterfaceName: JString)
    | HashCode(remoteObjectName: JString)
    | HashCodeReturn(hash: Int32, errorMsg: JString)
    | ToStringReturn(text: JString)
    | NameLookupReturn(interfaces: seq<JString>, errorMsg: JString)
    | InterfaceLookupReturn(lookedUpName: Option<JString>, interfaces: seq<JString>, errorMsg: JString)
    | ReleaseRef(refId: Option<JString>)
    | RawChannelData(channelToken: Int32, data: ByteBuffer)
    | RawChannelDataReturn
    | CloseRawChannel(channelToken: Int32)
    | CloseRawChannelReturn(closed: bool)
    | EqualsReturn(equal: bool)
    | Error(error: ErrorMsg)
    | LocalError(origin: BodyDecoder, cause: Exception)

  /** What a body encoder leaves in its buffer, or the exception that escaped
      it together with the error `sendEncodingError` had latched before. */
  datatype BodyOutcome =
    | Body(bytes: seq<Byte>)
    | ReplacedByError(bytes: seq<Byte>, error: ErrorMsg)
    | Throws(thrown: Exception, latched: Option<ErrorMsg>)

  /** Java serialization of throwables, which the model does not look into:
      the serialized form of a caught exception, and of the placeholder
      `Throwable("NoThrowableAvailable")`. */
  datatype Serializer = Serializer(cause: Exception -> Payload, placeholder: Payload)

  /** The body decoder classes, one per message type they are bound to. */
  datatype BodyDecoder =
    | NameLookupDecoder | InterfaceLookupDecoder | HashCodeDecoder | HashCodeReturnDecoder
    | ToStringReturnDecoder | InterfaceLookupReturnDecoder | ReleaseRefDecoder
    | RawChannelDataDecoder | RawChannelDataReturnDecoder | CloseRawChannelDecoder
    | CloseRawChannelReturnDecoder | EqualsReturnDecoder | ErrorDecoder

  // ---------------------------------------------------------------------------
  // MsgError

  /** The `MsgError` the peer reads back: null strings replaced by placeholders. */
  function Sent(e: ErrorMsg, placeholder: Payload): (r: ErrorMsg)
    ensures r.initSequenceId == e.initSequenceId && r.decodeError == e.decodeError
    ensures r.remoteObjectName.Some? && r.errorMessage.Some? && r.throwable.Some?
    ensures e.remoteObjectName.Some? ==> r.remoteObjectName == e.remoteObjectName
    ensures e.errorMessage.Some? ==> r.errorMessage == e.errorMessage
    ensures e.throwable.Some? ==> r.throwable == e.throwable
  {
    ErrorMsg(Some(e.remoteObjectName.GetOr(NO_REMOTE_OBJECT_NAME_TEXT)),
             Some(e.errorMessage.GetOr(NO_ERROR_MSG_TEXT)),
             Some(e.throwable.GetOr(placeholder)),
             e.initSequenceId, e.decodeError)
  }

  /** The two strings of an error body. A CharacterCodingException is swallowed
      and the string that failed, and the other string after it, are not written;
      the model keeps no partial bytes of the failed string. Any other exception,
      which only a string too long for its prefix raises, is passed on. */
  function ErrorStrings(name: JString, text: JString): (r: Result<seq<Byte>>)
    ensures r.Err? ==> r.error == IllegalArgument
    ensures PutPrefixed(name).Ok? && PutPrefixed(text).Ok? ==>
              r == Ok(PutPrefixed(name).value + PutPrefixed(text).value)
  {
    match PutPrefixed(name)
    case Err(e) => if e == CharacterCoding then Ok([]) else Err(e)
    case Ok(a) =>
      match PutPrefixed(text)
      case Err(e) => if e == CharacterCoding then Ok(a) else Err(e)
      case Ok(b) => Ok(a + b)
  }

  /** `MsgErrorEncoder.encodeBody`: name, message, throwable, init sequence and
      flag byte. Only a string too long for its prefix makes it throw. */
  function EncodeError(e: ErrorMsg, placeholder: Payload): (r: Result<seq<Byte>>)
    ensures r.Err? ==> r.error == IllegalArgument
    ensures r.Ok? ==> |r.value| >= 9 && r.value[|r.value| - 1] == Utils.BooleanToByte(e.decodeError)
    ensures r.Ok? ==> r.value[|r.value| - 5..|r.value| - 1] == IntBytes(e.initSequenceId)
  {
    var s := Sent(e, placeholder);
    match ErrorStrings(s.remoteObjectName.value, s.errorMessage.value)
    case Err(x) => Err(x)
    case Ok(strings) =>
      var tail := IntBytes(e.initSequenceId) + [Utils.BooleanToByte(e.decodeError)];
      var bs := strings + PutObject(s.throwable.value) + tail;
      assert bs[|bs| - 5..] == tail;
      Ok(bs)
  }

  /** The fields `MsgErrorDecoder` starts from and keeps when a read fails. */
  const ERROR_DEFAULTS: ErrorMsg := ErrorMsg(None, None, None, -1, true)

  /** `MsgErrorDecoder.decodeBody`: reads the fields in the encoder's order; a
      string that cannot be decoded stops the reading, and every later field
      keeps its default. */
  function DecodeErrorBody(bs: seq<Byte>): (r: Read<Message>)
    ensures !r.Malformed? && (r.Got? ==> r.value.Error?)
    ensures r.Failed? ==> r.error in {BufferUnderflow, IllegalArgument}
    ensures GetPrefixed(bs).Malformed? ==> r == Got(Error(ERROR_DEFAULTS), GetPrefixed(bs).rest)
    ensures GetPrefixed(bs).Got? && GetPrefixed(GetPrefixed(bs).rest).Malformed? ==>
              r == Got(Error(ERROR_DEFAULTS.(remoteObjectName := Some(GetPrefixed(bs).value))),
                       GetPrefixed(GetPrefixed(bs).rest).rest)
  {
    match GetPrefixed(bs)
    case Failed(x) => Failed(x)
    case Malformed(rest) => Got(Error(ERROR_DEFAULTS), rest)
    case Got(name, r1) =>
      match GetPrefixed(r1)
      case Failed(x) => Failed(x)
      case Malformed(rest) => Got(Error(ERROR_DEFAULTS.(remoteObjectName := Some(name))), rest)
      case Got(text, r2) =>
        match GetObject(r2)
        case Err(x) => Failed(x)
        case Ok((thrown, r3)) =>
          match GetInt(r3)
          case Err(x) => Failed(x)
          case Ok((init, r4)) =>
            match GetByte(r4)
            case Err(x) => Failed(x)
            case Ok((flag, r5)) =>
              match Utils.ByteToBoolean(flag)
              case Err(x) => Failed(x)
              case Ok(decodeError) =>
                Got(Error(ErrorMsg(Some(name), Some(text), Some(thrown), init, decodeError)), r5)
  }

  /** The fields of an error body read back in the order they were written. */
  lemma DecodeErrorFields(name: JString, text: JString, thrown: Payload, init: Int32, flag: bool, rest: seq<Byte>)
    requires PutPrefixed(name).Ok? && PutPrefixed(text).Ok?
    ensures var t4 := [Utils.BooleanToByte(flag)] + rest;
            var t3 := IntBytes(init) + t4;
            var t2 := PutObject(thrown) + t3;
            var t1 := PutPrefixed(text).value + t2;
            DecodeErrorBody(PutPrefixed(name).value + t1)
              == Got(Error(ErrorMsg(Some(name), Some(text), Some(thrown), init, flag)), rest)
  {
    var t4 := [Utils.BooleanToByte(flag)] + rest;
    var t3 := IntBytes(init) + t4;
    var t2 := PutObject(thrown) + t3;
    var t1 := PutPrefixed(text).value + t2;
    PrefixedRoundTrip(name, t1);
    PrefixedRoundTrip(text, t2);
    ObjectRoundTrip(thrown, t3);
    IntRoundTrip(init, t4);
    assert GetByte(t4) == Ok((Utils.BooleanToByte(flag), rest));
    Utils.BooleanByteRoundTrip(flag);
  }

  /** An error body whose strings encode is the two strings, the throwable,
      the init sequence and the flag byte, in that order. */
  lemma EncodeErrorLayout(e: ErrorMsg, placeholder: Payload)
    requires PutPrefixed(Sent(e, placeholder).remoteObjectName.value).Ok?
    requires PutPrefixed(Sent(e, placeholder).errorMessage.value).Ok?
    ensures var s := Sent(e, placeholder);
            EncodeError(e, placeholder)
              == Ok(PutPrefixed(s.remoteObjectName.value).value + PutPrefixed(s.errorMessage.value).value
                    + PutObject(s.throwable.value) + (IntBytes(e.initSequenceId) + [Utils.BooleanToByte(e.decodeError)]))
  {
    var s := Sent(e, placeholder);
    assert ErrorStrings(s.remoteObjectName.value, s.errorMessage.value)
        == Ok(PutPrefixed(s.remoteObjectName.value).value + PutPrefixed(s.errorMessage.value).value);
  }

  lemma Regroup5<T>(a: seq<T>, b: seq<T>, c: seq<T>, d: seq<T>, e: seq<T>, rest: seq<T>)
    ensures a + b + c + (d + e) + rest == a + (b + (c + (d + (e + rest))))
  {
  }

  /** An error body whose strings encode reads back as what was sent: the init
      sequence and the flag survive, null strings arrive as placeholders. */
  lemma ErrorRoundTrip(e: ErrorMsg, placeholder: Payload, rest: seq<Byte>)
    requires PutPrefixed(Sent(e, placeholder).remoteObjectName.value).Ok?
    requires PutPrefixed(Sent(e, placeholder).errorMessage.value).Ok?
    ensures EncodeError(e, placeholder).Ok?
    ensures DecodeErrorBody(EncodeError(e, placeholder).value + rest) == Got(Error(Sent(e, placeholder)), rest)
  {
    var s := Sent(e, placeholder);
    var name, text, thrown := s.remoteObjectName.value, s.errorMessage.value, s.throwable.value;
    var a := PutPrefixed(name).value;
    var b := PutPrefixed(text).value;
    var o := PutObject(thrown);
    var i := IntBytes(e.initSequenceId);
    var f := Utils.BooleanToByte(e.decodeError);
    EncodeErrorLayout(e, placeholder);
    var enc := EncodeError(e, placeholder).value;
    assert enc == a + b + o + (i + [f]);
    Regroup5(a, b, o, i, [f], rest);
    DecodeErrorFields(name, text, thrown, e.initSequenceId, e.decodeError, rest);
    assert s == ErrorMsg(Some(name), Some(text), Some(thrown), e.initSequenceId, e.decodeError);
  }

  /** `sendEncodingError`: the buffer is cleared and holds the error body alone. */
  function Replaced(error: ErrorMsg, ser: Serializer): (r: BodyOutcome)
    ensures !r.Body?
    ensures r.ReplacedByError? ==> r.error == error && Ok(r.bytes) == EncodeError(error, ser.placeholder)
    ensures r.Throws? ==> r.thrown == IllegalArgument && r.latched.None?
  {
    match EncodeError(error, ser.placeholder)
    case Ok(bs) => ReplacedByError(bs, error)
    case Err(x) => Throws(x, None)
  }

  /** The openings of the encoders' error texts, and their common ending. */
  const TO_STRING_RESULT_TEXT: string := "Error while encoding toString() request: Not able to write result'"
  const HASH_CODE_ERROR_TEXT: string := "Error while encoding hashCode() return: Not able to write errorMsg '"
  const INTERFACE_NAME_TEXT: string := "Error while encoding name lookup() return: Not able to write interface name '"
  const NAME_LOOKUP_ERROR_TEXT: string := "Error while encoding name lookup() return: Not able to write errorMsg '"
  const CODING_EXCEPTION_TEXT: string := "' due to CharacterCodingException."

  /** The error an encoder reports for a value it could not write. */
  function EncodingError(about: string, value: JString, sequence: Int32, cause: Exception, ser: Serializer): (e: ErrorMsg)
    ensures e.remoteObjectName.None? && !e.decodeError && e.initSequenceId == sequence
    ensures e.throwable == Some(ser.cause(cause))
  {
    ErrorMsg(None, Some(Text(about) + value + Text(CODING_EXCEPTION_TEXT)),
             Some(ser.cause(cause)), sequence, false)
  }

  // ---------------------------------------------------------------------------
  // Bodies made of one prefixed string

  /** One prefixed string becomes the message; a string that cannot be decoded
      gives a locally built `MsgError` instead. The bytes left after a
      `MsgError` are those after the field, as `GetPrefixed` models them. */
  function StringBody(bs: seq<Byte>, make: JString -> Message, origin: BodyDecoder): (r: Read<Message>)
    ensures !r.Malformed?
    ensures r.Failed? <==> GetPrefixed(bs).Failed?
    ensures r.Failed? ==> r.error == BufferUnderflow
    ensures GetPrefixed(bs).Got? ==> r == Got(make(GetPrefixed(bs).value), GetPrefixed(bs).rest)
    ensures GetPrefixed(bs).Malformed? ==> r == Got(LocalError(origin, CharacterCoding), GetPrefixed(bs).rest)
  {
    match GetPrefixed(bs)
    case Failed(x) => Failed(x)
    case Malformed(rest) => Got(LocalError(origin, CharacterCoding), rest)
    case Got(s, rest) => Got(make(s), rest)
  }

  /** `MsgNameLookupDecoder.decodeBody`. */
  function DecodeNameLookup(bs: seq<Byte>): (r: Read<Message>)
    ensures !r.Malformed? && (r.Got? ==> r.value.NameLookup? || r.value.LocalError?)
  {
    StringBody(bs, (s: JString) => NameLookup(s), NameLookupDecoder)
  }

  /** `MsgInterfaceLookupDecoder.decodeBody`. */
  function DecodeInterfaceLookup(bs: seq<Byte>): (r: Read<Message>)
    ensures !r.Malformed? && (r.Got? ==> r.value.InterfaceLookup? || r.value.LocalError?)
  {
    StringBody(bs, (s: JString) => InterfaceLookup(s), InterfaceLookupDecoder)
  }

  /** `MsgHashCodeDecoder.decodeBody`. */
  function DecodeHashCode(bs: seq<Byte>): (r: Read<Message>)
    ensures !r.Malformed? && (r.Got? ==> r.value.HashCode? || r.value.LocalError?)
  {
    StringBody(bs, (s: JString) => HashCode(s), HashCodeDecoder)
  }

  /** `MsgToStringReturnDecoder.decodeBody`. */
  function DecodeToStringReturn(bs: seq<Byte>): (r: Read<Message>)
    ensures !r.Malformed? && (r.Got? ==> r.value.ToStringReturn? || r.value.LocalError?)
  {
    StringBody(bs, (s: JString) => ToStringReturn(s), ToStringReturnDecoder)
  }

  /** The one-string requests read back the name the peer wrote. */
  lemma StringRequestsRoundTrip(name: JString, rest: seq<Byte>)
    requires PutPrefixed(name).Ok?
    ensures DecodeNameLookup(PutPrefixed(name).value + rest) == Got(NameLookup(name), rest)
    ensures DecodeInterfaceLookup(PutPrefixed(name).value + rest) == Got(InterfaceLookup(name), rest)
    ensures DecodeHashCode(PutPrefixed(name).value + rest) == Got(HashCode(name), rest)
  {
    PrefixedRoundTrip(name, rest);
  }

  /** `MsgReleaseRefDecoder.decodeBody`: an undecodable reference id gives a
      release message with a null id, not an error. */
  function DecodeReleaseRef(bs: seq<Byte>): (r: Read<Message>)
    ensures !r.Malformed? && (r.Got? ==> r.value.ReleaseRef?)
    ensures r.Failed? <==> GetPrefixed(bs).Failed?
    ensures r.Got? ==> (r.value.refId.None? <==> GetPrefixed(bs).Malformed?)
    ensures GetPrefixed(bs).Got? ==> r == Got(ReleaseRef(Some(GetPrefixed(bs).value)), GetPrefixed(bs).rest)
  {
    match GetPrefixed(bs)
    case Failed(x) => Failed(x)
    case Malformed(rest) => Got(ReleaseRef(None), rest)
    case Got(s, rest) => Got(ReleaseRef(Some(s)), rest)
  }

  // ---------------------------------------------------------------------------
  // toString() and hashCode() replies

  /** `MsgToStringReturnEncoder.encodeBody`: any exception while writing the
      text, even one that is not a CharacterCodingException, replaces the body.
      A null text (the answer for an unbound name) makes `putPrefixedString`
      throw NullPointerException, so it is reported too; the report's text
      shows it as "null", as Java's string concatenation does. */
  function EncodeToStringReturn(text: Option<JString>, sequence: Int32, ser: Serializer): (r: BodyOutcome)
    ensures r.Body? <==> text.Some? && PutPrefixed(text.value).Ok?
    ensures r.Body? ==> Ok(r.bytes) == PutPrefixed(text.value)
    ensures text.None? ==> r == Replaced(EncodingError(TO_STRING_RESULT_TEXT, Text("null"), sequence, NullPointer, ser), ser)
    ensures r.ReplacedByError? ==>
              r.error.initSequenceId == sequence && !r.error.decodeError
              && r.error.throwable == Some(ser.cause(if text.None? then NullPointer else PutPrefixed(text.value).error))
  {
    match text
    case None => Replaced(EncodingError(TO_STRING_RESULT_TEXT, Text("null"), sequence, NullPointer, ser), ser)
    case Some(t) =>
      match PutPrefixed(t)
      case Ok(bs) => Body(bs)
      case Err(x) =>
        Replaced(EncodingError(TO_STRING_RESULT_TEXT, t, sequence, x, ser), ser)
  }

  lemma ToStringReturnRoundTrip(text: JString, sequence: Int32, ser: Serializer, rest: seq<Byte>)
    requires PutPrefixed(text).Ok?
    ensures DecodeToStringReturn(EncodeToStringReturn(Some(text), sequence, ser).bytes + rest) == Got(ToStringReturn(text), rest)
  {
    PrefixedRoundTrip(text, rest);
  }

  /** `MsgHashCodeReturnEncoder.encodeBody`: the hash, then the error text. Only
      a CharacterCodingException is caught; a text too long escapes, even an
      ill-formed one, since the length is checked before the encoding. */
  function EncodeHashCodeReturn(hash: Int32, errorMsg: JString, sequence: Int32, ser: Serializer): (r: BodyOutcome)
    ensures r.Body? <==> PutPrefixed(errorMsg).Ok?
    ensures r.Body? ==> r.bytes == IntBytes(hash) + PutPrefixed(errorMsg).value
    ensures r.ReplacedByError? ==> !WellFormed(errorMsg) && r.error.initSequenceId == sequence && !r.error.decodeError
    ensures r.Throws? ==> r.thrown == IllegalArgument && r.latched.None?
    ensures |errorMsg| > PREFIX_MAX ==> r == Throws(IllegalArgument, None)
  {
    match PutPrefixed(errorMsg)
    case Ok(bs) => Body(IntBytes(hash) + bs)
    case Err(x) =>
      if x == CharacterCoding then
        Replaced(EncodingError(HASH_CODE_ERROR_TEXT, errorMsg, sequence, x, ser), ser)
      else Throws(x, None)
  }

  /** `MsgHashCodeReturnDecoder.decodeBody`: the hash, then the error text. */
  function DecodeHashCodeReturn(bs: seq<Byte>): (r: Read<Message>)
    ensures !r.Malformed? && (r.Got? ==> r.value.HashCodeReturn? || r.value.LocalError?)
    ensures r.Failed? ==> r.error == BufferUnderflow
  {
    match GetInt(bs)
    case Err(x) => Failed(x)
    case Ok((hash, r1)) =>
      match GetPrefixed(r1)
      case Failed(x) => Failed(x)
      case Malformed(rest) =>
        Got(LocalError(HashCodeReturnDecoder, CharacterCoding), rest)
      case Got(s, rest) => Got(HashCodeReturn(hash, s), rest)
  }

  lemma HashCodeReturnRoundTrip(hash: Int32, errorMsg: JString, sequence: Int32, ser: Serializer, rest: seq<Byte>)
    requires PutPrefixed(errorMsg).Ok?
    ensures DecodeHashCodeReturn(EncodeHashCodeReturn(hash, errorMsg, sequence, ser).bytes + rest)
            == Got(HashCodeReturn(hash, errorMsg), rest)
  {
    var p := PutPrefixed(errorMsg).value;
    assert IntBytes(hash) + p + rest == IntBytes(hash) + (p + rest);
    IntRoundTrip(hash, p + rest);
    PrefixedRoundTrip(errorMsg, rest);
  }

  // ---------------------------------------------------------------------------
  // Lookup replies

  /** The prefixed strings of `names`, one after another. */
  function Strings(names: seq<JString>): (r: Result<seq<Byte>>)
    ensures r.Ok? <==> forall i :: 0 <= i < |names| ==> PutPrefixed(names[i]).Ok?
  {
    if names == [] then Ok([])
    else
      match PutPrefixed(names[0])
      case Err(x) => Err(x)
      case Ok(a) =>
        match Strings(names[1..])
        case Err(x) => Err(x)
        case Ok(b) => Ok(a + b)
  }

  /** `n` prefixed strings, in order. */
  function ReadStrings(n: nat, bs: seq<Byte>): (r: Read<seq<JString>>)
    ensures r.Got? ==> |r.value| == n
    ensures r.Failed? ==> r.error == BufferUnderflow
    decreases n
  {
    if n == 0 then Got([], bs)
    else
      match GetPrefixed(bs)
      case Failed(x) => Failed(x)
      case Malformed(rest) => Malformed(rest)
      case Got(s, r1) =>
        match ReadStrings(n - 1, r1)
        case Failed(x) => Failed(x)
        case Malformed(rest) => Malformed(rest)
        case Got(ss, rest) => Got([s] + ss, rest)
  }

  lemma {:induction false} StringsRoundTrip(names: seq<JString>, rest: seq<Byte>)
    requires Strings(names).Ok?
    ensures ReadStrings(|names|, Strings(names).value + rest) == Got(names, rest)
    decreases |names|
  {
    if names != [] {
      var a := PutPrefixed(names[0]).value;
      var b := Strings(names[1..]).value;
      assert Strings(names).value + rest == a + (b + rest);
      PrefixedRoundTrip(names[0], b + rest);
      StringsRoundTrip(names[1..], rest);
      assert [names[0]] + names[1..] == names;
    }
  }

  /** `MsgInterfaceLookupReturnDecoder.decodeBody`: the looked-up name, the
      count, that many interface names and the error text. An undecodable
      string gives a locally built `MsgError`, never a partly filled reply; a
      negative count throws. */
  function DecodeInterfaceLookupReturn(bs: seq<Byte>): (r: Read<Message>)
    ensures !r.Malformed? && (r.Got? ==> r.value.InterfaceLookupReturn? || r.value.LocalError?)
    ensures r.Got? && r.value.InterfaceLookupReturn? ==> r.value.lookedUpName.Some?
    ensures r.Failed? ==> r.error in {BufferUnderflow, NegativeArraySize}
  {
    match GetPrefixed(bs)
    case Failed(x) => Failed(x)
    case Malformed(rest) => Got(LocalError(InterfaceLookupReturnDecoder, CharacterCoding), rest)
    case Got(name, r1) =>
      match GetInt(r1)
      case Err(x) => Failed(x)
      case Ok((count, r2)) =>
        if count < 0 then Failed(NegativeArraySize)
        else
          match ReadStrings(count, r2)
          case Failed(x) => Failed(x)
          case Malformed(rest) => Got(LocalError(InterfaceLookupReturnDecoder, CharacterCoding), rest)
          case Got(names, r3) =>
            match GetPrefixed(r3)
            case Failed(x) => Failed(x)
            case Malformed(rest) => Got(LocalError(InterfaceLookupReturnDecoder, CharacterCoding), rest)
            case Got(errorMsg, rest) => Got(InterfaceLookupReturn(Some(name), names, errorMsg), rest)
  }

  /** The interface-lookup reply layout as the peer writes it: name, count,
      names, error text. */
  function InterfaceLookupReturnLayout(name: JString, names: seq<JString>, errorMsg: JString): (r: Result<seq<Byte>>)
    requires |names| <= INT_MAX
  {
    match PutPrefixed(name)
    case Err(x) => Err(x)
    case Ok(a) =>
      match Strings(names)
      case Err(x) => Err(x)
      case Ok(b) =>
        match PutPrefixed(errorMsg)
        case Err(x) => Err(x)
        case Ok(c) => Ok(a + IntBytes(|names|) + b + c)
  }

  lemma InterfaceLookupReturnRoundTrip(name: JString, names: seq<JString>, errorMsg: JString, rest: seq<Byte>)
    requires |names| <= INT_MAX
    requires InterfaceLookupReturnLayout(name, names, errorMsg).Ok?
    ensures DecodeInterfaceLookupReturn(InterfaceLookupReturnLayout(name, names, errorMsg).value + rest)
            == Got(InterfaceLookupReturn(Some(name), names, errorMsg), rest)
  {
    var a := PutPrefixed(name).value;
    var n := IntBytes(|names|);
    var b := Strings(names).value;
    var c := PutPrefixed(errorMsg).value;
    assert InterfaceLookupReturnLayout(name, names, errorMsg).value == a + n + b + c;
    assert a + n + b + c + rest == a + (n + (b + (c + rest)));
    PrefixedRoundTrip(name, n + (b + (c + rest)));
    IntRoundTrip(|names|, b + (c + rest));
    StringsRoundTrip(names, c + rest);
    PrefixedRoundTrip(errorMsg, rest);
  }

  /** The encoder's buffer while a name-lookup reply is written: the bytes so
      far, and the error last handed to `sendEncodingError`. */
  datatype Out = Out(bytes: seq<Byte>, sent: Option<ErrorMsg>)

  /** A body being written: the buffer so far, or the exception that stopped
      the encoder with the error latched before it. */
  datatype Progress = Going(out: Out) | Stopped(thrown: Exception, latched: Option<ErrorMsg>)

  /** `sendEncodingError` in the middle of a body: the buffer restarts with the
      error body, and the encoder carries on. */
  function ResendError(error: ErrorMsg, ser: Serializer): (r: Result<Out>)
    ensures r.Ok? ==> r.value.sent == Some(error) && Ok(r.value.bytes) == EncodeError(error, ser.placeholder)
    ensures r.Err? <==> EncodeError(error, ser.placeholder).Err?
  {
    match EncodeError(error, ser.placeholder)
    case Ok(bs) => Ok(Out(bs, Some(error)))
    case Err(x) => Err(x)
  }

  /** The error reported for an interface name that cannot be encoded. */
  function NameError(name: JString, sequence: Int32, ser: Serializer): (e: ErrorMsg)
    ensures e.remoteObjectName.None? && !e.decodeError && e.initSequenceId == sequence
  {
    EncodingError(INTERFACE_NAME_TEXT, name, sequence, CharacterCoding, ser)
  }

  /** The interface names of a name-lookup reply, each appended to whatever the
      buffer holds, including an error body that replaced earlier ones. */
  function PutNames(names: seq<JString>, out: Out, sequence: Int32, ser: Serializer): (r: Progress)
    decreases |names|
  {
    if names == [] then Going(out)
    else
      match PutPrefixed(names[0])
      case Ok(bs) => PutNames(names[1..], Out(out.bytes + bs, out.sent), sequence, ser)
      case Err(x) =>
        if x != CharacterCoding then Stopped(x, out.sent)
        else
          match ResendError(NameError(names[0], sequence, ser), ser)
          case Err(y) => Stopped(y, out.sent)
          case Ok(o) => PutNames(names[1..], o, sequence, ser)
  }

  /** Names that all encode are appended in order and leave the error alone. */
  lemma {:induction false} PutNamesAppends(names: seq<JString>, out: Out, sequence: Int32, ser: Serializer)
    requires Strings(names).Ok?
    ensures PutNames(names, out, sequence, ser) == Going(Out(out.bytes + Strings(names).value, out.sent))
    decreases |names|
  {
    if names == [] {
      assert out.bytes + Strings(names).value == out.bytes;
    } else {
      assert PutPrefixed(names[0]).Ok?;
      var a := PutPrefixed(names[0]).value;
      assert Strings(names).value == a + Strings(names[1..]).value;
      PutNamesAppends(names[1..], Out(out.bytes + a, out.sent), sequence, ser);
      assert out.bytes + a + Strings(names[1..]).value == out.bytes + Strings(names).value;
    }
  }

  /** How writing the names ends: only a text too long for its prefix throws;
      a reported error is never withdrawn; and with no error reported before,
      the names leave the body error-free exactly when every one encodes. */
  lemma {:induction false} PutNamesOutcome(names: seq<JString>, out: Out, sequence: Int32, ser: Serializer)
    ensures var r := PutNames(names, out, sequence, ser);
            (r.Stopped? ==> r.thrown == IllegalArgument)
            && (r.Going? && out.sent.Some? ==> r.out.sent.Some?)
            && (out.sent.None? ==> (r.Going? && r.out.sent.None? <==> Strings(names).Ok?))
    decreases |names|
  {
    if names != [] {
      match PutPrefixed(names[0])
      case Ok(bs) =>
        PutNamesOutcome(names[1..], Out(out.bytes + bs, out.sent), sequence, ser);
        assert Strings(names).Ok? <==> Strings(names[1..]).Ok?;
      case Err(x) =>
        if x == CharacterCoding {
          match ResendError(NameError(names[0], sequence, ser), ser)
          case Err(y) =>
          case Ok(o) =>
            PutNamesOutcome(names[1..], o, sequence, ser);
        }
    }
  }

  /** The buffer as the encoder leaves it. */
  function Finish(r: Progress): (o: BodyOutcome)
    ensures r.Stopped? ==> o == Throws(r.thrown, r.latched)
    ensures r.Going? && r.out.sent.None? ==> o == Body(r.out.bytes)
    ensures r.Going? && r.out.sent.Some? ==> o == ReplacedByError(r.out.bytes, r.out.sent.value)
  {
    match r
    case Stopped(x, l) => Throws(x, l)
    case Going(Out(bs, None)) => Body(bs)
    case Going(Out(bs, Some(e))) => ReplacedByError(bs, e)
  }

  /** The error text at the end of a name-lookup reply. */
  function PutErrorText(afterNames: Progress, errorMsg: JString, sequence: Int32, ser: Serializer): (r: Progress)
    ensures afterNames.Stopped? ==> r == afterNames
    ensures afterNames.Going? && r.Stopped? ==> r.thrown == IllegalArgument
    ensures afterNames.Going? && PutPrefixed(errorMsg).Ok? ==>
              r == Going(Out(afterNames.out.bytes + PutPrefixed(errorMsg).value, afterNames.out.sent))
    ensures afterNames.Going? && WellFormed(errorMsg) && PutPrefixed(errorMsg).Err? ==>
              r == Stopped(IllegalArgument, afterNames.out.sent)
    ensures afterNames.Going? && !WellFormed(errorMsg) ==>
              var e := EncodingError(NAME_LOOKUP_ERROR_TEXT, errorMsg, sequence, CharacterCoding, ser);
              (r.Going? <==> EncodeError(e, ser.placeholder).Ok?)
              && (r.Going? ==> r.out == Out(EncodeError(e, ser.placeholder).value, Some(e)))
              && (r.Stopped? ==> r.latched == afterNames.out.sent)
  {
    match afterNames
    case Stopped(x, l) => Stopped(x, l)
    case Going(out) =>
      match PutPrefixed(errorMsg)
      case Ok(bs) => Going(Out(out.bytes + bs, out.sent))
      case Err(x) =>
        if x != CharacterCoding then Stopped(x, out.sent)
        else
          match ResendError(EncodingError(NAME_LOOKUP_ERROR_TEXT, errorMsg, sequence, x, ser), ser)
          case Err(y) => Stopped(y, out.sent)
          case Ok(o) => Going(o)
  }

  /** `MsgNameLookupReturnEncoder.encodeBody`: the count, every interface name,
      then the error text; there is no looked-up name in this layout. */
  function EncodeNameLookupReturn(names: seq<JString>, errorMsg: JString, sequence: Int32, ser: Serializer): (r: BodyOutcome)
    requires |names| <= INT_MAX
    ensures r.Body? <==> Strings(names).Ok? && PutPrefixed(errorMsg).Ok?
    ensures r.Throws? ==> r.thrown == IllegalArgument
  {
    var start := Out(IntBytes(|names|), None);
    PutNamesOutcome(names, start, sequence, ser);
    Finish(PutErrorText(PutNames(names, start, sequence, ser), errorMsg, sequence, ser))
  }

  /** How the peer reads a name-lookup reply: count, names, error text. */
  function ReadNameLookupReturn(bs: seq<Byte>): (r: Read<Message>)
    ensures r.Got? ==> r.value.NameLookupReturn?
  {
    match GetInt(bs)
    case Err(x) => Failed(x)
    case Ok((count, r1)) =>
      if count < 0 then Failed(NegativeArraySize)
      else
        match ReadStrings(count, r1)
        case Failed(x) => Failed(x)
        case Malformed(rest) => Malformed(rest)
        case Got(names, r2) =>
          match GetPrefixed(r2)
          case Failed(x) => Failed(x)
          case Malformed(rest) => Malformed(rest)
          case Got(errorMsg, rest) => Got(NameLookupReturn(names, errorMsg), rest)
  }

  /** A reply whose strings all encode is written whole and reads back whole. */
  lemma NameLookupReturnRoundTrip(names: seq<JString>, errorMsg: JString, sequence: Int32, ser: Serializer, rest: seq<Byte>)
    requires |names| <= INT_MAX
    requires Strings(names).Ok? && PutPrefixed(errorMsg).Ok?
    ensures EncodeNameLookupReturn(names, errorMsg, sequence, ser).Body?
    ensures ReadNameLookupReturn(EncodeNameLookupReturn(names, errorMsg, sequence, ser).bytes + rest)
            == Got(NameLookupReturn(names, errorMsg), rest)
  {
    var n := IntBytes(|names|);
    var b := Strings(names).value;
    var c := PutPrefixed(errorMsg).value;
    NameLookupReturnWhole(names, errorMsg, sequence, ser);
    Regroup(n, b, c, rest);
    ReadNameLookupReturnLayout(names, errorMsg, rest, n + b + c + rest);
  }

  /** Names and text that all encode give the plain layout. */
  lemma NameLookupReturnWhole(names: seq<JString>, errorMsg: JString, sequence: Int32, ser: Serializer)
    requires |names| <= INT_MAX
    requires Strings(names).Ok? && PutPrefixed(errorMsg).Ok?
    ensures EncodeNameLookupReturn(names, errorMsg, sequence, ser)
            == Body(IntBytes(|names|) + Strings(names).value + PutPrefixed(errorMsg).value)
  {
    PutNamesAppends(names, Out(IntBytes(|names|), None), sequence, ser);
  }

  lemma Regroup(a: seq<Byte>, b: seq<Byte>, c: seq<Byte>, d: seq<Byte>)
    ensures a + b + c + d == a + (b + (c + d))
  {
  }

  lemma ReadNameLookupReturnLayout(names: seq<JString>, errorMsg: JString, rest: seq<Byte>, bs: seq<Byte>)
    requires |names| <= INT_MAX
    requires Strings(names).Ok? && PutPrefixed(errorMsg).Ok?
    requires bs == IntBytes(|names|) + (Strings(names).value + (PutPrefixed(errorMsg).value + rest))
    ensures ReadNameLookupReturn(bs) == Got(NameLookupReturn(names, errorMsg), rest)
  {
    var b := Strings(names).value;
    var c := PutPrefixed(errorMsg).value;
    IntRoundTrip(|names|, b + (c + rest));
    StringsRoundTrip(names, c + rest);
    PrefixedRoundTrip(errorMsg, rest);
  }

  /** After a name fails to encode, the error body replaces the buffer but the
      later names and the error text are still appended behind it. */
  lemma LaterNamesStillAppended(before: seq<JString>, bad: JString, after: seq<JString>, errorMsg: JString,
                                sequence: Int32, ser: Serializer)
    requires |before + [bad] + after| <= INT_MAX
    requires Strings(before).Ok? && Strings(after).Ok? && PutPrefixed(errorMsg).Ok?
    requires !WellFormed(bad)
    requires EncodeError(NameError(bad, sequence, ser), ser.placeholder).Ok?
    ensures EncodeNameLookupReturn(before + [bad] + after, errorMsg, sequence, ser)
            == ReplacedByError(EncodeError(NameError(bad, sequence, ser), ser.placeholder).value
                               + Strings(after).value + PutPrefixed(errorMsg).value,
                               NameError(bad, sequence, ser))
  {
    var names := before + [bad] + after;
    var error := NameError(bad, sequence, ser);
    var eb := EncodeError(error, ser.placeholder).value;
    NamesAfterBadOne(before, bad, after, Out(IntBytes(|names|), None), sequence, ser);
    assert PutErrorText(Going(Out(eb + Strings(after).value, Some(error))), errorMsg, sequence, ser)
           == Going(Out(eb + Strings(after).value + PutPrefixed(errorMsg).value, Some(error)));
  }

  /** A reply whose only name cannot be encoded and whose error text is too
      long for its prefix: `sendEncodingError` latches the name's error, and
      then the text throws. */
  lemma NameLatchedBeforeTextThrows(bad: JString, errorMsg: JString, sequence: Int32, ser: Serializer)
    requires !WellFormed(bad)
    requires EncodeError(NameError(bad, sequence, ser), ser.placeholder).Ok?
    requires WellFormed(errorMsg) && PutPrefixed(errorMsg).Err?
    ensures EncodeNameLookupReturn([bad], errorMsg, sequence, ser)
            == Throws(IllegalArgument, Some(NameError(bad, sequence, ser)))
  {
    assert [] + [bad] + [] == [bad];
    NamesAfterBadOne([], bad, [], Out(IntBytes(1), None), sequence, ser);
  }

  lemma NamesAfterBadOne(before: seq<JString>, bad: JString, after: seq<JString>, start: Out,
                         sequence: Int32, ser: Serializer)
    requires Strings(before).Ok? && Strings(after).Ok?
    requires !WellFormed(bad)
    requires EncodeError(NameError(bad, sequence, ser), ser.placeholder).Ok?
    ensures PutNames(before + [bad] + after, start, sequence, ser)
            == Going(Out(EncodeError(NameError(bad, sequence, ser), ser.placeholder).value + Strings(after).value,
                         Some(NameError(bad, sequence, ser))))
  {
    var error := NameError(bad, sequence, ser);
    var eb := EncodeError(error, ser.placeholder).value;
    assert before + [bad] + after == before + ([bad] + after);
    PutNamesSplit(before, [bad] + after, start, sequence, ser);
    var mid := Out(start.bytes + Strings(before).value, start.sent);
    assert ([bad] + after)[0] == bad && ([bad] + after)[1..] == after;
    assert ResendError(error, ser) == Ok(Out(eb, Some(error)));
    assert PutNames([bad] + after, mid, sequence, ser) == PutNames(after, Out(eb, Some(error)), sequence, ser);
    PutNamesAppends(after, Out(eb, Some(error)), sequence, ser);
  }

  lemma {:induction false} PutNamesSplit(before: seq<JString>, after: seq<JString>, out: Out, sequence: Int32, ser: Serializer)
    requires Strings(before).Ok?
    ensures PutNames(before + after, out, sequence, ser)
            == PutNames(after, Out(out.bytes + Strings(before).value, out.sent), sequence, ser)
    decreases |before|
  {
    if before == [] {
      assert before + after == after;
      assert out.bytes + Strings(before).value == out.bytes;
    } else {
      assert PutPrefixed(before[0]).Ok?;
      var a := PutPrefixed(before[0]).value;
      assert Strings(before).value == a + Strings(before[1..]).value;
      assert (before + after)[0] == before[0];
      assert (before + after)[1..] == before[1..] + after;
      PutNamesSplit(before[1..], after, Out(out.bytes + a, out.sent), sequence, ser);
      assert out.bytes + a + Strings(before[1..]).value == out.bytes + Strings(before).value;
    }
  }

  /** A freshly built `MsgNameLookupReturn`: `java.lang.Object` and no error. */
  function NewNameLookupReturn(noError: JString): (m: Message)
    ensures m.NameLookupReturn? && m.interfaces == [Text(OBJECT_CLASS)] && m.errorMsg == noError
  {
    NameLookupReturn([Text(OBJECT_CLASS)], noError)
  }

  /** A freshly built `MsgInterfaceLookupReturn`: also without a looked-up name. */
  function NewInterfaceLookupReturn(noError: JString): (m: Message)
    ensures m.InterfaceLookupReturn? && m.lookedUpName.None?
    ensures m.interfaces == [Text(OBJECT_CLASS)] && m.errorMsg == noError
  {
    InterfaceLookupReturn(None, [Text(OBJECT_CLASS)], noError)
  }

  /** The name part of `MsgInterfaceLookupReturn.toString`, which dereferences
      the name: a reply whose name is still null cannot be printed. */
  function DescribeLookedUpName(m: Message): (r: Result<JString>)
    requires m.InterfaceLookupReturn?
    ensures r.Err? <==> m.lookedUpName.None?
    ensures r.Err? ==> r.error == NullPointer
    ensures r.Ok? && |m.lookedUpName.value| > 0 ==> r.value == m.lookedUpName.value
    ensures r.Ok? && |m.lookedUpName.value| == 0 ==> r.value == Text("<NullLength>")
  {
    match m.lookedUpName
    case None => Err(NullPointer)
    case Some(name) => Ok(if |name| == 0 then Text("<NullLength>") else name)
  }

  /** A reply printed before its name was set throws. */
  lemma FreshReplyCannotBePrinted(noError: JString)
    ensures DescribeLookedUpName(NewInterfaceLookupReturn(noError)) == Err(NullPointer)
  {
  }

  // ---------------------------------------------------------------------------
  // Raw channels and one-byte replies

  /** The bytes `put(ByteBuffer)` sends: a written-to buffer is flipped first. */
  function Sendable(bb: ByteBuffer): (data: seq<Byte>)
    requires bb.Valid()
    ensures bb.position > 0 ==> data == bb.content[..bb.position]
    ensures bb.position == 0 ==> data == bb.content[..bb.limit]
  {
    if bb.position > 0 then bb.content[..bb.position] else bb.content[..bb.limit]
  }

  /** `MsgRawChannelDataEncoder.encodeBody`: the channel token, then the data.
      Sending drains the buffer: it is left at its limit. */
  function EncodeRawChannelData(token: Int32, bb: ByteBuffer): (r: (BodyOutcome, ByteBuffer))
    requires bb.Valid()
    ensures r.0 == Body(IntBytes(token) + Sendable(bb))
    ensures r.1.Valid() && r.1.content == bb.content && r.1.position == r.1.limit == |Sendable(bb)|
  {
    var end := if bb.position > 0 then bb.position else bb.limit;
    (Body(IntBytes(token) + Sendable(bb)), ByteBuffer(bb.content, end, end))
  }

  /** Sending the same message again sends the same bytes. */
  lemma RawChannelDataResendable(token: Int32, bb: ByteBuffer)
    requires bb.Valid()
    ensures EncodeRawChannelData(token, EncodeRawChannelData(token, bb).1).0 == EncodeRawChannelData(token, bb).0
  {
  }

  /** `MsgRawChannelDataDecoder.decodeBody`: the token, then body size minus four
      data bytes, into a buffer left positioned after them. */
  function DecodeRawChannelData(bodySize: Int32, bs: seq<Byte>): (r: Read<Message>)
    ensures !r.Malformed? && (r.Got? ==> r.value.RawChannelData?)
    ensures r.Failed? ==> r.error in {BufferUnderflow, NegativeArraySize}
    ensures r.Got? ==> var d := r.value.data;
                       d.Valid() && |d.content| == d.position == d.limit == Wrap32(bodySize - 4)
  {
    var dataSize := Wrap32(bodySize - 4);
    match GetInt(bs)
    case Err(x) => Failed(x)
    case Ok((token, r1)) =>
      if dataSize < 0 then Failed(NegativeArraySize)
      else if |r1| < dataSize then Failed(BufferUnderflow)
      else Got(RawChannelData(token, ByteBuffer(r1[..dataSize], dataSize, dataSize)), r1[dataSize..])
  }

  /** With the header's body size, the receiver gets the token and exactly the
      data sent, and forwarding what it got sends the same data again. */
  lemma RawChannelDataRoundTrip(token: Int32, bb: ByteBuffer, rest: seq<Byte>)
    requires bb.Valid() && 4 + |Sendable(bb)| <= INT_MAX
    ensures var data := Sendable(bb);
            DecodeRawChannelData(4 + |data|, EncodeRawChannelData(token, bb).0.bytes + rest)
            == Got(RawChannelData(token, ByteBuffer(data, |data|, |data|)), rest)
    ensures Sendable(ByteBuffer(Sendable(bb), |Sendable(bb)|, |Sendable(bb)|)) == Sendable(bb)
            || Sendable(bb) == []
  {
    var data := Sendable(bb);
    assert IntBytes(token) + data + rest == IntBytes(token) + (data + rest);
    IntRoundTrip(token, data + rest);
    assert (data + rest)[..|data|] == data;
    assert (data + rest)[|data|..] == rest;
  }

  /** `MsgCloseRawChannelEncoder.encodeBody`: the token alone. */
  function EncodeCloseRawChannel(token: Int32): (r: BodyOutcome)
    ensures r.Body? && |r.bytes| == 4
  {
    Body(IntBytes(token))
  }

  /** `MsgCloseRawChannelDecoder.decodeBody`. */
  function DecodeCloseRawChannel(bs: seq<Byte>): (r: Read<Message>)
    ensures !r.Malformed? && (r.Got? ==> r.value.CloseRawChannel?)
    ensures r.Failed? <==> |bs| < 4
  {
    match GetInt(bs)
    case Err(x) => Failed(x)
    case Ok((token, rest)) => Got(CloseRawChannel(token), rest)
  }

  lemma CloseRawChannelRoundTrip(token: Int32, rest: seq<Byte>)
    ensures DecodeCloseRawChannel(EncodeCloseRawChannel(token).bytes + rest) == Got(CloseRawChannel(token), rest)
  {
    IntRoundTrip(token, rest);
  }

  /** `MsgRawChannelDataReturnDecoder.decodeBody`: one byte, whatever it is. */
  function DecodeRawChannelDataReturn(bs: seq<Byte>): (r: Read<Message>)
    ensures r.Got? <==> |bs| >= 1
    ensures r.Got? ==> r.value == RawChannelDataReturn && r.rest == bs[1..]
    ensures r.Failed? ==> r.error == BufferUnderflow
  {
    match GetByte(bs)
    case Err(x) => Failed(x)
    case Ok((_, rest)) => Got(RawChannelDataReturn, rest)
  }

  /** One boolean byte; any other byte throws from `byteToBoolean`. */
  function BooleanBody(bs: seq<Byte>, make: bool -> Message): (r: Read<Message>)
    ensures !r.Malformed?
    ensures r.Got? <==> |bs| >= 1 && (bs[0] == 0xFF || bs[0] == 0x00)
    ensures r.Got? ==> r == Got(make(bs[0] == 0xFF), bs[1..])
    ensures r.Failed? ==> (r.error == BufferUnderflow <==> bs == [])
    ensures r.Failed? ==> r.error in {BufferUnderflow, IllegalArgument}
  {
    match GetByte(bs)
    case Err(x) => Failed(x)
    case Ok((b, rest)) =>
      match Utils.ByteToBoolean(b)
      case Err(x) => Failed(x)
      case Ok(v) => Got(make(v), rest)
  }

  /** `MsgCloseRawChannelReturnDecoder.decodeBody`. */
  function DecodeCloseRawChannelReturn(bs: seq<Byte>): (r: Read<Message>)
    ensures !r.Malformed? && (r.Got? ==> r.value.CloseRawChannelReturn?)
  {
    BooleanBody(bs, (v: bool) => CloseRawChannelReturn(v))
  }

  /** `MsgEqualsReturnDecoder.decodeBody`. */
  function DecodeEqualsReturn(bs: seq<Byte>): (r: Read<Message>)
    ensures !r.Malformed? && (r.Got? ==> r.value.EqualsReturn?)
  {
    BooleanBody(bs, (v: bool) => EqualsReturn(v))
  }

  /** The boolean replies read back the boolean the peer wrote. */
  lemma BooleanRepliesRoundTrip(v: bool, rest: seq<Byte>)
    ensures DecodeCloseRawChannelReturn([Utils.BooleanToByte(v)] + rest) == Got(CloseRawChannelReturn(v), rest)
    ensures DecodeEqualsReturn([Utils.BooleanToByte(v)] + rest) == Got(EqualsReturn(v), rest)
  {
    assert ([Utils.BooleanToByte(v)] + rest)[1..] == rest;
  }

  // ---------------------------------------------------------------------------
  // Dispatch

  /** The messages a body decoder can produce. */
  predicate Yields(d: BodyDecoder, m: Message) {
    match d
    case NameLookupDecoder => m.NameLookup? || m.LocalError?
    case InterfaceLookupDecoder => m.InterfaceLookup? || m.LocalError?
    case HashCodeDecoder => m.HashCode? || m.LocalError?
    case HashCodeReturnDecoder => m.HashCodeReturn? || m.LocalError?
    case ToStringReturnDecoder => m.ToStringReturn? || m.LocalError?
    case InterfaceLookupReturnDecoder => m.InterfaceLookupReturn? || m.LocalError?
    case ReleaseRefDecoder => m.ReleaseRef?
    case RawChannelDataDecoder => m.RawChannelData?
    case RawChannelDataReturnDecoder => m.RawChannelDataReturn?
    case CloseRawChannelDecoder => m.CloseRawChannel?
    case CloseRawChannelReturnDecoder => m.CloseRawChannelReturn?
    case EqualsReturnDecoder => m.EqualsReturn?
    case ErrorDecoder => m.Error?
  }

  /** `decodeBody` of the decoder bound to one message type: it produces that
      message type, or for the string bodies a locally built error; it never
      answers null. */
  function DecodeBody(d: BodyDecoder, bodySize: Int32, bs: seq<Byte>): (r: Read<Message>)
    ensures !r.Malformed?
    ensures r.Got? ==> Yields(d, r.value)
  {
    match d
    case NameLookupDecoder => DecodeNameLookup(bs)
    case InterfaceLookupDecoder => DecodeInterfaceLookup(bs)
    case HashCodeDecoder => DecodeHashCode(bs)
    case HashCodeReturnDecoder => DecodeHashCodeReturn(bs)
    case ToStringReturnDecoder => DecodeToStringReturn(bs)
    case InterfaceLookupReturnDecoder => DecodeInterfaceLookupReturn(bs)
    case ReleaseRefDecoder => DecodeReleaseRef(bs)
    case RawChannelDataDecoder => DecodeRawChannelData(bodySize, bs)
    case RawChannelDataReturnDecoder => DecodeRawChannelDataReturn(bs)
    case CloseRawChannelDecoder => DecodeCloseRawChannel(bs)
    case CloseRawChannelReturnDecoder => DecodeCloseRawChannelReturn(bs)
    case EqualsReturnDecoder => DecodeEqualsReturn(bs)
    case ErrorDecoder => DecodeErrorBody(bs)
  }
}

=== FILE: classloader.dfy ===
/** `SimonClassLoaderHelper`: choosing the class loader at the bottom of the
    delegation hierarchy.

    A class loader is an id; `None` stands for the primordial (bootstrap) loader,
    which Java represents as null. The delegation hierarchy is a map from a loader
    to its parent; a loader absent from the map has the primordial parent. Parents
    are created before their children, so a parent's id is smaller than its
    child's: this is what makes every parent chain finite.
 */
module ClassLoaderHelper {
  import opened Errors

  type Loader = Option<nat>
  type Parents = map<nat, Loader>

  /** Every parent link points to an older loader. */
  ghost predicate WellFormed(parents: Parents) {
    forall l :: l in parents && parents[l].Some? ==> parents[l].value < l
  }

  /** `getParent`. */
  function ParentOf(parents: Parents, l: nat): Loader {
    if l in parents then parents[l] else None
  }

  /** The loop of `isChild`: does `target` occur on the chain from `current` upwards? */
  function OnChain(parents: Parents, target: nat, current: Loader): (b: bool)
    requires WellFormed(parents)
    ensures current == Some(target) ==> b
    decreases if current.Some? then current.value + 1 else 0
  {
    match current
    case None => false
    case Some(c) => c == target || OnChain(parents, target, ParentOf(parents, c))
  }

  /** `isChild(loader1, loader2)`: `loader2` equals `loader1` or delegates to it;
      the primordial loader is everybody's ancestor. */
  function IsChild(parents: Parents, loader1: Loader, loader2: Loader): (b: bool)
    requires WellFormed(parents)
    ensures loader1 == loader2 ==> b
    ensures loader1 != loader2 && loader2.None? ==> !b
    ensures loader1.None? ==> b
  {
    if loader1 == loader2 then true
    else if loader2.None? then false
    else if loader1.None? then true
    else OnChain(parents, loader1.value, loader2)
  }

  /** The ancestors of `l`, itself included: the independent reading of `isChild`. */
  ghost function Ancestors(parents: Parents, l: Loader): (s: set<nat>)
    requires WellFormed(parents)
    ensures l.Some? ==> l.value in s
    decreases if l.Some? then l.value + 1 else 0
  {
    match l
    case None => {}
    case Some(c) => {c} + Ancestors(parents, ParentOf(parents, c))
  }

  lemma {:induction false} OnChainIsAncestor(parents: Parents, target: nat, current: Loader)
    requires WellFormed(parents)
    ensures OnChain(parents, target, current) <==> target in Ancestors(parents, current)
    decreases if current.Some? then current.value + 1 else 0
  {
    if current.Some? {
      OnChainIsAncestor(parents, target, ParentOf(parents, current.value));
    }
  }

  /** Every ancestor is older than (or equal to) its descendant. */
  lemma {:induction false} AncestorsOlder(parents: Parents, l: nat, a: nat)
    requires WellFormed(parents)
    requires a in Ancestors(parents, Some(l))
    ensures a <= l
    decreases l
  {
    if a != l {
      var p := ParentOf(parents, l);
      assert a in Ancestors(parents, p);
      AncestorsOlder(parents, p.value, a);
    }
  }

  /** Being an ancestor is transitive. */
  lemma {:induction false} AncestorsTransitive(parents: Parents, a: nat, b: nat, c: Loader)
    requires WellFormed(parents)
    requires b in Ancestors(parents, c)
    requires a in Ancestors(parents, Some(b))
    ensures a in Ancestors(parents, c)
    decreases if c.Some? then c.value + 1 else 0
  {
    if c.value != b {
      AncestorsTransitive(parents, a, b, ParentOf(parents, c.value));
    }
  }

  /** `isChild` is a partial order: reflexive, transitive and antisymmetric. */
  lemma IsChildTransitive(parents: Parents, a: Loader, b: Loader, c: Loader)
    requires WellFormed(parents)
    requires IsChild(parents, a, b) && IsChild(parents, b, c)
    ensures IsChild(parents, a, c)
  {
    if a.Some? && b.Some? && c.Some? && a != b && b != c && a != c {
      OnChainIsAncestor(parents, a.value, b);
      OnChainIsAncestor(parents, b.value, c);
      AncestorsTransitive(parents, a.value, b.value, c);
      OnChainIsAncestor(parents, a.value, c);
    }
  }

  lemma IsChildAntisymmetric(parents: Parents, a: Loader, b: Loader)
    requires WellFormed(parents)
    requires IsChild(parents, a, b) && IsChild(parents, b, a)
    ensures a == b
  {
    if a != b {
      OnChainIsAncestor(parents, a.value, b);
      OnChainIsAncestor(parents, b.value, a);
      AncestorsOlder(parents, b.value, a.value);
      AncestorsOlder(parents, a.value, b.value);
    }
  }

  /** `getClassLoader(caller, special)`: start from the special loader (else the
      caller's), prefer the child of the start and context loaders when they are
      related, otherwise the special loader or the context loader; never return
      a proper ancestor of the system loader. */
  function GetClassLoader(parents: Parents, callerLoader: Loader, special: Loader,
                          context: Loader, system: Loader): (r: Loader)
    requires WellFormed(parents)
    ensures var start := if special.Some? then special else callerLoader;
      && (r == start || r == context || r == system)
      && (IsChild(parents, r, system) ==> r == system)
      && (IsChild(parents, context, start) && !IsChild(parents, start, system) ==> r == start)
      && ((!IsChild(parents, context, start) && IsChild(parents, start, context)
           && !IsChild(parents, context, system)) ==> r == context)
      && (!IsChild(parents, context, start) && !IsChild(parents, start, context) ==>
            r == system || r == (if special.Some? then special else context))
  {
    var start := if special.Some? then special else callerLoader;
    var chosen :=
      if IsChild(parents, context, start) then start
      else if IsChild(parents, start, context) then context
      else if special.Some? then special else context;
    if IsChild(parents, chosen, system) then system else chosen
  }

  /** The one-argument `getClassLoader(caller)` is the two-argument form without a special loader. */
  function GetClassLoaderFor(parents: Parents, callerLoader: Loader, context: Loader, system: Loader)
    : (r: Loader)
    requires WellFormed(parents)
    ensures r == callerLoader || r == context || r == system
    ensures IsChild(parents, r, system) ==> r == system
  {
    GetClassLoader(parents, callerLoader, None, context, system)
  }

  /** When the start and context loaders are related, the choice is below (or at)
      both of them, unless the system loader took over. */
  lemma ChoiceIsDescendant(parents: Parents, callerLoader: Loader, special: Loader,
                           context: Loader, system: Loader)
    requires WellFormed(parents)
    ensures var start := if special.Some? then special else callerLoader;
      var r := GetClassLoader(parents, callerLoader, special, context, system);
      (IsChild(parents, context, start) || IsChild(parents, start, context)) ==>
        r == system || (IsChild(parents, start, r) && IsChild(parents, context, r))
  {
  }
}

=== FILE: connpool.dfy ===
/** The client's connection pool (`AbstractLookup.serverDispatcherRelation`):
    one connection per server string, shared by every lookup against that
    server and counted by reference.

    A connection stands for a `ClientToServerConnection`: its dispatcher and
    session are identified by numbers, and the MINA work a release or a failed
    connect sets in motion is returned as effects.
 */
module ConnectionPool {
  import opened Errors
  import opened JavaInt
  import Numerals

  // ---------------------------------------------------------------------------
  // Server strings

  /** Host addresses are numeric literals: they never contain '@'. */
  predicate NoAt(s: string) {
    forall i :: 0 <= i < |s| ==> s[i] != '@'
  }

  /** `createServerString`: `[source@]host:port`, the prefix present iff a source
      address is set. */
  function CreateServerString(source: Option<string>, host: string, port: Int32): (s: string)
    ensures source.None? ==> s == host + [':'] + Numerals.Decimal(port)
    ensures source.Some? ==> s == source.value + ['@'] + host + [':'] + Numerals.Decimal(port)
  {
    var prefix := if source.Some? then source.value + ['@'] else [];
    prefix + host + [':'] + Numerals.Decimal(port)
  }

  /** Cutting at the last `c`: the part after it holds no `c`. */
  lemma SplitLast(a1: string, b1: string, a2: string, b2: string, c: char)
    requires forall i :: 0 <= i < |b1| ==> b1[i] != c
    requires forall i :: 0 <= i < |b2| ==> b2[i] != c
    requires a1 + [c] + b1 == a2 + [c] + b2
    ensures a1 == a2 && b1 == b2
  {
    var s := a1 + [c] + b1;
    var t := a2 + [c] + b2;
    var k := if |b1| < |b2| then |b1| else |b2|;
    assert s[|s| - 1 - k] == t[|t| - 1 - k];
    assert |b1| == |b2|;
    assert a1 == s[..|a1|];
    assert a2 == t[..|a2|];
    assert b1 == s[|a1| + 1..];
    assert b2 == t[|a2| + 1..];
  }

  /** Cutting at the first `c`: the part before it holds no `c`. */
  lemma SplitFirst(a1: string, b1: string, a2: string, b2: string, c: char)
    requires forall i :: 0 <= i < |a1| ==> a1[i] != c
    requires forall i :: 0 <= i < |a2| ==> a2[i] != c
    requires a1 + [c] + b1 == a2 + [c] + b2
    ensures a1 == a2 && b1 == b2
  {
    var s := a1 + [c] + b1;
    var k := if |a1| < |a2| then |a1| else |a2|;
    assert s[k] == (a2 + [c] + b2)[k];
    assert |a1| == |a2|;
    assert a1 == s[..|a1|];
    assert a2 == (a2 + [c] + b2)[..|a2|];
    assert b1 == s[|a1| + 1..];
    assert b2 == (a2 + [c] + b2)[|a2| + 1..];
  }

  /** A decimal holds no ':'. */
  lemma DecimalHasNoColon(x: int)
    ensures forall i :: 0 <= i < |Numerals.Decimal(x)| ==> Numerals.Decimal(x)[i] != ':'
  {
  }

  /** Different (source, host, port) triples give different server strings, so the
      pool keeps one connection per server and source address. */
  lemma ServerStringInjective(src1: Option<string>, h1: string, p1: Int32,
                              src2: Option<string>, h2: string, p2: Int32)
    requires NoAt(h1) && NoAt(h2)
    requires src1.Some? ==> NoAt(src1.value)
    requires src2.Some? ==> NoAt(src2.value)
    requires CreateServerString(src1, h1, p1) == CreateServerString(src2, h2, p2)
    ensures src1 == src2 && h1 == h2 && p1 == p2
  {
    var a1 := (if src1.Some? then src1.value + "@" else "") + h1;
    var a2 := (if src2.Some? then src2.value + "@" else "") + h2;
    PortSplit(a1, p1, a2, p2);
    AtMarksSource(src1, h1);
    AtMarksSource(src2, h2);
    if src1.Some? {
      assert src1.value + ['@'] + h1 == a1;
      assert src2.value + ['@'] + h2 == a2;
      SplitFirst(src1.value, h1, src2.value, h2, '@');
    } else {
      assert a1 == h1 && a2 == h2;
    }
  }

  /** The port is what follows the last ':'. */
  lemma PortSplit(a1: string, p1: Int32, a2: string, p2: Int32)
    requires a1 + ":" + Numerals.Decimal(p1) == a2 + ":" + Numerals.Decimal(p2)
    ensures a1 == a2 && p1 == p2
  {
    var d1 := Numerals.Decimal(p1);
    var d2 := Numerals.Decimal(p2);
    DecimalHasNoColon(p1);
    DecimalHasNoColon(p2);
    SplitLast(a1, d1, a2, d2, ':');
    Numerals.DecimalInjective(p1, p2);
  }

  /** The part before the port holds an '@' iff a source address is set. */
  lemma AtMarksSource(src: Option<string>, h: string)
    requires NoAt(h)
    requires src.Some? ==> NoAt(src.value)
    ensures var a := (if src.Some? then src.value + "@" else "") + h;
            (exists i :: 0 <= i < |a| && a[i] == '@') <==> src.Some?
  {
    var a := (if src.Some? then src.value + "@" else "") + h;
    if src.Some? {
      assert a[|src.value|] == '@';
    } else {
      assert a == h;
    }
  }

  // ---------------------------------------------------------------------------
  // The pool

  /** A `ClientToServerConnection`. */
  datatype Connection = Connection(dispatcher: nat, session: nat, refCount: int)

  /** The relation map, and whether `monitorCompleteShutdown` is signalled. */
  datatype Pool = Pool(relation: map<string, Connection>, shutdownSignalled: bool)

  /** Every pooled connection is referenced at least once. */
  ghost predicate Valid(p: Pool) {
    forall k :: k in p.relation ==> p.relation[k].refCount >= 1
  }

  /** How the connect attempt of a new connection ends. */
  datatype ConnectAttempt =
    | Connected(session: nat)  // the future is connected
    | NotConnected             // the wait timed out or the connect was refused
    | ConnectThrew             // connecting threw

  /** What the pool asks of the other components. */
  datatype PoolEffect =
    | ShutdownDispatcher(dispatcher: nat)
    | MarkReleased(dispatcher: nat)
    | CloseOnFlush(session: nat)

  /** The (session, dispatcher) container a lookup continues with. */
  datatype Acquired = Acquired(dispatcher: nat, session: nat)

  /** `buildSessionDispatcherContainer`: a pooled connection is reused and referenced
      once more; otherwise a new one, with dispatcher `created`, is connected and
      pooled with one reference. A failed connect pools nothing and shuts the new
      dispatcher down. */
  function Acquire(p: Pool, server: string, created: nat, attempt: ConnectAttempt)
    : (res: (Pool, Result<Acquired>, seq<PoolEffect>))
    ensures server in p.relation ==>
      && res.1 == Ok(Acquired(p.relation[server].dispatcher, p.relation[server].session))
      && res.0 == p.(relation := p.relation[server := p.relation[server].(refCount := p.relation[server].refCount + 1)])
      && res.2 == []
    ensures server !in p.relation && attempt.Connected? ==>
      && res.1 == Ok(Acquired(created, attempt.session))
      && res.0.relation == p.relation[server := Connection(created, attempt.session, 1)]
      && !res.0.shutdownSignalled
      && res.2 == []
    ensures server !in p.relation && !attempt.Connected? ==>
      res == (p, Err(EstablishConnectionFailed), [ShutdownDispatcher(created)])
    ensures Valid(p) ==> Valid(res.0)
  {
    if server in p.relation then
      var c := p.relation[server];
      var c' := c.(refCount := c.refCount + 1);
      (p.(relation := p.relation[server := c']), Ok(Acquired(c.dispatcher, c.session)), [])
    else
      match attempt
      case Connected(session) =>
        (Pool(p.relation[server := Connection(created, session, 1)], false), Ok(Acquired(created, session)), [])
      case _ =>
        (p, Err(EstablishConnectionFailed), [ShutdownDispatcher(created)])
  }

  /** `releaseDispatcher`: one reference less. At zero the connection leaves the pool,
      its dispatcher is shut down and marked released, its session is closed, and
      the result is true. An unknown server string changes nothing. */
  function ReleaseDispatcher(p: Pool, server: string): (res: (Pool, bool, seq<PoolEffect>))
    ensures server !in p.relation ==> res == (p, false, [])
    ensures server in p.relation ==>
      var c := p.relation[server];
      && (res.1 <==> c.refCount - 1 == 0)
      && (res.1 ==> && res.0 == p.(relation := p.relation - {server})
                    && res.2 == [ShutdownDispatcher(c.dispatcher), MarkReleased(c.dispatcher), CloseOnFlush(c.session)])
      && (!res.1 ==> res.0 == p.(relation := p.relation[server := c.(refCount := c.refCount - 1)]) && res.2 == [])
    ensures Valid(p) ==> Valid(res.0)
  {
    if server !in p.relation then (p, false, [])
    else
      var c := p.relation[server];
      var refCount := c.refCount - 1;
      if refCount == 0 then
        (p.(relation := p.relation - {server}), true,
         [ShutdownDispatcher(c.dispatcher), MarkReleased(c.dispatcher), CloseOnFlush(c.session)])
      else
        (p.(relation := p.relation[server := c.(refCount := refCount)]), false, [])
  }

  /** The close listener of a torn-down connection: the complete shutdown is
      signalled iff no connection is left. */
  function CloseCompleted(p: Pool): (r: Pool)
    ensures r.relation == p.relation
    ensures |p.relation| == 0 ==> r.shutdownSignalled
    ensures |p.relation| > 0 ==> r.shutdownSignalled == p.shutdownSignalled
  {
    if |p.relation| == 0 then p.(shutdownSignalled := true) else p
  }

  /** Reusing a pooled connection and releasing it again gives the pool back. */
  lemma AcquireReleaseShared(p: Pool, server: string, created: nat, attempt: ConnectAttempt)
    requires Valid(p) && server in p.relation
    ensures ReleaseDispatcher(Acquire(p, server, created, attempt).0, server) == (p, false, [])
  {
    var c := p.relation[server];
    assert p.relation[server := c.(refCount := c.refCount + 1)][server := c] == p.relation;
  }

  /** Opening a connection and releasing it again removes it and tears it down. */
  lemma AcquireReleaseNew(p: Pool, server: string, created: nat, session: nat)
    requires server !in p.relation
    ensures var (q, _, _) := Acquire(p, server, created, Connected(session));
            ReleaseDispatcher(q, server)
              == (q.(relation := p.relation), true, [ShutdownDispatcher(created), MarkReleased(created), CloseOnFlush(session)])
  {
    assert p.relation[server := Connection(created, session, 1)] - {server} == p.relation;
  }

  /** `n` releases in a row; the results in order. */
  function ReleaseMany(p: Pool, server: string, n: nat): (res: (Pool, seq<bool>))
    ensures |res.1| == n
    decreases n
  {
    if n == 0 then (p, [])
    else
      var (q, torn, _) := ReleaseDispatcher(p, server);
      var (r, rest) := ReleaseMany(q, server, n - 1);
      (r, [torn] + rest)
  }

  /** A connection referenced `n` times is torn down by exactly the `n`-th release:
      the earlier ones report false, the last reports true, and it is gone from
      the pool while every other connection is untouched. */
  lemma {:induction false} TeardownExactlyAtZero(p: Pool, server: string, n: nat)
    requires server in p.relation && p.relation[server].refCount == n && n >= 1
    ensures var (r, results) := ReleaseMany(p, server, n);
            && (forall i :: 0 <= i < n ==> (results[i] <==> i == n - 1))
            && r.relation == p.relation - {server}
    decreases n
  {
    var (q, torn, _) := ReleaseDispatcher(p, server);
    if n == 1 {
      assert torn;
    } else {
      assert !torn;
      TeardownExactlyAtZero(q, server, n - 1);
      assert q.relation - {server} == p.relation - {server};
    }
  }

  /** A release after the teardown finds nothing and reports false. */
  lemma ReleaseAfterTeardown(p: Pool, server: string)
    requires server in p.relation && p.relation[server].refCount == 1
    ensures ReleaseDispatcher(ReleaseDispatcher(p, server).0, server) == (ReleaseDispatcher(p, server).0, false, [])
  {
  }
}

=== FILE: dispatcher.dfy ===
/** The request side of `Dispatcher`: the precondition check every call runs,
    the blocking request/response composition, the one-way sends, the
    closed-listener registry and the reaction to a closed session.

    `M` stands for the reply messages; sessions are numbered; MINA's
    `session.write` and the pool release are effects, not performed.
 */
module Dispatcher {
  import opened Errors
  import opened JavaInt
  import opened Lists
  import SequenceIds
  import opened PendingRequests
  import LookupTable
  import RefQueue
  import PingWatchdog

  /** A `ClosedListener`, by identity. */
  type Listener = nat

  /** `remoteObjectClosedListenersList`: the listeners per remote object name. */
  type ClosedListeners = map<string, seq<Listener>>

  datatype Dispatcher<M> = Dispatcher(
    counter: SequenceIds.Counter,
    pending: Pending<M>,
    shutdownInProgress: bool,
    running: bool,
    released: bool,
    closedListeners: ClosedListeners)

  /** The constructor: running, no request sent yet, nothing registered. */
  function NewDispatcher<M>(): (d: Dispatcher<M>)
    ensures d.running && !d.shutdownInProgress && !d.released
    ensures SequenceIds.Generate(d.counter).1 == 1
    ensures Valid(d.pending)
  {
    Dispatcher(0, Empty(), false, true, false, map[])
  }

  /** `checkForInvalidState`: a call is refused during shutdown, on a dispatcher that
      no longer runs, and on a closing session. */
  function CheckForInvalidState<M>(d: Dispatcher<M>, sessionClosing: bool): (r: Result<()>)
    ensures r.Ok? <==> d.running && !d.shutdownInProgress && !sessionClosing
    ensures r.Err? ==> r.error == SessionClosed
  {
    if d.shutdownInProgress && d.running then Err(SessionClosed)
    else if !d.running then Err(SessionClosed)
    else if sessionClosing then Err(SessionClosed)
    else Ok(())
  }

  /** `shutdown` as written. The reference queue is cleaned up first (its releases
      are sent while calls are still allowed), then the shutdown flag is set,
      then the lookup table is cleaned up, and only then does the dispatcher stop
      running. The table's cleanup as written fails with two or more sessions
      (`LookupTable.CleanupAsWritten`); its exception escapes before `isRunning`
      is cleared, so the dispatcher keeps running with its flag set. `connected`
      is the set of connected sessions, `order` the table's session order,
      `aware` the bound objects that want to hear of their release. */
  method ShutdownAsWritten<M>(d: Dispatcher<M>, q: RefQueue.Queue, t: LookupTable.Table,
                              connected: set<SessionId>, order: seq<SessionId>, aware: set<LookupTable.Obj>)
    returns (d': Dispatcher<M>, q': RefQueue.Queue, releases: seq<RefQueue.ReleaseRef>,
             t': LookupTable.Table, told: seq<LookupTable.Obj>, r: Result<()>)
    requires LookupTable.IsSessionOrder(t, order)
    ensures q'.refs == [] && !q'.cleanerActive && releases == RefQueue.Releases(q.refs, connected)
    ensures r.Err? <==> |order| >= 2
    ensures r.Err? ==> r.error == ConcurrentModification && order[1] in t'.gcRemoteInstances
    ensures d'.running <==> d.running && |order| >= 2
    ensures d'.shutdownInProgress && d' == d.(shutdownInProgress := true, running := d'.running)
    ensures forall closing :: CheckForInvalidState(d', closing).Err?
    ensures |order| < 2 ==> (t', told) == LookupTable.Cleanup(t, order, aware)
  {
    q', releases := RefQueue.Cleanup(q, connected);
    d' := d.(shutdownInProgress := true);
    var cleaned := LookupTable.CleanupAsWritten(t, order, aware);
    t', told, r := cleaned.0, cleaned.1, cleaned.2;
    if r.Err? {
      return;
    }
    LookupTable.CleanupAsWrittenAgreesOnOneSession(t, order, aware);
    d' := d'.(running := false);
  }

  /** `shutdown` as intended: the same steps with the corrected table cleanup. Every
      callback reference is released, the table is emptied, and the dispatcher
      stops running and refuses every call. */
  method Shutdown<M>(d: Dispatcher<M>, q: RefQueue.Queue, t: LookupTable.Table,
                     connected: set<SessionId>, order: seq<SessionId>, aware: set<LookupTable.Obj>)
    returns (d': Dispatcher<M>, q': RefQueue.Queue, releases: seq<RefQueue.ReleaseRef>,
             t': LookupTable.Table, told: seq<LookupTable.Obj>)
    requires LookupTable.IsSessionOrder(t, order)
    ensures q'.refs == [] && !q'.cleanerActive && releases == RefQueue.Releases(q.refs, connected)
    ensures t'.bindings == map[] && t'.gcRemoteInstances == map[] && t'.refCounts == map[] && t'.cleanupDone
    ensures forall o :: o in told <==> o in aware && LookupTable.ListedBinding(t, order, o)
    ensures d' == d.(shutdownInProgress := true, running := false)
    ensures forall closing :: CheckForInvalidState(d', closing).Err?
  {
    q', releases := RefQueue.Cleanup(q, connected);
    d' := d.(shutdownInProgress := true);
    var cleaned := LookupTable.Cleanup(t, order, aware);
    t', told := cleaned.0, cleaned.1;
    d' := d'.(running := false);
  }

  /** The default wait for a reply, in milliseconds. */
  const DEFAULT_WAIT_TIMEOUT: Int32 := 10000

  /** The wait `invokeMethod` uses: the method's custom timeout when it is positive,
      the default otherwise. */
  function InvokeWaitTimeout(customTimeout: Int32): (t: Int32)
    ensures t > 0
    ensures customTimeout > 0 ==> t == customTimeout
    ensures customTimeout <= 0 ==> t == DEFAULT_WAIT_TIMEOUT
  {
    if customTimeout > 0 then customTimeout else DEFAULT_WAIT_TIMEOUT
  }

  /** What the caller of a blocking request gets for the reply it waited for: the
      reply message, or the remote exception `getRequestResult` throws; any other
      exception object fails the cast to the expected reply class. */
  function ReplyResult<M>(reply: Reply<M>): (r: Result<M>)
    ensures reply.Message? <==> r.Ok?
    ensures reply.Message? ==> r.value == reply.msg
    ensures reply.Failure? && IsRemoteException(reply.error) ==> r == Err(reply.error)
  {
    match reply
    case Message(m) => Ok(m)
    case Failure(e) => if IsRemoteException(e) then Err(e) else Err(ClassCast)
  }

  /** The id the next call will use is not awaited by anybody. The source never
      checks this: ids wrap after `Integer.MAX_VALUE`, and a request still
      outstanding by then shares its id with the new one (see
      `PendingRequests.ReusedIdStrandsEarlierWaiter`). */
  ghost predicate NextIdFree<M>(d: Dispatcher<M>) {
    forall t :: t in d.pending.placed ==> SequenceIds.Generate(d.counter).1 !in d.pending.placed[t]
  }

  /** Appending `id` to a session's list and unplacing it again restores the lists. */
  lemma AppendThenUnplace(placed: map<SessionId, seq<int>>, s: SessionId, id: int)
    requires s in placed ==> |placed[s]| > 0 && id !in placed[s]
    ensures var list := if s in placed then placed[s] + [id] else [id];
            Unplace(placed[s := list], s, id) == placed
  {
    if s in placed {
      var xs := placed[s];
      var q := placed[s := xs + [id]];
      RemoveFirstAppended(xs, id);
      assert Unplace(q, s, id) == q[s := xs];
      assert q[s := xs] == placed;
    } else {
      var q := placed[s := [id]];
      assert RemoveFirst([id], id) == [];
      assert Unplace(q, s, id) == q - {s};
      assert q - {s} == placed;
    }
  }

  /** A request that registers a monitor and then removes it leaves the session lists as they were. */
  lemma CreateThenUnplace<M>(p: Pending<M>, s: SessionId, id: int)
    requires Valid(p)
    requires forall t :: t in p.placed ==> id !in p.placed[t]
    ensures Unplace(CreateMonitor(p, s, id).placed, s, id) == p.placed
  {
    if s in p.placed {
      assert |p.placed[s]| > 0 && id !in p.placed[s];
    }
    AppendThenUnplace(p.placed, s, id);
  }

  /** The blocking calls (`invokeNameLookup`, `invokeMethod`, `invokeToString`,
      `invokeHashCode`, `invokeEquals`, `openRawChannel`, `writeRawData`,
      `closeRawChannel`): check the state, take a sequence id, register the
      monitor, write the request, wait for the reply and take it out of the table. */
  method BlockingCall<M>(d: Dispatcher<M>, s: SessionId, sessionClosing: bool, timeout: int,
                         monitorWait: nat, arrival: Option<(nat, Reply<M>)>)
    returns (d': Dispatcher<M>, sent: Option<SequenceIds.SeqId>, r: Result<M>)
    requires timeout > 0 && monitorWait > 0
    requires Valid(d.pending) && NextIdFree(d)
    ensures Valid(d'.pending)
    ensures CheckForInvalidState(d, sessionClosing).Err? ==> d' == d && sent.None? && r == Err(SessionClosed)
    ensures CheckForInvalidState(d, sessionClosing).Ok? ==>
      && sent == Some(SequenceIds.Generate(d.counter).1)
      && d'.counter == SequenceIds.Generate(d.counter).0
      && d'.pending.placed == d.pending.placed
      && d'.pending.slots == d.pending.slots - {sent.value}
      && r == ReplyResult(WaitOutcome(timeout / monitorWait, arrival))
    ensures d'.closedListeners == d.closedListeners && d'.released == d.released
  {
    if CheckForInvalidState(d, sessionClosing).Err? {
      return d, None, Err(SessionClosed);
    }
    var id;
    d', id, r := Request(d, s, timeout, monitorWait, arrival);
    sent := Some(id);
  }

  /** A blocking call past the state check. */
  method Request<M>(d: Dispatcher<M>, s: SessionId, timeout: int, monitorWait: nat,
                    arrival: Option<(nat, Reply<M>)>)
    returns (d': Dispatcher<M>, id: SequenceIds.SeqId, r: Result<M>)
    requires timeout > 0 && monitorWait > 0
    requires Valid(d.pending) && NextIdFree(d)
    ensures Valid(d'.pending)
    ensures id == SequenceIds.Generate(d.counter).1 && d'.counter == SequenceIds.Generate(d.counter).0
    ensures d'.pending.placed == d.pending.placed && d'.pending.slots == d.pending.slots - {id}
    ensures r == ReplyResult(WaitOutcome(timeout / monitorWait, arrival))
    ensures d' == d.(counter := d'.counter, pending := d'.pending)
  {
    var (counter, next) := SequenceIds.Generate(d.counter);
    id := next;
    var p := CreateMonitor(d.pending, s, id);
    assert Valid(p) by {
      CreateMonitorValid(d.pending, s, id);
    }
    var polls;
    p, polls := WaitForResult(p, s, id, timeout, monitorWait, arrival);
    var outcome := WaitOutcome(timeout / monitorWait, arrival);
    assert p.placed == d.pending.placed by {
      CreateThenUnplace(d.pending, s, id);
    }
    var (p', got) := GetRequestResult(p, id);
    FetchFilled(d.pending, p, id, outcome);
    d' := d.(counter := counter, pending := p');
    match got {
      case Err(e) => r := Err(e);
      case Ok(_) => r := ReplyResult(outcome);
    }
  }

  /** Taking a filled slot out of the table: the table loses the slot, and what the
      caller is handed is the reply's `ReplyResult`. */
  lemma FetchFilled<M>(p0: Pending<M>, p: Pending<M>, id: int, outcome: Reply<M>)
    requires Valid(p) && p.slots == p0.slots[id := Monitor][id := Filled(outcome)]
    ensures Valid(GetRequestResult(p, id).0)
    ensures GetRequestResult(p, id).0.slots == p0.slots - {id}
    ensures GetRequestResult(p, id).1.Err? ==> Err(GetRequestResult(p, id).1.error) == ReplyResult(outcome)
  {
    GetValid(p, id);
    assert GetRequestResult(p, id).0.slots == p0.slots - {id};
  }

  /** The one-way sends (`sendPong`, `sendReleaseRef`, and the common part of
      `sendAsyncInvoke` and `sendPing`): they take a sequence id for the protocol
      but register nothing. */
  function SendOneWay<M>(d: Dispatcher<M>, sessionClosing: bool): (res: (Dispatcher<M>, Result<SequenceIds.SeqId>))
    ensures res.0.pending == d.pending && res.0.closedListeners == d.closedListeners
    ensures CheckForInvalidState(d, sessionClosing).Err? ==> res == (d, Err(SessionClosed))
    ensures CheckForInvalidState(d, sessionClosing).Ok? ==>
              res.1 == Ok(SequenceIds.Generate(d.counter).1) && res.0.counter == SequenceIds.Generate(d.counter).0
  {
    if CheckForInvalidState(d, sessionClosing).Err? then (d, Err(SessionClosed))
    else
      var (counter, id) := SequenceIds.Generate(d.counter);
      (d.(counter := counter), Ok(id))
  }

  /** A one-way send leaves every outstanding request outstanding and every reply a
      blocking call is waiting for still deliverable. */
  lemma OneWayKeepsPending<M>(d: Dispatcher<M>, sessionClosing: bool, s: SessionId, id: int)
    ensures Outstanding(SendOneWay(d, sessionClosing).0.pending, s, id) <==> Outstanding(d.pending, s, id)
  {
  }

  // ---------------------------------------------------------------------------
  // Arguments, asynchronous invocations and pings

  /** An argument of an invocation as the caller passes it: null, a SIMON proxy, an
      object that can be exported (`Utils.isValidRemote`), an endpoint reference,
      or any other value. The id of the `SimonRemoteInstance` built for a proxy
      or an exportable object, and the object's remote interfaces, are computed
      outside this model and carried here. */
  datatype Arg =
    | NullArg
    | ProxyArg(refId: string)
    | ExportableArg(refId: string, obj: LookupTable.Obj, interfaces: seq<string>)
    | EndpointArg
    | ValueArg

  /** What goes on the wire in an argument's place. */
  datatype SentArg = AsGiven(arg: Arg) | RemoteInstance(refId: string)

  /** How many of `args` export an object under `refId`. */
  function Exports(args: seq<Arg>, refId: string): nat {
    if |args| == 0 then 0
    else (if args[0].ExportableArg? && args[0].refId == refId then 1 else 0) + Exports(args[1..], refId)
  }

  /** `prepareArgumentsForSend`: proxies and exportable objects are replaced by a
      remote instance; each exportable object is also put into the lookup table
      for the session, once per occurrence; everything else goes as it is. */
  function PrepareArgumentsForSend(t: LookupTable.Table, s: SessionId, args: seq<Arg>)
    : (res: (LookupTable.Table, seq<SentArg>))
    ensures |res.1| == |args|
    ensures forall i :: 0 <= i < |args| ==>
              (res.1[i].RemoteInstance? <==> args[i].ProxyArg? || args[i].ExportableArg?)
    ensures forall i :: 0 <= i < |args| ==>
              if res.1[i].RemoteInstance? then res.1[i].refId == args[i].refId else res.1[i] == AsGiven(args[i])
    ensures forall refId :: LookupTable.Count(res.0.refCounts, s, refId)
                            == LookupTable.Count(t.refCounts, s, refId) + Exports(args, refId)
    ensures forall u, refId :: u != s ==>
              LookupTable.Count(res.0.refCounts, u, refId) == LookupTable.Count(t.refCounts, u, refId)
    ensures (forall i :: 0 <= i < |args| ==> !args[i].ExportableArg?) ==> res.0 == t
    ensures LookupTable.Valid(t) ==> LookupTable.Valid(res.0)
    decreases |args|
  {
    if |args| == 0 then (t, [])
    else
      var a := args[0];
      var t1 := if a.ExportableArg? then LookupTable.PutRemoteInstance(t, s, a.refId, a.obj, a.interfaces) else t;
      var sent := if a.ProxyArg? || a.ExportableArg? then RemoteInstance(a.refId) else AsGiven(a);
      var (t2, rest) := PrepareArgumentsForSend(t1, s, args[1..]);
      assert forall i :: 1 <= i < |args| ==> args[i] == args[1..][i - 1];
      (t2, [sent] + rest)
  }

  /** `invokeMethod`: a blocking call whose arguments are prepared before the request
      is written. Preparing touches only the lookup table, so it is done here
      before the id is taken. */
  method InvokeMethod<M>(d: Dispatcher<M>, t: LookupTable.Table, s: SessionId, sessionClosing: bool,
                         args: seq<Arg>, timeout: int, monitorWait: nat, arrival: Option<(nat, Reply<M>)>)
    returns (d': Dispatcher<M>, t': LookupTable.Table, sent: Option<(SequenceIds.SeqId, seq<SentArg>)>, r: Result<M>)
    requires timeout > 0 && monitorWait > 0
    requires Valid(d.pending) && NextIdFree(d)
    ensures Valid(d'.pending)
    ensures CheckForInvalidState(d, sessionClosing).Err? ==>
              d' == d && t' == t && sent.None? && r == Err(SessionClosed)
    ensures CheckForInvalidState(d, sessionClosing).Ok? ==>
      && sent.Some? && sent.value.0 == SequenceIds.Generate(d.counter).1
      && (t', sent.value.1) == PrepareArgumentsForSend(t, s, args)
      && d'.counter == SequenceIds.Generate(d.counter).0
      && d'.pending.placed == d.pending.placed
      && d'.pending.slots == d.pending.slots - {sent.value.0}
      && r == ReplyResult(WaitOutcome(timeout / monitorWait, arrival))
  {
    if CheckForInvalidState(d, sessionClosing).Err? {
      return d, t, None, Err(SessionClosed);
    }
    var prepared := PrepareArgumentsForSend(t, s, args);
    t' := prepared.0;
    var id;
    d', id, r := Request(d, s, timeout, monitorWait, arrival);
    sent := Some((id, prepared.1));
  }

  /** `sendAsyncInvoke`: a one-way send whose arguments are prepared after the id is
      taken. A refused call prepares nothing. */
  function SendAsyncInvoke<M>(d: Dispatcher<M>, t: LookupTable.Table, s: SessionId, sessionClosing: bool,
                              args: seq<Arg>)
    : (res: (Dispatcher<M>, LookupTable.Table, Result<(SequenceIds.SeqId, seq<SentArg>)>))
    ensures res.0 == SendOneWay(d, sessionClosing).0
    ensures CheckForInvalidState(d, sessionClosing).Err? ==> res == (d, t, Err(SessionClosed))
    ensures CheckForInvalidState(d, sessionClosing).Ok? ==>
              res.2.Ok? && res.2.value.0 == SequenceIds.Generate(d.counter).1
              && (res.1, res.2.value.1) == PrepareArgumentsForSend(t, s, args)
  {
    match SendOneWay(d, sessionClosing)
    case (d', Err(e)) => (d', t, Err(e))
    case (d', Ok(id)) =>
      var (t', prepared) := PrepareArgumentsForSend(t, s, args);
      (d', t', Ok((id, prepared)))
  }

  /** `sendPing`: after the state check a fresh pong waiter is installed for the
      session, then the ping takes its id. */
  function SendPing<M>(d: Dispatcher<M>, w: PingWatchdog.Watchdog, s: SessionId, sessionClosing: bool,
                       pingTimeout: Int32)
    : (res: (Dispatcher<M>, PingWatchdog.Watchdog, Result<SequenceIds.SeqId>))
    ensures CheckForInvalidState(d, sessionClosing).Err? ==> res == (d, w, Err(SessionClosed))
    ensures CheckForInvalidState(d, sessionClosing).Ok? ==>
              res.1 == PingWatchdog.WaitForPong(w, s, pingTimeout)
              && (res.0, res.2) == SendOneWay(d, sessionClosing)
  {
    if CheckForInvalidState(d, sessionClosing).Err? then (d, w, Err(SessionClosed))
    else
      var (d', id) := SendOneWay(d, sessionClosing);
      (d', PingWatchdog.WaitForPong(w, s, pingTimeout), id)
  }

  /** A ping that goes out leaves a waiter behind: the pong that answers it finds
      that waiter, not an earlier one, and marks it. A refused ping installs
      nothing. */
  lemma PingThenPongFindsWaiter<M>(d: Dispatcher<M>, w: PingWatchdog.Watchdog, s: SessionId,
                                   sessionClosing: bool, pingTimeout: Int32)
    ensures var (_, w', sent) := SendPing(d, w, s, sessionClosing, pingTimeout);
            var (_, outcome) := PingWatchdog.NotifyPongReceived(w', s);
            && (sent.Ok? ==> outcome == PingWatchdog.Notified(PingWatchdog.Waiter(w.created, PingWatchdog.WaiterTimeout(pingTimeout), true)))
            && (sent.Err? ==> w' == w)
  {
  }

  /** Sending an object twice exports it twice: its count in the session grows by
      two, while proxies and plain values leave the table alone. */
  lemma {:induction false} ExportsCounted(t: LookupTable.Table, s: SessionId, refId: string,
                                          obj: LookupTable.Obj, interfaces: seq<string>)
    ensures var arg := ExportableArg(refId, obj, interfaces);
            var res := PrepareArgumentsForSend(t, s, [arg, ProxyArg(refId), ValueArg, arg]);
            && LookupTable.Count(res.0.refCounts, s, refId) == LookupTable.Count(t.refCounts, s, refId) + 2
            && res.1 == [RemoteInstance(refId), RemoteInstance(refId), AsGiven(ValueArg), RemoteInstance(refId)]
  {
    var arg := ExportableArg(refId, obj, interfaces);
    var args := [arg, ProxyArg(refId), ValueArg, arg];
    assert args[1..][1..][1..] == [arg] && [arg][1..] == [];
    assert Exports([arg], refId) == 1;
    assert Exports(args[1..][1..], refId) == 1;
    assert Exports(args, refId) == 2;
  }

  // ---------------------------------------------------------------------------
  // Closed listeners

  /** No remote object name keeps an empty list. */
  ghost predicate ListenersValid(m: ClosedListeners) {
    forall n :: n in m ==> |m[n]| > 0
  }

  /** `addClosedListener`: the listener joins the name's list, created on first use. */
  function AddClosedListener(m: ClosedListeners, l: Listener, name: string): (r: ClosedListeners)
    ensures name in r && r[name] == (if name in m then m[name] else []) + [l]
    ensures forall n :: n != name ==> (n in r <==> n in m) && (n in m ==> r[n] == m[n])
    ensures ListenersValid(m) ==> ListenersValid(r)
  {
    var list := if name in m then m[name] + [l] else [l];
    m[name := list]
  }

  /** `removeClosedListener`: true iff the listener was registered for the name; a
      list that becomes empty is dropped. */
  function RemoveClosedListener(m: ClosedListeners, l: Listener, name: string): (res: (ClosedListeners, bool))
    ensures res.1 <==> name in m && l in m[name]
    ensures name !in m ==> res.0 == m
    ensures name in m ==> (name in res.0 <==> |RemoveFirst(m[name], l)| > 0)
    ensures name in res.0 ==> multiset(res.0[name]) == multiset(m[name]) - multiset{l}
    ensures forall n :: n != name ==> (n in res.0 <==> n in m) && (n in m ==> res.0[n] == m[n])
    ensures ListenersValid(m) ==> ListenersValid(res.0)
  {
    if name !in m then (m, false)
    else
      var rest := RemoveFirst(m[name], l);
      var found := l in m[name];
      if |rest| == 0 then (m - {name}, found) else (m[name := rest], found)
  }

  /** Adding a listener and removing it again gives the registry back and reports the removal. */
  lemma AddRemoveClosedListener(m: ClosedListeners, l: Listener, name: string)
    requires ListenersValid(m)
    requires name in m ==> l !in m[name]
    ensures RemoveClosedListener(AddClosedListener(m, l, name), l, name) == (m, true)
  {
    if name in m {
      AddRemoveExisting(m, l, name);
    } else {
      AddRemoveFirst(m, l, name);
    }
  }

  lemma AddRemoveExisting(m: ClosedListeners, l: Listener, name: string)
    requires ListenersValid(m)
    requires name in m && l !in m[name]
    ensures RemoveClosedListener(AddClosedListener(m, l, name), l, name) == (m, true)
  {
    var xs := m[name];
    var a := m[name := xs + [l]];
    RemoveFirstAppended(xs, l);
    assert RemoveClosedListener(a, l, name) == (a[name := xs], true);
    assert a[name := xs] == m;
  }

  lemma AddRemoveFirst(m: ClosedListeners, l: Listener, name: string)
    requires name !in m
    ensures RemoveClosedListener(AddClosedListener(m, l, name), l, name) == (m, true)
  {
    var a := m[name := [l]];
    assert RemoveFirst([l], l) == [];
    assert RemoveClosedListener(a, l, name) == (a - {name}, true);
    assert a - {name} == m;
  }

  /** `removeClosedListenerList`: the name's list, removed. */
  function RemoveClosedListenerList(m: ClosedListeners, name: string): (res: (ClosedListeners, Option<seq<Listener>>))
    ensures name !in res.0 && res.0 == m - {name}
    ensures res.1.Some? <==> name in m
    ensures res.1.Some? ==> res.1.value == m[name]
  {
    (m - {name}, if name in m then Some(m[name]) else None)
  }

  /** `getClosedListenerList`. */
  function GetClosedListenerList(m: ClosedListeners, name: string): (r: Option<seq<Listener>>)
    ensures r == RemoveClosedListenerList(m, name).1
  {
    if name in m then Some(m[name]) else None
  }

  // ---------------------------------------------------------------------------
  // Session closed

  /** What `sessionClosed` sets in motion outside the dispatcher. */
  datatype SessionEffect =
    | Unreferenced(session: SessionId)   // lookupTable.unreference
    | NotifiedClosed(listener: Listener) // ClosedListener.closed()
    | ReleaseRequested                   // AbstractLookup.releaseDispatcher(this)

  /** `order` is the iteration order of the listener map's key set. */
  ghost predicate IsKeyOrder(m: ClosedListeners, order: seq<string>) {
    NoDup(order) && forall n :: n in order <==> n in m
  }

  /** The notifications for the names in `order`, in that order. */
  function Notifications(m: ClosedListeners, order: seq<string>): (e: seq<SessionEffect>)
    requires forall n :: n in order ==> n in m
    ensures forall i :: 0 <= i < |e| ==> e[i].NotifiedClosed?
  {
    if |order| == 0 then []
    else seq(|m[order[0]]|, i requires 0 <= i < |m[order[0]]| => NotifiedClosed(m[order[0]][i]))
         + Notifications(m, order[1..])
  }

  /** Every listener registered under a name in `order` is notified, and only those. */
  lemma {:induction false} NotificationsComplete(m: ClosedListeners, order: seq<string>)
    requires forall n :: n in order ==> n in m
    ensures forall n, l :: n in order && l in m[n] ==> NotifiedClosed(l) in Notifications(m, order)
    ensures forall l :: NotifiedClosed(l) in Notifications(m, order) ==> exists n :: n in order && l in m[n]
    decreases |order|
  {
    if |order| > 0 {
      NotificationsComplete(m, order[1..]);
      var head := seq(|m[order[0]]|, i requires 0 <= i < |m[order[0]]| => NotifiedClosed(m[order[0]][i]));
      assert Notifications(m, order) == head + Notifications(m, order[1..]);
      forall n, l | n in order && l in m[n]
        ensures NotifiedClosed(l) in Notifications(m, order)
      {
        if n == order[0] {
          var i :| 0 <= i < |m[n]| && m[n][i] == l;
          assert head[i] == NotifiedClosed(l);
        } else {
          assert n in order[1..];
        }
      }
      forall l | NotifiedClosed(l) in Notifications(m, order)
        ensures exists n :: n in order && l in m[n]
      {
        if NotifiedClosed(l) in head {
          var i :| 0 <= i < |head| && head[i] == NotifiedClosed(l);
          assert l == m[order[0]][i];
        } else {
          var n :| n in order[1..] && l in m[n];
          assert n in order;
        }
      }
    }
  }

  /** The release at the end of `sessionClosed`: only when not released yet. */
  function ReleaseStep(released: bool): (e: seq<SessionEffect>)
    ensures ReleaseRequested in e <==> !released
  {
    if released then [] else [ReleaseRequested]
  }

  /** `sessionClosed` as written: the listener map is iterated over its live key set
      while names are removed from it, so with two or more names the iterator
      fails on the second name, after the first name's listeners were notified,
      and the release is never reached. */
  function OnSessionClosedAsWritten<M>(d: Dispatcher<M>, s: SessionId, order: seq<string>)
    : (res: (Dispatcher<M>, seq<SessionEffect>, Result<()>))
    requires IsKeyOrder(d.closedListeners, order)
    ensures res.0.pending == InterruptWaitingRequests(d.pending, s)
    ensures |order| >= 2 ==> res.2 == Err(ConcurrentModification) && ReleaseRequested !in res.1
    ensures |order| < 2 ==> res.2.Ok? && res.0.closedListeners == map[]
  {
    var pending := InterruptWaitingRequests(d.pending, s);
    var m := d.closedListeners;
    if |order| == 0 then
      (d.(pending := pending), [Unreferenced(s)] + ReleaseStep(d.released), Ok(()))
    else
      var first := order[0];
      var notified := [Unreferenced(s)] + Notifications(m, [first]);
      if |order| >= 2 then
        (d.(pending := pending, closedListeners := m - {first}), notified, Err(ConcurrentModification))
      else
        assert forall n :: n in m ==> n == first;
        (d.(pending := pending, closedListeners := m - {first}), notified + ReleaseStep(d.released), Ok(()))
  }

  /** `sessionClosed` as intended: the waiting requests fail, every closed listener is
      notified and dropped, and the dispatcher is released unless it already was. */
  function OnSessionClosed<M>(d: Dispatcher<M>, s: SessionId, order: seq<string>)
    : (res: (Dispatcher<M>, seq<SessionEffect>))
    requires IsKeyOrder(d.closedListeners, order)
    ensures res.0.pending == InterruptWaitingRequests(d.pending, s)
    ensures res.0.closedListeners == map[]
    ensures |res.1| >= 1 && res.1[0] == Unreferenced(s)
    ensures ReleaseRequested in res.1 <==> !d.released
  {
    var notified := Notifications(d.closedListeners, order);
    (d.(pending := InterruptWaitingRequests(d.pending, s), closedListeners := map[]),
     [Unreferenced(s)] + notified + ReleaseStep(d.released))
  }

  /** With two names registered, the code as written never notifies the second
      name's listener and never asks for the release. */
  lemma SessionClosedAsWrittenLosesListener()
    ensures var d: Dispatcher<int> := Dispatcher(0, Empty(), false, true, false, map["a" := [1], "b" := [2]]);
            var res := OnSessionClosedAsWritten(d, 0, ["a", "b"]);
            && res.2 == Err(ConcurrentModification)
            && NotifiedClosed(2) !in res.1
            && ReleaseRequested !in res.1
  {
    var d: Dispatcher<int> := Dispatcher(0, Empty(), false, true, false, map["a" := [1], "b" := [2]]);
    assert "a" != "b";
    assert multiset(["a", "b"])["a"] == 1 && multiset(["a", "b"])["b"] == 1;
    assert IsKeyOrder(d.closedListeners, ["a", "b"]);
    var res := OnSessionClosedAsWritten(d, 0, ["a", "b"]);
    assert Notifications(d.closedListeners, ["a"]) == [NotifiedClosed(1)];
    assert res.1 == [Unreferenced(0), NotifiedClosed(1)];
  }

  /** The corrected `sessionClosed` notifies exactly the registered listeners, whatever
      the iteration order. */
  lemma OnSessionClosedNotifiesAll<M>(d: Dispatcher<M>, s: SessionId, order: seq<string>)
    requires IsKeyOrder(d.closedListeners, order)
    ensures var m := d.closedListeners;
            forall l :: NotifiedClosed(l) in OnSessionClosed(d, s, order).1 <==> exists n :: n in m && l in m[n]
  {
    var m := d.closedListeners;
    var e := OnSessionClosed(d, s, order).1;
    var notified := Notifications(m, order);
    NotificationsComplete(m, order);
    assert e == [Unreferenced(s)] + notified + ReleaseStep(d.released);
    forall l
      ensures NotifiedClosed(l) in e <==> NotifiedClosed(l) in notified
    {
    }
  }
}

=== FILE: errors.dfy ===
/** Failure-carrying values shared by every component of the model.

    The runtime reports failures as Java exceptions; here each exception class
    that the modelled code throws or catches is one constructor of `Exception`,
    and an operation that may throw returns a `Result`.
 */
module Errors {

  /** A reference that may be null. */
  datatype Option<+T> = None | Some(value: T) {
    function GetOr(default: T): T {
      match this
      case Some(v) => v
      case None => default
    }
  }

  /** The exception classes thrown or caught by the modelled code. */
  datatype Exception =
    | IllegalArgument
    | IllegalState
    | NullPointer
    | ClassCast
    | SessionClosed              // SessionException
    | LookupFailed               // LookupFailedException
    | EstablishConnectionFailed  // EstablishConnectionFailed
    | RemoteFailure              // SimonRemoteException
    | InvokeTimeout              // InvokeTimeoutException (a SimonRemoteException)
    | RawChannelFailure          // RawChannelException
    | NoMoreToken                // SimonException "no more token available"
    | NameBinding                // NameBindingException
    | IllegalRemoteObject        // IllegalRemoteObjectException
    | CharacterCoding            // java.nio.charset.CharacterCodingException
    | BufferUnderflow            // java.nio.BufferUnderflowException
    | NegativeArraySize          // NegativeArraySizeException
    | ConcurrentModification     // java.util.ConcurrentModificationException
    | Simon(message: string)     // SimonException, with its message
    | InputOutput                // java.io.IOException
    | ClassNotFound              // ClassNotFoundException
    | ApplicationFailure(code: nat) // any other throwable, identified by a code

  /** SimonRemoteException and its subclass InvokeTimeoutException. */
  predicate IsRemoteException(e: Exception) {
    e.RemoteFailure? || e.InvokeTimeout?
  }

  /** Either a returned value or a thrown exception. */
  datatype Result<+T> = Ok(value: T) | Err(error: Exception) {
    predicate IsFailure() {
      Err?
    }

    function PropagateFailure<U>(): Result<U>
      requires Err?
    {
      Err(error)
    }

    function Extract(): T
      requires Ok?
    {
      value
    }
  }
}

=== FILE: framing.dfy ===
/** Message framing (`AbstractMessageEncoder`, `AbstractMessageDecoder`): every
    message travels as a nine-byte header — type byte, sequence, body length —
    followed by its body.

    The encoder side keeps the `msgError` latch: once an error was reported,
    every later frame from the same encoder instance is followed by closing
    the session on flush. The decoder side is resumable: the header is read
    once, and the decoder answers NEED_DATA until the whole body is there.
 */
module Framing {
  import opened Errors
  import opened JavaInt
  import opened Wire
  import Bodies
  import Numerals

  const HEADER_LEN: nat := 9

  /** `putMessageToBuffer`: the header, then the body. */
  function Frame(msgType: Byte, sequence: Int32, body: seq<Byte>): (f: seq<Byte>)
    requires |body| <= INT_MAX
    ensures |f| == HEADER_LEN + |body|
    ensures f[0] == msgType && f[1..5] == IntBytes(sequence) && f[5..9] == IntBytes(|body|)
    ensures f[HEADER_LEN..] == body
  {
    [msgType] + IntBytes(sequence) + IntBytes(|body|) + body
  }

  /** The header fields read back from a frame are the ones written. */
  lemma FrameHeader(msgType: Byte, sequence: Int32, body: seq<Byte>)
    requires |body| <= INT_MAX
    ensures ReadInt(Frame(msgType, sequence, body)[1..5]) == sequence
    ensures ReadInt(Frame(msgType, sequence, body)[5..9]) == |body|
  {
    var f := Frame(msgType, sequence, body);
    ReadIntBytes(sequence, []);
    assert IntBytes(sequence) + [] == IntBytes(sequence);
    ReadIntBytes(|body|, []);
    assert IntBytes(|body|) + [] == IntBytes(|body|);
  }

  // ---------------------------------------------------------------------------
  // Encoder

  /** One encoder instance: the error it last reported, never cleared. */
  datatype Encoder = Encoder(msgError: Option<Bodies.ErrorMsg>)

  /** What one `encode` call does: write a frame and perhaps close the session
      once it is flushed, or let an exception escape having written nothing. */
  datatype Sent = Wrote(frame: seq<Byte>, closeOnFlush: bool) | Escaped(error: Exception)

  /** A Java buffer never holds more than `Integer.MAX_VALUE` bytes. */
  predicate Fits(body: Bodies.BodyOutcome) {
    !body.Throws? ==> |body.bytes| <= INT_MAX
  }

  /** Writing the frame for a body that did not throw: an error body latches its
      error, and a latched encoder closes the session after the frame. */
  function Deliver(enc: Encoder, msgType: Byte, sequence: Int32, body: Bodies.BodyOutcome): (r: (Encoder, Sent))
    requires !body.Throws? && Fits(body)
    ensures r.1 == Wrote(Frame(msgType, sequence, body.bytes), r.0.msgError.Some?)
    ensures body.ReplacedByError? ==> r.0.msgError == Some(body.error)
    ensures body.Body? ==> r.0 == enc
  {
    var latched := if body.ReplacedByError? then Encoder(Some(body.error)) else enc;
    (latched, Wrote(Frame(msgType, sequence, body.bytes), latched.msgError.Some?))
  }

  /** `encode` as written. When the body encoder throws, the catch block builds
      an error report but then encodes the original message again; the body
      encoders are deterministic, so that second attempt throws the same
      exception, which escapes before the report is latched or sent. An error
      the body encoder had already handed to `sendEncodingError` before it
      threw stays latched. */
  function EncodeAsWritten(enc: Encoder, msgType: Byte, sequence: Int32, body: Bodies.BodyOutcome): (r: (Encoder, Sent))
    requires Fits(body)
    ensures body.Throws? <==> r.1.Escaped?
    ensures body.Throws? ==> r.1 == Escaped(body.thrown)
    ensures body.Throws? && body.latched.Some? ==> r.0.msgError == body.latched
    ensures body.Throws? && body.latched.None? ==> r.0 == enc
    ensures r.1.Wrote? ==> r.1.frame == Frame(msgType, sequence, body.bytes)
    ensures r.1.Wrote? ==> (r.1.closeOnFlush <==> r.0.msgError.Some?)
    ensures enc.msgError.Some? ==> r.0.msgError.Some?
  {
    match body
    case Throws(x, latched) => (if latched.Some? then Encoder(latched) else enc, Escaped(x))
    case _ => Deliver(enc, msgType, sequence, body)
  }

  /** A name-lookup reply with a name that cannot be encoded and an error text
      too long for its prefix: the exception escapes `encode`, but the name's
      error stays latched, so every later frame of this encoder closes the
      session. */
  lemma LatchOutlivesEscape(enc: Encoder, bad: JString, errorMsg: JString, sequence: Int32, ser: Bodies.Serializer,
                            msgType: Byte, next: Bodies.BodyOutcome, nextType: Byte, nextSequence: Int32)
    requires !WellFormed(bad)
    requires Bodies.EncodeError(Bodies.NameError(bad, sequence, ser), ser.placeholder).Ok?
    requires WellFormed(errorMsg) && PutPrefixed(errorMsg).Err?
    requires Fits(next)
    ensures var r := EncodeAsWritten(enc, msgType, sequence, Bodies.EncodeNameLookupReturn([bad], errorMsg, sequence, ser));
            r == (Encoder(Some(Bodies.NameError(bad, sequence, ser))), Escaped(IllegalArgument))
    ensures var r := EncodeAsWritten(enc, msgType, sequence, Bodies.EncodeNameLookupReturn([bad], errorMsg, sequence, ser));
            var later := EncodeAsWritten(r.0, nextType, nextSequence, next);
            later.1.Wrote? ==> later.1.closeOnFlush
  {
    Bodies.NameLatchedBeforeTextThrows(bad, errorMsg, sequence, ser);
  }

  /** How `encode` prints a message type: a byte as a signed number. */
  function TypeText(msgType: Byte): (s: string)
    ensures |s| <= 11
  {
    if msgType == 0xFF then "{unknown}"
    else
      var signed := if msgType >= 0x80 then msgType - 0x100 else msgType;
      Numerals.DecimalOfIntShort(signed);
      Numerals.Decimal(signed)
  }

  /** The fixed parts of that report's text. */
  const FAILURE_TEXT: string := "Error while encoding message. sequence="
  const TYPE_TEXT: string := " type="

  /** The report `encode` builds when a body encoder throws: an encode error
      carrying the message's sequence, without a remote name or a cause. */
  function EncodingFailure(msgType: Byte, sequence: Int32): (e: Bodies.ErrorMsg)
    ensures e.initSequenceId == sequence && !e.decodeError
    ensures e.remoteObjectName.None? && e.throwable.None? && e.errorMessage.Some?
    ensures |e.errorMessage.value| <= 100
  {
    Numerals.DecimalOfIntShort(sequence);
    Bodies.ErrorMsg(None, Some(Text(FAILURE_TEXT + Numerals.Decimal(sequence) + TYPE_TEXT + TypeText(msgType))),
                    None, sequence, false)
  }

  /** The serialized placeholder throwable is far below the buffer limit. */
  const PLACEHOLDER_MAX: nat := 0x10_0000

  /** The report's body always encodes, whatever the message. */
  lemma FailureBodyEncodes(msgType: Byte, sequence: Int32, placeholder: Payload)
    requires |placeholder| <= PLACEHOLDER_MAX
    ensures Bodies.EncodeError(EncodingFailure(msgType, sequence), placeholder).Ok?
    ensures |Bodies.EncodeError(EncodingFailure(msgType, sequence), placeholder).value| <= INT_MAX
  {
    var e := EncodingFailure(msgType, sequence);
    var s := Bodies.Sent(e, placeholder);
    assert PutPrefixed(s.remoteObjectName.value).Ok?;
    assert PutPrefixed(s.errorMessage.value).Ok?;
    Bodies.ErrorRoundTrip(e, placeholder, []);
  }

  /** `encode` as evidently intended: a body encoder that throws is answered
      the way `sendEncodingError` answers one that catches, by sending the
      report's body under the original header and latching the report. */
  function EncodeCorrected(enc: Encoder, msgType: Byte, sequence: Int32, body: Bodies.BodyOutcome,
                           placeholder: Payload): (r: (Encoder, Sent))
    requires Fits(body) && |placeholder| <= PLACEHOLDER_MAX
    ensures r.1.Wrote?
    ensures !body.Throws? ==> r == EncodeAsWritten(enc, msgType, sequence, body)
    ensures body.Throws? ==>
              r.0.msgError == Some(EncodingFailure(msgType, sequence)) && r.1.closeOnFlush
              && r.1.frame == Frame(msgType, sequence, FailureBody(msgType, sequence, placeholder))
  {
    if body.Throws? then
      Deliver(enc, msgType, sequence,
              Bodies.ReplacedByError(FailureBody(msgType, sequence, placeholder), EncodingFailure(msgType, sequence)))
    else Deliver(enc, msgType, sequence, body)
  }

  /** The body of the report `EncodeCorrected` sends. */
  function FailureBody(msgType: Byte, sequence: Int32, placeholder: Payload): (bs: seq<Byte>)
    requires |placeholder| <= PLACEHOLDER_MAX
    ensures Bodies.EncodeError(EncodingFailure(msgType, sequence), placeholder) == Ok(bs)
    ensures |bs| <= INT_MAX
  {
    FailureBodyEncodes(msgType, sequence, placeholder);
    Bodies.EncodeError(EncodingFailure(msgType, sequence), placeholder).value
  }

  /** Once an encoder has reported an error, every later frame it writes is
      followed by closing the session. */
  lemma LatchedEncoderAlwaysCloses(enc: Encoder, msgType: Byte, sequence: Int32, body: Bodies.BodyOutcome,
                                   placeholder: Payload)
    requires Fits(body) && |placeholder| <= PLACEHOLDER_MAX
    requires enc.msgError.Some?
    ensures var r := EncodeCorrected(enc, msgType, sequence, body, placeholder);
            r.1.closeOnFlush && r.0.msgError.Some?
    ensures var r := EncodeAsWritten(enc, msgType, sequence, body);
            r.1.Wrote? ==> r.1.closeOnFlush
  {
  }

  /** A hash-code reply whose error text has more code units than a two-byte
      prefix can count, too long whatever the charset. */
  const LONG_TEXT: JString := seq(0x1_0000, i => 0x41)

  /** As written, a body encoder that throws makes `encode` throw: the peer gets
      no frame and the encoder does not latch. The intended encoder sends the
      report instead, and the peer reads it back as an encode error for the
      same sequence. */
  lemma EncodeFailureEscapes(sequence: Int32, ser: Bodies.Serializer, msgType: Byte)
    requires |ser.placeholder| <= PLACEHOLDER_MAX
    ensures var body := Bodies.EncodeHashCodeReturn(0, LONG_TEXT, sequence, ser);
            body == Bodies.Throws(IllegalArgument, None)
            && EncodeAsWritten(Encoder(None), msgType, sequence, body) == (Encoder(None), Escaped(IllegalArgument))
    ensures var body := Bodies.EncodeHashCodeReturn(0, LONG_TEXT, sequence, ser);
            var r := EncodeCorrected(Encoder(None), msgType, sequence, body, ser.placeholder);
            r.1.Wrote? && r.1.closeOnFlush
            && Bodies.DecodeErrorBody(r.1.frame[HEADER_LEN..])
               == Got(Bodies.Error(Bodies.Sent(EncodingFailure(msgType, sequence), ser.placeholder)), [])
  {
    LongTextEscapes(sequence, ser);
    FailureBodyDecodes(msgType, sequence, ser.placeholder);
  }

  /** The long text makes the hash-code encoder throw. */
  lemma LongTextEscapes(sequence: Int32, ser: Bodies.Serializer)
    ensures Bodies.EncodeHashCodeReturn(0, LONG_TEXT, sequence, ser) == Bodies.Throws(IllegalArgument, None)
  {
    assert WellFormed(LONG_TEXT);
    assert PutPrefixed(LONG_TEXT) == Err(IllegalArgument);
  }

  /** A text as long as `LONG_TEXT` that also opens with an unpaired surrogate
      followed by a letter. */
  const ILL_FORMED_LONG_TEXT: JString := seq(0x1_0000, i => if i == 0 then 0xD800 else 0x41)

  /** The length is checked before the encoding, so an ill-formed text too long
      for its prefix is not caught as a CharacterCodingException: the
      IllegalArgumentException escapes `encode` and nothing is latched. */
  lemma IllFormedLongTextEscapes(sequence: Int32, ser: Bodies.Serializer, msgType: Byte)
    ensures !WellFormed(ILL_FORMED_LONG_TEXT)
    ensures var body := Bodies.EncodeHashCodeReturn(0, ILL_FORMED_LONG_TEXT, sequence, ser);
            body == Bodies.Throws(IllegalArgument, None)
            && EncodeAsWritten(Encoder(None), msgType, sequence, body) == (Encoder(None), Escaped(IllegalArgument))
  {
    var t := ILL_FORMED_LONG_TEXT;
    assert IsHighSurrogate(t[0]) && !IsLowSurrogate(t[1]);
  }

  /** A toString() request for a name that is not bound is answered with a
      null text. Writing it throws NullPointerException, which the body
      encoder catches: the peer gets an error body under the reply's header,
      the encoder latches the error, and the session is closed after the
      frame, and after every later frame of this encoder. */
  lemma NullToStringClosesSession(enc: Encoder, sequence: Int32, ser: Bodies.Serializer, msgType: Byte,
                                  next: Bodies.BodyOutcome, nextType: Byte, nextSequence: Int32)
    requires |ser.cause(NullPointer)| <= PLACEHOLDER_MAX
    requires Fits(next)
    ensures var body := Bodies.EncodeToStringReturn(None, sequence, ser);
            body.ReplacedByError? && body.error.throwable == Some(ser.cause(NullPointer))
            && body.error.initSequenceId == sequence
    ensures var body := Bodies.EncodeToStringReturn(None, sequence, ser);
            var r := EncodeAsWritten(enc, msgType, sequence, body);
            r.1.Wrote? && r.1.closeOnFlush && r.0.msgError == Some(body.error)
            && Bodies.DecodeErrorBody(r.1.frame[HEADER_LEN..])
               == Got(Bodies.Error(Bodies.Sent(body.error, ser.placeholder)), [])
    ensures var body := Bodies.EncodeToStringReturn(None, sequence, ser);
            var later := EncodeAsWritten(EncodeAsWritten(enc, msgType, sequence, body).0, nextType, nextSequence, next);
            later.1.Wrote? ==> later.1.closeOnFlush
  {
    var e := Bodies.EncodingError(Bodies.TO_STRING_RESULT_TEXT, Text("null"), sequence, NullPointer, ser);
    NullTextReportEncodes(e, sequence, ser);
    var s := Bodies.Sent(e, ser.placeholder);
    Bodies.ErrorRoundTrip(e, ser.placeholder, []);
    var bs := Bodies.EncodeError(e, ser.placeholder).value;
    assert bs + [] == bs;
  }

  /** The report for a null toString() text fits its prefixes. */
  lemma NullTextReportEncodes(e: Bodies.ErrorMsg, sequence: Int32, ser: Bodies.Serializer)
    requires e == Bodies.EncodingError(Bodies.TO_STRING_RESULT_TEXT, Text("null"), sequence, NullPointer, ser)
    requires |ser.cause(NullPointer)| <= PLACEHOLDER_MAX
    ensures PutPrefixed(Bodies.Sent(e, ser.placeholder).remoteObjectName.value).Ok?
    ensures PutPrefixed(Bodies.Sent(e, ser.placeholder).errorMessage.value).Ok?
    ensures Bodies.EncodeError(e, ser.placeholder).Ok?
    ensures |Bodies.EncodeError(e, ser.placeholder).value| <= INT_MAX
  {
    var s := Bodies.Sent(e, ser.placeholder);
    var text := Text(Bodies.TO_STRING_RESULT_TEXT) + Text("null") + Text(Bodies.CODING_EXCEPTION_TEXT);
    assert s.errorMessage.value == text;
    assert forall i :: 0 <= i < |text| ==> !IsHighSurrogate(text[i]) && !IsLowSurrogate(text[i]);
    assert PutPrefixed(s.remoteObjectName.value).Ok?;
    assert PutPrefixed(text).Ok?;
    Bodies.ErrorRoundTrip(e, ser.placeholder, []);
  }

  /** The peer reads the report's body back as the report, with the defaults
      `MsgErrorEncoder` sends for its missing fields. */
  lemma FailureBodyDecodes(msgType: Byte, sequence: Int32, placeholder: Payload)
    requires |placeholder| <= PLACEHOLDER_MAX
    ensures Bodies.DecodeErrorBody(FailureBody(msgType, sequence, placeholder))
            == Got(Bodies.Error(Bodies.Sent(EncodingFailure(msgType, sequence), placeholder)), [])
  {
    var e := EncodingFailure(msgType, sequence);
    var s := Bodies.Sent(e, placeholder);
    assert PutPrefixed(s.remoteObjectName.value).Ok?;
    assert PutPrefixed(s.errorMessage.value).Ok?;
    Bodies.ErrorRoundTrip(e, placeholder, []);
    assert Bodies.EncodeError(e, placeholder).value + [] == Bodies.EncodeError(e, placeholder).value;
  }

  // ---------------------------------------------------------------------------
  // Decoder

  /** MINA's `MessageDecoderResult`. */
  datatype DecoderResult = NEED_DATA | OK | NOT_OK

  /** `decodable`: wait for a whole header, then claim the frame iff its type
      byte is this decoder's type. */
  function Decodable(msgType: Byte, input: seq<Byte>): (r: DecoderResult)
    ensures r == NEED_DATA <==> |input| < HEADER_LEN
    ensures r == OK <==> |input| >= HEADER_LEN && input[0] == msgType
  {
    if |input| < HEADER_LEN then NEED_DATA
    else if input[0] == msgType then OK
    else NOT_OK
  }

  /** A frame is claimed by the decoder of its own type and no other. */
  lemma FrameClaimedByItsType(msgType: Byte, other: Byte, sequence: Int32, body: seq<Byte>, rest: seq<Byte>)
    requires |body| <= INT_MAX
    ensures Decodable(msgType, Frame(msgType, sequence, body) + rest) == OK
    ensures other != msgType ==> Decodable(other, Frame(msgType, sequence, body) + rest) == NOT_OK
  {
  }

  /** One decoder instance: its type, and the header it holds between calls. */
  datatype Decoder = Decoder(msgType: Byte, readHeader: bool, sequence: Int32, bodysize: Int32)

  /** A decoder that has not started on a frame. */
  function Fresh(msgType: Byte): (d: Decoder)
    ensures d.msgType == msgType && !d.readHeader
  {
    Decoder(msgType, false, 0, 0)
  }

  /** What `decodeBody` does with the bytes behind the header: answers null
      (with the bytes it left), a message, or throws. */
  datatype BodyResult = NotYet(rest: seq<Byte>) | Decoded(message: Bodies.Message, rest: seq<Byte>) | Threw(error: Exception)

  /** What `decode` writes to the next layer: a message stamped with the
      header's sequence, or the `MsgError` it builds from a body decoder's
      exception, whose text names the header's sequence and body size. */
  datatype Output = Delivered(sequence: Int32, message: Bodies.Message)
                  | DecodeFailed(sequence: Int32, bodysize: Int32, cause: Exception)

  /** One `decode` call: the decoder's next state, the bytes left unread, what
      was written and the result. */
  datatype Step = Step(decoder: Decoder, rest: seq<Byte>, output: seq<Output>, result: DecoderResult)

  /** The state after reading a header, and the bytes behind it. */
  function ReadHeader(d: Decoder, input: seq<Byte>): (r: (Decoder, seq<Byte>))
    requires d.readHeader || |input| >= HEADER_LEN
    ensures r.0.readHeader && r.0.msgType == d.msgType
    ensures d.readHeader ==> r == (d, input)
    ensures !d.readHeader ==> r.0.sequence == ReadInt(input[1..5]) && r.0.bodysize == ReadInt(input[5..9])
                              && r.1 == input[HEADER_LEN..]
  {
    if d.readHeader then (d, input)
    else (d.(readHeader := true, sequence := ReadInt(input[1..5]), bodysize := ReadInt(input[5..9])), input[HEADER_LEN..])
  }

  /** `decode`. The header is read unless one is held; until the whole body is
      there the answer is NEED_DATA and the header is kept; so it is when the
      body decoder answers null. A decoded message gets the header's sequence,
      is written once, and frees the decoder for the next header. An exception
      from the body decoder is written as an error and answered NOT_OK; the
      header stays held. Too few bytes for a header throw from `decode` itself. */
  function Decode(d: Decoder, input: seq<Byte>, decodeBody: (Int32, Int32, seq<Byte>) -> BodyResult): (r: Result<Step>)
    ensures r.Err? <==> !d.readHeader && |input| < HEADER_LEN
    ensures r.Err? ==> r.error == BufferUnderflow
    ensures r.Ok? ==> r.value.decoder.msgType == d.msgType
    ensures r.Ok? ==> (r.value.result == OK <==> !r.value.decoder.readHeader)
    ensures r.Ok? ==> (r.value.result == NEED_DATA <==> r.value.output == [])
    ensures r.Ok? && r.value.result == OK ==>
              |r.value.output| == 1 && r.value.output[0].Delivered?
              && r.value.output[0].sequence == ReadHeader(d, input).0.sequence
    ensures r.Ok? && r.value.result == NOT_OK ==>
              |r.value.output| == 1 && r.value.output[0].DecodeFailed?
              && r.value.decoder == ReadHeader(d, input).0
    ensures r.Ok? && r.value.result == NEED_DATA ==> r.value.decoder == ReadHeader(d, input).0
  {
    if !d.readHeader && |input| < HEADER_LEN then Err(BufferUnderflow)
    else
      var (held, body) := ReadHeader(d, input);
      if |body| < held.bodysize then Ok(Step(held, body, [], NEED_DATA))
      else
        match decodeBody(held.sequence, held.bodysize, body)
        case NotYet(rest) => Ok(Step(held, rest, [], NEED_DATA))
        case Decoded(m, rest) => Ok(Step(held.(readHeader := false), rest, [Delivered(held.sequence, m)], OK))
        case Threw(x) => Ok(Step(held, body, [DecodeFailed(held.sequence, held.bodysize, x)], NOT_OK))
  }

  /** The body decoders of the message classes, as `decode` sees them. */
  function BodyDecoderOf(which: Bodies.BodyDecoder): (f: (Int32, Int32, seq<Byte>) -> BodyResult)
    ensures forall sequence, size, bs :: !f(sequence, size, bs).NotYet?
  {
    (sequence: Int32, size: Int32, bs: seq<Byte>) =>
      match Bodies.DecodeBody(which, size, bs)
      case Got(m, rest) => Decoded(m, rest)
      case Malformed(rest) => Threw(CharacterCoding)
      case Failed(x) => Threw(x)
  }

  /** A fresh decoder handed a whole frame delivers the body decoder's message
      with the frame's sequence, and leaves exactly what follows the frame. */
  lemma FrameRoundTrip(msgType: Byte, sequence: Int32, body: seq<Byte>, rest: seq<Byte>,
                       decodeBody: (Int32, Int32, seq<Byte>) -> BodyResult, m: Bodies.Message)
    requires |body| <= INT_MAX
    requires decodeBody(sequence, |body|, body + rest) == Decoded(m, rest)
    ensures Decode(Fresh(msgType), Frame(msgType, sequence, body) + rest, decodeBody)
            == Ok(Step(Decoder(msgType, false, sequence, |body|), rest, [Delivered(sequence, m)], OK))
  {
    var input := Frame(msgType, sequence, body) + rest;
    FrameHeader(msgType, sequence, body);
    assert input[1..5] == Frame(msgType, sequence, body)[1..5];
    assert input[5..9] == Frame(msgType, sequence, body)[5..9];
    assert input[HEADER_LEN..] == body + rest;
  }

  /** A frame that arrives in two pieces: the first call reads the header and
      asks for more, keeping the header; the second call, given the rest of the
      body, delivers the message as if the frame had come whole. */
  lemma SplitFrameDelivered(msgType: Byte, sequence: Int32, body: seq<Byte>, k: nat, rest: seq<Byte>,
                            decodeBody: (Int32, Int32, seq<Byte>) -> BodyResult, m: Bodies.Message)
    requires |body| <= INT_MAX && k < |body|
    requires decodeBody(sequence, |body|, body + rest) == Decoded(m, rest)
    ensures var first := Decode(Fresh(msgType), Frame(msgType, sequence, body)[..HEADER_LEN + k], decodeBody);
            first == Ok(Step(Decoder(msgType, true, sequence, |body|), body[..k], [], NEED_DATA))
            && Decode(first.value.decoder, first.value.rest + (body[k..] + rest), decodeBody)
               == Ok(Step(Decoder(msgType, false, sequence, |body|), rest, [Delivered(sequence, m)], OK))
  {
    var f := Frame(msgType, sequence, body);
    FrameHeader(msgType, sequence, body);
    var piece := f[..HEADER_LEN + k];
    assert piece[1..5] == f[1..5] && piece[5..9] == f[5..9];
    assert piece[HEADER_LEN..] == body[..k];
    assert body[..k] + (body[k..] + rest) == body + rest;
  }

  /** The modelled body decoders behind a frame: the close-raw-channel request
      arrives with its token and the header's sequence. */
  lemma CloseRawChannelFrameRoundTrip(msgType: Byte, sequence: Int32, token: Int32, rest: seq<Byte>)
    ensures var body := Bodies.EncodeCloseRawChannel(token).bytes;
            Decode(Fresh(msgType), Frame(msgType, sequence, body) + rest, BodyDecoderOf(Bodies.CloseRawChannelDecoder))
            == Ok(Step(Decoder(msgType, false, sequence, 4), rest, [Delivered(sequence, Bodies.CloseRawChannel(token))], OK))
  {
    var body := Bodies.EncodeCloseRawChannel(token).bytes;
    Bodies.CloseRawChannelRoundTrip(token, rest);
    FrameRoundTrip(msgType, sequence, body, rest, BodyDecoderOf(Bodies.CloseRawChannelDecoder),
                   Bodies.CloseRawChannel(token));
  }

  /** A body decoder that throws leaves the header held: the decoder is not
      freed for the next frame. */
  lemma FailureKeepsHeader(msgType: Byte, sequence: Int32, body: seq<Byte>, rest: seq<Byte>,
                           decodeBody: (Int32, Int32, seq<Byte>) -> BodyResult, x: Exception)
    requires |body| <= INT_MAX
    requires decodeBody(sequence, |body|, body + rest) == Threw(x)
    ensures var r := Decode(Fresh(msgType), Frame(msgType, sequence, body) + rest, decodeBody);
            r.Ok? && r.value.result == NOT_OK && r.value.decoder.readHeader
            && r.value.output == [DecodeFailed(sequence, |body|, x)]
  {
    var input := Frame(msgType, sequence, body) + rest;
    FrameHeader(msgType, sequence, body);
    assert input[1..5] == Frame(msgType, sequence, body)[1..5];
    assert input[5..9] == Frame(msgType, sequence, body)[5..9];
    assert input[HEADER_LEN..] == body + rest;
  }
}

=== FILE: javaint.dfy ===
/** Java's fixed-width integers and the big-endian byte layout of `IoBuffer`.

    Dafny's integers are unbounded; every place where the runtime relies on a
    32- or 64-bit two's complement value goes through the functions here.
 */
module JavaInt {

  const INT_MIN: int := -0x8000_0000
  const INT_MAX: int := 0x7fff_ffff
  const TWO_32: int := 0x1_0000_0000
  const LONG_MIN: int := -0x8000_0000_0000_0000
  const LONG_MAX: int := 0x7fff_ffff_ffff_ffff
  const TWO_64: int := 0x1_0000_0000_0000_0000

  /** A Java `int`. */
  type Int32 = x: int | INT_MIN <= x <= INT_MAX

  /** A Java `long`. */
  type Int64 = x: int | LONG_MIN <= x <= LONG_MAX

  /** A byte as it travels on the wire, read as an unsigned value. */
  type Byte = x: int | 0 <= x < 0x100

  /** Two's complement narrowing to 32 bits (what Java does on int overflow). */
  function Wrap32(x: int): (r: Int32)
    ensures (r - x) % TWO_32 == 0
    ensures INT_MIN <= x <= INT_MAX ==> r == x
  {
    var m := x % TWO_32;
    if m <= INT_MAX then m else m - TWO_32
  }

  /** Two's complement narrowing to 64 bits. */
  function Wrap64(x: int): (r: Int64)
    ensures (r - x) % TWO_64 == 0
    ensures LONG_MIN <= x <= LONG_MAX ==> r == x
  {
    var m := x % TWO_64;
    if m <= LONG_MAX then m else m - TWO_64
  }

  /** The unsigned reading of the 32 bits of `x`. */
  function Unsigned32(x: Int32): (u: nat)
    ensures u < TWO_32
    ensures Wrap32(u) == x
  {
    if x < 0 then x + TWO_32 else x
  }

  /** The unsigned reading of the 64 bits of `x` (what `Long.toHexString` prints). */
  function Unsigned64(x: Int64): (u: nat)
    ensures u < TWO_64
    ensures Wrap64(u) == x
  {
    if x < 0 then x + TWO_64 else x
  }

  /** Java's `/` on ints: the quotient truncated toward zero. */
  function JavaDiv(a: int, b: int): (q: int)
    requires b > 0
    ensures a >= 0 ==> 0 <= a - q * b < b
    ensures a < 0 ==> -b < a - q * b <= 0
  {
    if a >= 0 then
      assert a == (a / b) * b + a % b;
      a / b
    else
      assert -a == ((-a) / b) * b + (-a) % b;
      -((-a) / b)
  }

  /** `IoBuffer.putInt`: four bytes, most significant first. */
  function IntBytes(x: Int32): (bs: seq<Byte>)
    ensures |bs| == 4
    ensures ReadInt(bs) == x
  {
    var u := Unsigned32(x);
    var q1 := u / 0x100;
    var q2 := q1 / 0x100;
    var q3 := q2 / 0x100;
    assert u == q1 * 0x100 + u % 0x100;
    assert q1 == q2 * 0x100 + q1 % 0x100;
    assert q2 == q3 * 0x100 + q2 % 0x100;
    [q3, q2 % 0x100, q1 % 0x100, u % 0x100]
  }

  /** The unsigned value of four bytes, most significant first. */
  function BigEndian4(b0: int, b1: int, b2: int, b3: int): int {
    ((b0 * 0x100 + b1) * 0x100 + b2) * 0x100 + b3
  }

  /** `IoBuffer.getInt` on the first four bytes of `bs`. */
  function ReadInt(bs: seq<Byte>): (x: Int32)
    requires |bs| >= 4
  {
    Wrap32(BigEndian4(bs[0], bs[1], bs[2], bs[3]))
  }

  /** Reading back what `putInt` wrote gives the same int, whatever follows it. */
  lemma ReadIntBytes(x: Int32, rest: seq<Byte>)
    ensures ReadInt(IntBytes(x) + rest) == x
  {
    assert (IntBytes(x) + rest)[..4] == IntBytes(x);
    ReadIntPrefix(IntBytes(x) + rest);
  }

  /** `getInt` looks only at the first four bytes. */
  lemma ReadIntPrefix(bs: seq<Byte>)
    requires |bs| >= 4
    ensures ReadInt(bs[..4]) == ReadInt(bs)
  {
  }

  /** Writing what `getInt` read gives the same four bytes: the layout is a bijection. */
  lemma IntBytesRead(bs: seq<Byte>)
    requires |bs| == 4
    ensures IntBytes(ReadInt(bs)) == bs
  {
    var v := BigEndian4(bs[0], bs[1], bs[2], bs[3]);
    assert 0 <= v < TWO_32;
    var x := ReadInt(bs);
    assert Unsigned32(x) == v;
    var q1 := v / 0x100;
    assert q1 == (bs[0] as int * 0x100 + bs[1]) * 0x100 + bs[2] && v % 0x100 == bs[3];
    var q2 := q1 / 0x100;
    assert q2 == bs[0] as int * 0x100 + bs[1] && q1 % 0x100 == bs[2];
    assert q2 / 0x100 == bs[0] && q2 % 0x100 == bs[1];
  }

  /** Different ints are written as different byte strings. */
  lemma IntBytesInjective(x: Int32, y: Int32)
    requires IntBytes(x) == IntBytes(y)
    ensures x == y
  {
  }
}

=== FILE: lists.dfy ===
/** The two `java.util.List` operations the runtime relies on for its
    bookkeeping lists: `remove(Object)` and the absence of duplicates that the
    callers maintain. */
module Lists {

  /** No element occurs twice. */
  ghost predicate NoDup<T(!new)>(xs: seq<T>) {
    forall y :: multiset(xs)[y] <= 1
  }

  /** `List.remove(Object)`: drops the first occurrence of `x`. */
  function RemoveFirst<T(==)>(xs: seq<T>, x: T): (ys: seq<T>)
    ensures multiset(ys) == multiset(xs) - multiset{x}
  {
    if |xs| == 0 then []
    else
      assert xs == [xs[0]] + xs[1..];
      if xs[0] == x then xs[1..] else [xs[0]] + RemoveFirst(xs[1..], x)
  }

  /** Removing an absent element changes nothing; removing from a list without
      duplicates removes every trace of the element. */
  lemma RemoveFirstFacts<T(!new)>(xs: seq<T>, x: T)
    ensures x !in xs ==> RemoveFirst(xs, x) == xs
    ensures NoDup(xs) ==> NoDup(RemoveFirst(xs, x)) && x !in RemoveFirst(xs, x)
    ensures forall y :: y in RemoveFirst(xs, x) ==> y in xs
  {
    var ys := RemoveFirst(xs, x);
    if x !in xs {
      RemoveFirstAbsent(xs, x);
    }
    if NoDup(xs) {
      assert multiset(ys)[x] == 0;
    }
    forall y | y in ys
      ensures y in xs
    {
      assert y in multiset(ys);
    }
  }

  lemma {:induction false} RemoveFirstAbsent<T>(xs: seq<T>, x: T)
    requires x !in xs
    ensures RemoveFirst(xs, x) == xs
    decreases |xs|
  {
    if |xs| > 0 {
      assert xs[0] != x && x !in xs[1..];
      RemoveFirstAbsent(xs[1..], x);
      assert RemoveFirst(xs, x) == [xs[0]] + RemoveFirst(xs[1..], x);
      assert xs == [xs[0]] + xs[1..];
    }
  }

  /** Every other element stays. */
  lemma RemoveFirstKeepsOthers<T(!new)>(xs: seq<T>, x: T)
    ensures forall y :: y in xs && y != x ==> y in RemoveFirst(xs, x)
  {
    forall y | y in xs && y != x
      ensures y in RemoveFirst(xs, x)
    {
      assert y in multiset(xs);
      assert y in multiset(RemoveFirst(xs, x));
    }
  }

  /** Appending an element and removing it again gives the list back. */
  lemma {:induction false} RemoveFirstAppended<T>(xs: seq<T>, x: T)
    requires x !in xs
    ensures RemoveFirst(xs + [x], x) == xs
    decreases |xs|
  {
    if |xs| > 0 {
      assert (xs + [x])[1..] == xs[1..] + [x];
      RemoveFirstAppended(xs[1..], x);
      assert xs == [xs[0]] + xs[1..];
    }
  }

  /** Appending a new element keeps a list free of duplicates. */
  lemma AppendNoDup<T(!new)>(xs: seq<T>, x: T)
    requires NoDup(xs) && x !in xs
    ensures NoDup(xs + [x])
  {
    assert multiset(xs + [x]) == multiset(xs) + multiset{x};
  }
}

=== FILE: lookups.dfy ===
/** `NameLookup.lookup`, `InterfaceLookup.lookup` and `AbstractLookup.release`.

    A lookup takes a reference on the pooled connection of its server, asks the
    server, and wraps the answer in a proxy. The connect attempt, the server's
    reply and whether the reply's interface names load as classes are inputs.
 */
module Lookups {
  import opened Errors
  import ConnectionPool
  import RefQueue
  import Proxies
  import Dispatcher

  /** `MsgNameLookupReturn` / `MsgInterfaceLookupReturn`: an error message when the
      server refused, the name of the object found (interface lookups only), and
      the interfaces it exports. */
  datatype LookupReply = LookupReply(errorMsg: Option<string>, remoteObjectName: string, interfaces: seq<string>)

  /** Which lookup: by the name the object is bound under, or by its interface. */
  datatype LookupKind = ByName | ByInterface

  /** What a lookup meets outside the model: the server string of the lookup's
      server, the dispatcher a new connection would get, how connecting ends, the
      reply (or the exception the blocking request threw), and whether the
      interfaces load. */
  datatype World = World(
    server: string,
    created: nat,
    attempt: ConnectionPool.ConnectAttempt,
    reply: Result<LookupReply>,
    interfacesLoad: bool)

  /** The pool, the dispatcher's reference queue, what the pool asks for, and the
      proxy or the exception. */
  datatype Looked = Looked(
    pool: ConnectionPool.Pool,
    queue: RefQueue.Queue,
    effects: seq<ConnectionPool.PoolEffect>,
    result: Result<Proxies.Proxy>)

  /** The argument checks both lookups begin with: not null, not empty. */
  function CheckArgument(arg: Option<string>): (r: Result<string>)
    ensures r.Ok? <==> arg.Some? && |arg.value| > 0
    ensures r.Ok? ==> r.value == arg.value
    ensures r.Err? ==> r.error == IllegalArgument
  {
    match arg
    case None => Err(IllegalArgument)
    case Some(s) => if |s| == 0 then Err(IllegalArgument) else Ok(s)
  }

  /** A lookup after the connection was acquired, with one reference held in `pool`.
      `releaseOnFailure` says whether the failures the source leaves unreleased (the
      blocking request throws, the interfaces do not load, the proxy cannot be
      registered) give the reference back; an error reply always does. */
  function Complete(kind: LookupKind, pool: ConnectionPool.Pool, q: RefQueue.Queue, arg: string,
                    session: nat, w: World, callbackPrefix: string, releaseOnFailure: bool)
    : (r: Looked)
  {
    match w.reply
    case Err(e) => UnreleasedFailure(pool, q, w.server, e, releaseOnFailure)
    case Ok(reply) =>
      if reply.errorMsg.Some? then
        var (pool', _, effects) := ConnectionPool.ReleaseDispatcher(pool, w.server);
        Looked(pool', q, effects, Err(LookupFailed))
      else if !w.interfacesLoad then
        UnreleasedFailure(pool, q, w.server, LookupFailed, releaseOnFailure)
      else
        var name := if kind == ByName then arg else reply.remoteObjectName;
        match Proxies.NewProxy(q, w.server, session, name, reply.interfaces, true, callbackPrefix)
        case Err(e) => UnreleasedFailure(pool, q, w.server, e, releaseOnFailure)
        case Ok((proxy, q')) => Looked(pool, q', [], Ok(proxy))
  }

  /** A failure after the acquire that the source does not release: the reference
      is kept (`release` false) or given back. */
  function UnreleasedFailure(pool: ConnectionPool.Pool, q: RefQueue.Queue, server: string, e: Exception,
                        release: bool)
    : (r: Looked)
    ensures !release ==> r == Looked(pool, q, [], Err(e))
    ensures release ==> r.result == Err(e) && r.queue == q
                        && (r.pool, r.effects) == (ConnectionPool.ReleaseDispatcher(pool, server).0,
                                                   ConnectionPool.ReleaseDispatcher(pool, server).2)
  {
    if release then
      var (pool', _, effects) := ConnectionPool.ReleaseDispatcher(pool, server);
      Looked(pool', q, effects, Err(e))
    else Looked(pool, q, [], Err(e))
  }

  /** The lookup, parametrised by the handling of the unreleased failures. */
  function LookupWith(kind: LookupKind, pool: ConnectionPool.Pool, q: RefQueue.Queue, arg: Option<string>,
                      w: World, callbackPrefix: string, releaseOnFailure: bool)
    : (r: Looked)
  {
    match CheckArgument(arg)
    case Err(e) => Looked(pool, q, [], Err(e))
    case Ok(a) =>
      var (pool1, acquired, effects) := ConnectionPool.Acquire(pool, w.server, w.created, w.attempt);
      match acquired
      case Err(e) => Looked(pool1, q, effects, Err(e))
      case Ok(c) => Complete(kind, pool1, q, a, c.session, w, callbackPrefix, releaseOnFailure)
  }

  /** The lookups as written: an exception from the blocking request, a
      class-loading failure, and a proxy that cannot be registered end the lookup
      without giving the connection's reference back. */
  function LookupAsWritten(kind: LookupKind, pool: ConnectionPool.Pool, q: RefQueue.Queue, arg: Option<string>,
                           w: World, callbackPrefix: string)
    : (r: Looked)
    ensures (arg.None? || arg == Some("")) ==> r == Looked(pool, q, [], Err(IllegalArgument))
    ensures r.result.Ok? ==> LookedUp(kind, pool, arg, w, r)
  {
    LookupWith(kind, pool, q, arg, w, callbackPrefix, false)
  }

  /** What a successful lookup leaves: a regular-lookup proxy on the server's
      connection, named as asked (by name) or as the server answered (by
      interface), with one more reference on that connection. */
  ghost predicate LookedUp(kind: LookupKind, pool: ConnectionPool.Pool, arg: Option<string>, w: World, r: Looked)
    requires r.result.Ok?
  {
    var p := r.result.value;
    && arg.Some? && |arg.value| > 0
    && w.reply.Ok? && w.reply.value.errorMsg.None? && w.interfacesLoad
    && p.dispatcher == Some(w.server) && p.regularLookup
    && p.interfaces == w.reply.value.interfaces
    && p.remoteObjectName == Some(if kind == ByName then arg.value else w.reply.value.remoteObjectName)
    && w.server in r.pool.relation
    && r.pool.relation[w.server].refCount
         == (if w.server in pool.relation then pool.relation[w.server].refCount else 0) + 1
  }

  /** `NameLookup.lookup` and `InterfaceLookup.lookup` with every failure after the
      acquire releasing the reference the lookup took. */
  function Lookup(kind: LookupKind, pool: ConnectionPool.Pool, q: RefQueue.Queue, arg: Option<string>,
                  w: World, callbackPrefix: string)
    : (r: Looked)
    ensures (arg.None? || arg == Some("")) ==> r == Looked(pool, q, [], Err(IllegalArgument))
    ensures r.result.Ok? ==> LookedUp(kind, pool, arg, w, r)
    ensures r.result == LookupAsWritten(kind, pool, q, arg, w, callbackPrefix).result
    ensures r.result.Ok? ==> r == LookupAsWritten(kind, pool, q, arg, w, callbackPrefix)
  {
    LookupWith(kind, pool, q, arg, w, callbackPrefix, true)
  }

  /** As written, a lookup whose interfaces do not load fails with the connection
      referenced once more than before: nothing can release that reference. */
  lemma ClassLoadFailureLeaks(kind: LookupKind, pool: ConnectionPool.Pool, q: RefQueue.Queue, arg: string,
                              w: World, callbackPrefix: string)
    requires ConnectionPool.Valid(pool) && |arg| > 0
    requires w.server in pool.relation || w.attempt.Connected?
    requires w.reply.Ok? && w.reply.value.errorMsg.None? && !w.interfacesLoad
    ensures var r := LookupAsWritten(kind, pool, q, Some(arg), w, callbackPrefix);
            && r.result == Err(LookupFailed)
            && w.server in r.pool.relation
            && r.pool.relation[w.server].refCount
                 == (if w.server in pool.relation then pool.relation[w.server].refCount else 0) + 1
  {
  }

  /** As written, a lookup whose blocking request throws (the reply times out, the
      session closes) fails with the connection referenced once more than before. */
  lemma RequestFailureLeaks(kind: LookupKind, pool: ConnectionPool.Pool, q: RefQueue.Queue, arg: string,
                            w: World, callbackPrefix: string)
    requires ConnectionPool.Valid(pool) && |arg| > 0
    requires w.server in pool.relation || w.attempt.Connected?
    requires w.reply.Err?
    ensures var r := LookupAsWritten(kind, pool, q, Some(arg), w, callbackPrefix);
            && r.result == Err(w.reply.error)
            && w.server in r.pool.relation
            && r.pool.relation[w.server].refCount
                 == (if w.server in pool.relation then pool.relation[w.server].refCount else 0) + 1
  {
  }

  /** A failed lookup leaves the pool's connections as they were, whether it failed
      before connecting, in the blocking request, or after the reply. */
  lemma FailedLookupLeavesPool(kind: LookupKind, pool: ConnectionPool.Pool, q: RefQueue.Queue, arg: Option<string>,
                               w: World, callbackPrefix: string)
    requires ConnectionPool.Valid(pool)
    ensures var r := Lookup(kind, pool, q, arg, w, callbackPrefix);
            r.result.Err? ==> r.pool.relation == pool.relation
  {
    var r := Lookup(kind, pool, q, arg, w, callbackPrefix);
    if CheckArgument(arg).Ok? && r.result.Err? {
      var (pool1, acquired, _) := ConnectionPool.Acquire(pool, w.server, w.created, w.attempt);
      if acquired.Ok? {
        ReleaseUndoesAcquire(pool, w.server, w.created, w.attempt);
      }
    }
  }

  /** A release right after a successful acquire gives back the pool's connections. */
  lemma ReleaseUndoesAcquire(pool: ConnectionPool.Pool, server: string, created: nat,
                             attempt: ConnectionPool.ConnectAttempt)
    requires ConnectionPool.Valid(pool)
    requires ConnectionPool.Acquire(pool, server, created, attempt).1.Ok?
    ensures ConnectionPool.ReleaseDispatcher(ConnectionPool.Acquire(pool, server, created, attempt).0, server).0.relation
            == pool.relation
  {
    if server in pool.relation {
      ConnectionPool.AcquireReleaseShared(pool, server, created, attempt);
    } else {
      ConnectionPool.AcquireReleaseNew(pool, server, created, attempt.session);
    }
  }

  // ---------------------------------------------------------------------------
  // release

  /** What `release` is given: null, an object that is no SIMON proxy, or a proxy. */
  datatype Releasable = NullObject | NotAProxy | ProxyObject(proxy: Proxies.Proxy)

  /** The pool, the closed listeners of the proxy's dispatcher, the proxy, the
      listeners told, what the pool asks for, and the result. */
  datatype Released = Released(
    pool: ConnectionPool.Pool,
    listeners: Dispatcher.ClosedListeners,
    proxy: Option<Proxies.Proxy>,
    notified: seq<Dispatcher.Listener>,
    effects: seq<ConnectionPool.PoolEffect>,
    result: Result<bool>)

  /** `AbstractLookup.release`. Only a proxy from a regular lookup can be released. A
      proxy whose connection is gone reports false. Otherwise the closed listeners
      registered for its remote object are removed and told, the proxy forgets its
      name, and the connection is released: true iff that tore it down. */
  function Release(pool: ConnectionPool.Pool, m: Dispatcher.ClosedListeners, obj: Releasable)
    : (r: Released)
    ensures (obj.NullObject? || obj.NotAProxy? || !obj.proxy.regularLookup) <==> r.result.Err?
    ensures r.result.Err? ==> r == Released(pool, m, None, [], [], Err(IllegalArgument))
    ensures obj.ProxyObject? && obj.proxy.regularLookup && obj.proxy.dispatcher.None? ==>
              r == Released(pool, m, Some(obj.proxy), [], [], Ok(false))
    ensures obj.ProxyObject? && obj.proxy.regularLookup && obj.proxy.dispatcher.Some? ==>
              var p := obj.proxy;
              var name := p.remoteObjectName;
              var (pool', torn, effects) := ConnectionPool.ReleaseDispatcher(pool, p.dispatcher.value);
              && r.result == Ok(torn) && r.pool == pool' && r.effects == effects
              && r.proxy == Some(p.(remoteObjectName := None))
              && (name.Some? ==> r.listeners == m - {name.value})
              && (name.None? ==> r.listeners == m)
              && (r.notified == if name.Some? && name.value in m then m[name.value] else [])
  {
    match obj
    case NullObject => Released(pool, m, None, [], [], Err(IllegalArgument))
    case NotAProxy => Released(pool, m, None, [], [], Err(IllegalArgument))
    case ProxyObject(p) =>
      if !p.regularLookup then Released(pool, m, None, [], [], Err(IllegalArgument))
      else match p.dispatcher
        case None => Released(pool, m, Some(p), [], [], Ok(false))
        case Some(server) =>
          var (m', toNotify) :=
            if p.remoteObjectName.Some? then Dispatcher.RemoveClosedListenerList(m, p.remoteObjectName.value)
            else (m, None);
          var (p', _) := Proxies.Release(p);
          var (pool', torn, effects) := ConnectionPool.ReleaseDispatcher(pool, server);
          Released(pool', m', Some(p'), toNotify.GetOr([]), effects, Ok(torn))
  }

  /** A lookup followed by the release of its proxy gives the pool's connections
      back. */
  lemma LookupReleaseRoundTrip(kind: LookupKind, pool: ConnectionPool.Pool, q: RefQueue.Queue, arg: Option<string>,
                               w: World, callbackPrefix: string, m: Dispatcher.ClosedListeners)
    requires ConnectionPool.Valid(pool)
    requires Lookup(kind, pool, q, arg, w, callbackPrefix).result.Ok?
    ensures var r := Lookup(kind, pool, q, arg, w, callbackPrefix);
            var s := Release(r.pool, m, ProxyObject(r.result.value));
            s.result.Ok? && s.pool.relation == pool.relation
  {
    ReleaseUndoesAcquire(pool, w.server, w.created, w.attempt);
  }

  /** The proxy keeps its connection after a release, so releasing it a second time
      takes one more reference off a connection other proxies still share. */
  lemma SecondReleaseDecrementsAgain(pool: ConnectionPool.Pool, m: Dispatcher.ClosedListeners,
                                     p: Proxies.Proxy, m2: Dispatcher.ClosedListeners)
    requires p.regularLookup && p.dispatcher.Some?
    requires p.dispatcher.value in pool.relation && pool.relation[p.dispatcher.value].refCount >= 3
    ensures var r1 := Release(pool, m, ProxyObject(p));
            var r2 := Release(r1.pool, m2, ProxyObject(r1.proxy.value));
            && r2.result == Ok(false) && r2.notified == []
            && p.dispatcher.value in r2.pool.relation
            && r2.pool.relation[p.dispatcher.value].refCount == pool.relation[p.dispatcher.value].refCount - 2
  {
  }
}

=== FILE: lookuptable.dfy ===
/** `LookupTable`: the server side's table of bound remote objects, the callback
    objects handed out per session, and their reference counts.

    Objects are identities (`Obj`). The method-hash map of a bound object is
    reduced to whether the object has one; its contents are the method hashes
    of another part of the model. The iteration order of a `HashMap` key set is
    an input.
 */
module LookupTable {
  import opened Errors
  import opened Lists

  type SessionId = nat
  type Obj = nat

  /** A `RemoteObjectContainer`: the object, the name it is bound under, and the
      names of the interfaces it implements. */
  datatype Container = Container(obj: Obj, name: string, interfaces: seq<string>)

  /** The reference counts of the callback objects, per session and reference id. */
  type Counts = map<SessionId, map<string, int>>

  datatype Table = Table(
    bindings: map<string, Container>,
    gcRemoteInstances: map<SessionId, seq<string>>,
    methodMaps: set<Obj>,
    objects: set<Obj>,
    refCounts: Counts,
    cleanupDone: bool)

  /** Every count is positive, and no session keeps an empty map. */
  ghost predicate CountsValid(c: Counts) {
    forall s :: s in c ==> c[s] != map[] && forall r :: r in c[s] ==> c[s][r] >= 1
  }

  /** Counts are valid and no session lists a name twice. */
  ghost predicate Valid(t: Table) {
    CountsValid(t.refCounts) && forall s :: s in t.gcRemoteInstances ==> NoDup(t.gcRemoteInstances[s])
  }

  /** The count of `refId` in `s`, zero when there is none. */
  function Count(c: Counts, s: SessionId, refId: string): int {
    if s in c && refId in c[s] then c[s][refId] else 0
  }

  // ---------------------------------------------------------------------------
  // Reference counts

  /** `addCallbackRef`: the first reference of a (session, id) pair creates its
      count at one; every later one adds one. No other count changes. */
  function AddCallbackRef(c: Counts, s: SessionId, refId: string): (r: Counts)
    ensures Count(r, s, refId) == Count(c, s, refId) + 1
    ensures forall s': SessionId, id: string :: (s', id) != (s, refId) ==> Count(r, s', id) == Count(c, s', id)
    ensures forall s' :: s' in r <==> s' in c || s' == s
    ensures CountsValid(c) ==> CountsValid(r)
  {
    if s !in c then c[s := map[refId := 1]]
    else if refId !in c[s] then c[s := c[s][refId := 1]]
    else c[s := c[s][refId := c[s][refId] + 1]]
  }

  /** The count part of `removeCallbackRef`: one reference less; at zero the id is
      dropped, and then the session when it has no id left. An unknown session or
      id changes nothing. */
  function RemoveCount(c: Counts, s: SessionId, refId: string): (r: Counts)
    ensures CountsValid(c) ==> CountsValid(r)
    ensures CountsValid(c) ==> Count(r, s, refId) == if Count(c, s, refId) == 0 then 0 else Count(c, s, refId) - 1
    ensures forall s': SessionId, id: string :: (s', id) != (s, refId) ==> Count(r, s', id) == Count(c, s', id)
    ensures s !in c || refId !in c[s] ==> r == c
  {
    if s !in c || refId !in c[s] then c
    else
      var n := c[s][refId] - 1;
      if n == 0 then
        var m := c[s] - {refId};
        if m == map[] then
          assert forall id :: id in c[s] ==> id in m || id == refId;
          c - {s}
        else c[s := m]
      else c[s := c[s][refId := n]]
  }

  /** One reference added and removed again gives the counts back. */
  lemma AddRemoveCount(c: Counts, s: SessionId, refId: string)
    requires CountsValid(c)
    ensures RemoveCount(AddCallbackRef(c, s, refId), s, refId) == c
  {
    var r := RemoveCount(AddCallbackRef(c, s, refId), s, refId);
    if s !in c {
      assert map[refId := 1] - {refId} == map[];
      assert r == c[s := map[refId := 1]] - {s};
    } else if refId !in c[s] {
      assert c[s][refId := 1] - {refId} == c[s];
    } else {
      assert c[s][refId := c[s][refId] + 1][refId := c[s][refId]] == c[s];
    }
  }

  // ---------------------------------------------------------------------------
  // Bindings

  /** `putRemoteBinding`: the object is bound under the name, registered, and gets its
      method map. */
  function PutRemoteBinding(t: Table, name: string, obj: Obj, interfaces: seq<string>): (r: Table)
    ensures r.bindings == t.bindings[name := Container(obj, name, interfaces)]
    ensures r.objects == t.objects + {obj} && r.methodMaps == t.methodMaps + {obj}
    ensures r.gcRemoteInstances == t.gcRemoteInstances && r.refCounts == t.refCounts
  {
    t.(bindings := t.bindings[name := Container(obj, name, interfaces)],
       objects := t.objects + {obj},
       methodMaps := t.methodMaps + {obj})
  }

  /** `getRemoteObjectContainer`: fails exactly for a name that is not bound. */
  function GetRemoteObjectContainer(t: Table, name: string): (r: Result<Container>)
    ensures r.Err? <==> name !in t.bindings
    ensures r.Err? ==> r.error == LookupFailed
    ensures r.Ok? ==> r.value == t.bindings[name]
  {
    if name !in t.bindings then Err(LookupFailed) else Ok(t.bindings[name])
  }

  /** `releaseRemoteBinding`: the name leaves the bindings, and its object leaves the
      object set and the method maps, together. An unbound name changes nothing. */
  function ReleaseRemoteBinding(t: Table, name: string): (r: Table)
    ensures name !in t.bindings ==> r == t
    ensures name in t.bindings ==>
              var o := t.bindings[name].obj;
              && r.bindings == t.bindings - {name}
              && r.objects == t.objects - {o} && r.methodMaps == t.methodMaps - {o}
    ensures r.gcRemoteInstances == t.gcRemoteInstances && r.refCounts == t.refCounts
    ensures r.cleanupDone == t.cleanupDone
  {
    if name !in t.bindings then t
    else
      var o := t.bindings[name].obj;
      t.(bindings := t.bindings - {name}, objects := t.objects - {o}, methodMaps := t.methodMaps - {o})
  }

  /** Binding a new object under a free name and releasing it gives the table back. */
  lemma BindReleaseRoundTrip(t: Table, name: string, obj: Obj, interfaces: seq<string>)
    requires name !in t.bindings && obj !in t.objects && obj !in t.methodMaps
    ensures ReleaseRemoteBinding(PutRemoteBinding(t, name, obj, interfaces), name) == t
  {
    var r := ReleaseRemoteBinding(PutRemoteBinding(t, name, obj, interfaces), name);
    assert r.bindings == t.bindings;
    assert r.objects == t.objects;
    assert r.methodMaps == t.methodMaps;
  }

  // ---------------------------------------------------------------------------
  // Callback objects

  /** `putRemoteInstance`: the reference is counted; the first time the session hands
      out this id, it is listed for the session and bound under the id. */
  function PutRemoteInstance(t: Table, s: SessionId, refId: string, obj: Obj, interfaces: seq<string>)
    : (r: Table)
    ensures r.refCounts == AddCallbackRef(t.refCounts, s, refId)
    ensures Count(r.refCounts, s, refId) == Count(t.refCounts, s, refId) + 1
    ensures s in r.gcRemoteInstances && refId in r.gcRemoteInstances[s]
    ensures s in t.gcRemoteInstances && refId in t.gcRemoteInstances[s] ==>
              r == t.(refCounts := AddCallbackRef(t.refCounts, s, refId))
    ensures !(s in t.gcRemoteInstances && refId in t.gcRemoteInstances[s]) ==>
              r.bindings == t.bindings[refId := Container(obj, refId, interfaces)]
    ensures Valid(t) ==> Valid(r)
  {
    var t1 := t.(refCounts := AddCallbackRef(t.refCounts, s, refId));
    var listed := if s in t.gcRemoteInstances then t.gcRemoteInstances[s] else [];
    if refId in listed then t1
    else
      assert NoDup(listed) ==> NoDup(listed + [refId]) by {
        if NoDup(listed) { AppendNoDup(listed, refId); }
      }
      PutRemoteBinding(t1.(gcRemoteInstances := t.gcRemoteInstances[s := listed + [refId]]), refId, obj, interfaces)
  }

  /** A callback object handed out twice in one session is bound and listed once,
      and counted twice. */
  lemma BoundOncePerSession(t: Table, s: SessionId, refId: string, o1: Obj, i1: seq<string>, o2: Obj, i2: seq<string>)
    ensures var t1 := PutRemoteInstance(t, s, refId, o1, i1);
            var t2 := PutRemoteInstance(t1, s, refId, o2, i2);
            && t2.bindings == t1.bindings && t2.gcRemoteInstances == t1.gcRemoteInstances
            && Count(t2.refCounts, s, refId) == Count(t.refCounts, s, refId) + 2
  {
  }

  /** `removeCallbackRef`: one reference less; whatever the count, the binding under
      the id is released and the id leaves the session's list. */
  function RemoveCallbackRef(t: Table, s: SessionId, refId: string): (r: Table)
    ensures r.refCounts == RemoveCount(t.refCounts, s, refId)
    ensures refId !in r.bindings
    ensures forall n :: n != refId ==> (n in r.bindings <==> n in t.bindings)
    ensures (s in r.gcRemoteInstances <==> s in t.gcRemoteInstances)
    ensures s in t.gcRemoteInstances ==>
              multiset(r.gcRemoteInstances[s]) == multiset(t.gcRemoteInstances[s]) - multiset{refId}
    ensures Valid(t) ==> Valid(r) && (s in r.gcRemoteInstances ==> refId !in r.gcRemoteInstances[s])
  {
    var t1 := t.(refCounts := RemoveCount(t.refCounts, s, refId));
    var t2 := ReleaseRemoteBinding(t1, refId);
    if s in t2.gcRemoteInstances then
      var list := t2.gcRemoteInstances[s];
      RemoveFirstFacts(list, refId);
      t2.(gcRemoteInstances := t2.gcRemoteInstances[s := RemoveFirst(list, refId)])
    else t2
  }

  /** A still-referenced callback object loses its binding all the same: the next
      call on it fails its lookup. */
  lemma RemoveUnbindsWhileReferenced(t: Table, s: SessionId, refId: string, obj: Obj, interfaces: seq<string>)
    requires Valid(t)
    ensures var t2 := PutRemoteInstance(PutRemoteInstance(t, s, refId, obj, interfaces), s, refId, obj, interfaces);
            var r := RemoveCallbackRef(t2, s, refId);
            && Count(r.refCounts, s, refId) == Count(t.refCounts, s, refId) + 1
            && GetRemoteObjectContainer(r, refId) == Err(LookupFailed)
  {
    var t1 := PutRemoteInstance(t, s, refId, obj, interfaces);
    var t2 := PutRemoteInstance(t1, s, refId, obj, interfaces);
    assert Valid(t2);
  }

  // ---------------------------------------------------------------------------
  // Unreference and cleanup

  /** The bindings under `names` released one after another; the objects among them
      that want to hear of it (`aware`, the `SimonUnreferenced` ones) are told, in
      order. */
  function UnbindAll(t: Table, names: seq<string>, aware: set<Obj>): (res: (Table, seq<Obj>))
    ensures forall n :: n in res.0.bindings <==> n in t.bindings && n !in names
    ensures forall n :: n in res.0.bindings ==> res.0.bindings[n] == t.bindings[n]
    ensures res.0.gcRemoteInstances == t.gcRemoteInstances && res.0.refCounts == t.refCounts
    ensures res.0.cleanupDone == t.cleanupDone
    decreases |names|
  {
    if |names| == 0 then (t, [])
    else
      var n := names[0];
      var told := if n in t.bindings && t.bindings[n].obj in aware then [t.bindings[n].obj] else [];
      var (r, rest) := UnbindAll(ReleaseRemoteBinding(t, n), names[1..], aware);
      assert forall m :: m in names <==> m == n || m in names[1..];
      (r, told + rest)
  }

  /** Exactly the unreferenced-aware objects bound under one of the names are
      told. */
  lemma {:induction false} UnbindAllTells(t: Table, names: seq<string>, aware: set<Obj>)
    ensures forall o :: o in UnbindAll(t, names, aware).1 <==>
              o in aware && exists n :: n in names && n in t.bindings && t.bindings[n].obj == o
    decreases |names|
  {
    if |names| > 0 {
      var n := names[0];
      var t1 := ReleaseRemoteBinding(t, n);
      UnbindAllTells(t1, names[1..], aware);
      assert forall m :: m in names <==> m == n || m in names[1..];
    }
  }

  /** `unreference`: the session's list and counts are dropped, and every name on the
      list is unbound. */
  function Unreference(t: Table, s: SessionId, aware: set<Obj>): (res: (Table, seq<Obj>))
    ensures s !in res.0.gcRemoteInstances && s !in res.0.refCounts
    ensures res.0.gcRemoteInstances == t.gcRemoteInstances - {s} && res.0.refCounts == t.refCounts - {s}
    ensures var listed := if s in t.gcRemoteInstances then t.gcRemoteInstances[s] else [];
            && (forall n :: n in res.0.bindings <==> n in t.bindings && n !in listed)
            && (forall o :: o in res.1 <==>
                  o in aware && exists n :: n in listed && n in t.bindings && t.bindings[n].obj == o)
    ensures res.0.cleanupDone == t.cleanupDone
  {
    var listed := if s in t.gcRemoteInstances then t.gcRemoteInstances[s] else [];
    var t1 := t.(gcRemoteInstances := t.gcRemoteInstances - {s}, refCounts := t.refCounts - {s});
    UnbindAllTells(t1, listed, aware);
    UnbindAll(t1, listed, aware)
  }

  /** `order` is the iteration order of the sessions' key set. */
  ghost predicate IsSessionOrder(t: Table, order: seq<SessionId>) {
    NoDup(order) && forall s :: s in order <==> s in t.gcRemoteInstances
  }

  /** The table emptied, as `cleanup` leaves it after unreferencing. */
  function Cleared(t: Table): (r: Table)
    ensures r.bindings == map[] && r.refCounts == map[] && r.methodMaps == {} && r.cleanupDone
    ensures r.gcRemoteInstances == t.gcRemoteInstances && r.objects == t.objects
  {
    t.(bindings := map[], methodMaps := {}, refCounts := map[], cleanupDone := true)
  }

  /** `cleanup` as written: it unreferences the sessions while iterating over the live
      key set of the very map `unreference` removes them from. With two or more
      sessions the iterator fails on the second one: the remaining sessions keep
      their bindings and the table is never cleared. */
  function CleanupAsWritten(t: Table, order: seq<SessionId>, aware: set<Obj>)
    : (res: (Table, seq<Obj>, Result<()>))
    requires IsSessionOrder(t, order)
    ensures |order| >= 2 ==> res.2 == Err(ConcurrentModification) && res.0.cleanupDone == t.cleanupDone
                             && order[1] in res.0.gcRemoteInstances
    ensures |order| < 2 ==> res.2.Ok? && res.0.bindings == map[] && res.0.cleanupDone
  {
    if |order| == 0 then (Cleared(t), [], Ok(()))
    else
      var (t1, told) := Unreference(t, order[0], aware);
      if |order| >= 2 then
        assert order[1] != order[0] by {
          assert multiset(order)[order[0]] <= 1;
          assert order == [order[0], order[1]] + order[2..];
        }
        (t1, told, Err(ConcurrentModification))
      else (Cleared(t1), told, Ok(()))
  }

  /** With a second session, the code as written never unbinds that session's
      callback object and never tells it, where the corrected cleanup does both. */
  lemma CleanupAsWrittenLeavesBinding()
    ensures var t := Table(map["b" := Container(7, "b", [])], map[1 := ["a"], 2 := ["b"]], {7}, {7}, map[], false);
            var res := CleanupAsWritten(t, [1, 2], {7});
            && res.2 == Err(ConcurrentModification)
            && "b" in res.0.bindings && 7 !in res.1
            && 7 in Cleanup(t, [1, 2], {7}).1
  {
    var t := Table(map["b" := Container(7, "b", [])], map[1 := ["a"], 2 := ["b"]], {7}, {7}, map[], false);
    assert multiset([1, 2])[1] == 1 && multiset([1, 2])[2] == 1;
    assert IsSessionOrder(t, [1, 2]);
    assert ListedBinding(t, [1, 2], 7) by {
      assert 2 in [1, 2] && 2 in t.gcRemoteInstances && t.gcRemoteInstances[2] == ["b"];
      assert "b" in t.gcRemoteInstances[2] && "b" in t.bindings && t.bindings["b"].obj == 7;
    }
  }

  /** With fewer than two sessions nothing is iterated after a removal, and the
      code as written does what the corrected cleanup does. */
  lemma CleanupAsWrittenAgreesOnOneSession(t: Table, order: seq<SessionId>, aware: set<Obj>)
    requires IsSessionOrder(t, order) && |order| < 2
    ensures var res := CleanupAsWritten(t, order, aware);
            res.2.Ok? && (res.0, res.1) == Cleanup(t, order, aware)
  {
    if |order| == 1 {
      var (t1, told) := Unreference(t, order[0], aware);
      assert order[1..] == [];
      assert told + [] == told;
      assert UnreferenceAll(t, order, aware) == (t1, told);
    }
  }

  /** The sessions in `order` unreferenced one after another. */
  function UnreferenceAll(t: Table, order: seq<SessionId>, aware: set<Obj>): (res: (Table, seq<Obj>))
    decreases |order|
  {
    if |order| == 0 then (t, [])
    else
      var (t1, told) := Unreference(t, order[0], aware);
      var (r, rest) := UnreferenceAll(t1, order[1..], aware);
      (r, told + rest)
  }

  /** A name some session in `order` lists, bound in `t` to object `o`. */
  ghost predicate ListedBinding(t: Table, order: seq<SessionId>, o: Obj) {
    exists s, n :: s in order && s in t.gcRemoteInstances && n in t.gcRemoteInstances[s]
                   && n in t.bindings && t.bindings[n].obj == o
  }

  /** `cleanup` as intended: every session is unreferenced, then the table is
      cleared. */
  function Cleanup(t: Table, order: seq<SessionId>, aware: set<Obj>): (res: (Table, seq<Obj>))
    requires IsSessionOrder(t, order)
    ensures res.0.bindings == map[] && res.0.refCounts == map[] && res.0.cleanupDone
    ensures res.0.gcRemoteInstances == map[]
    ensures forall o :: o in res.1 <==> o in aware && ListedBinding(t, order, o)
  {
    var (t1, told) := UnreferenceAll(t, order, aware);
    UnreferenceAllDropsSessions(t, order, aware);
    CleanupTellsListed(t, order, aware);
    (Cleared(t1), told)
  }

  lemma {:induction false} UnreferenceAllDropsSessions(t: Table, order: seq<SessionId>, aware: set<Obj>)
    ensures UnreferenceAll(t, order, aware).0.gcRemoteInstances == t.gcRemoteInstances - set s | s in order
    decreases |order|
  {
    if |order| > 0 {
      var t1 := Unreference(t, order[0], aware).0;
      UnreferenceAllDropsSessions(t1, order[1..], aware);
      assert (t.gcRemoteInstances - {order[0]}) - (set s | s in order[1..]) == t.gcRemoteInstances - set s | s in order;
    }
  }

  /** The corrected `cleanup` tells exactly the aware objects bound under a name some
      session lists: each listed binding is released by the first session listing it. */
  lemma {:induction false} CleanupTellsListed(t: Table, order: seq<SessionId>, aware: set<Obj>)
    ensures forall o :: o in UnreferenceAll(t, order, aware).1 <==> o in aware && ListedBinding(t, order, o)
    decreases |order|
  {
    if |order| > 0 {
      var s0 := order[0];
      var (t1, told) := Unreference(t, s0, aware);
      var listed := if s0 in t.gcRemoteInstances then t.gcRemoteInstances[s0] else [];
      CleanupTellsListed(t1, order[1..], aware);
      forall o
        ensures o in UnreferenceAll(t, order, aware).1 <==> o in aware && ListedBinding(t, order, o)
      {
        ListedSplit(t, t1, order, listed, o);
      }
    }
  }

  /** One step of `CleanupTellsListed`: a listed binding is either on the first
      session's list or still bound after the first session was unreferenced. */
  lemma ListedSplit(t: Table, t1: Table, order: seq<SessionId>, listed: seq<string>, o: Obj)
    requires |order| > 0
    requires listed == if order[0] in t.gcRemoteInstances then t.gcRemoteInstances[order[0]] else []
    requires t1.gcRemoteInstances == t.gcRemoteInstances - {order[0]}
    requires forall n :: n in t1.bindings <==> n in t.bindings && n !in listed
    requires forall n :: n in t1.bindings ==> t1.bindings[n] == t.bindings[n]
    ensures ListedBinding(t, order, o) <==>
              (exists n :: n in listed && n in t.bindings && t.bindings[n].obj == o)
              || ListedBinding(t1, order[1..], o)
  {
    if ListedBinding(t, order, o) {
      var s, n :| s in order && s in t.gcRemoteInstances && n in t.gcRemoteInstances[s]
                  && n in t.bindings && t.bindings[n].obj == o;
      if n !in listed {
        assert s != order[0];
        assert s in order[1..];
        assert ListedBinding(t1, order[1..], o);
      }
    }
    if ListedBinding(t1, order[1..], o) {
      var s, n :| s in order[1..] && s in t1.gcRemoteInstances && n in t1.gcRemoteInstances[s]
                  && n in t1.bindings && t1.bindings[n].obj == o;
      assert s in order;
    }
    if exists n :: n in listed && n in t.bindings && t.bindings[n].obj == o {
      var n :| n in listed && n in t.bindings && t.bindings[n].obj == o;
      assert order[0] in order;
    }
  }

  // ---------------------------------------------------------------------------
  // Lookup by interface

  /** Does the object bound under `n` implement the interface? */
  predicate Implements(b: map<string, Container>, n: string, iface: string) {
    n in b && iface in b[n].interfaces
  }

  /** The scan of `getRemoteObjectContainerByInterface` over the names in `order`:
      the first container that implements the interface is kept, and a later one
      with a different object fails the lookup. */
  function Scan(b: map<string, Container>, order: seq<string>, iface: string, found: Option<Container>)
    : (r: Result<Option<Container>>)
    requires forall n :: n in order ==> n in b
    requires found.Some? ==> iface in found.value.interfaces
    ensures r.Err? ==> r.error == LookupFailed
    ensures r.Ok? && found.Some? ==> r.value == found
    decreases |order|
  {
    if |order| == 0 then Ok(found)
    else
      var c := b[order[0]];
      if iface !in c.interfaces then Scan(b, order[1..], iface, found)
      else if found.None? then Scan(b, order[1..], iface, Some(c))
      else if found.value.obj != c.obj then Err(LookupFailed)
      else Scan(b, order[1..], iface, found)
  }

  /** All the names in `order` that implement the interface hold one object. */
  ghost predicate SameObject(b: map<string, Container>, order: seq<string>, iface: string) {
    forall n1, n2 :: n1 in order && n2 in order && Implements(b, n1, iface) && Implements(b, n2, iface)
      ==> b[n1].obj == b[n2].obj
  }

  /** Every name in `order` that implements the interface holds `o`. */
  ghost predicate AllHold(b: map<string, Container>, order: seq<string>, iface: string, o: Obj) {
    forall n :: n in order && Implements(b, n, iface) ==> b[n].obj == o
  }

  /** Some name in `order` implements the interface with container `c`. */
  ghost predicate ImplementedBy(b: map<string, Container>, order: seq<string>, iface: string, c: Container) {
    exists n :: n in order && Implements(b, n, iface) && b[n] == c
  }

  /** The scan succeeds iff the implementing names agree with each other and with
      what was found before; starting from nothing, it finds one of them iff there
      is one. */
  lemma {:induction false} ScanOutcome(b: map<string, Container>, order: seq<string>, iface: string,
                                       found: Option<Container>)
    requires forall n :: n in order ==> n in b
    requires found.Some? ==> iface in found.value.interfaces
    ensures var r := Scan(b, order, iface, found);
            && (r.Ok? <==> SameObject(b, order, iface) && (found.Some? ==> AllHold(b, order, iface, found.value.obj)))
            && (r.Ok? && found.None? ==>
                  (r.value.Some? <==> exists n :: n in order && Implements(b, n, iface))
                  && (r.value.Some? ==> ImplementedBy(b, order, iface, r.value.value)))
    decreases |order|
  {
    if |order| > 0 {
      var c := b[order[0]];
      var rest := order[1..];
      assert forall n :: n in order <==> n == order[0] || n in rest;
      if iface !in c.interfaces {
        ScanOutcome(b, rest, iface, found);
      } else if found.None? {
        ScanOutcome(b, rest, iface, Some(c));
        assert Implements(b, order[0], iface);
      } else if found.value.obj != c.obj {
        assert Implements(b, order[0], iface);
      } else {
        ScanOutcome(b, rest, iface, found);
      }
    }
  }

  /** `order` is the iteration order of the bindings' key set. */
  ghost predicate IsNameOrder(b: map<string, Container>, order: seq<string>) {
    NoDup(order) && forall n :: n in order <==> n in b
  }

  /** `getRemoteObjectContainerByInterface`: found when some binding implements the
      interface; refused when none does, or when two bindings of different objects
      do. */
  function GetRemoteObjectContainerByInterface(t: Table, order: seq<string>, iface: string)
    : (r: Result<Container>)
    requires IsNameOrder(t.bindings, order)
    ensures r.Err? ==> r.error == LookupFailed
    ensures r.Ok? ==> iface in r.value.interfaces && r.value in t.bindings.Values
    ensures (forall n :: n in t.bindings ==> iface !in t.bindings[n].interfaces) ==> r.Err?
  {
    ScanOutcome(t.bindings, order, iface, None);
    match Scan(t.bindings, order, iface, None)
    case Err(e) => Err(e)
    case Ok(None) => Err(LookupFailed)
    case Ok(Some(c)) => Ok(c)
  }

  /** The lookup by interface succeeds iff some binding implements the interface and
      all that do hold the same object; the container found is one of them. */
  lemma ByInterfaceUnique(t: Table, order: seq<string>, iface: string)
    requires IsNameOrder(t.bindings, order)
    ensures var b := t.bindings;
            var r := GetRemoteObjectContainerByInterface(t, order, iface);
            && (r.Ok? <==> (exists n :: Implements(b, n, iface))
                           && forall n1, n2 :: Implements(b, n1, iface) && Implements(b, n2, iface) ==> b[n1].obj == b[n2].obj)
            && (r.Ok? ==> exists n :: Implements(b, n, iface) && b[n] == r.value)
            && (r.Err? ==> r.error == LookupFailed)
  {
    var b := t.bindings;
    var r := Scan(b, order, iface, None);
    ScanOutcome(b, order, iface, None);
    assert forall n :: Implements(b, n, iface) ==> n in order;
    if r.Ok? && r.value.Some? {
      var n :| n in order && Implements(b, n, iface) && b[n] == r.value.value;
    }
  }
}

=== FILE: numerals.dfy ===
/** Positional numerals: the digit strings produced by `Integer.toString`,
    `Long.toString` and `Long.toHexString`, with their parsers as partners.
 */
module Numerals {

  /** The digit characters used by the runtime, in value order (upper-case hex). */
  const DIGIT_CHARS: string := "0123456789ABCDEF"

  /** The two radixes the runtime prints in. */
  type Radix = b: nat | b == 10 || b == 16 witness 10

  /** Digits of `n` in base `base`, most significant first, without leading zeros. */
  function Digits(n: nat, base: Radix): (ds: seq<nat>)
    ensures |ds| >= 1
    ensures forall i :: 0 <= i < |ds| ==> ds[i] < base
    ensures |ds| > 1 ==> ds[0] != 0
    ensures n == 0 ==> ds == [0]
    decreases n
  {
    if n < base then [n] else Digits(n / base, base) + [n % base]
  }

  /** The number a digit sequence stands for. */
  function Value(ds: seq<nat>, base: nat): nat
  {
    if |ds| == 0 then 0 else Value(ds[..|ds| - 1], base) * base + ds[|ds| - 1]
  }

  /** A digit sequence in the form `Digits` produces. */
  predicate Canonical(ds: seq<nat>, base: nat) {
    && |ds| >= 1
    && (forall i :: 0 <= i < |ds| ==> ds[i] < base)
    && (|ds| > 1 ==> ds[0] != 0)
  }

  lemma DivModUnique(q: nat, r: nat, base: Radix)
    requires 0 <= r < base
    ensures (q * base + r) / base == q
    ensures (q * base + r) % base == r
  {
    if base == 10 {
      assert (q * 10 + r) / 10 == q;
    } else {
      assert (q * 16 + r) / 16 == q;
    }
  }

  /** The digits of `n` stand for `n`. */
  lemma {:induction false} ValueOfDigits(n: nat, base: Radix)
    ensures Value(Digits(n, base), base) == n
    decreases n
  {
    if n >= base {
      var ds := Digits(n, base);
      assert ds[..|ds| - 1] == Digits(n / base, base);
      ValueOfDigits(n / base, base);
      if base == 10 {
        assert n == (n / 10) * 10 + n % 10;
      } else {
        assert n == (n / 16) * 16 + n % 16;
      }
    }
  }

  /** A canonical sequence is at least its leading digit. */
  lemma {:induction false} ValueAtLeastLeading(ds: seq<nat>, base: nat)
    requires |ds| >= 1 && base >= 1
    ensures Value(ds, base) >= ds[0]
    decreases |ds|
  {
    if |ds| > 1 {
      var init := ds[..|ds| - 1];
      assert init[0] == ds[0];
      ValueAtLeastLeading(init, base);
      MulMonotone(Value(init, base), base);
    }
  }

  lemma MulMonotone(a: nat, b: nat)
    requires b >= 1
    ensures a * b >= a
  {
  }

  /** Every canonical digit sequence is the digits of its value: numerals are unique. */
  lemma {:induction false} DigitsOfValue(ds: seq<nat>, base: Radix)
    requires Canonical(ds, base)
    ensures Digits(Value(ds, base), base) == ds
    decreases |ds|
  {
    var v := Value(ds, base);
    if |ds| == 1 {
      assert ds[..0] == [];
      assert v == ds[0];
    } else {
      var init := ds[..|ds| - 1];
      var last := ds[|ds| - 1];
      assert init[0] == ds[0];
      assert Canonical(init, base);
      ValueAtLeastLeading(init, base);
      DivModUnique(Value(init, base), last, base);
      assert v >= base;
      DigitsOfValue(init, base);
      assert Digits(v, base) == Digits(v / base, base) + [v % base];
    }
  }

  /** The character for one digit. */
  function DigitChar(d: nat): (c: char)
    requires d < 16
    ensures c in DIGIT_CHARS
  {
    DIGIT_CHARS[d]
  }

  /** The value of a digit character, if it is one. */
  function CharDigit(c: char): (d: nat)
    requires c in DIGIT_CHARS
    ensures d < 16 && DIGIT_CHARS[d] == c
  {
    if c == '0' then 0 else if c == '1' then 1 else if c == '2' then 2
    else if c == '3' then 3 else if c == '4' then 4 else if c == '5' then 5
    else if c == '6' then 6 else if c == '7' then 7 else if c == '8' then 8
    else if c == '9' then 9 else if c == 'A' then 10 else if c == 'B' then 11
    else if c == 'C' then 12 else if c == 'D' then 13 else if c == 'E' then 14
    else 15
  }

  lemma CharDigitOfDigitChar(d: nat)
    requires d < 16
    ensures CharDigit(DigitChar(d)) == d
  {
  }

  /** Characters for a digit sequence. */
  function Render(ds: seq<nat>): (s: string)
    requires forall i :: 0 <= i < |ds| ==> ds[i] < 16
    ensures |s| == |ds|
    ensures forall i :: 0 <= i < |ds| ==> s[i] == DIGIT_CHARS[ds[i]]
  {
    seq(|ds|, i requires 0 <= i < |ds| => DigitChar(ds[i]))
  }

  /** Digit values of a string of digit characters. */
  function Parse(s: string): (ds: seq<nat>)
    requires forall i :: 0 <= i < |s| ==> s[i] in DIGIT_CHARS
    ensures |ds| == |s|
    ensures forall i :: 0 <= i < |s| ==> ds[i] < 16 && DIGIT_CHARS[ds[i]] == s[i]
  {
    seq(|s|, i requires 0 <= i < |s| => CharDigit(s[i]))
  }

  lemma ParseRender(ds: seq<nat>)
    requires forall i :: 0 <= i < |ds| ==> ds[i] < 16
    ensures Parse(Render(ds)) == ds
  {
    var s := Render(ds);
    forall i | 0 <= i < |ds|
      ensures Parse(s)[i] == ds[i]
    {
      CharDigitOfDigitChar(ds[i]);
    }
  }

  /** `Integer.toString` / `Long.toString`: optional minus sign, then decimal digits. */
  function Decimal(x: int): (s: string)
    ensures |s| >= 1
    ensures (s[0] == '-') <==> x < 0
    ensures forall i :: 0 <= i < |s| ==> s[i] in DIGIT_CHARS || (i == 0 && s[i] == '-')
  {
    if x < 0 then "-" + Render(Digits(-x, 10)) else Render(Digits(x, 10))
  }

  /** Reads back what `Decimal` printed. */
  function ParseDecimal(s: string): int
    requires |s| >= 1
    requires forall i :: 0 <= i < |s| ==> s[i] in DIGIT_CHARS || (i == 0 && s[i] == '-')
  {
    if s[0] == '-' then -(Value(Parse(s[1..]), 10) as int) else Value(Parse(s), 10)
  }

  /** Printing then parsing a decimal gives the number back. */
  lemma ParseDecimalOfDecimal(x: int)
    ensures ParseDecimal(Decimal(x)) == x
  {
    var n: nat := if x < 0 then -x else x;
    var ds := Digits(n, 10);
    var r := Render(ds);
    ParseRender(ds);
    ValueOfDigits(n, 10);
    if x < 0 {
      assert Decimal(x) == "-" + r;
      assert Decimal(x)[1..] == r;
    } else {
      assert Decimal(x) == r;
      assert r[0] == DIGIT_CHARS[ds[0]];
    }
  }

  /** Different numbers print differently. */
  lemma DecimalInjective(x: int, y: int)
    requires Decimal(x) == Decimal(y)
    ensures x == y
  {
    ParseDecimalOfDecimal(x);
    ParseDecimalOfDecimal(y);
  }

  function Pow10(k: nat): (p: nat)
    ensures p >= 1
  {
    if k == 0 then 1 else 10 * Pow10(k - 1)
  }

  /** A number below 10^k has at most k decimal digits. */
  lemma {:induction false} DigitsAtMost(n: nat, k: nat)
    requires k >= 1 && n < Pow10(k)
    ensures |Digits(n, 10)| <= k
  {
    if n >= 10 {
      assert k >= 2;
      assert n / 10 < Pow10(k - 1);
      DigitsAtMost(n / 10, k - 1);
    }
  }

  /** `Integer.toString` of an int is at most eleven characters long. */
  lemma DecimalOfIntShort(x: int)
    requires -0x8000_0000 <= x < 0x8000_0000
    ensures |Decimal(x)| <= 11
  {
    var n: nat := if x < 0 then -x else x;
    assert Pow10(10) == 10_000_000_000;
    DigitsAtMost(n, 10);
  }
}

=== FILE: pending.dfy ===
/** The dispatcher's table of outstanding requests.

    Two structures work together: per session, the list of sequence ids that
    still wait for a reply; per sequence id, a slot holding either the waiter's
    monitor or the reply that replaced it. Every `synchronized` block is one
    step here, and the waiting loop counts polls instead of reading a clock.
 */
module PendingRequests {
  import opened Errors
  import opened Lists

  type SessionId = nat

  /** What a request can be answered with: a reply message or an exception object. */
  datatype Reply<M> = Message(msg: M) | Failure(error: Exception)

  /** An entry of `requestMonitorAndResultMap`. */
  datatype Slot<M> = Monitor | Filled(reply: Reply<M>)

  datatype Pending<M> = Pending(placed: map<SessionId, seq<int>>, slots: map<int, Slot<M>>)

  function Empty<M>(): (p: Pending<M>)
    ensures p.placed == map[] && p.slots == map[]
  {
    Pending(map[], map[])
  }

  /** Is `id` still awaited on session `s`? */
  predicate Outstanding<M>(p: Pending<M>, s: SessionId, id: int) {
    s in p.placed && id in p.placed[s]
  }

  /** The table is consistent: no empty or duplicated lists, every awaited id has
      its monitor, and an id is awaited on one session at most. */
  ghost predicate Valid<M>(p: Pending<M>) {
    && (forall s :: s in p.placed ==> |p.placed[s]| > 0 && NoDup(p.placed[s]))
    && (forall s, id :: s in p.placed && id in p.placed[s] ==> id in p.slots && p.slots[id] == Monitor)
    && (forall s1, s2, id :: s1 in p.placed && s2 in p.placed && id in p.placed[s1] && id in p.placed[s2]
          ==> s1 == s2)
  }

  /** `createMonitor`: `id` joins the session's list (which is created on first use)
      and its slot holds a fresh monitor. */
  function CreateMonitor<M>(p: Pending<M>, s: SessionId, id: int): (r: Pending<M>)
    ensures Outstanding(r, s, id)
    ensures r.slots == p.slots[id := Monitor]
    ensures s in p.placed ==> r.placed[s] == p.placed[s] + [id]
    ensures forall t :: t != s ==> (t in r.placed <==> t in p.placed)
    ensures forall t :: t != s && t in p.placed ==> r.placed[t] == p.placed[t]
  {
    var list := if s in p.placed then p.placed[s] + [id] else [id];
    Pending(p.placed[s := list], p.slots[id := Monitor])
  }

  /** A fresh id keeps the table consistent. */
  lemma CreateMonitorValid<M>(p: Pending<M>, s: SessionId, id: int)
    requires Valid(p)
    requires forall t :: t in p.placed ==> id !in p.placed[t]
    ensures Valid(CreateMonitor(p, s, id))
  {
    CreateKeepsLists(p, s, id);
    CreateKeepsMonitors(p, s, id);
    CreateKeepsOwners(p, s, id);
  }

  /** A fresh id keeps every session list non-empty and duplicate-free. */
  lemma CreateKeepsLists<M>(p: Pending<M>, s: SessionId, id: int)
    requires forall t :: t in p.placed ==> |p.placed[t]| > 0 && NoDup(p.placed[t])
    requires s in p.placed ==> id !in p.placed[s]
    ensures var r := CreateMonitor(p, s, id);
            forall t :: t in r.placed ==> |r.placed[t]| > 0 && NoDup(r.placed[t])
  {
    if s in p.placed {
      AppendNoDup(p.placed[s], id);
    } else {
      assert multiset([id])[id] == 1;
    }
  }

  /** Every listed id, the fresh one included, has a monitor in its slot. */
  lemma CreateKeepsMonitors<M>(p: Pending<M>, s: SessionId, id: int)
    requires forall t, k :: t in p.placed && k in p.placed[t] ==> k in p.slots && p.slots[k] == Monitor
    ensures var r := CreateMonitor(p, s, id);
            forall t, k :: t in r.placed && k in r.placed[t] ==> k in r.slots && r.slots[k] == Monitor
  {
    var r := CreateMonitor(p, s, id);
    forall t, k | t in r.placed && k in r.placed[t]
      ensures k in r.slots && r.slots[k] == Monitor
    {
      if k != id {
        assert k in p.placed[t];
      }
    }
  }

  /** A fresh id is listed on one session only. */
  lemma CreateKeepsOwners<M>(p: Pending<M>, s: SessionId, id: int)
    requires forall t1, t2, k :: t1 in p.placed && t2 in p.placed && k in p.placed[t1] && k in p.placed[t2] ==> t1 == t2
    requires forall t :: t in p.placed ==> id !in p.placed[t]
    ensures var r := CreateMonitor(p, s, id);
            forall t1, t2, k :: t1 in r.placed && t2 in r.placed && k in r.placed[t1] && k in r.placed[t2] ==> t1 == t2
  {
    var r := CreateMonitor(p, s, id);
    forall t1, t2, k | t1 in r.placed && t2 in r.placed && k in r.placed[t1] && k in r.placed[t2]
      ensures t1 == t2
    {
      if k != id {
        assert k in p.placed[t1] && k in p.placed[t2];
      }
    }
  }

  /** The session lists once `id` is no longer awaited on `s`: a list that becomes
      empty is dropped together with its session. */
  function Unplace(placed: map<SessionId, seq<int>>, s: SessionId, id: int): (r: map<SessionId, seq<int>>)
    requires s in placed
    ensures forall t :: t != s ==> (t in r <==> t in placed) && (t in r ==> r[t] == placed[t])
    ensures s in r <==> |RemoveFirst(placed[s], id)| > 0
    ensures s in r ==> r[s] == RemoveFirst(placed[s], id)
  {
    var rest := RemoveFirst(placed[s], id);
    if |rest| == 0 then placed - {s} else placed[s := rest]
  }

  datatype PutOutcome = Delivered | Dropped

  /** `putResultToQueue`: a reply for an awaited id replaces its monitor and stops
      the id being awaited; anything else is dropped and changes nothing. The
      cast of the slot fails on a slot that already holds a reply, and the signal
      fails on a missing slot: neither happens in a consistent table. */
  function PutResultToQueue<M>(p: Pending<M>, s: SessionId, id: int, o: Reply<M>)
    : (res: (Pending<M>, Result<PutOutcome>))
    ensures !Outstanding(p, s, id) <==> res.1 == Ok(Dropped)
    ensures !Outstanding(p, s, id) ==> res.0 == p
    ensures Outstanding(p, s, id) ==> res.0.placed == Unplace(p.placed, s, id)
    ensures Outstanding(p, s, id) && id in p.slots && p.slots[id] == Monitor ==>
              res.1 == Ok(Delivered) && res.0.slots == p.slots[id := Filled(o)]
  {
    if !Outstanding(p, s, id) then (p, Ok(Dropped))
    else
      var placed := Unplace(p.placed, s, id);
      if id in p.slots && p.slots[id].Filled? then (Pending(placed, p.slots), Err(ClassCast))
      else if id in p.slots then (Pending(placed, p.slots[id := Filled(o)]), Ok(Delivered))
      else (Pending(placed, p.slots[id := Filled(o)]), Err(NullPointer))
  }

  /** Removing an id shrinks the session lists and keeps them free of duplicates. */
  lemma UnplaceShrinks(placed: map<SessionId, seq<int>>, s: SessionId, id: int)
    requires s in placed
    requires forall t :: t in placed ==> |placed[t]| > 0 && NoDup(placed[t])
    ensures var r := Unplace(placed, s, id);
      && (forall t :: t in r ==> t in placed && |r[t]| > 0 && NoDup(r[t]))
      && (forall t, k :: t in r && k in r[t] ==> k in placed[t])
      && (s in r ==> id !in r[s])
  {
    RemoveFirstFacts(placed[s], id);
  }

  /** In a consistent table a delivery succeeds, keeps the table consistent, and
      the id stops being awaited on every session. */
  lemma PutValid<M>(p: Pending<M>, s: SessionId, id: int, o: Reply<M>)
    requires Valid(p)
    ensures PutResultToQueue(p, s, id, o).1.Ok?
    ensures Valid(PutResultToQueue(p, s, id, o).0)
    ensures Outstanding(p, s, id) ==> forall t :: !Outstanding(PutResultToQueue(p, s, id, o).0, t, id)
  {
    if Outstanding(p, s, id) {
      UnplaceAwaitsNoMore(p.placed, s, id);
      UnplaceKeepsOwners(p.placed, s, id);
      UnplaceKeepsMonitors(p, s, id, o);
      assert PutResultToQueue(p, s, id, o).0 == Pending(Unplace(p.placed, s, id), p.slots[id := Filled(o)]);
    }
  }

  /** Once removed from its one session, `id` is awaited nowhere. */
  lemma UnplaceAwaitsNoMore(placed: map<SessionId, seq<int>>, s: SessionId, id: int)
    requires s in placed && id in placed[s]
    requires forall t :: t in placed ==> |placed[t]| > 0 && NoDup(placed[t])
    requires forall t1, t2, k :: t1 in placed && t2 in placed && k in placed[t1] && k in placed[t2] ==> t1 == t2
    ensures var r := Unplace(placed, s, id);
            (forall t :: t in r ==> |r[t]| > 0 && NoDup(r[t])) && forall t :: t in r ==> id !in r[t]
  {
    UnplaceShrinks(placed, s, id);
    var r := Unplace(placed, s, id);
    forall t | t in r
      ensures id !in r[t]
    {
      if t != s {
        assert id in placed[s];
      }
    }
  }

  /** Removing an id gives no id a second session. */
  lemma UnplaceKeepsOwners(placed: map<SessionId, seq<int>>, s: SessionId, id: int)
    requires s in placed
    requires forall t :: t in placed ==> |placed[t]| > 0 && NoDup(placed[t])
    requires forall t1, t2, k :: t1 in placed && t2 in placed && k in placed[t1] && k in placed[t2] ==> t1 == t2
    ensures var r := Unplace(placed, s, id);
            forall t1, t2, k :: t1 in r && t2 in r && k in r[t1] && k in r[t2] ==> t1 == t2
  {
    UnplaceShrinks(placed, s, id);
  }

  /** The ids still awaited keep their monitors when `id`'s slot is filled. */
  lemma UnplaceKeepsMonitors<M>(p: Pending<M>, s: SessionId, id: int, o: Reply<M>)
    requires Valid(p) && Outstanding(p, s, id)
    ensures var r := Unplace(p.placed, s, id);
            var slots := p.slots[id := Filled(o)];
            forall t, k :: t in r && k in r[t] ==> k in slots && slots[k] == Monitor
  {
    UnplaceAwaitsNoMore(p.placed, s, id);
    UnplaceShrinks(p.placed, s, id);
  }

  /** A second reply for an id that was already answered is dropped: every request
      is answered at most once. */
  lemma LateReplyDropped<M>(p: Pending<M>, s: SessionId, id: int, o1: Reply<M>, o2: Reply<M>)
    requires Valid(p)
    ensures var r := PutResultToQueue(p, s, id, o1).0;
            PutResultToQueue(r, s, id, o2) == (r, Ok(Dropped))
  {
    PutValid(p, s, id, o1);
  }

  /** `createMonitor` does not ask whether `id` is still awaited. When the ids wrap
      around onto one that session `t` still awaits, a request on session `s`
      shares its slot: that request's reply fills the slot and its caller takes
      it out, and the earlier waiter, still listed, is told a result is present
      and is handed nothing. The table is no longer consistent. */
  lemma ReusedIdStrandsEarlierWaiter<M>(p: Pending<M>, t: SessionId, s: SessionId, id: int, o: Reply<M>)
    requires Valid(p) && Outstanding(p, t, id) && s != t
    ensures var p1 := CreateMonitor(p, s, id);
            var p2 := PutResultToQueue(p1, s, id, o).0;
            var p3 := GetRequestResult(p2, id).0;
            && PutResultToQueue(p1, s, id, o).1 == Ok(Delivered)
            && GetRequestResult(p2, id).1.Ok? == (o.Message? || !IsRemoteException(o.error))
            && Outstanding(p3, t, id)
            && IsRequestResultPresent(p3, id)
            && GetRequestResult(p3, id).1 == Ok(None)
            && !Valid(p3)
  {
  }

  /** `isRequestResultPresent`: anything but a monitor counts as present, a missing slot included. */
  function IsRequestResultPresent<M>(p: Pending<M>, id: int): (b: bool)
    ensures !b <==> id in p.slots && p.slots[id].Monitor?
  {
    !(id in p.slots && p.slots[id] == Monitor)
  }

  /** `getRequestResult`: removes the slot; a remote exception stored there is thrown,
      anything else (a reply, a monitor, nothing) is returned. */
  function GetRequestResult<M>(p: Pending<M>, id: int): (res: (Pending<M>, Result<Option<Slot<M>>>))
    ensures id !in res.0.slots && res.0.placed == p.placed
    ensures forall k :: k != id ==> (k in res.0.slots <==> k in p.slots) && (k in p.slots ==> res.0.slots[k] == p.slots[k])
    ensures res.1.Err? <==> id in p.slots && p.slots[id].Filled? && p.slots[id].reply.Failure?
                            && IsRemoteException(p.slots[id].reply.error)
    ensures res.1.Err? ==> res.1.error == p.slots[id].reply.error
    ensures res.1.Ok? ==> res.1.value == (if id in p.slots then Some(p.slots[id]) else None)
  {
    var r := Pending(p.placed, p.slots - {id});
    if id !in p.slots then (r, Ok(None))
    else match p.slots[id]
      case Filled(Failure(e)) => if IsRemoteException(e) then (r, Err(e)) else (r, Ok(Some(p.slots[id])))
      case _ => (r, Ok(Some(p.slots[id])))
  }

  /** A result is consumed once: asking again finds nothing. */
  lemma ResultConsumedOnce<M>(p: Pending<M>, id: int)
    ensures GetRequestResult(GetRequestResult(p, id).0, id).1 == Ok(None)
  {
  }

  /** Fetching a delivered result does not disturb the consistency of the table. */
  lemma GetValid<M>(p: Pending<M>, id: int)
    requires Valid(p)
    requires IsRequestResultPresent(p, id)
    ensures Valid(GetRequestResult(p, id).0)
  {
    var r := GetRequestResult(p, id).0;
    forall s, k | s in r.placed && k in r.placed[s]
      ensures k in r.slots && r.slots[k] == Monitor
    {
      assert k != id;
    }
  }

  /** The reply the waiter ends up with: the real one when it arrives during an
      earlier poll than the one at which the waiter gives up, otherwise the
      injected timeout. */
  function WaitOutcome<M>(loops: nat, arrival: Option<(nat, Reply<M>)>): Reply<M> {
    if arrival.Some? && arrival.value.0 < loops then arrival.value.1 else Failure(InvokeTimeout)
  }

  /** `waitForResult(session, monitor, timeout)`. The loop polls `timeout / monitorWait`
      times; at the poll with that number it injects an `InvokeTimeoutException`
      through `putResultToQueue`. `arrival` is the poll during which the real reply
      comes in, if it does. */
  method WaitForResult<M>(p: Pending<M>, s: SessionId, id: int, timeout: int, monitorWait: nat,
                          arrival: Option<(nat, Reply<M>)>)
    returns (r: Pending<M>, polls: nat)
    requires timeout > 0 && monitorWait > 0
    requires Valid(p)
    requires Outstanding(p, s, id) || IsRequestResultPresent(p, id)
    ensures Valid(r)
    ensures IsRequestResultPresent(p, id) ==> r == p && polls == 0
    ensures Outstanding(p, s, id) ==>
      && r.slots == p.slots[id := Filled(WaitOutcome(timeout / monitorWait, arrival))]
      && r.placed == Unplace(p.placed, s, id)
      && polls == (if arrival.Some? && arrival.value.0 < timeout / monitorWait
                   then arrival.value.0 + 1 else timeout / monitorWait + 1)
  {
    var loops: nat := timeout / monitorWait;
    var expected := WaitOutcome(loops, arrival);
    r := p;
    polls := 0;
    while !IsRequestResultPresent(r, id)
      invariant Valid(r)
      invariant !IsRequestResultPresent(r, id) ==>
        r == p && Outstanding(p, s, id) && polls <= loops
        && (arrival.None? || arrival.value.0 >= polls)
      invariant IsRequestResultPresent(p, id) ==> r == p && polls == 0
      invariant IsRequestResultPresent(r, id) && Outstanding(p, s, id) ==>
        r.slots == p.slots[id := Filled(expected)] && r.placed == Unplace(p.placed, s, id)
        && polls == (if arrival.Some? && arrival.value.0 < loops then arrival.value.0 + 1 else loops + 1)
      decreases loops + 1 - polls
    {
      PutValid(r, s, id, Failure(InvokeTimeout));
      if polls == loops {
        r := PutResultToQueue(r, s, id, Failure(InvokeTimeout)).0;
      }
      // the monitor wait: the real reply may come in during this poll
      if arrival.Some? && arrival.value.0 == polls {
        PutValid(r, s, id, arrival.value.1);
        r := PutResultToQueue(r, s, id, arrival.value.1).0;
      }
      polls := polls + 1;
    }
  }

  /** Once the waiter has given up, the real reply is dropped. */
  lemma ReplyAfterTimeoutDropped<M>(p: Pending<M>, s: SessionId, id: int, o: Reply<M>)
    requires Valid(p) && Outstanding(p, s, id)
    ensures var r := PutResultToQueue(p, s, id, Failure(InvokeTimeout)).0;
            r.slots[id] == Filled(Failure(InvokeTimeout))
            && PutResultToQueue(r, s, id, o) == (r, Ok(Dropped))
  {
    PutValid(p, s, id, Failure(InvokeTimeout));
  }

  /** The loop of `interruptWaitingRequests` over a copy of the session's list. */
  function PutAll<M>(p: Pending<M>, s: SessionId, ids: seq<int>, o: Reply<M>): (r: Pending<M>)
    decreases |ids|
  {
    if |ids| == 0 then p
    else PutAll(PutResultToQueue(p, s, ids[0], o).0, s, ids[1..], o)
  }

  /** `interruptWaitingRequests`: every id the session still awaits is answered with
      a `SimonRemoteException`. */
  function InterruptWaitingRequests<M>(p: Pending<M>, s: SessionId): (r: Pending<M>)
    ensures s !in p.placed ==> r == p
    ensures s in p.placed && p.placed[s] == [] ==> r == p
  {
    if s in p.placed then PutAll(p, s, p.placed[s], Failure(RemoteFailure)) else p
  }

  /** Answering a session's whole list keeps the table consistent, drops the
      session and leaves the other sessions alone. */
  lemma {:induction false} PutAllPlaced<M>(p: Pending<M>, s: SessionId, ids: seq<int>, o: Reply<M>)
    requires Valid(p)
    requires if |ids| == 0 then s !in p.placed else s in p.placed && p.placed[s] == ids
    ensures var r := PutAll(p, s, ids, o);
      && Valid(r)
      && s !in r.placed
      && (forall t :: t != s ==> (t in r.placed <==> t in p.placed) && (t in r.placed ==> r.placed[t] == p.placed[t]))
    decreases |ids|
  {
    if |ids| > 0 {
      var id := ids[0];
      var q := PutResultToQueue(p, s, id, o).0;
      PutValid(p, s, id, o);
      assert RemoveFirst(ids, id) == ids[1..];
      assert q.placed == Unplace(p.placed, s, id);
      PutAllPlaced(q, s, ids[1..], o);
    }
  }

  /** Answering a session's whole list fills exactly the slots of its ids. */
  lemma {:induction false} PutAllSlots<M>(p: Pending<M>, s: SessionId, ids: seq<int>, o: Reply<M>)
    requires |ids| > 0 ==> s in p.placed && p.placed[s] == ids
    requires NoDup(ids)
    requires forall k :: k in ids ==> k in p.slots && p.slots[k] == Monitor
    ensures var r := PutAll(p, s, ids, o);
      && (forall k :: k in ids ==> k in r.slots && r.slots[k] == Filled(o))
      && (forall k :: k !in ids ==> (k in r.slots <==> k in p.slots) && (k in p.slots ==> r.slots[k] == p.slots[k]))
    decreases |ids|
  {
    if |ids| > 0 {
      var id := ids[0];
      var q := PutResultToQueue(p, s, id, o).0;
      assert RemoveFirst(ids, id) == ids[1..];
      RemoveFirstFacts(ids, id);
      assert q.slots == p.slots[id := Filled(o)];
      PutAllSlots(q, s, ids[1..], o);
      assert ids == [id] + ids[1..];
    }
  }

  /** A session's list in a consistent table: no duplicates, every id waiting. */
  lemma SessionListAwaited<M>(p: Pending<M>, s: SessionId)
    requires Valid(p) && s in p.placed
    ensures NoDup(p.placed[s])
    ensures forall k :: k in p.placed[s] ==> k in p.slots && p.slots[k] == Monitor
  {
  }

  /** After the interruption the session awaits nothing, each of its ids holds the
      exception, and the other sessions' requests are untouched. */
  lemma InterruptAnswersEverything<M>(p: Pending<M>, s: SessionId)
    requires Valid(p)
    ensures var r := InterruptWaitingRequests(p, s);
      && Valid(r)
      && s !in r.placed
      && (forall t :: t != s ==> (t in r.placed <==> t in p.placed) && (t in r.placed ==> r.placed[t] == p.placed[t]))
      && (s in p.placed ==> forall k :: k in p.placed[s] ==> k in r.slots && r.slots[k] == Filled(Failure(RemoteFailure)))
  {
    if s in p.placed {
      PutAllPlaced(p, s, p.placed[s], Failure(RemoteFailure));
      SessionListAwaited(p, s);
      PutAllSlots(p, s, p.placed[s], Failure(RemoteFailure));
    }
  }
}

=== FILE: pingwatchdog.dfy ===
/** `PingWatchdog`: after every ping a waiter is installed for the session; it
    closes the session unless the pong comes back in time.

    The waiter's thread is reduced to its decision: whether the pong flag is set
    when it wakes up, and how many milliseconds it slept, are inputs. The retry
    loop of `notifyPongReceived` is driven by the presence of the session's
    waiter at each evaluation of the loop condition.
 */
module PingWatchdog {
  import opened Errors
  import opened JavaInt

  type SessionId = nat

  /** How long `notifyPongReceived` waits for a waiter that is not there yet, in ms. */
  const WAIT_FOR_WAITRUNNABLE_TIMEOUT: nat := 10000

  /** A `WaitRunnable`. `serial` tells apart the waiters of successive pings. */
  datatype Waiter = Waiter(serial: nat, timeout: Int32, pongReceived: bool)

  /** `sessionWaitrunnableMap`, and how many waiters were created so far. */
  datatype Watchdog = Watchdog(waiters: map<SessionId, Waiter>, created: nat)

  /** Every waiter in the map was created before, and no two sessions share one. */
  ghost predicate Valid(w: Watchdog) {
    && (forall s :: s in w.waiters ==> w.waiters[s].serial < w.created)
    && (forall s1, s2 :: s1 in w.waiters && s2 in w.waiters && s1 != s2 ==>
          w.waiters[s1].serial != w.waiters[s2].serial)
  }

  /** The waiter's timeout: the dispatcher's ping timeout, in seconds, times 1000, in
      `int` arithmetic. */
  function WaiterTimeout(pingTimeout: Int32): (t: Int32)
    ensures (t - pingTimeout * 1000) % TWO_32 == 0
    ensures -2147483 <= pingTimeout <= 2147483 ==> t == pingTimeout * 1000
  {
    Wrap32(pingTimeout * 1000)
  }

  /** `waitForPong`: a fresh waiter for the session takes the place of any earlier one. */
  function WaitForPong(w: Watchdog, s: SessionId, pingTimeout: Int32): (r: Watchdog)
    ensures s in r.waiters && r.waiters[s] == Waiter(w.created, WaiterTimeout(pingTimeout), false)
    ensures forall t :: t != s ==> (t in r.waiters <==> t in w.waiters) && (t in w.waiters ==> r.waiters[t] == w.waiters[t])
    ensures r.created == w.created + 1
    ensures Valid(w) ==> Valid(r)
  {
    Watchdog(w.waiters[s := Waiter(w.created, WaiterTimeout(pingTimeout), false)], w.created + 1)
  }

  /** `pongReceived`: sets the flag; the flag is never cleared. */
  function PongReceived(x: Waiter): (y: Waiter)
    ensures y.pongReceived
    ensures y.serial == x.serial && y.timeout == x.timeout
  {
    x.(pongReceived := true)
  }

  /** What a pong does to the session's waiter. */
  datatype PongOutcome =
    | Notified(waiter: Waiter)   // the waiter was there, and its flag is now set
    | NotPresent                 // the retry loop starts

  /** `notifyPongReceived`, first step: the session's waiter is taken out of the map
      and told; without a waiter the retry loop follows. */
  function NotifyPongReceived(w: Watchdog, s: SessionId): (res: (Watchdog, PongOutcome))
    ensures s !in res.0.waiters && res.0.created == w.created
    ensures forall t :: t != s ==> (t in res.0.waiters <==> t in w.waiters) && (t in w.waiters ==> res.0.waiters[t] == w.waiters[t])
    ensures res.1.Notified? <==> s in w.waiters
    ensures res.1.Notified? ==> res.1.waiter == PongReceived(w.waiters[s])
    ensures Valid(w) ==> Valid(res.0)
  {
    if s in w.waiters then (w.(waiters := w.waiters - {s}), Notified(PongReceived(w.waiters[s])))
    else (w, NotPresent)
  }

  /** A second pong for the same ping finds no waiter. */
  lemma SecondPongFindsNone(w: Watchdog, s: SessionId)
    ensures NotifyPongReceived(NotifyPongReceived(w, s).0, s).1 == NotPresent
  {
  }

  /** `WaitRunnable.run`, once it has woken up: the session is closed when no pong
      was received, or when the pong came after `elapsed` ms had reached the timeout. */
  function CloseSession(x: Waiter, elapsed: int): (close: bool)
    ensures !close <==> x.pongReceived && elapsed < x.timeout
  {
    var withinTime := elapsed < x.timeout;
    if x.pongReceived then !withinTime else true
  }

  /** A pong that comes back before the timeout keeps the session open. */
  lemma TimelyPongKeepsSession(w: Watchdog, s: SessionId, pingTimeout: Int32, elapsed: int)
    requires 0 < pingTimeout <= 2147483 && elapsed < pingTimeout * 1000
    ensures var (_, o) := NotifyPongReceived(WaitForPong(w, s, pingTimeout), s);
            o.Notified? && !CloseSession(o.waiter, elapsed)
  {
  }

  /** A second ping before the first pong replaces the first waiter: the pong reaches
      the second waiter only, and the first one closes the session when it wakes up. */
  lemma ReplacedWaiterCloses(w: Watchdog, s: SessionId, pingTimeout: Int32, elapsed: int)
    ensures var w1 := WaitForPong(w, s, pingTimeout);
            var first := w1.waiters[s];
            var (_, o) := NotifyPongReceived(WaitForPong(w1, s, pingTimeout), s);
            && o.Notified? && o.waiter.serial == first.serial + 1
            && CloseSession(first, elapsed)
  {
  }

  // ---------------------------------------------------------------------------
  // The retry loop of `notifyPongReceived`

  /** How the retry loop ends: the pong is notified again, or given up. */
  datatype RetryEnd = Renotify | Abort

  /** One more evaluation of the loop condition before the exit. */
  function Later(r: Option<(nat, RetryEnd)>): (r': Option<(nat, RetryEnd)>)
    ensures r.None? <==> r'.None?
    ensures r.Some? ==> r'.value == (r.value.0 + 1, r.value.1)
  {
    match r
    case None => None
    case Some((i, e)) => Some((i + 1, e))
  }

  /** The loop as written. `present[i]` is whether the waiter is in the map at the
      `i`-th evaluation of the condition, `waited` the milliseconds slept before it,
      and every sleep adds `tick`. The result is the index of the evaluation at
      which the loop stops and what follows; `None` when it is still looping after
      the evaluations observed. The condition is `!present || waited < limit`. */
  function RetryAsWritten(present: seq<bool>, tick: nat, waited: nat): (r: Option<(nat, RetryEnd)>)
    ensures r.Some? ==> r.value.0 < |present| && present[r.value.0] && r.value.1 == Renotify
    decreases |present|
  {
    if |present| == 0 then None
    else if !present[0] || waited < WAIT_FOR_WAITRUNNABLE_TIMEOUT then
      Later(RetryAsWritten(present[1..], tick, waited + tick))
    else Some((0, if present[0] then Renotify else Abort))
  }

  /** As written, the loop never ends while the waiter stays away, however long it
      has waited: the give-up branch after it cannot be reached. */
  lemma {:induction false} AsWrittenSpinsWithoutWaiter(present: seq<bool>, tick: nat, waited: nat)
    requires forall i :: 0 <= i < |present| ==> !present[i]
    ensures RetryAsWritten(present, tick, waited) == None
    decreases |present|
  {
    if |present| > 0 {
      AsWrittenSpinsWithoutWaiter(present[1..], tick, waited + tick);
    }
  }

  /** As written, a waiter that is already there is still not notified before the
      full limit has been slept. */
  lemma AsWrittenWaitsForPresentWaiter()
    ensures RetryAsWritten([true, true], 5000, 0) == None
    ensures RetryAsWritten([true, true, true], 5000, 0) == Some((2, Renotify))
  {
  }

  /** The loop as evidently intended, with `!present && waited < limit`: it stops at
      the first evaluation that finds the waiter, or once the limit is reached. */
  function RetryCorrected(present: seq<bool>, tick: nat, waited: nat): (r: Option<(nat, RetryEnd)>)
    ensures r.Some? ==> r.value.0 < |present| && (r.value.1 == Renotify <==> present[r.value.0])
    ensures r.Some? ==> forall j :: 0 <= j < r.value.0 ==> !present[j]
    decreases |present|
  {
    if |present| == 0 then None
    else if !present[0] && waited < WAIT_FOR_WAITRUNNABLE_TIMEOUT then
      Later(RetryCorrected(present[1..], tick, waited + tick))
    else Some((0, if present[0] then Renotify else Abort))
  }

  /** The corrected loop always ends: after at most `limit - waited` sleeps of at
      least a millisecond each. */
  lemma {:induction false} CorrectedTerminates(present: seq<bool>, tick: nat, waited: nat)
    requires tick > 0 && |present| > 0 && |present| > WAIT_FOR_WAITRUNNABLE_TIMEOUT - waited
    ensures RetryCorrected(present, tick, waited).Some?
    decreases |present|
  {
    if !present[0] && waited < WAIT_FOR_WAITRUNNABLE_TIMEOUT {
      CorrectedTerminates(present[1..], tick, waited + tick);
    }
  }

  /** The corrected loop gives up when the waiter never appears. */
  lemma {:induction false} CorrectedAbortsWithoutWaiter(present: seq<bool>, tick: nat, waited: nat)
    requires forall i :: 0 <= i < |present| ==> !present[i]
    requires RetryCorrected(present, tick, waited).Some?
    ensures RetryCorrected(present, tick, waited).value.1 == Abort
  {
  }
}

=== FILE: proxy.dfy ===
/** `SimonProxy`: the invocation handler behind every remote object the client
    holds. It knows the remote object's name, its session, and the dispatcher
    of its connection, identified by the dispatcher's server string, which is
    the key the pool releases it under.

    What the dispatcher answers is an input: a value, a throwable the remote
    method returned, a reference to an object of this side, a callback object
    of the remote side, or an exception the dispatcher threw.
 */
module Proxies {
  import opened Errors
  import JavaInt
  import Utils
  import ConnectionPool
  import RefQueue
  import LookupTable

  datatype Proxy = Proxy(
    remoteObjectName: Option<string>,
    dispatcher: Option<string>,
    session: nat,
    interfaces: seq<string>,
    regularLookup: bool)

  /** Is `p` a prefix of `s`? */
  predicate StartsWith(s: string, p: string) {
    |p| <= |s| && s[..|p|] == p
  }

  /** The constructor. Only a proxy whose name carries the callback prefix is tracked
      by the dispatcher's reference queue, and a queue that has stopped makes the
      construction fail. */
  function NewProxy(q: RefQueue.Queue, server: string, session: nat, name: string,
                    interfaces: seq<string>, regularLookup: bool, callbackPrefix: string)
    : (res: Result<(Proxy, RefQueue.Queue)>)
    ensures res.Ok? ==> res.value.0 == Proxy(Some(name), Some(server), session, interfaces, regularLookup)
    ensures !StartsWith(name, callbackPrefix) ==> res.Ok? && res.value.1 == q
    ensures StartsWith(name, callbackPrefix) ==>
              (res.Ok? <==> q.cleanerActive)
              && (res.Ok? ==> res.value.1.refs == q.refs + [RefQueue.PhantomRef(q.created, name, session)])
              && (res.Err? ==> res.error == IllegalState)
  {
    var p := Proxy(Some(name), Some(server), session, interfaces, regularLookup);
    if StartsWith(name, callbackPrefix) then
      match RefQueue.AddRef(q, name, session)
      case Ok(q') => Ok((p, q'))
      case Err(e) => Err(e)
    else Ok((p, q))
  }

  /** The argument of a remote `equals`. */
  datatype EqualsArg = ProxyArg | SerializableArg | NullArg | OtherArg

  /** How `invoke` tells calls apart: by the method's signature and return type.
      A `toString` call carries what the handler's inherited `Object.toString`
      prints, which depends on the JVM's identity hash and is an input. */
  datatype Call = EqualsCall(arg: EqualsArg) | HashCodeCall | ToStringCall(handler: string) | VoidCall | ValueCall

  /** What the dispatcher hands back: a value, the text a remote `toString`
      returned, a throwable returned as the value, a
      `SimonEndpointReference` to an object bound on this side, or a
      `SimonRemoteInstance` for a callback object of the remote side. */
  datatype Value<V> =
    | Plain(v: V)
    | TextValue(text: string)
    | ThrowableValue(error: Exception)
    | EndpointValue(name: string)
    | InstanceValue(refId: string, interfaces: seq<string>)

  /** What the caller gets: the value as it came, the local object an endpoint
      reference names, or a new proxy for a remote callback object. */
  datatype Returned<V> = AsReturned(value: Value<V>) | LocalObject(obj: LookupTable.Obj) | CallbackProxy(proxy: Proxy)

  /** What a call meets on this side besides the dispatcher's answer: the
      dispatcher's lookup table and reference queue, the prefix of callback ids,
      and whether the interfaces a returned callback object names can be loaded. */
  datatype Context = Context(table: LookupTable.Table, queue: RefQueue.Queue, callbackPrefix: string,
                             interfacesLoad: bool)

  /** The proxy, the pool and what the pool asks for, the reference queue, after a call. */
  datatype Invoked<V> = Invoked(
    pool: ConnectionPool.Pool,
    proxy: Proxy,
    effects: seq<ConnectionPool.PoolEffect>,
    result: Result<Option<Returned<V>>>,
    queue: RefQueue.Queue)

  /** `shutdownServerConnection`: the connection is released once and the proxy
      forgets its dispatcher. */
  function ShutdownServerConnection(pool: ConnectionPool.Pool, p: Proxy)
    : (res: (ConnectionPool.Pool, Proxy, seq<ConnectionPool.PoolEffect>))
    requires p.dispatcher.Some?
    ensures var (pool', _, effects) := ConnectionPool.ReleaseDispatcher(pool, p.dispatcher.value);
            res == (pool', p.(dispatcher := None), effects)
  {
    var (pool', _, effects) := ConnectionPool.ReleaseDispatcher(pool, p.dispatcher.value);
    (pool', p.(dispatcher := None), effects)
  }

  /** `invoke`. A proxy without a dispatcher refuses every call. `equals` with an
      argument that cannot be sent is refused. A remote exception from `hashCode`,
      and a remote exception a method returns, release the connection; void
      methods go out one-way and swallow every failure except a remote one. What
      a method returns is handed over by `Reimplant`. */
  function Invoke<V>(pool: ConnectionPool.Pool, p: Proxy, call: Call, answer: Result<Value<V>>, ctx: Context)
    : (r: Invoked<V>)
    ensures p.dispatcher.None? ==> r == Invoked(pool, p, [], Err(RemoteFailure), ctx.queue)
    ensures p.dispatcher.Some? && call == EqualsCall(OtherArg) ==> r == Invoked(pool, p, [], Err(IllegalArgument), ctx.queue)
    ensures p.dispatcher.Some? && call.VoidCall? ==>
              r.pool == pool && r.proxy == p && r.queue == ctx.queue
              && (r.result.Ok? <==> answer.Ok? || !IsRemoteException(answer.error))
              && (r.result.Ok? ==> r.result.value.None?)
    ensures p.dispatcher.Some? && answer.Ok? && answer.value.Plain? && call != EqualsCall(OtherArg)
            && !call.VoidCall? && !call.ToStringCall? ==>
              r == Invoked(pool, p, [], Ok(Some(AsReturned(answer.value))), ctx.queue)
    ensures p.dispatcher.Some? && call.ToStringCall? ==>
              (r.pool, r.proxy, r.effects, r.queue) == (pool, p, [], ctx.queue)
              && (answer.Err? ==> r.result == Err(answer.error))
              && (answer.Ok? && answer.value.TextValue? ==>
                    r.result == Ok(Some(AsReturned(TextValue(RemoteToString(p, call.handler, answer.value.text))))))
              && (answer.Ok? && !answer.value.TextValue? ==> r.result == Err(ClassCast))
    ensures p.dispatcher.Some? && call.ValueCall? && answer.Ok? && !answer.value.ThrowableValue? ==>
              (r.pool, r.proxy, r.effects) == (pool, p, [])
              && (r.result, r.queue) == Reimplant(p, answer.value, ctx)
    ensures r.queue != ctx.queue ==> call.ValueCall? && answer.Ok? && answer.value.InstanceValue?
    ensures r.proxy != p <==>
              p.dispatcher.Some?
              && ((call.HashCodeCall? && answer.Err? && IsRemoteException(answer.error))
                  || (call.ValueCall? && answer.Ok? && answer.value.ThrowableValue? && IsRemoteException(answer.value.error)))
    ensures r.proxy == p ==> r.pool == pool && r.effects == []
    ensures r.proxy != p ==>
              r.proxy == p.(dispatcher := None) && r.result.Err? && IsRemoteException(r.result.error)
              && (r.pool, r.effects) == (ConnectionPool.ReleaseDispatcher(pool, p.dispatcher.value).0,
                                         ConnectionPool.ReleaseDispatcher(pool, p.dispatcher.value).2)
  {
    if p.dispatcher.None? then Invoked(pool, p, [], Err(RemoteFailure), ctx.queue)
    else match call
      case EqualsCall(arg) =>
        if arg == OtherArg then Invoked(pool, p, [], Err(IllegalArgument), ctx.queue)
        else Invoked(pool, p, [], PassOn(answer), ctx.queue)
      case HashCodeCall =>
        if answer.Err? && IsRemoteException(answer.error) then
          var (pool', p', effects) := ShutdownServerConnection(pool, p);
          Invoked(pool', p', effects, Err(RemoteFailure), ctx.queue)
        else Invoked(pool, p, [], PassOn(answer), ctx.queue)
      case ToStringCall(handler) =>
        var result := match answer
          case Err(e) => Err(e)
          case Ok(TextValue(text)) => Ok(Some(AsReturned(TextValue(RemoteToString(p, handler, text)))))
          case Ok(_) => Err(ClassCast);
        Invoked(pool, p, [], result, ctx.queue)
      case VoidCall =>
        if answer.Err? && IsRemoteException(answer.error) then Invoked(pool, p, [], Err(answer.error), ctx.queue)
        else Invoked(pool, p, [], Ok(None), ctx.queue)
      case ValueCall =>
        match answer
        case Err(e) => Invoked(pool, p, [], Err(e), ctx.queue)
        case Ok(ThrowableValue(e)) =>
          if IsRemoteException(e) then
            var (pool', p', effects) := ShutdownServerConnection(pool, p);
            Invoked(pool', p', effects, Err(e), ctx.queue)
          else Invoked(pool, p, [], Err(e), ctx.queue)
        case Ok(v) =>
          var (result, q) := Reimplant(p, v, ctx);
          Invoked(pool, p, [], result, q)
  }

  /** The end of `invoke` for a method that returned normally. An endpoint reference
      is replaced by the object bound under its name here, and fails the lookup
      when there is none. A remote callback object becomes a new proxy on the same
      connection and session, named by the callback's id; its interfaces must
      load, and the proxy registers with the reference queue, which refuses
      after its cleanup. Any other value goes to the caller as it came. */
  function Reimplant<V>(p: Proxy, v: Value<V>, ctx: Context)
    : (res: (Result<Option<Returned<V>>>, RefQueue.Queue))
    requires p.dispatcher.Some?
    ensures (v.Plain? || v.ThrowableValue?) ==> res == (Ok(Some(AsReturned(v))), ctx.queue)
    ensures v.EndpointValue? ==> res.1 == ctx.queue
    ensures v.EndpointValue? && v.name in ctx.table.bindings ==>
              res.0 == Ok(Some(LocalObject(ctx.table.bindings[v.name].obj)))
    ensures v.EndpointValue? && v.name !in ctx.table.bindings ==> res.0 == Err(LookupFailed)
    ensures v.InstanceValue? && !ctx.interfacesLoad ==> res == (Err(ClassNotFound), ctx.queue)
    ensures v.InstanceValue? && ctx.interfacesLoad ==>
              var made := NewProxy(ctx.queue, p.dispatcher.value, p.session, v.refId, [], false, ctx.callbackPrefix);
              && (res.0.Ok? <==> made.Ok?)
              && (res.0.Ok? ==> res.0.value == Some(CallbackProxy(Proxy(Some(v.refId), p.dispatcher, p.session, [], false)))
                                && res.1 == made.value.1)
              && (res.0.Err? ==> res == (Err(IllegalState), ctx.queue))
  {
    match v
    case EndpointValue(name) =>
      (match LookupTable.GetRemoteObjectContainer(ctx.table, name)
       case Ok(c) => (Ok(Some(LocalObject(c.obj))), ctx.queue)
       case Err(e) => (Err(e), ctx.queue))
    case InstanceValue(refId, _) =>
      if !ctx.interfacesLoad then (Err(ClassNotFound), ctx.queue)
      else (match NewProxy(ctx.queue, p.dispatcher.value, p.session, refId, [], false, ctx.callbackPrefix)
            case Ok((proxy, q)) => (Ok(Some(CallbackProxy(proxy))), q)
            case Err(e) => (Err(e), ctx.queue))
    case _ => (Ok(Some(AsReturned(v))), ctx.queue)
  }

  /** `remoteToString`: the remote object's text inside the proxy's own
      description, between an opening that names the remote object and the
      handler and a closing that lists the interfaces and the session id. */
  function RemoteToString(p: Proxy, handler: string, remote: string): (s: string)
    ensures |s| == |ToStringOpening(p, handler)| + |remote| + |ToStringClosing(p)|
    ensures s[|ToStringOpening(p, handler)|..|s| - |ToStringClosing(p)|] == remote
    ensures s[..7] == "[Proxy=" && s[|s| - 1] == ']'
  {
    var a := ToStringOpening(p, handler);
    var b := ToStringClosing(p);
    var s := a + remote + b;
    assert s[|a|..|s| - |b|] == remote;
    assert s[..7] == a[..7];
    s
  }

  /** The part of `remoteToString` before the remote text; a released proxy's
      name prints as "null". */
  function ToStringOpening(p: Proxy, handler: string): string {
    "[Proxy=" + (if p.remoteObjectName.Some? then p.remoteObjectName.value else "null")
    + "|invocationHandler=" + handler + "|remote="
  }

  /** The part of `remoteToString` after the remote text: `Arrays.toString` of the
      interfaces, each printed by `Class.toString`, and the session id in hex. */
  function ToStringClosing(p: Proxy): string {
    "|interfaces=[" + InterfaceList(p.interfaces) + "]|sessionId="
    + Utils.LongToHexString(JavaInt.Wrap64(p.session)) + "]"
  }

  /** The interfaces as `Arrays.toString` lists them, without the brackets. */
  function InterfaceList(interfaces: seq<string>): string {
    if |interfaces| == 0 then ""
    else if |interfaces| == 1 then "interface " + interfaces[0]
    else "interface " + interfaces[0] + ", " + InterfaceList(interfaces[1..])
  }

  /** Two `toString` calls on the same proxy give the same text only when the
      remote side answered the same text: the wrapper hides nothing of it. */
  lemma RemoteToStringInjective(p: Proxy, handler: string, remote: string, other: string)
    requires RemoteToString(p, handler, remote) == RemoteToString(p, handler, other)
    ensures remote == other
  {
  }

  /** A live proxy whose peer answers "x" gives the caller the proxy's own
      description with "x" as its remote part. */
  lemma ToStringWrapsAnswer<V>(pool: ConnectionPool.Pool, ctx: Context)
    ensures Invoke(pool, EXAMPLE_PROXY, ToStringCall("h"), Ok(Value<V>.TextValue("x")), ctx).result
            == Ok(Some(AsReturned(TextValue(
                 ("[Proxy=" + "c" + "|invocationHandler=" + "h" + "|remote=") + "x"
                 + ("|interfaces=[" + "interface I" + "]|sessionId=" + "0x00000001" + "]")))))
  {
    assert InterfaceList(["I"]) == "interface I";
    assert JavaInt.Wrap64(1) == 1;
    Utils.HexOfOne();
  }

  /** A proxy for the object "c" implementing "I", on session 1. */
  const EXAMPLE_PROXY: Proxy := Proxy(Some("c"), Some("srv"), 1, ["I"], true)

  /** A dispatcher's answer handed to the caller unchanged. */
  function PassOn<V>(answer: Result<Value<V>>): (r: Result<Option<Returned<V>>>)
    ensures answer.Ok? <==> r.Ok?
    ensures answer.Ok? ==> r.value == Some(AsReturned(answer.value))
    ensures answer.Err? ==> r.error == answer.error
  {
    match answer
    case Ok(v) => Ok(Some(AsReturned(v)))
    case Err(e) => Err(e)
  }

  /** After a remote failure has released the connection, the proxy refuses every
      further call without touching the pool. */
  lemma ReleasedProxyRefuses<V>(pool: ConnectionPool.Pool, p: Proxy, e: Exception,
                                 call: Call, answer: Result<Value<V>>, ctx: Context)
    requires p.dispatcher.Some? && IsRemoteException(e)
    ensures var r := Invoke(pool, p, ValueCall, Ok(Value<V>.ThrowableValue(e)), ctx);
            && r.pool == ConnectionPool.ReleaseDispatcher(pool, p.dispatcher.value).0
            && r.result == Err(e)
            && Invoke(r.pool, r.proxy, call, answer, ctx) == Invoked(r.pool, r.proxy, [], Err(RemoteFailure), ctx.queue)
  {
  }

  /** An application exception a remote method returned is thrown to the caller and
      the connection stays. */
  lemma ApplicationExceptionKeepsConnection<V>(pool: ConnectionPool.Pool, p: Proxy, code: nat, ctx: Context)
    requires p.dispatcher.Some?
    ensures Invoke(pool, p, ValueCall, Ok(Value<V>.ThrowableValue(ApplicationFailure(code))), ctx)
         == Invoked(pool, p, [], Err(ApplicationFailure(code)), ctx.queue)
  {
  }

  /** An object of this side, bound under a name and handed back by the remote side
      as an endpoint reference, reaches the caller as the object itself. */
  lemma EndpointComesBackAsObject<V>(pool: ConnectionPool.Pool, p: Proxy, t: LookupTable.Table, name: string,
                                     obj: LookupTable.Obj, interfaces: seq<string>, ctx: Context)
    requires p.dispatcher.Some?
    ensures var ctx' := ctx.(table := LookupTable.PutRemoteBinding(t, name, obj, interfaces));
            Invoke(pool, p, ValueCall, Ok(Value<V>.EndpointValue(name)), ctx').result == Ok(Some(LocalObject(obj)))
  {
  }

  /** A callback object returned by the remote side is tracked by the reference queue
      while it runs, and refused with `IllegalStateException` once the queue has
      been cleaned up. */
  lemma ReturnedCallbackTracked<V>(pool: ConnectionPool.Pool, p: Proxy, refId: string, interfaces: seq<string>,
                                   ctx: Context)
    requires p.dispatcher.Some? && ctx.interfacesLoad && StartsWith(refId, ctx.callbackPrefix)
    ensures var r := Invoke(pool, p, ValueCall, Ok(Value<V>.InstanceValue(refId, interfaces)), ctx);
            && (ctx.queue.cleanerActive ==>
                  r.result.Ok? && r.queue.refs == ctx.queue.refs + [RefQueue.PhantomRef(ctx.queue.created, refId, p.session)])
            && (!ctx.queue.cleanerActive ==> r.result == Err(IllegalState) && r.queue == ctx.queue)
  {
  }

  /** `release`: the proxy forgets its remote object name and hands back its
      dispatcher, which it keeps. */
  function Release(p: Proxy): (res: (Proxy, Option<string>))
    ensures res.0.remoteObjectName.None? && res.1 == p.dispatcher
    ensures res.0 == p.(remoteObjectName := None)
  {
    (p.(remoteObjectName := None), p.dispatcher)
  }
}

=== FILE: proxyfilter.dfy ===
/** `SimonProxyFilter`: the client side of an HTTP CONNECT tunnel (section 9.3.6
    of RFC 9110) through which a SIMON session reaches its server.

    When the session is created the filter swaps the session's filter chain for
    a line codec and itself, and sends the CONNECT request line by line, with
    Basic credentials (section 2 of RFC 7617) when the proxy needs them. It
    then collects the proxy's answer line by line. The first empty line ends
    the answer: if some line carried "HTTP/1.1 200" the saved filter chain is
    put back and the session is announced as created; otherwise the handshake
    fails with the whole answer in the exception's message.

    The line codec ends every line it sends with a line feed. Lines arrive
    without their terminator.
 */
module ProxyFilter {
  import opened Errors
  import opened JavaInt
  import Numerals
  import Base64

  const LOGGING_FILTER: string := "org.apache.mina.filter.logging.LoggingFilter"
  const TEXT_LINE_CODEC: string := "org.apache.mina.filter.codec.textline.TextLineCodecFactory"
  const FILTER_NAME: string := "host.anzo.simon.codec.SimonProxyFilter"
  const OK_MARKER: string := "HTTP/1.1 200"
  const FAILURE_PREFIX: string := "Creating tunnel failed. Answer from proxyserver was: \n"
  const BASIC_PREFIX: string := "Proxy-Authorization: Basic "

  /** A charset's encoder: the bytes of a string. */
  type Charset = string -> seq<Byte>

  /** A filter in a session's chain: the ones this filter installs, and the
      session's own filters, which it only saves and restores. */
  datatype Filter = Logging | TextLineCodec | Tunnel | Own(id: nat)

  /** A named chain entry (`FilterEntry`). */
  datatype Entry = Entry(name: string, filter: Filter)

  /** The filter's state: where the tunnel goes, the credentials, whether the
      proxy said OK, the answer so far, and the chain to restore. A null
      username or password is `None`. */
  datatype State = State(targetHost: string, targetPort: Int32, authRequired: bool,
                         username: Option<string>, password: Option<string>,
                         okReceived: bool, answer: string, saved: seq<Entry>)

  /** The constructor: nothing received yet. */
  function NewFilter(targetHost: string, targetPort: Int32, authRequired: bool,
                     username: Option<string>, password: Option<string>, backupChain: seq<Entry>): (f: State)
    ensures !f.okReceived && f.answer == [] && f.saved == backupChain
  {
    State(targetHost, targetPort, authRequired, username, password, false, [], backupChain)
  }

  /** Java's string concatenation prints a null reference as "null". */
  function Concat(s: Option<string>): (t: string)
    ensures s.Some? ==> t == s.value
  {
    if s.Some? then s.value else "null"
  }

  /** `host:port`, as the request line and the Host header both name the target. */
  function Authority(f: State): (s: string)
    ensures s == f.targetHost + ":" + Numerals.Decimal(f.targetPort)
  {
    f.targetHost + ":" + Numerals.Decimal(f.targetPort)
  }

  function ConnectLine(f: State): string {
    "CONNECT " + Authority(f) + " HTTP/1.1"
  }

  function HostLine(f: State): string {
    "Host: " + Authority(f)
  }

  /** `username + ":" + password`, the user-pass of section 2 of RFC 7617. */
  function Credentials(f: State): (s: string)
    ensures f.username.Some? && f.password.Some? ==> s == f.username.value + ":" + f.password.value
  {
    Concat(f.username) + ":" + Concat(f.password)
  }

  /** The credential token, over the bytes `getBytes()` produces in the
      platform's default charset. */
  function AuthLine(f: State, charset: Charset): string {
    BASIC_PREFIX + Base64.Encode(charset(Credentials(f)))
  }

  /** What `sessionCreated` leaves behind: the new chain and the lines written. */
  datatype Created = Created(chain: seq<Entry>, writes: seq<string>)

  /** `sessionCreated`. The chain becomes [logger when tracing,] line codec,
      this filter. Then the CONNECT line and the Host line are written; with
      authentication a credentials line follows. The last line written carries
      an extra line feed, so the request ends with an empty line. */
  function SessionCreated(f: State, traceEnabled: bool, charset: Charset): (r: Created)
    ensures |r.chain| == (if traceEnabled then 3 else 2)
    ensures traceEnabled <==> r.chain[0] == Entry(LOGGING_FILTER, Logging)
    ensures r.chain[|r.chain| - 2..] == [Entry(TEXT_LINE_CODEC, TextLineCodec), Entry(FILTER_NAME, Tunnel)]
    ensures |r.writes| == (if f.authRequired then 3 else 2)
    ensures r.writes[0] == ConnectLine(f)
    ensures !f.authRequired ==> r.writes[1] == HostLine(f) + "\n"
    ensures f.authRequired ==> r.writes[1] == HostLine(f) && r.writes[2] == AuthLine(f, charset) + "\n"
  {
    var chain := (if traceEnabled then [Entry(LOGGING_FILTER, Logging)] else [])
                 + [Entry(TEXT_LINE_CODEC, TextLineCodec), Entry(FILTER_NAME, Tunnel)];
    var writes := if f.authRequired then [ConnectLine(f), HostLine(f) + "", AuthLine(f, charset) + "\n"]
                  else [ConnectLine(f), HostLine(f) + "\n"];
    Created(chain, writes)
  }

  // ---------------------------------------------------------------------------
  // The request on the wire

  /** What the line codec sends for a sequence of writes: each one followed by a
      line feed. */
  function Transmitted(writes: seq<string>): (s: string)
    ensures writes == [] ==> s == []
  {
    if writes == [] then [] else writes[0] + "\n" + Transmitted(writes[1..])
  }

  /** The lines a reader finds in a stream, split at line feeds; a last line
      without a terminator counts too. */
  function Lines(s: string): (ls: seq<string>)
    decreases |s|
  {
    if s == [] then []
    else
      var rest := Lines(s[1..]);
      if s[0] == '\n' then [""] + rest
      else if rest == [] then [[s[0]]]
      else [[s[0]] + rest[0]] + rest[1..]
  }

  predicate NoNewline(s: string) {
    forall i :: 0 <= i < |s| ==> s[i] != '\n'
  }

  /** A terminated line is read as itself, ahead of what follows. */
  lemma {:induction false} LinesOfLine(l: string, t: string)
    requires NoNewline(l)
    ensures Lines(l + "\n" + t) == [l] + Lines(t)
    decreases |l|
  {
    if l != [] {
      assert (l + "\n" + t)[1..] == l[1..] + "\n" + t;
      LinesOfLine(l[1..], t);
      assert [l[0]] + l[1..] == l;
    } else {
      assert l + "\n" + t == "\n" + t;
      assert ("\n" + t)[1..] == t;
    }
  }

  /** Lines without line feeds of their own arrive as sent. */
  lemma {:induction false} LinesTransmitted(ls: seq<string>)
    requires forall i :: 0 <= i < |ls| ==> NoNewline(ls[i])
    ensures Lines(Transmitted(ls)) == ls
    decreases |ls|
  {
    if ls != [] {
      LinesOfLine(ls[0], Transmitted(ls[1..]));
      LinesTransmitted(ls[1..]);
    }
  }

  lemma ConcatNoNewline(a: string, b: string)
    requires NoNewline(a) && NoNewline(b)
    ensures NoNewline(a + b)
  {
    forall i | 0 <= i < |a + b|
      ensures (a + b)[i] != '\n'
    {
      if i >= |a| {
        assert (a + b)[i] == b[i - |a|];
      }
    }
  }

  /** A printed number holds no line feed. */
  lemma DecimalNoNewline(x: int)
    ensures NoNewline(Numerals.Decimal(x))
  {
    var p := Numerals.Decimal(x);
    forall i | 0 <= i < |p|
      ensures p[i] != '\n'
    {
      assert p[i] in Numerals.DIGIT_CHARS || p[i] == '-';
    }
  }

  /** The Base64 alphabet holds no line feed. */
  lemma EncodingNoNewline(bs: seq<Byte>)
    ensures NoNewline(Base64.Encode(bs))
  {
    var token := Base64.Encode(bs);
    forall i | 0 <= i < |token|
      ensures token[i] != '\n'
    {
      assert token[i] == Base64.Char(Base64.Groups(bs)[i]);
    }
  }

  /** The fixed texts of the request hold no line feed. */
  lemma LiteralsNoNewline()
    ensures NoNewline(":") && NoNewline("CONNECT ") && NoNewline(" HTTP/1.1") && NoNewline("Host: ")
    ensures NoNewline(BASIC_PREFIX)
  {
  }

  /** The request lines hold no line feed of their own. */
  lemma NoNewlineParts(f: State, charset: Charset)
    requires NoNewline(f.targetHost)
    ensures NoNewline(ConnectLine(f)) && NoNewline(HostLine(f)) && NoNewline(AuthLine(f, charset))
  {
    DecimalNoNewline(f.targetPort);
    LiteralsNoNewline();
    ConcatNoNewline(f.targetHost, ":");
    ConcatNoNewline(f.targetHost + ":", Numerals.Decimal(f.targetPort));
    ConcatNoNewline("CONNECT ", Authority(f));
    ConcatNoNewline("CONNECT " + Authority(f), " HTTP/1.1");
    ConcatNoNewline("Host: ", Authority(f));
    EncodingNoNewline(charset(Credentials(f)));
    ConcatNoNewline(BASIC_PREFIX, Base64.Encode(charset(Credentials(f))));
  }

  /** The proxy reads the request as the CONNECT line, the Host line, the
      credentials line when authentication is on, and then one empty line that
      ends the header, so the request is complete as soon as it is sent. */
  lemma RequestLines(f: State, traceEnabled: bool, charset: Charset)
    requires NoNewline(f.targetHost)
    ensures var sent := Transmitted(SessionCreated(f, traceEnabled, charset).writes);
            Lines(sent) == if f.authRequired then [ConnectLine(f), HostLine(f), AuthLine(f, charset), ""]
                           else [ConnectLine(f), HostLine(f), ""]
  {
    NoNewlineParts(f, charset);
    var writes := SessionCreated(f, traceEnabled, charset).writes;
    if f.authRequired {
      ThreeLineRequest(ConnectLine(f), HostLine(f), AuthLine(f, charset), writes);
    } else {
      TwoLineRequest(ConnectLine(f), HostLine(f), writes);
    }
  }

  /** The request without credentials. */
  lemma TwoLineRequest(a: string, b: string, writes: seq<string>)
    requires NoNewline(a) && NoNewline(b)
    requires |writes| == 2 && writes[0] == a && writes[1] == b + "\n"
    ensures Lines(Transmitted(writes)) == [a, b, ""]
  {
    assert writes[..1] == [a, b][..1];
    HeaderLines([a, b], writes);
  }

  /** The request with a credentials line. */
  lemma ThreeLineRequest(a: string, b: string, c: string, writes: seq<string>)
    requires NoNewline(a) && NoNewline(b) && NoNewline(c)
    requires |writes| == 3 && writes[0] == a && writes[1] == b && writes[2] == c + "\n"
    ensures Lines(Transmitted(writes)) == [a, b, c, ""]
  {
    assert writes[..2] == [a, b, c][..2];
    HeaderLines([a, b, c], writes);
  }

  /** Header lines whose last one is written with its own line feed are read
      back followed by the empty line. */
  lemma HeaderLines(header: seq<string>, writes: seq<string>)
    requires |header| >= 1 && |writes| == |header|
    requires writes[..|writes| - 1] == header[..|header| - 1]
    requires writes[|writes| - 1] == header[|header| - 1] + "\n"
    requires forall i :: 0 <= i < |header| ==> NoNewline(header[i])
    ensures Lines(Transmitted(writes)) == header + [""]
  {
    var lines := header + [""];
    forall i | 0 <= i < |lines|
      ensures NoNewline(lines[i])
    {
      if i < |header| {
        assert lines[i] == header[i];
      }
    }
    LinesTransmitted(lines);
    TransmittedLastLine(header, writes);
  }

  /** Sending the last line with a line feed of its own is sending it and an
      empty line. */
  lemma {:induction false} TransmittedLastLine(header: seq<string>, writes: seq<string>)
    requires |header| >= 1 && |writes| == |header|
    requires writes[..|writes| - 1] == header[..|header| - 1]
    requires writes[|writes| - 1] == header[|header| - 1] + "\n"
    ensures Transmitted(writes) == Transmitted(header + [""])
    decreases |header|
  {
    if |header| == 1 {
      assert Transmitted([""]) == "\n";
      assert Transmitted(header + [""]) == header[0] + "\n" + "\n";
      assert Transmitted(writes) == writes[0] + "\n";
    } else {
      assert (header + [""])[1..] == header[1..] + [""];
      TransmittedLastLine(header[1..], writes[1..]);
    }
  }

  /** The credentials line carries the user-pass bytes, recoverable by
      decoding the token. */
  lemma CredentialsRecoverable(f: State, charset: Charset)
    ensures var line := AuthLine(f, charset);
            |BASIC_PREFIX| <= |line| && line[..|BASIC_PREFIX|] == BASIC_PREFIX
            && Base64.Decode(line[|BASIC_PREFIX|..]) == Some(charset(Credentials(f)))
  {
    var line := AuthLine(f, charset);
    assert line[|BASIC_PREFIX|..] == Base64.Encode(charset(Credentials(f)));
    Base64.DecodeEncode(charset(Credentials(f)));
  }

  // ---------------------------------------------------------------------------
  // The answer

  /** `String.contains`. */
  predicate Contains(s: string, t: string)
    decreases |s|
  {
    (|t| <= |s| && s[..|t|] == t) || (s != [] && Contains(s[1..], t))
  }

  /** What receiving one line leads to. Once a tunnel is established the saved
      filters are restored and this filter is out of the chain; when the tunnel
      fails, `messageReceived` throws and leaves the chain as it was. */
  datatype Reaction = Waiting(f: State) | Established(f: State, chain: seq<Entry>) | TunnelFailed(f: State, message: string)

  /** `messageReceived`. */
  function MessageReceived(f: State, line: string): (r: Reaction)
    ensures r.f.answer == f.answer + line + "\n"
    ensures r.f.okReceived == (f.okReceived || Contains(line, OK_MARKER))
    ensures r.f.saved == f.saved
    ensures line != "" <==> r.Waiting?
    ensures r.Established? <==> line == "" && f.okReceived
    ensures r.Established? ==> r.chain == f.saved
    ensures r.TunnelFailed? ==> r.message == FAILURE_PREFIX + r.f.answer
  {
    var g := f.(answer := f.answer + line + "\n", okReceived := f.okReceived || Contains(line, OK_MARKER));
    if line == "" then
      assert !Contains(line, OK_MARKER);
      if g.okReceived then Established(g, g.saved)
      else TunnelFailed(g, FAILURE_PREFIX + g.answer)
    else Waiting(g)
  }

  /** The proxy's answer, line by line, up to the first decision. */
  function Feed(f: State, lines: seq<string>): (r: Reaction)
    decreases |lines|
  {
    if lines == [] then Waiting(f)
    else match MessageReceived(f, lines[0])
      case Waiting(g) => Feed(g, lines[1..])
      case decided => decided
  }

  /** The handshake is decided by the first empty line: it succeeds iff some
      line before it contains the OK status, and either way the answer holds
      every line read, each followed by a line feed. Nothing after the empty
      line is read. */
  lemma {:induction false} HandshakeOutcome(f: State, lines: seq<string>, k: nat)
    requires k < |lines| && lines[k] == ""
    requires forall j :: 0 <= j < k ==> lines[j] != ""
    ensures var r := Feed(f, lines);
            !r.Waiting?
            && (r.Established? <==> f.okReceived || exists j :: 0 <= j < k && Contains(lines[j], OK_MARKER))
            && r.f.answer == f.answer + Transmitted(lines[..k + 1])
            && (r.Established? ==> r.chain == f.saved)
            && (r.TunnelFailed? ==> r.message == FAILURE_PREFIX + r.f.answer)
    decreases k
  {
    if k == 0 {
      assert lines[..1] == [""];
      assert Transmitted([""]) == "\n";
    } else {
      var g := MessageReceived(f, lines[0]).f;
      HandshakeOutcome(g, lines[1..], k - 1);
      assert lines[1..][..k] == lines[..k + 1][1..];
      var t := Transmitted(lines[1..][..k]);
      assert Transmitted(lines[..k + 1]) == lines[0] + "\n" + t;
      Regroup(f.answer, lines[0], "\n", t);
      if Contains(lines[0], OK_MARKER) {
        assert exists j :: 0 <= j < k && Contains(lines[j], OK_MARKER) by {
          assert Contains(lines[0], OK_MARKER);
        }
      }
      assert (exists j :: 0 <= j < k - 1 && Contains(lines[1..][j], OK_MARKER))
             <==> (exists j :: 1 <= j < k && Contains(lines[j], OK_MARKER)) by {
        forall j | 0 <= j < k - 1
          ensures lines[1..][j] == lines[j + 1]
        {
        }
      }
    }
  }

  lemma Regroup<T>(a: seq<T>, b: seq<T>, c: seq<T>, d: seq<T>)
    ensures a + b + c + d == a + (b + c + d)
  {
  }

  /** Once the proxy has said OK, it stays said. */
  lemma {:induction false} OkNeverReset(f: State, lines: seq<string>)
    requires f.okReceived
    ensures Feed(f, lines).f.okReceived
    ensures Feed(f, lines).TunnelFailed? == false
    decreases |lines|
  {
    if lines != [] {
      OkNeverReset(MessageReceived(f, lines[0]).f, lines[1..]);
    }
  }
}

=== FILE: rawchannels.dfy ===
/** Raw side channels: the dispatcher's token list and listener map, and the
    open/closed state of a `RawChannel` handle.

    A token is handed out by the receiving side (`prepareRawChannel`) together
    with the listener that will consume the data; the sending side wraps the
    token in a `RawChannel`, which can be written to until it is closed.
 */
module RawChannels {
  import opened Errors
  import opened JavaInt
  import opened Lists

  /** `tokenList` and `rawChannelMap`; `L` stands for a `RawChannelDataListener`. */
  datatype Registry<L> = Registry(tokens: seq<Int32>, listeners: map<Int32, L>)

  /** Tokens are unique and every listener sits under a handed-out token. */
  ghost predicate Valid<L>(t: Registry<L>) {
    NoDup(t.tokens) && forall k :: k in t.listeners ==> k in t.tokens
  }

  /** `getRawChannelToken`: the least int from `Integer.MIN_VALUE` upwards that is not
      in use, recorded as in use. `Integer.MAX_VALUE` is never handed out: when every
      smaller int is taken the search fails. */
  method GetRawChannelToken(tokens: seq<Int32>) returns (r: Result<Int32>, tokens': seq<Int32>)
    ensures r.Ok? ==> r.value < INT_MAX && r.value !in tokens && tokens' == tokens + [r.value]
    ensures r.Ok? ==> forall j: Int32 :: j < r.value ==> j in tokens
    ensures r.Err? <==> forall j: Int32 :: j < INT_MAX ==> j in tokens
    ensures r.Err? ==> r.error == NoMoreToken && tokens' == tokens
  {
    var i: int := INT_MIN;
    while i < INT_MAX
      invariant INT_MIN <= i <= INT_MAX
      invariant forall j: Int32 :: j < i ==> j in tokens
    {
      if i !in tokens {
        return Ok(i), tokens + [i];
      }
      i := i + 1;
    }
    return Err(NoMoreToken), tokens;
  }

  /** The bookkeeping half of `prepareRawChannel`, once the token is chosen. */
  function Register<L>(t: Registry<L>, token: Int32, listener: L): (r: Registry<L>)
    ensures r.tokens == t.tokens + [token]
    ensures r.listeners == t.listeners[token := listener]
  {
    Registry(t.tokens + [token], t.listeners[token := listener])
  }

  /** `prepareRawChannel`: a fresh token, and the listener registered under it. */
  method PrepareRawChannel<L>(t: Registry<L>, listener: L) returns (r: Registry<L>, token: Result<Int32>)
    requires Valid(t)
    ensures Valid(r)
    ensures token.Ok? ==> token.value !in t.tokens && r == Register(t, token.value, listener)
    ensures token.Ok? ==> IsRawChannelDataListenerRegistered(r, token.value)
                          && GetRawChannelDataListener(r, token.value) == Some(listener)
    ensures token.Err? ==> r == t && token.error == NoMoreToken
  {
    var tokens';
    token, tokens' := GetRawChannelToken(t.tokens);
    if token.Ok? {
      r := Register(t, token.value, listener);
      AppendNoDup(t.tokens, token.value);
    } else {
      r := t;
    }
  }

  /** `isRawChannelDataListenerRegistered`. */
  function IsRawChannelDataListenerRegistered<L>(t: Registry<L>, token: Int32): (b: bool)
    ensures b <==> GetRawChannelDataListener(t, token).Some?
  {
    token in t.listeners
  }

  /** `getRawChannelDataListener`: null for an unknown token. */
  function GetRawChannelDataListener<L>(t: Registry<L>, token: Int32): (r: Option<L>)
    ensures r.None? <==> token !in t.listeners
    ensures r.Some? ==> r.value == t.listeners[token]
  {
    if token in t.listeners then Some(t.listeners[token]) else None
  }

  /** The listener registered under a token is the one found for it, and every
      other token finds what it found before. */
  lemma RegisteredListenerFound<L>(t: Registry<L>, token: Int32, listener: L, other: Int32)
    requires other != token
    ensures GetRawChannelDataListener(Register(t, token, listener), token) == Some(listener)
    ensures GetRawChannelDataListener(Register(t, token, listener), other) == GetRawChannelDataListener(t, other)
  {
  }

  /** `releaseToken`: the token is free again. */
  function ReleaseToken<L>(t: Registry<L>, token: Int32): (r: Registry<L>)
    ensures multiset(r.tokens) == multiset(t.tokens) - multiset{token}
    ensures r.listeners == t.listeners
  {
    t.(tokens := RemoveFirst(t.tokens, token))
  }

  /** `unprepareRawChannel`: frees the token and removes the listener, which is then
      closed (the closed listener is the result). Without a listener the token is
      still freed and the call fails on the missing listener. */
  function UnprepareRawChannel<L>(t: Registry<L>, token: Int32): (res: (Registry<L>, Result<L>))
    ensures res.0.tokens == RemoveFirst(t.tokens, token)
    ensures token !in res.0.listeners
    ensures forall k :: k != token ==> (k in res.0.listeners <==> k in t.listeners)
                                       && (k in t.listeners ==> res.0.listeners[k] == t.listeners[k])
    ensures res.1.Ok? <==> token in t.listeners
    ensures res.1.Ok? ==> res.1.value == t.listeners[token]
    ensures res.1.Err? ==> res.1.error == NullPointer
  {
    var released := ReleaseToken(t, token);
    if token in t.listeners then (released.(listeners := t.listeners - {token}), Ok(t.listeners[token]))
    else (released, Err(NullPointer))
  }

  /** Unpreparing keeps the registry consistent, and the token can be handed out again. */
  lemma UnprepareValid<L>(t: Registry<L>, token: Int32)
    requires Valid(t)
    ensures Valid(UnprepareRawChannel(t, token).0)
    ensures token !in UnprepareRawChannel(t, token).0.tokens
  {
    RemoveFirstFacts(t.tokens, token);
    var r := UnprepareRawChannel(t, token).0;
    forall k | k in r.listeners
      ensures k in r.tokens
    {
      assert k in t.tokens && k != token;
      assert k in multiset(t.tokens);
      assert k in multiset(r.tokens);
    }
  }

  /** Registering a new token and unpreparing it again restores the registry. */
  lemma RegisterThenUnprepare<L>(t: Registry<L>, token: Int32, listener: L)
    requires token !in t.tokens && token !in t.listeners
    ensures UnprepareRawChannel(Register(t, token, listener), token) == (t, Ok(listener))
  {
    var r := Register(t, token, listener);
    RemoveFirstAppended(t.tokens, token);
    assert r.listeners - {token} == t.listeners;
  }

  /** Preparing and then unpreparing a channel restores the registry and closes the
      listener that was registered. */
  lemma PrepareUnprepareRoundTrip<L>(t: Registry<L>, token: Int32, listener: L)
    requires Valid(t) && token !in t.tokens
    ensures UnprepareRawChannel(Register(t, token, listener), token) == (t, Ok(listener))
  {
    RegisterThenUnprepare(t, token, listener);
  }

  // ---------------------------------------------------------------------------
  // The RawChannel handle

  datatype RawChannel = RawChannel(token: Int32, open: bool)

  /** A new channel is open. */
  function NewRawChannel(token: Int32): (c: RawChannel)
    ensures !IsClosed(c) && c.token == token
  {
    RawChannel(token, true)
  }

  /** `isClosed`. */
  function IsClosed(c: RawChannel): (b: bool)
    ensures b <==> !c.open
  {
    !c.open
  }

  /** `write`: an open channel passes on the dispatcher's outcome for the data
      (`sent`); a closed one refuses. */
  function Write(c: RawChannel, sent: Result<()>): (r: Result<()>)
    ensures IsClosed(c) ==> r == Err(IllegalState)
    ensures !IsClosed(c) ==> r == sent
  {
    if c.open then sent else Err(IllegalState)
  }

  /** `close`: an open channel asks the dispatcher to close it (with outcome `closed`)
      and is closed only when that succeeds; closing a closed channel is refused. */
  function Close(c: RawChannel, closed: Result<()>): (res: (RawChannel, Result<()>))
    ensures res.0.token == c.token
    ensures IsClosed(c) ==> res == (c, Err(IllegalState))
    ensures !IsClosed(c) ==> res.1 == closed && (IsClosed(res.0) <==> closed.Ok?)
  {
    if !c.open then (c, Err(IllegalState))
    else if closed.Ok? then (c.(open := false), closed)
    else (c, closed)
  }

  /** After a successful close, every further write and close is refused. */
  lemma ClosedStaysClosed(c: RawChannel, sent: Result<()>, again: Result<()>)
    requires Close(c, Ok(())).1.Ok?
    ensures var c' := Close(c, Ok(())).0;
            Write(c', sent) == Err(IllegalState) && Close(c', again) == (c', Err(IllegalState))
  {
  }
}

=== FILE: refqueue.dfy ===
/** `SimonRefQueue`: the phantom references of a dispatcher's callback proxies.

    Garbage collection is outside the model: that the collector has enqueued a
    reference is an event (`Collected`) that can happen to any tracked
    reference at any time. Whether a reference's session is still connected is
    an input.
 */
module RefQueue {
  import opened Errors
  import opened Lists

  type SessionId = nat

  /** A `SimonPhantomRef`: `serial` is its identity, `refId` the proxy's remote object
      name, `session` the proxy's session. */
  datatype PhantomRef = PhantomRef(serial: nat, refId: string, session: SessionId)

  /** The tracked references, whether the cleaner thread still runs, and how many
      references were created. */
  datatype Queue = Queue(refs: seq<PhantomRef>, cleanerActive: bool, created: nat)

  /** A release-ref message the queue asks the dispatcher to send. */
  datatype ReleaseRef = ReleaseRef(session: SessionId, refId: string)

  /** Tracked references are distinct, each created before. */
  ghost predicate Valid(q: Queue) {
    NoDup(q.refs) && forall i :: 0 <= i < |q.refs| ==> q.refs[i].serial < q.created
  }

  /** The constructor: the cleaner thread runs, nothing is tracked. */
  function NewQueue(): (q: Queue)
    ensures q.cleanerActive && |q.refs| == 0 && Valid(q)
  {
    Queue([], true, 0)
  }

  /** `addRef`: refused once the cleaner has stopped; otherwise exactly one new
      reference is tracked, at the end. */
  function AddRef(q: Queue, refId: string, session: SessionId): (r: Result<Queue>)
    ensures !q.cleanerActive <==> r.Err?
    ensures r.Err? ==> r.error == IllegalState
    ensures r.Ok? ==> r.value.refs == q.refs + [PhantomRef(q.created, refId, session)]
    ensures r.Ok? ==> r.value.cleanerActive && r.value.created == q.created + 1
  {
    if !q.cleanerActive then Err(IllegalState)
    else Ok(Queue(q.refs + [PhantomRef(q.created, refId, session)], true, q.created + 1))
  }

  /** A new reference is distinct from all tracked ones. */
  lemma AddRefValid(q: Queue, refId: string, session: SessionId)
    requires Valid(q) && q.cleanerActive
    ensures Valid(AddRef(q, refId, session).value)
  {
    var x := PhantomRef(q.created, refId, session);
    assert forall i :: 0 <= i < |q.refs| ==> q.refs[i] != x;
    AppendNoDup(q.refs, x);
  }

  /** `sendRelease`: a release-ref for a connected session, nothing otherwise. Whether
      the send itself fails (`sent`) does not reach the caller: the failure is
      only logged. */
  function SendRelease(ref: PhantomRef, connected: set<SessionId>, sent: Result<()>): (out: seq<ReleaseRef>)
    ensures ref.session in connected ==> out == [ReleaseRef(ref.session, ref.refId)]
    ensures ref.session !in connected ==> out == []
  {
    if ref.session in connected then [ReleaseRef(ref.session, ref.refId)] else []
  }

  /** One turn of the cleaner loop for a reference the collector enqueued: it leaves
      the tracked list, then its release is sent. */
  function Collected(q: Queue, ref: PhantomRef, connected: set<SessionId>, sent: Result<()>)
    : (res: (Queue, seq<ReleaseRef>))
    ensures multiset(res.0.refs) == multiset(q.refs) - multiset{ref}
    ensures res.0.cleanerActive == q.cleanerActive && res.0.created == q.created
    ensures res.1 == SendRelease(ref, connected, sent)
  {
    (q.(refs := RemoveFirst(q.refs, ref)), SendRelease(ref, connected, sent))
  }

  /** A collected reference is tracked no longer, and the others stay tracked. */
  lemma CollectedForgets(q: Queue, ref: PhantomRef, connected: set<SessionId>, sent: Result<()>)
    requires Valid(q)
    ensures var r := Collected(q, ref, connected, sent).0;
            Valid(r) && ref !in r.refs && forall x :: x in q.refs && x != ref ==> x in r.refs
  {
    RemoveFirstFacts(q.refs, ref);
    RemoveFirstKeepsOthers(q.refs, ref);
    var r := Collected(q, ref, connected, sent).0;
    forall i | 0 <= i < |r.refs|
      ensures r.refs[i].serial < r.created
    {
      assert r.refs[i] in q.refs;
    }
  }

  /** The release-refs for `refs`, in order. */
  function Releases(refs: seq<PhantomRef>, connected: set<SessionId>): (out: seq<ReleaseRef>)
    ensures |out| <= |refs|
  {
    if |refs| == 0 then [] else SendRelease(refs[0], connected, Ok(())) + Releases(refs[1..], connected)
  }

  lemma {:induction false} ReleasesAppend(refs: seq<PhantomRef>, x: PhantomRef, connected: set<SessionId>)
    ensures Releases(refs + [x], connected) == Releases(refs, connected) + SendRelease(x, connected, Ok(()))
    decreases |refs|
  {
    if |refs| == 0 {
      assert refs + [x] == [x];
    } else {
      assert (refs + [x])[1..] == refs[1..] + [x];
      ReleasesAppend(refs[1..], x, connected);
    }
  }

  /** Every connected reference yields exactly one release-ref, for its own id. */
  lemma {:induction false} ReleasesExact(refs: seq<PhantomRef>, connected: set<SessionId>)
    ensures forall m :: m in Releases(refs, connected) <==>
              exists x :: x in refs && x.session in connected && m == ReleaseRef(x.session, x.refId)
    decreases |refs|
  {
    if |refs| > 0 {
      ReleasesExact(refs[1..], connected);
      assert refs == [refs[0]] + refs[1..];
      forall m | m in Releases(refs, connected)
        ensures exists x :: x in refs && x.session in connected && m == ReleaseRef(x.session, x.refId)
      {
        if m !in SendRelease(refs[0], connected, Ok(())) {
          var x :| x in refs[1..] && x.session in connected && m == ReleaseRef(x.session, x.refId);
          assert x in refs;
        }
      }
      forall m | exists x :: x in refs && x.session in connected && m == ReleaseRef(x.session, x.refId)
        ensures m in Releases(refs, connected)
      {
        var x :| x in refs && x.session in connected && m == ReleaseRef(x.session, x.refId);
        if x != refs[0] {
          assert x in refs[1..];
        }
      }
    }
  }

  /** `cleanup`: the cleaner thread is stopped, and the tracked references are taken
      out one by one from the front, each sending its release. */
  method Cleanup(q: Queue, connected: set<SessionId>) returns (r: Queue, out: seq<ReleaseRef>)
    ensures r.refs == [] && !r.cleanerActive && r.created == q.created
    ensures out == Releases(q.refs, connected)
  {
    var refs := q.refs;
    out := [];
    while |refs| > 0
      invariant |refs| <= |q.refs| && refs == q.refs[|q.refs| - |refs|..]
      invariant out == Releases(q.refs[..|q.refs| - |refs|], connected)
      decreases |refs|
    {
      var ref := refs[0];
      var done := |q.refs| - |refs|;
      assert q.refs[..done + 1] == q.refs[..done] + [ref];
      ReleasesAppend(q.refs[..done], ref, connected);
      out := out + SendRelease(ref, connected, Ok(()));
      refs := refs[1..];
    }
    assert q.refs[..|q.refs|] == q.refs;
    r := Queue([], false, q.created);
  }

  /** After the cleanup nothing can be added any more. */
  lemma AddAfterCleanupRefused(q: Queue, refId: string, session: SessionId)
    ensures AddRef(q.(refs := [], cleanerActive := false), refId, session) == Err(IllegalState)
  {
  }
}

=== FILE: registry.dfy ===
/** `Registry`: the server side's entry point. It is started once, binds remote
    objects into its dispatcher's lookup table, optionally publishes them, and
    once stopped stays stopped.

    The acceptor, the codec and the socket are outside the model: whether the
    protocol factory can be instantiated and whether the acceptor can bind its
    address are inputs. Publication goes through the runtime-wide list of
    `SimonStatics`, which is passed in and handed back.
 */
module Registry {
  import opened Errors
  import opened JavaInt
  import LookupTable
  import SimonStatics

  type Obj = LookupTable.Obj

  /** An object offered for binding: its identity, the interfaces its class
      implements, and whether it is a valid remote (annotated or marked). */
  datatype Candidate = Candidate(obj: Obj, interfaces: seq<string>, validRemote: bool)

  /** The registry's fields. `built` says whether `start` created the dispatcher and
      acceptor; the timeouts are the acceptor's write timeout and idle time and the
      dispatcher's ping timeout, in seconds. */
  datatype Registry = Registry(
    address: string,
    port: Int32,
    started: bool,
    stopped: bool,
    built: bool,
    table: LookupTable.Table,
    writeTimeout: Int32,
    pingTimeout: Int32,
    idleTime: Int32)

  /** What the acceptor is asked to do. */
  datatype Effect = AcceptorBound | AcceptorUnbound | DispatcherShutDown | AcceptorDisposed

  /** The table of a freshly created dispatcher. */
  const EmptyTable := LookupTable.Table(map[], map[], {}, {}, map[], false)

  /** The constructor: nothing is created yet. */
  function NewRegistry(address: string, port: Int32): (r: Registry)
    ensures !r.started && !r.stopped && !r.built
  {
    Registry(address, port, false, false, false, EmptyTable, 0, 0, 0)
  }

  /** `setKeepAliveTimeout`: the acceptor's write timeout and the dispatcher's ping
      timeout move together. Before `start` there is no acceptor. */
  function SetKeepAliveTimeout(r: Registry, seconds: Int32): (res: Result<Registry>)
    ensures res.Ok? <==> r.built
    ensures res.Err? ==> res.error == NullPointer
    ensures res.Ok? ==> res.value.writeTimeout == seconds && res.value.pingTimeout == seconds
                        && res.value == r.(writeTimeout := seconds, pingTimeout := seconds)
  {
    if !r.built then Err(NullPointer) else Ok(r.(writeTimeout := seconds, pingTimeout := seconds))
  }

  /** `setKeepAliveInterval`: the acceptor's idle time. */
  function SetKeepAliveInterval(r: Registry, seconds: Int32): (res: Result<Registry>)
    ensures res.Ok? <==> r.built
    ensures res.Err? ==> res.error == NullPointer
    ensures res.Ok? ==> res.value == r.(idleTime := seconds)
  {
    if !r.built then Err(NullPointer) else Ok(r.(idleTime := seconds))
  }

  /** `getKeepAliveTimeout` and `getKeepAliveInterval`. */
  function GetKeepAliveTimeout(r: Registry): (res: Result<Int32>)
    ensures res.Ok? <==> r.built
    ensures res.Ok? ==> res.value == r.writeTimeout
  {
    if !r.built then Err(NullPointer) else Ok(r.writeTimeout)
  }

  /** Setting the keep-alive timeout is read back, and the ping timeout follows it. */
  lemma KeepAliveTimeoutRoundTrip(r: Registry, seconds: Int32)
    requires r.built
    ensures GetKeepAliveTimeout(SetKeepAliveTimeout(r, seconds).value) == Ok(seconds)
    ensures SetKeepAliveTimeout(r, seconds).value.pingTimeout == seconds
  {
  }

  /** `start`. A stopped or already started registry refuses. Otherwise the
      registry counts as started from the first step: a new dispatcher (with an
      empty lookup table) and acceptor are built; the protocol factory is loaded
      (`factory`), the default keep-alive interval and timeout are applied, and the
      acceptor binds its address (`bind`). Any failure resets the started flag and
      is thrown. */
  function Start(r: Registry, defaultIdle: Int32, defaultWrite: Int32, factory: Result<()>, bind: Result<()>)
    : (res: (Registry, seq<Effect>, Result<()>))
    ensures r.stopped || r.started ==> res == (r, [], Err(IllegalState))
    ensures !r.stopped && !r.started ==>
              && res.0.built && !res.0.stopped && res.0.table == EmptyTable
              && (res.2.Ok? <==> factory.Ok? && bind.Ok?)
              && res.0.started == res.2.Ok?
              && (res.2.Ok? ==> res.1 == [AcceptorBound])
              && (factory.Err? ==> res.2 == Err(factory.error) && res.1 == [])
              && (factory.Ok? ==> res.0.idleTime == defaultIdle && res.0.writeTimeout == defaultWrite
                                  && res.0.pingTimeout == defaultWrite)
  {
    if r.stopped || r.started then (r, [], Err(IllegalState))
    else
      var built := r.(started := true, built := true, table := EmptyTable);
      match factory
      case Err(e) => (built.(started := false), [], Err(e))
      case Ok(_) =>
        var configured := built.(idleTime := defaultIdle, writeTimeout := defaultWrite, pingTimeout := defaultWrite);
        match bind
        case Err(e) => (configured.(started := false), [], Err(e))
        case Ok(_) => (configured, [AcceptorBound], Ok(()))
  }

  /** `stop` as evidently intended: the registry counts as stopped from the first
      step. The acceptor is unbound, the dispatcher shut down (which cleans up its
      lookup table with the corrected `LookupTable.Cleanup`), and the acceptor
      disposed. Before `start` there is no acceptor to unbind. `StopAsWritten` is
      the code as it stands. */
  function Stop(r: Registry, order: seq<LookupTable.SessionId>, aware: set<Obj>)
    : (res: (Registry, seq<Effect>, Result<()>))
    requires r.built ==> LookupTable.IsSessionOrder(r.table, order)
    ensures res.0.stopped
    ensures res.2.Ok? <==> r.built
    ensures res.2.Err? ==> res == (r.(stopped := true), [], Err(NullPointer))
    ensures res.2.Ok? ==> res.1 == [AcceptorUnbound, DispatcherShutDown, AcceptorDisposed]
                          && res.0.table.bindings == map[] && res.0.table.cleanupDone
  {
    if !r.built then (r.(stopped := true), [], Err(NullPointer))
    else
      var (table, _) := LookupTable.Cleanup(r.table, order, aware);
      (r.(stopped := true, table := table), [AcceptorUnbound, DispatcherShutDown, AcceptorDisposed], Ok(()))
  }

  /** `stop` as written: the dispatcher's shutdown cleans the lookup table with
      `LookupTable.CleanupAsWritten`, which throws ConcurrentModificationException
      once two or more sessions hold references. The exception escapes `stop`
      after the acceptor was unbound: the acceptor is never disposed, and the
      second session keeps its references. With fewer sessions it is `Stop`. */
  function StopAsWritten(r: Registry, order: seq<LookupTable.SessionId>, aware: set<Obj>)
    : (res: (Registry, seq<Effect>, Result<()>))
    requires r.built ==> LookupTable.IsSessionOrder(r.table, order)
    ensures res.0.stopped
    ensures !r.built ==> res == (r.(stopped := true), [], Err(NullPointer))
    ensures r.built && |order| >= 2 ==>
              res.1 == [AcceptorUnbound] && res.2 == Err(ConcurrentModification)
              && order[1] in res.0.table.gcRemoteInstances
    ensures r.built && |order| < 2 ==> res == Stop(r, order, aware)
  {
    if !r.built then (r.(stopped := true), [], Err(NullPointer))
    else
      var (table, _, outcome) := LookupTable.CleanupAsWritten(r.table, order, aware);
      if outcome.Err? then (r.(stopped := true, table := table), [AcceptorUnbound], outcome)
      else
        LookupTable.CleanupAsWrittenAgreesOnOneSession(r.table, order, aware);
        (r.(stopped := true, table := table), [AcceptorUnbound, DispatcherShutDown, AcceptorDisposed], Ok(()))
  }

  /** A stopped registry can never start again. */
  lemma StopIsPermanent(r: Registry, order: seq<LookupTable.SessionId>, aware: set<Obj>,
                        defaultIdle: Int32, defaultWrite: Int32, factory: Result<()>, bind: Result<()>)
    requires r.built ==> LookupTable.IsSessionOrder(r.table, order)
    ensures var stopped := Stop(r, order, aware).0;
            Start(stopped, defaultIdle, defaultWrite, factory, bind) == (stopped, [], Err(IllegalState))
  {
  }

  /** A start that failed leaves the registry startable, and a second start with a
      working setup succeeds. */
  lemma FailedStartRetryable(r: Registry, defaultIdle: Int32, defaultWrite: Int32, e: Exception, bind: Result<()>)
    requires !r.started && !r.stopped
    ensures var failed := Start(r, defaultIdle, defaultWrite, Err(e), bind);
            && failed.2 == Err(e) && !failed.0.started
            && Start(failed.0, defaultIdle, defaultWrite, Ok(()), Ok(())).2 == Ok(())
  {
  }

  /** `bind`: only between start and stop; only a valid remote; never over an
      existing binding, which stays as it was. */
  function Bind(r: Registry, name: string, c: Candidate): (res: Result<Registry>)
    ensures res.Ok? <==> r.started && !r.stopped && c.validRemote && name !in r.table.bindings
    ensures !r.started || r.stopped ==> res == Err(IllegalState)
    ensures r.started && !r.stopped && !c.validRemote ==> res == Err(IllegalArgument)
    ensures r.started && !r.stopped && c.validRemote && name in r.table.bindings ==> res == Err(NameBinding)
    ensures res.Ok? ==> res.value == r.(table := res.value.table)
                        && res.value.table.bindings == r.table.bindings[name := LookupTable.Container(c.obj, name, c.interfaces)]
  {
    if !r.started then Err(IllegalState)
    else if r.stopped then Err(IllegalState)
    else if !c.validRemote then Err(IllegalArgument)
    else if LookupTable.GetRemoteObjectContainer(r.table, name).Ok? then Err(NameBinding)
    else Ok(r.(table := LookupTable.PutRemoteBinding(r.table, name, c.obj, c.interfaces)))
  }

  /** `unbind`: the binding is released and the name unpublished; the result says
      whether it was published. Before `start` there is no dispatcher. */
  function Unbind(r: Registry, p: SimonStatics.Publishing, name: string)
    : (res: (Registry, SimonStatics.Publishing, Result<bool>))
    ensures res.2.Ok? <==> r.built
    ensures res.2.Err? ==> res == (r, p, Err(NullPointer))
    ensures res.2.Ok? ==>
              && res.0 == r.(table := LookupTable.ReleaseRemoteBinding(r.table, name))
              && name !in res.0.table.bindings
              && (res.1, res.2.value) == SimonStatics.Unpublish(p, SimonStatics.Publication(r.address, r.port, name))
  {
    if !r.built then (r, p, Err(NullPointer))
    else
      var (p', removed) := SimonStatics.Unpublish(p, SimonStatics.Publication(r.address, r.port, name));
      (r.(table := LookupTable.ReleaseRemoteBinding(r.table, name)), p', Ok(removed))
  }

  /** Binding a new name to a new object and unbinding it restores the table. */
  lemma BindUnbindRoundTrip(r: Registry, p: SimonStatics.Publishing, name: string, c: Candidate)
    requires r.started && !r.stopped && r.built && c.validRemote
    requires name !in r.table.bindings && c.obj !in r.table.objects && c.obj !in r.table.methodMaps
    ensures Unbind(Bind(r, name, c).value, p, name).0 == r
  {
    LookupTable.BindReleaseRoundTrip(r.table, name, c.obj, c.interfaces);
  }

  /** `bindAndPublish`: bind, then publish. When publishing fails the binding is
      undone and the failure reported as a `NameBindingException`. */
  function BindAndPublish(r: Registry, p: SimonStatics.Publishing, name: string, c: Candidate, serviceOpens: bool)
    : (res: (Registry, SimonStatics.Publishing, Result<()>))
    requires r.started ==> r.built
    ensures Bind(r, name, c).Err? ==> res == (r, p, Err(Bind(r, name, c).error))
    ensures Bind(r, name, c).Ok? ==>
              var pub := SimonStatics.Publication(r.address, r.port, name);
              && (res.2.Ok? <==> SimonStatics.Publish(p, pub, serviceOpens).1.Ok?)
              && (res.2.Ok? ==> res.0 == Bind(r, name, c).value && res.1 == SimonStatics.Publish(p, pub, serviceOpens).0)
              && (res.2.Err? ==> res.2.error == NameBinding && name !in res.0.table.bindings)
  {
    match Bind(r, name, c)
    case Err(e) => (r, p, Err(e))
    case Ok(bound) =>
      var (p', published) := SimonStatics.Publish(p, SimonStatics.Publication(r.address, r.port, name), serviceOpens);
      if published.Ok? then (bound, p', Ok(()))
      else
        var (unbound, p'', _) := Unbind(bound, p', name);
        (unbound, p'', Err(NameBinding))
  }

  /** A failed publication leaves the table as it was before the call. */
  lemma FailedPublishUnbinds(r: Registry, p: SimonStatics.Publishing, name: string, c: Candidate)
    requires r.started && !r.stopped && r.built && c.validRemote
    requires name !in r.table.bindings && c.obj !in r.table.objects && c.obj !in r.table.methodMaps
    requires |p.list| == 0 && SimonStatics.ServiceMatches(p)
    ensures BindAndPublish(r, p, name, c, false) == (r, p, Err(NameBinding))
  {
    LookupTable.BindReleaseRoundTrip(r.table, name, c.obj, c.interfaces);
    var pub := SimonStatics.Publication(r.address, r.port, name);
    assert pub !in p.list;
  }

  /** `rebind`: unbind, then bind, swallowing the `NameBindingException` that cannot
      happen; the other refusals of `bind` still reach the caller. */
  function Rebind(r: Registry, p: SimonStatics.Publishing, name: string, c: Candidate)
    : (res: (Registry, SimonStatics.Publishing, Result<()>))
    ensures !r.built ==> res == (r, p, Err(NullPointer))
    ensures res.2 != Err(NameBinding)
    ensures r.built && r.started && !r.stopped && c.validRemote ==>
              res.2.Ok? && name in res.0.table.bindings && res.0.table.bindings[name].obj == c.obj
    ensures r.built && (!r.started || r.stopped) ==> res.2 == Err(IllegalState)
    ensures r.built && r.started && !r.stopped && !c.validRemote ==> res.2 == Err(IllegalArgument)
  {
    var (unbound, p', released) := Unbind(r, p, name);
    if released.Err? then (r, p, Err(released.error))
    else match Bind(unbound, name, c)
      case Ok(bound) => (bound, p', Ok(()))
      case Err(NameBinding) => (unbound, p', Ok(()))
      case Err(e) => (unbound, p', Err(e))
  }
}

=== FILE: remoteref.dfy ===
/** `SimonRemoteRef`: the transport identity of an object passed by reference. */
module RemoteRef {
  import opened Errors
  import opened JavaInt
  import Numerals

  /** What the remote name lookup falls back to for an object that is not a proxy. */
  const NAME_NOT_AVAILABLE: string := "{SimonRemoteRef:RemoteObjectNameNotAvailable}"

  datatype RemoteRef = RemoteRef(id: string)

  /** The remote object name the constructor computes: the proxy's name, or the
      fallback when the object is not a proxy (the lookup throws and is caught). */
  function RemoteObjectName(proxyName: Option<string>): (n: string)
    ensures proxyName.Some? ==> n == proxyName.value
    ensures proxyName.None? ==> n == NAME_NOT_AVAILABLE
  {
    proxyName.GetOr(NAME_NOT_AVAILABLE)
  }

  const ID_IP: string := "|ip="
  const ID_SESSION: string := ";sessionID="
  const ID_HASH: string := ";remoteObjectHash="

  /** The constructor. The computed remote object name takes no part in the id. */
  function MakeRemoteRef(className: string, proxyName: Option<string>, remoteAddress: string,
                         sessionId: Int64, hashCode: Int32): (r: RemoteRef)
  {
    var _ := RemoteObjectName(proxyName);
    RemoteRef("[" + className + ID_IP + remoteAddress + ID_SESSION + Numerals.Decimal(sessionId)
              + ID_HASH + Numerals.Decimal(hashCode) + "]")
  }

  const TO_STRING_PREFIX: string := "SimonRemoteRef{id="

  /** `toString`: the id inside a fixed frame. */
  function ToString(r: RemoteRef): (s: string)
    ensures |s| == |TO_STRING_PREFIX| + |r.id| + 1
    ensures s[..|TO_STRING_PREFIX|] == TO_STRING_PREFIX && s[|s| - 1] == '}'
    ensures s[|TO_STRING_PREFIX|..|s| - 1] == r.id
  {
    TO_STRING_PREFIX + r.id + "}"
  }

  /** Different references print differently. */
  lemma ToStringInjective(r1: RemoteRef, r2: RemoteRef)
    requires ToString(r1) == ToString(r2)
    ensures r1 == r2
  {
    var s := ToString(r1);
    assert r1.id == s[|TO_STRING_PREFIX|..|s| - 1];
  }

  /** Whether the object is a proxy or not does not change its id. */
  lemma IdIgnoresRemoteName(className: string, n1: Option<string>, n2: Option<string>,
                            remoteAddress: string, sessionId: Int64, hashCode: Int32)
    ensures MakeRemoteRef(className, n1, remoteAddress, sessionId, hashCode)
         == MakeRemoteRef(className, n2, remoteAddress, sessionId, hashCode)
  {
  }

  lemma StripPrefix(p: string, a: string, b: string)
    requires p + a == p + b
    ensures a == b
  {
    assert a == (p + a)[|p|..];
    assert b == (p + b)[|p|..];
  }

  lemma StripSuffix(a: string, b: string, q: string)
    requires a + q == b + q
    ensures a == b
  {
    assert a == (a + q)[..|a|];
    assert b == (b + q)[..|b|];
  }

  /** Two objects of one class on one session get different ids when their hash codes
      differ, and two sessions give different ids to objects with the same hash code. */
  lemma IdDistinguishesObjects(className: string, proxyName: Option<string>, remoteAddress: string,
                               s1: Int64, s2: Int64, h1: Int32, h2: Int32)
    requires s1 != s2 || h1 != h2
    ensures MakeRemoteRef(className, proxyName, remoteAddress, s1, h1)
         != MakeRemoteRef(className, proxyName, remoteAddress, s2, h2)
  {
    var p := "[" + className + ID_IP + remoteAddress + ID_SESSION;
    if MakeRemoteRef(className, proxyName, remoteAddress, s1, h1)
       == MakeRemoteRef(className, proxyName, remoteAddress, s2, h2) {
      DecimalCharacters(s1);
      DecimalCharacters(s2);
      SplitTail(p, Numerals.Decimal(s1), Numerals.Decimal(h1), Numerals.Decimal(s2), Numerals.Decimal(h2));
      Numerals.DecimalInjective(s1, s2);
      Numerals.DecimalInjective(h1, h2);
    }
  }

  /** No character of `s` is `c`. */
  predicate Free(s: string, c: char) {
    forall i :: 0 <= i < |s| ==> s[i] != c
  }

  /** A field cannot end before a longer one free of the separator's first character. */
  lemma FieldNotShorter(x1: string, y1: string, x2: string, y2: string, sep: string)
    requires |sep| > 0 && Free(x2, sep[0])
    requires x1 + (sep + y1) == x2 + (sep + y2)
    ensures |x2| <= |x1|
  {
    var first := sep[0];
    var z := x1 + (sep + y1);
    assert z[|x1|] == first;
    if |x1| < |x2| {
      assert false;
    }
  }

  /** A field that does not contain the first character of the separator after it
      ends where the separator starts. */
  lemma SplitField(x1: string, y1: string, x2: string, y2: string, sep: string)
    requires |sep| > 0 && Free(x1, sep[0]) && Free(x2, sep[0])
    requires x1 + (sep + y1) == x2 + (sep + y2)
    ensures x1 == x2 && y1 == y2
  {
    FieldNotShorter(x1, y1, x2, y2, sep);
    FieldNotShorter(x2, y2, x1, y1, sep);
    var z := x1 + (sep + y1);
    assert x1 == z[..|x1|] && x2 == z[..|x2|];
    StripPrefix(x1, sep + y1, sep + y2);
    StripPrefix(sep, y1, y2);
  }

  /** The id with its concatenation nested to the right. */
  lemma IdShape(c: string, n: Option<string>, a: string, s: Int64, h: Int32)
    ensures MakeRemoteRef(c, n, a, s, h).id
         == "[" + (c + (ID_IP + (a + (ID_SESSION + (Numerals.Decimal(s) + (ID_HASH + (Numerals.Decimal(h) + "]")))))))
  {
    var ds, dh := Numerals.Decimal(s), Numerals.Decimal(h);
    var l1 := "[" + c;
    var l2 := l1 + ID_IP;
    var l3 := l2 + a;
    var l4 := l3 + ID_SESSION;
    var l5 := l4 + ds;
    var l6 := l5 + ID_HASH;
    var r6 := ID_HASH + (dh + "]");
    var r5 := ds + r6;
    var r4 := ID_SESSION + r5;
    var r3 := a + r4;
    var r2 := ID_IP + r3;
    Assoc(l6, dh, "]");
    Assoc(l5, ID_HASH, dh + "]");
    Assoc(l4, ds, r6);
    Assoc(l3, ID_SESSION, r5);
    Assoc(l2, a, r4);
    Assoc(l1, ID_IP, r3);
    Assoc("[", c, r2);
  }

  lemma Assoc(x: string, y: string, z: string)
    ensures (x + y) + z == x + (y + z)
  {
  }

  /** The id determines the object's class, address, session and hash: class names
      hold no '|' and socket addresses no ';', so each field can be read back. */
  lemma IdDeterminesFields(c1: string, n1: Option<string>, a1: string, s1: Int64, h1: Int32,
                           c2: string, n2: Option<string>, a2: string, s2: Int64, h2: Int32)
    requires Free(c1, '|') && Free(c2, '|') && Free(a1, ';') && Free(a2, ';')
    requires MakeRemoteRef(c1, n1, a1, s1, h1) == MakeRemoteRef(c2, n2, a2, s2, h2)
    ensures c1 == c2 && a1 == a2 && s1 == s2 && h1 == h2
  {
    var d1, e1 := Numerals.Decimal(s1), Numerals.Decimal(h1);
    var d2, e2 := Numerals.Decimal(s2), Numerals.Decimal(h2);
    var tail1, tail2 := d1 + (ID_HASH + (e1 + "]")), d2 + (ID_HASH + (e2 + "]"));
    var mid1, mid2 := a1 + (ID_SESSION + tail1), a2 + (ID_SESSION + tail2);
    IdShape(c1, n1, a1, s1, h1);
    IdShape(c2, n2, a2, s2, h2);
    StripPrefix("[", c1 + (ID_IP + mid1), c2 + (ID_IP + mid2));
    SplitField(c1, mid1, c2, mid2, ID_IP);
    SplitField(a1, tail1, a2, tail2, ID_SESSION);
    DecimalCharacters(s1);
    DecimalCharacters(s2);
    SplitField(d1, e1 + "]", d2, e2 + "]", ID_HASH);
    StripSuffix(e1, e2, "]");
    Numerals.DecimalInjective(s1, s2);
    Numerals.DecimalInjective(h1, h2);
  }

  /** The tail of an id splits back into its session and hash fields, because the
      session field holds no ';'. */
  lemma SplitTail(p: string, d1: string, e1: string, d2: string, e2: string)
    requires forall i :: 0 <= i < |d1| ==> d1[i] != ';'
    requires forall i :: 0 <= i < |d2| ==> d2[i] != ';'
    requires p + d1 + ID_HASH + e1 + "]" == p + d2 + ID_HASH + e2 + "]"
    ensures d1 == d2 && e1 == e2
  {
    var x1 := d1 + (ID_HASH + e1);
    var x2 := d2 + (ID_HASH + e2);
    assert p + d1 + ID_HASH + e1 + "]" == p + x1 + "]";
    assert p + d2 + ID_HASH + e2 + "]" == p + x2 + "]";
    StripSuffix(p + x1, p + x2, "]");
    StripPrefix(p, x1, x2);
    var k := if |d1| < |d2| then |d1| else |d2|;
    assert x1[k] == x2[k];
    assert |d1| == |d2|;
    assert d1 == x1[..|d1|];
    assert d2 == x2[..|d2|];
    StripPrefix(d1, ID_HASH + e1, ID_HASH + e2);
    StripPrefix(ID_HASH, e1, e2);
  }

  /** A decimal contains no ';'. */
  lemma DecimalCharacters(x: int)
    ensures forall i :: 0 <= i < |Numerals.Decimal(x)| ==> Numerals.Decimal(x)[i] != ';'
  {
  }
}

=== FILE: routing.dfy ===
/** `ProcessMessageRunnable`: what the receiving side does with one decoded
    message, by kind.

    A message either answers a request this side sent (a `*_RETURN` kind, handed
    to the result table under its own sequence id), or asks this side for
    something: a lookup, an invocation, a raw-channel operation, a ping. The
    handler reads and updates the lookup table and the raw-channel registry;
    everything it does beyond those two is an `Effect`.

    The behaviour of the application's objects (`toString`, `hashCode`,
    `equals`, the invoked method) and of raw-channel listeners is an input.
 */
module Routing {
  import opened Errors
  import opened JavaInt
  import LookupTable
  import RawChannels
  import Proxies
  import RefQueue

  type SessionId = nat
  type Obj = LookupTable.Obj

  /** The kinds that answer an earlier request. */
  datatype ReturnKind =
    | NameLookupReturn | InterfaceLookupReturn | InvokeReturn | ToStringReturn
    | EqualsReturn | HashCodeReturn | OpenRawChannelReturn | CloseRawChannelReturn
    | RawChannelDataReturn

  /** An argument of an invocation as it arrives: a callback object of the caller
      (its id, its interfaces, and whether those load here), a reference to an
      object bound on this side, or any other value. */
  datatype Argument =
    | CallbackArg(refId: string, interfaces: seq<string>, interfacesLoad: bool)
    | EndpointArg(name: string)
    | PlainArg

  /** `MsgInvoke` as decoded: whether decoding failed, whether the method was
      resolved, the target's name, whether the method returns void. */
  datatype InvokeRequest = InvokeRequest(
    hasError: bool,
    methodResolved: bool,
    remoteObjectName: string,
    arguments: seq<Argument>,
    returnsVoid: bool)

  /** The comparand of a remote `equals`: null, a callback object of the caller
      (named), or a plain value. */
  datatype Comparand = NullComparand | InstanceComparand(name: string) | ValueComparand(code: nat)

  /** The comparand once resolved on this side. */
  datatype Resolved = ObjectOperand(obj: Obj) | ValueOperand(code: nat)

  /** A decoded inbound message. `Unknown` is any type byte outside the table. */
  datatype Inbound =
    | NameLookup(sequence: int, name: string)
    | InterfaceLookup(sequence: int, interfaceName: string)
    | Invoke(sequence: int, request: InvokeRequest)
    | ToString(sequence: int, name: string)
    | Equals(sequence: int, name: string, comparand: Comparand)
    | HashCode(sequence: int, name: string)
    | OpenRawChannel(sequence: int, token: Int32)
    | CloseRawChannel(sequence: int, token: Int32)
    | RawChannelData(sequence: int, token: Int32)
    | Ping(sequence: int)
    | Pong(sequence: int)
    | Error(sequence: int, remoteObjectName: Option<string>, errorMessage: string, isDecodeError: bool)
    | ReleaseRef(sequence: int, refId: string)
    | Return(kind: ReturnKind, sequence: int)
    | Unknown(msgType: int)

  /** What an invoked method did: returned a value, threw (the cause of the
      `InvocationTargetException`), or could not be called reflectively. */
  datatype Returned =
    | ProxyValue(name: string)                                   // a SIMON proxy or local endpoint
    | RemoteValue(refId: string, obj: Obj, interfaces: seq<string>) // a valid remote object
    | SerializableValue(code: nat)
    | NonSerializable
    | NullValue
  datatype InvokeOutcome = Returned(value: Returned) | TargetThrew(cause: Exception) | ReflectionFailed

  /** The value an invoke reply carries. */
  datatype InvokeResult =
    | EndpointReference(name: string)
    | RemoteInstance(refId: string, interfaces: seq<string>)
    | ValueResult(code: nat)
    | NullResult
    | Thrown(error: Exception)

  /** A reply written to the session. `sequence` is `None` when the handler never
      set it; `failed` says whether an error message was set. */
  datatype Reply =
    | NameLookupReply(sequence: Option<int>, interfaces: seq<string>, failed: bool)
    | InterfaceLookupReply(sequence: Option<int>, interfaces: seq<string>, remoteObjectName: Option<string>, failed: bool)
    | InvokeReply(sequence: Option<int>, result: InvokeResult)
    | ToStringReply(sequence: Option<int>, text: Option<string>)
    | EqualsReply(sequence: Option<int>, equal: bool)
    | HashCodeReply(sequence: Option<int>, hash: Int32, failed: bool)
    | OpenRawChannelReply(sequence: Option<int>, registered: bool)
    | CloseRawChannelReply(sequence: Option<int>, closed: bool, failed: bool)
    | RawChannelDataReply(sequence: Option<int>, failed: bool)

  datatype Effect =
    | Forward(kind: ReturnKind, sequence: int)  // `putResultToQueue` under the message's own id
    | Write(reply: Reply)                       // `session.write`
    | SendPong                                  // `sendPong`; a failure is only logged
    | NotifyPong                                // the ping watchdog is told
    | CloseSession                              // `closeNow`, awaited
    | Exit(status: int)                         // `System.exit`

  /** The state the handlers read and change: the lookup table, the raw channels, and
      the dispatcher's reference queue. */
  datatype Node<L> = Node(table: LookupTable.Table, channels: RawChannels.Registry<L>, queue: RefQueue.Queue)

  /** The behaviour of the application's objects and listeners, and the session. */
  datatype World = World(
    session: SessionId,
    server: string,                     // the dispatcher's server string
    callbackPrefix: string,             // the prefix of callback ids
    names: seq<string>,                 // iteration order of the bound names
    marked: set<Obj>,                   // objects exported through `markAsRemote`
    remoteInterfaces: Obj -> seq<string>, // the remote interfaces of an object's class
    describe: Obj -> Result<string>,    // an object's `toString`, which may throw
    describeValue: nat -> Result<string>, // a plain comparand's `toString`
    hash: Obj -> Result<Int32>,         // an object's `hashCode`
    equal: (Obj, Resolved) -> Result<bool>, // an object's `equals`
    invoked: InvokeOutcome,
    listenerClose: Result<()>,
    listenerWrite: Result<()>)

  /** The state after the message, the effects in order, and the exception that
      escapes the handler, if any. */
  datatype Routed<L> = Routed(node: Node<L>, effects: seq<Effect>, escaped: Option<Exception>)

  /** The object bound under `name`, or `LookupFailed`. */
  function Resolve(t: LookupTable.Table, name: string): (r: Result<Obj>)
    ensures r.Ok? <==> name in t.bindings
    ensures r.Ok? ==> r.value == t.bindings[name].obj
    ensures r.Err? ==> r.error == LookupFailed
  {
    match LookupTable.GetRemoteObjectContainer(t, name)
    case Ok(c) => Ok(c.obj)
    case Err(e) => Err(e)
  }

  // ---------------------------------------------------------------------------
  // Requests

  /** `processNameLookup`: the interface names of the bound object (the exported
      ones for a marked object, those of its class otherwise), or the default
      interface list and an error message. */
  function AnswerNameLookup(t: LookupTable.Table, w: World, sequence: int, name: string): (r: Reply)
    ensures r.NameLookupReply? && r.sequence == Some(sequence)
    ensures r.failed <==> name !in t.bindings
    ensures r.failed ==> r.interfaces == ["java.lang.Object"]
    ensures !r.failed && t.bindings[name].obj in w.marked ==> r.interfaces == t.bindings[name].interfaces
    ensures !r.failed && t.bindings[name].obj !in w.marked ==> r.interfaces == w.remoteInterfaces(t.bindings[name].obj)
  {
    match LookupTable.GetRemoteObjectContainer(t, name)
    case Err(_) => NameLookupReply(Some(sequence), ["java.lang.Object"], true)
    case Ok(c) =>
      NameLookupReply(Some(sequence), if c.obj in w.marked then c.interfaces else w.remoteInterfaces(c.obj), false)
  }

  /** `processInterfaceLookup`: the container found by interface, or an error. */
  function AnswerInterfaceLookup(t: LookupTable.Table, w: World, sequence: int, iface: string): (r: Reply)
    requires LookupTable.IsNameOrder(t.bindings, w.names)
    ensures r.InterfaceLookupReply? && r.sequence == Some(sequence)
    ensures r.failed <==> LookupTable.GetRemoteObjectContainerByInterface(t, w.names, iface).Err?
    ensures r.failed ==> r.interfaces == ["java.lang.Object"] && r.remoteObjectName.None?
    ensures !r.failed ==> exists n :: LookupTable.Implements(t.bindings, n, iface)
                                       && r.interfaces == t.bindings[n].interfaces
                                       && r.remoteObjectName == Some(t.bindings[n].name)
  {
    LookupTable.ByInterfaceUnique(t, w.names, iface);
    match LookupTable.GetRemoteObjectContainerByInterface(t, w.names, iface)
    case Err(_) => InterfaceLookupReply(Some(sequence), ["java.lang.Object"], None, true)
    case Ok(c) => InterfaceLookupReply(Some(sequence), c.interfaces, Some(c.name), false)
  }

  /** Can every argument be prepared: a callback's interfaces load and, when its id
      has the callback prefix, the queue still accepts its proxy; an endpoint
      reference names a bound object? */
  predicate ArgumentsRebuild(q: RefQueue.Queue, t: LookupTable.Table, w: World, args: seq<Argument>) {
    forall i :: 0 <= i < |args| ==>
      && (args[i].CallbackArg? ==>
            args[i].interfacesLoad && (Proxies.StartsWith(args[i].refId, w.callbackPrefix) ==> q.cleanerActive))
      && (args[i].EndpointArg? ==> args[i].name in t.bindings)
  }

  /** How many of `args` are callbacks whose proxy the queue tracks. */
  function Tracked(args: seq<Argument>, prefix: string): nat {
    if |args| == 0 then 0
    else (if args[0].CallbackArg? && Proxies.StartsWith(args[0].refId, prefix) then 1 else 0)
         + Tracked(args[1..], prefix)
  }

  /** The argument loop of `processInvoke`: every callback object of the caller is
      rebuilt as a proxy on this connection, which needs its interfaces loaded
      and registers with the reference queue; every endpoint reference is
      replaced by the object bound here. The first failure ends the loop, and
      the proxies registered before it stay registered. */
  function RebuildArguments(q: RefQueue.Queue, t: LookupTable.Table, w: World, args: seq<Argument>)
    : (res: (RefQueue.Queue, bool))
    ensures res.1 <==> ArgumentsRebuild(q, t, w, args)
    ensures res.0.cleanerActive == q.cleanerActive
    ensures |q.refs| <= |res.0.refs| && res.0.refs[..|q.refs|] == q.refs
    ensures res.1 ==> |res.0.refs| == |q.refs| + Tracked(args, w.callbackPrefix)
    decreases |args|
  {
    if |args| == 0 then (q, true)
    else
      assert forall i :: 1 <= i < |args| ==> args[i] == args[1..][i - 1];
      match args[0]
      case PlainArg => RebuildArguments(q, t, w, args[1..])
      case EndpointArg(name) =>
        if name in t.bindings then RebuildArguments(q, t, w, args[1..]) else (q, false)
      case CallbackArg(refId, interfaces, load) =>
        if !load then (q, false)
        else match Proxies.NewProxy(q, w.server, w.session, refId, interfaces, false, w.callbackPrefix)
          case Err(_) => (q, false)
          case Ok((_, q1)) =>
            var (q2, ok) := RebuildArguments(q1, t, w, args[1..]);
            assert q2.refs[..|q.refs|] == q1.refs[..|q1.refs|][..|q.refs|];
            (q2, ok)
  }

  /** The body of `processInvoke`: the table and the queue afterwards, and the result
      to send, or `None` when no reply goes out. */
  function InvokeResultOf(t: LookupTable.Table, q: RefQueue.Queue, w: World, req: InvokeRequest)
    : (res: (LookupTable.Table, RefQueue.Queue, Option<InvokeResult>))
    ensures res.2.None? <==> req == req.(hasError := false, methodResolved := true, returnsVoid := true)
                              && ArgumentsRebuild(q, t, w, req.arguments) && req.remoteObjectName in t.bindings
                              && w.invoked.Returned?
    ensures res.0 != t ==> w.invoked.Returned? && w.invoked.value.RemoteValue?
    ensures res.1 == if req.hasError || !req.methodResolved then q else RebuildArguments(q, t, w, req.arguments).0
    ensures (req.hasError || !req.methodResolved || !ArgumentsRebuild(q, t, w, req.arguments)
             || req.remoteObjectName !in t.bindings) ==> res.0 == t && res.2 == Some(Thrown(RemoteFailure))
  {
    if req.hasError || !req.methodResolved then (t, q, Some(Thrown(RemoteFailure)))
    else
      var (q1, ok) := RebuildArguments(q, t, w, req.arguments);
      if !ok then (t, q1, Some(Thrown(RemoteFailure)))
      else if Resolve(t, req.remoteObjectName).Err? then (t, q1, Some(Thrown(RemoteFailure)))
      else match w.invoked
        case TargetThrew(cause) => (t, q1, Some(Thrown(cause)))
        case ReflectionFailed => (t, q1, Some(Thrown(RemoteFailure)))
        case Returned(v) =>
          if req.returnsVoid then (t, q1, None)
          else match v
            case ProxyValue(name) => (t, q1, Some(EndpointReference(name)))
            case RemoteValue(refId, obj, ifaces) =>
              (LookupTable.PutRemoteInstance(t, w.session, refId, obj, ifaces), q1, Some(RemoteInstance(refId, ifaces)))
            case NonSerializable => (t, q1, Some(Thrown(RemoteFailure)))
            case SerializableValue(c) => (t, q1, Some(ValueResult(c)))
            case NullValue => (t, q1, Some(NullResult))
  }

  /** A callback object passed as an argument is tracked by this side's reference
      queue while the queue runs; once the queue has been cleaned up the
      invocation is answered with a `SimonRemoteException` and the method is not
      called. */
  lemma CallbackArgumentTracked(t: LookupTable.Table, q: RefQueue.Queue, w: World, req: InvokeRequest)
    requires !req.hasError && req.methodResolved
    requires |req.arguments| == 1 && req.arguments[0].CallbackArg? && req.arguments[0].interfacesLoad
    requires Proxies.StartsWith(req.arguments[0].refId, w.callbackPrefix)
    ensures var res := InvokeResultOf(t, q, w, req);
            && (q.cleanerActive ==>
                  res.1.refs == q.refs + [RefQueue.PhantomRef(q.created, req.arguments[0].refId, w.session)])
            && (!q.cleanerActive ==> res == (t, q, Some(Thrown(RemoteFailure))))
  {
    assert req.arguments[1..] == [];
  }

  /** Whether `processEquals` on the bound object `self` meets an exception from the
      application: its `equals`, then the two `toString` calls of the debug line,
      the target's and (unless null) the comparand's. An unbound comparand stops
      the handler before any of them. */
  predicate EqualsThrows(t: LookupTable.Table, w: World, self: Obj, c: Comparand) {
    match c
    case NullComparand => w.describe(self).Err?
    case ValueComparand(code) =>
      w.equal(self, ValueOperand(code)).Err? || w.describe(self).Err? || w.describeValue(code).Err?
    case InstanceComparand(other) =>
      other in t.bindings
      && (w.equal(self, ObjectOperand(t.bindings[other].obj)).Err? || w.describe(self).Err?
          || w.describe(t.bindings[other].obj).Err?)
  }

  /** `processEquals`: a null comparand, an unbound comparand or an unbound target all
      answer false; otherwise the target's own `equals` decides. Only a
      `LookupFailedException` is caught: an exception from the application's
      `equals` or `toString` escapes the handler. */
  function EqualsResult(t: LookupTable.Table, w: World, name: string, c: Comparand): (r: Result<bool>)
    ensures r.Err? <==> name in t.bindings && EqualsThrows(t, w, t.bindings[name].obj, c)
    ensures c.NullComparand? && r.Ok? ==> !r.value
    ensures name !in t.bindings ==> r == Ok(false)
    ensures c.InstanceComparand? && c.name !in t.bindings ==> r == Ok(false)
    ensures name in t.bindings && c.ValueComparand? && r.Ok? ==>
              w.equal(t.bindings[name].obj, ValueOperand(c.code)) == Ok(r.value)
    ensures name in t.bindings && c.InstanceComparand? && c.name in t.bindings && r.Ok? ==>
              w.equal(t.bindings[name].obj, ObjectOperand(t.bindings[c.name].obj)) == Ok(r.value)
    ensures name in t.bindings && !c.NullComparand? && r.Err? ==>
              var op := if c.ValueComparand? then ValueOperand(c.code) else ObjectOperand(t.bindings[c.name].obj);
              w.equal(t.bindings[name].obj, op).Err? ==> r == Err(w.equal(t.bindings[name].obj, op).error)
  {
    var operand := match c
      case NullComparand => Ok(None)
      case InstanceComparand(n) => (match Resolve(t, n) case Ok(o) => Ok(Some(ObjectOperand(o))) case Err(e) => Err(e))
      case ValueComparand(code) => Ok(Some(ValueOperand(code)));
    match operand
    case Err(_) => Ok(false)
    case Ok(op) =>
      match Resolve(t, name)
      case Err(_) => Ok(false)
      case Ok(self) =>
        var eq := if op.None? then Ok(false) else w.equal(self, op.value);
        if eq.Err? then eq
        else if w.describe(self).Err? then Err(w.describe(self).error)
        else if op.None? then eq
        else
          var text := match op.value case ObjectOperand(o) => w.describe(o) case ValueOperand(code) => w.describeValue(code);
          if text.Err? then Err(text.error) else eq
  }

  /** `processEquals`'s reply: the answer under the request's sequence, unless
      the application threw. */
  function AnswerEquals(t: LookupTable.Table, w: World, sequence: int, name: string, c: Comparand): (r: Result<Reply>)
    ensures r.Err? <==> name in t.bindings && EqualsThrows(t, w, t.bindings[name].obj, c)
    ensures r.Err? ==> r == Err(EqualsResult(t, w, name, c).error)
    ensures r.Ok? ==> r.value == EqualsReply(Some(sequence), EqualsResult(t, w, name, c).value)
  {
    match EqualsResult(t, w, name, c)
    case Ok(b) => Ok(EqualsReply(Some(sequence), b))
    case Err(e) => Err(e)
  }

  /** A remote `equals` whose comparand names an object just bound here compares the
      target with that very object: when the target's `equals` accepts it, and
      neither object's `toString` throws, the answer is true. */
  lemma EqualsSeesBoundObject(t: LookupTable.Table, w: World, name: string, other: string,
                              obj: LookupTable.Obj, interfaces: seq<string>)
    requires name != other && name in t.bindings
    requires w.equal(t.bindings[name].obj, ObjectOperand(obj)) == Ok(true)
    requires w.describe(t.bindings[name].obj).Ok? && w.describe(obj).Ok?
    ensures EqualsResult(LookupTable.PutRemoteBinding(t, other, obj, interfaces), w, name, InstanceComparand(other)) == Ok(true)
  {
  }

  /** `processCloseRawChannel`: the listener is removed and closed. Only a clean close
      sets the sequence and answers true; a `RawChannelException` sets the error
      message; anything else escapes after the reply is written. Without a listener
      the close itself throws a `NullPointerException`. */
  function CloseRawChannel<L>(n: Node<L>, w: World, sequence: int, token: Int32): (r: Routed<L>)
    ensures r.node == n.(channels := RawChannels.UnprepareRawChannel(n.channels, token).0)
    ensures |r.effects| == 1 && r.effects[0].Write? && r.effects[0].reply.CloseRawChannelReply?
    ensures r.effects[0].reply.sequence.Some? <==> token in n.channels.listeners && w.listenerClose.Ok?
    ensures r.effects[0].reply.sequence.Some? ==> r.effects[0].reply == CloseRawChannelReply(Some(sequence), true, false)
    ensures r.effects[0].reply.failed <==> token in n.channels.listeners && w.listenerClose == Err(RawChannelFailure)
    ensures r.escaped.Some? <==> r.effects[0].reply == CloseRawChannelReply(None, false, false)
  {
    var (channels, closed) := RawChannels.UnprepareRawChannel(n.channels, token);
    var n' := n.(channels := channels);
    if closed.Err? then Routed(n', [Write(CloseRawChannelReply(None, false, false))], Some(closed.error))
    else match w.listenerClose
      case Ok(_) => Routed(n', [Write(CloseRawChannelReply(Some(sequence), true, false))], None)
      case Err(RawChannelFailure) => Routed(n', [Write(CloseRawChannelReply(None, false, true))], None)
      case Err(e) => Routed(n', [Write(CloseRawChannelReply(None, false, false))], Some(e))
  }

  /** `processRawChannelData`: the data goes to the token's listener. Only a clean
      write sets the sequence; a `RawChannelException` sets the error message;
      anything else escapes after the reply is written. */
  function RawChannelData<L>(n: Node<L>, w: World, sequence: int, token: Int32): (r: Routed<L>)
    ensures r.node == n
    ensures |r.effects| == 1 && r.effects[0].Write? && r.effects[0].reply.RawChannelDataReply?
    ensures r.effects[0].reply.sequence.Some? <==> token in n.channels.listeners && w.listenerWrite.Ok?
    ensures r.effects[0].reply.sequence.Some? ==> r.effects[0].reply.sequence == Some(sequence)
    ensures r.effects[0].reply.failed <==> token in n.channels.listeners && w.listenerWrite == Err(RawChannelFailure)
    ensures r.escaped.Some? <==> token in n.channels.listeners && w.listenerWrite.Err?
                                 && w.listenerWrite.error != RawChannelFailure
  {
    match RawChannels.GetRawChannelDataListener(n.channels, token)
    case None => Routed(n, [Write(RawChannelDataReply(None, false))], None)
    case Some(_) =>
      match w.listenerWrite
      case Ok(_) => Routed(n, [Write(RawChannelDataReply(Some(sequence), false))], None)
      case Err(RawChannelFailure) => Routed(n, [Write(RawChannelDataReply(None, true))], None)
      case Err(e) => Routed(n, [Write(RawChannelDataReply(None, false))], Some(e))
  }

  const READ_FAILURE: string := "An error occured while reading a message"
  const WRITE_FAILURE: string := "An error occured on remote while writing a message"
  const READ_TARGET: string := " for remote object '"
  const WRITE_TARGET: string := " to remote object '"
  const MESSAGE_SEPARATOR: string := ". Error message: "

  /** The opening of the report: reading here, or writing on the remote side. */
  function FailureText(isDecodeError: bool): string {
    if isDecodeError then READ_FAILURE else WRITE_FAILURE
  }

  /** The words that introduce the remote object's name. */
  function TargetText(isDecodeError: bool): string {
    if isDecodeError then READ_TARGET else WRITE_TARGET
  }

  /** The shape of the message of the `SimonException` that `processError` throws:
      the opening, then the words naming the remote object when its name is known
      and not empty, then the separator and the error message. */
  function Report(opening: string, target: string, remoteObjectName: Option<string>, errorMessage: string): (s: string)
    ensures Proxies.StartsWith(s, opening)
    ensures remoteObjectName.Some? && |remoteObjectName.value| > 0 ==>
              Proxies.StartsWith(s[|opening|..], target + remoteObjectName.value + "'")
    ensures remoteObjectName.None? || |remoteObjectName.value| == 0 ==>
              s == opening + MESSAGE_SEPARATOR + errorMessage
    ensures |errorMessage| <= |s| && s[|s| - |errorMessage|..] == errorMessage
  {
    var about := if remoteObjectName.Some? && |remoteObjectName.value| > 0
                 then target + remoteObjectName.value + "'" else [];
    ReportParts(opening, about, MESSAGE_SEPARATOR, errorMessage);
    opening + about + (MESSAGE_SEPARATOR + errorMessage)
  }

  /** The message `processError` builds: reading here or writing on the remote side. */
  function ErrorReport(remoteObjectName: Option<string>, errorMessage: string, isDecodeError: bool): string {
    Report(FailureText(isDecodeError), TargetText(isDecodeError), remoteObjectName, errorMessage)
  }

  /** Where the parts of a report sit. */
  lemma ReportParts(opening: string, about: string, separator: string, message: string)
    ensures var s := opening + about + (separator + message);
            && Proxies.StartsWith(s, opening)
            && Proxies.StartsWith(s[|opening|..], about)
            && |message| <= |s| && s[|s| - |message|..] == message
            && (about == [] ==> s == opening + separator + message)
  {
    var s := opening + about + (separator + message);
    assert s[..|opening|] == opening;
    assert s[|opening|..] == about + (separator + message);
    assert (about + (separator + message))[..|about|] == about;
    assert s[|s| - |message|..] == message;
  }

  /** `processToString`: the bound object's text, or null when the name is not
      bound. An exception from the object's `toString` escapes before any reply. */
  function AnswerToString(t: LookupTable.Table, w: World, sequence: int, name: string): (r: Result<Reply>)
    ensures r.Err? <==> name in t.bindings && w.describe(t.bindings[name].obj).Err?
    ensures r.Err? ==> r == Err(w.describe(t.bindings[name].obj).error)
    ensures r.Ok? ==> r.value.ToStringReply? && r.value.sequence == Some(sequence)
    ensures r.Ok? ==> (r.value.text.Some? <==> name in t.bindings)
    ensures r.Ok? && name in t.bindings ==> w.describe(t.bindings[name].obj) == Ok(r.value.text.value)
  {
    match Resolve(t, name)
    case Err(_) => Ok(ToStringReply(Some(sequence), None))
    case Ok(o) =>
      match w.describe(o)
      case Err(e) => Err(e)
      case Ok(text) => Ok(ToStringReply(Some(sequence), Some(text)))
  }

  /** `processHashCode`: the bound object's hash, or -1 with an error message when
      the name is not bound. An exception from the object's `hashCode` escapes
      before any reply. */
  function AnswerHashCode(t: LookupTable.Table, w: World, sequence: int, name: string): (r: Result<Reply>)
    ensures r.Err? <==> name in t.bindings && w.hash(t.bindings[name].obj).Err?
    ensures r.Err? ==> r == Err(w.hash(t.bindings[name].obj).error)
    ensures r.Ok? ==> r.value.HashCodeReply? && r.value.sequence == Some(sequence)
    ensures r.Ok? ==> (r.value.failed <==> name !in t.bindings)
    ensures r.Ok? && r.value.failed ==> r.value.hash == -1
    ensures r.Ok? && !r.value.failed ==> w.hash(t.bindings[name].obj) == Ok(r.value.hash)
  {
    match Resolve(t, name)
    case Err(_) => Ok(HashCodeReply(Some(sequence), -1, true))
    case Ok(o) =>
      match w.hash(o)
      case Err(e) => Err(e)
      case Ok(h) => Ok(HashCodeReply(Some(sequence), h, false))
  }

  /** `processInvoke`: the reply, unless a void method returned normally. */
  function AnswerInvoke<L>(n: Node<L>, w: World, sequence: int, req: InvokeRequest): (r: Routed<L>)
    ensures var (table, queue, result) := InvokeResultOf(n.table, n.queue, w, req);
            && r.escaped.None? && r.node == n.(table := table, queue := queue)
            && (result.None? ==> r.effects == [])
            && (result.Some? ==> r.effects == [Write(InvokeReply(Some(sequence), result.value))])
  {
    var (table, queue, result) := InvokeResultOf(n.table, n.queue, w, req);
    Routed(n.(table := table, queue := queue), if result.None? then [] else [Write(InvokeReply(Some(sequence), result.value))], None)
  }

  // ---------------------------------------------------------------------------
  // The switch

  /** Does the message ask this side for an answer? */
  predicate IsRequest(m: Inbound) {
    m.NameLookup? || m.InterfaceLookup? || m.Invoke? || m.ToString? || m.Equals? || m.HashCode?
    || m.OpenRawChannel? || m.CloseRawChannel? || m.RawChannelData?
  }

  /** Whether the application's own `toString`, `hashCode` or `equals`, called by
      the handler for `m`, throws. The handlers catch only `LookupFailedException`,
      and `run` catches nothing. */
  predicate ApplicationThrows(t: LookupTable.Table, w: World, m: Inbound) {
    match m
    case ToString(_, name) => name in t.bindings && w.describe(t.bindings[name].obj).Err?
    case HashCode(_, name) => name in t.bindings && w.hash(t.bindings[name].obj).Err?
    case Equals(_, name, c) => name in t.bindings && EqualsThrows(t, w, t.bindings[name].obj, c)
    case _ => false
  }

  /** `processToString`, `processEquals` and `processHashCode`: the reply is
      written unless the application's method throws, and then nothing is. */
  function AnswerObjectMethod<L>(n: Node<L>, w: World, m: Inbound): (r: Routed<L>)
    requires m.ToString? || m.Equals? || m.HashCode?
    ensures r.node == n && |r.effects| <= 1
    ensures r.escaped.Some? <==> ApplicationThrows(n.table, w, m)
    ensures r.escaped.Some? <==> r.effects == []
    ensures r.effects != [] ==> r.effects[0].Write? && r.effects[0].reply.sequence == Some(m.sequence)
  {
    match m
    case ToString(sq, name) => Answered(n, AnswerToString(n.table, w, sq, name))
    case Equals(sq, name, c) => Answered(n, AnswerEquals(n.table, w, sq, name, c))
    case HashCode(sq, name) => Answered(n, AnswerHashCode(n.table, w, sq, name))
  }

  /** A reply is written, or the exception escapes with nothing written. */
  function Answered<L>(n: Node<L>, reply: Result<Reply>): (r: Routed<L>)
    ensures reply.Ok? ==> r == Routed(n, [Write(reply.value)], None)
    ensures reply.Err? ==> r == Routed(n, [], Some(reply.error))
  {
    match reply
    case Ok(a) => Routed(n, [Write(a)], None)
    case Err(e) => Routed(n, [], Some(e))
  }

  /** The replies among `effects`. */
  function Writes(effects: seq<Effect>): (k: nat)
    ensures k <= |effects|
  {
    if |effects| == 0 then 0 else (if effects[0].Write? then 1 else 0) + Writes(effects[1..])
  }

  /** `run`: one message, routed by its kind. Only an answer to an earlier request
      reaches the result table; only an error message, a raw-channel listener, or
      the application's `toString`, `hashCode` or `equals` makes an exception
      escape; only a close changes the raw channels. */
  function Process<L>(n: Node<L>, w: World, m: Inbound): (r: Routed<L>)
    requires m.InterfaceLookup? ==> LookupTable.IsNameOrder(n.table.bindings, w.names)
    ensures m.Return? ==> r == Routed(n, [Forward(m.kind, m.sequence)], None)
    ensures !m.Return? ==> forall i :: 0 <= i < |r.effects| ==> !r.effects[i].Forward?
    ensures r.escaped.Some? ==> m.Error? || m.CloseRawChannel? || m.RawChannelData? || m.ToString? || m.Equals? || m.HashCode?
    ensures m.ToString? || m.Equals? || m.HashCode? ==>
              (r.escaped.Some? <==> ApplicationThrows(n.table, w, m)) && (r.escaped.Some? <==> r.effects == [])
    ensures r.node.channels != n.channels ==> m.CloseRawChannel?
    ensures r.node.table != n.table ==> m.Invoke? || m.ReleaseRef?
    ensures r.node.queue != n.queue ==> m.Invoke?
    ensures |r.effects| <= 1
  {
    match m
    case NameLookup(sq, name) => Routed(n, [Write(AnswerNameLookup(n.table, w, sq, name))], None)
    case InterfaceLookup(sq, iface) => Routed(n, [Write(AnswerInterfaceLookup(n.table, w, sq, iface))], None)
    case Invoke(sq, req) => AnswerInvoke(n, w, sq, req)
    case ToString(_, _) => AnswerObjectMethod(n, w, m)
    case Equals(_, _, _) => AnswerObjectMethod(n, w, m)
    case HashCode(_, _) => AnswerObjectMethod(n, w, m)
    case OpenRawChannel(sq, token) =>
      Routed(n, [Write(OpenRawChannelReply(Some(sq), RawChannels.IsRawChannelDataListenerRegistered(n.channels, token)))], None)
    case CloseRawChannel(sq, token) => CloseRawChannel(n, w, sq, token)
    case RawChannelData(sq, token) => RawChannelData(n, w, sq, token)
    case Ping(_) => Routed(n, [SendPong], None)
    case Pong(_) => Routed(n, [NotifyPong], None)
    case Error(_, name, text, isDecodeError) => Routed(n, [CloseSession], Some(Simon(ErrorReport(name, text, isDecodeError))))
    case ReleaseRef(_, refId) => Routed(n.(table := LookupTable.RemoveCallbackRef(n.table, w.session, refId)), [], None)
    case Return(kind, sq) => Routed(n, [Forward(kind, sq)], None)
    case Unknown(_) => Routed(n, [Exit(1)], None)
  }

  /** Ping, pong and release-ref leave the result table alone: a pong goes back, the
      watchdog is told, or the callback reference is dropped. An unknown kind ends
      the process. */
  lemma ControlMessages<L>(n: Node<L>, w: World, m: Inbound)
    requires m.Ping? || m.Pong? || m.ReleaseRef? || m.Unknown?
    ensures var r := Process(n, w, m);
            && (m.Ping? ==> r == Routed(n, [SendPong], None))
            && (m.Pong? ==> r == Routed(n, [NotifyPong], None))
            && (m.ReleaseRef? ==>
                  r == Routed(n.(table := LookupTable.RemoveCallbackRef(n.table, w.session, m.refId)), [], None))
            && (m.Unknown? ==> r == Routed(n, [Exit(1)], None))
  {
  }

  /** An error message closes the session and throws a `SimonException` carrying its
      report. */
  lemma ErrorClosesSession<L>(n: Node<L>, w: World, m: Inbound)
    requires m.Error?
    ensures Process(n, w, m)
         == Routed(n, [CloseSession], Some(Simon(ErrorReport(m.remoteObjectName, m.errorMessage, m.isDecodeError))))
  {
  }

  /** Every request is answered exactly once, except an invocation of a void method
      that returned normally and a request whose handler meets an exception from
      the application's `toString`, `hashCode` or `equals`; nothing else writes a
      reply. */
  lemma {:induction false} OneReplyPerRequest<L>(n: Node<L>, w: World, m: Inbound)
    requires m.InterfaceLookup? ==> LookupTable.IsNameOrder(n.table.bindings, w.names)
    ensures var r := Process(n, w, m);
            Writes(r.effects) == (if IsRequest(m) && !(m.Invoke? && InvokeResultOf(n.table, n.queue, w, m.request).2.None?)
                                     && !ApplicationThrows(n.table, w, m)
                                  then 1 else 0)
  {
    var r := Process(n, w, m);
    if |r.effects| == 1 {
      assert Writes(r.effects) == (if r.effects[0].Write? then 1 else 0) + Writes(r.effects[1..]);
    }
  }

  /** The replies to lookups, invocations, `toString`, `equals`, `hashCode` and an
      open request carry the request's sequence id. */
  lemma ReplyCarriesSequence<L>(n: Node<L>, w: World, m: Inbound)
    requires m.InterfaceLookup? ==> LookupTable.IsNameOrder(n.table.bindings, w.names)
    requires IsRequest(m) && !m.CloseRawChannel? && !m.RawChannelData?
    ensures var r := Process(n, w, m);
            forall i :: 0 <= i < |r.effects| ==> r.effects[i].Write? && r.effects[i].reply.sequence == Some(m.sequence)
  {
  }

  /** A close that fails, and data for a token without a listener, are answered
      without the request's sequence id: the caller waiting under that id is not
      woken by them. A reply that does carry an id carries the request's. */
  lemma UnsequencedRawReplies<L>(n: Node<L>, w: World, m: Inbound)
    requires m.CloseRawChannel? || m.RawChannelData?
    ensures var r := Process(n, w, m);
            && |r.effects| == 1 && r.effects[0].Write?
            && (r.effects[0].reply.sequence.Some? ==> r.effects[0].reply.sequence == Some(m.sequence))
            && (m.CloseRawChannel? ==>
                  (r.effects[0].reply.sequence.None? <==> m.token !in n.channels.listeners || w.listenerClose.Err?))
            && (m.RawChannelData? && m.token !in n.channels.listeners ==> r.effects[0].reply.sequence.None?)
  {
  }

  /** An open request is answered true exactly when a listener waits on the token. */
  lemma OpenAnswersRegistered<L>(n: Node<L>, w: World, sequence: int, token: Int32)
    ensures Process(n, w, OpenRawChannel(sequence, token)).effects
         == [Write(OpenRawChannelReply(Some(sequence), token in n.channels.listeners))]
  {
  }

  /** `hashCode` on an unbound name answers -1 with an error; `equals` against null
      answers false, unless the target is bound and its `toString`, called for the
      debug line, throws, in which case nothing is answered. */
  lemma UnboundAndNullAnswers<L>(n: Node<L>, w: World, sequence: int, name: string)
    ensures name !in n.table.bindings ==>
              Process(n, w, HashCode(sequence, name)).effects == [Write(HashCodeReply(Some(sequence), -1, true))]
    ensures name !in n.table.bindings || w.describe(n.table.bindings[name].obj).Ok? ==>
              Process(n, w, Equals(sequence, name, NullComparand)).effects == [Write(EqualsReply(Some(sequence), false))]
    ensures name in n.table.bindings && w.describe(n.table.bindings[name].obj).Err? ==>
              Process(n, w, Equals(sequence, name, NullComparand))
              == Routed(n, [], Some(w.describe(n.table.bindings[name].obj).error))
  {
  }

  /** Once the caller has released a callback object, calls on it find nothing: the
      text is null and an invocation is answered with a remote exception. The null
      text does not reach the peer as such: `Framing.NullToStringClosesSession`
      shows the encoder turning it into an error report that closes the session. */
  lemma ReleasedCallbackGone<L>(n: Node<L>, w: World, refId: string, sequence: int, req: InvokeRequest)
    requires req.remoteObjectName == refId
    ensures var n' := Process(n, w, ReleaseRef(sequence, refId)).node;
            && Process(n', w, ToString(sequence, refId)).effects == [Write(ToStringReply(Some(sequence), None))]
            && Process(n', w, Invoke(sequence, req)).effects
               == [Write(InvokeReply(Some(sequence), Thrown(RemoteFailure)))]
  {
  }
}

=== FILE: seqids.dfy ===
/** The dispatcher's request sequence ids.

    The counter starts at 0. Each id is the incremented counter; when the
    increment reaches `Integer.MAX_VALUE`, that value is handed out and the
    counter goes back to 0, so ids run 1, 2, ..., MAX_VALUE, 1, 2, ...
 */
module SequenceIds {
  import opened JavaInt

  /** A counter value the generator can be in. */
  type Counter = c: nat | c < INT_MAX

  /** A sequence id it hands out. */
  type SeqId = x: int | 1 <= x <= INT_MAX witness 1

  /** `generateSequenceId`: the new counter and the id handed out. */
  function Generate(counter: Counter): (res: (Counter, SeqId))
    ensures res.1 == counter + 1
    ensures res.1 < INT_MAX ==> res.0 == res.1
    ensures res.1 == INT_MAX ==> res.0 == 0
  {
    var incremented := counter + 1;
    if incremented == INT_MAX then (0, incremented) else (incremented, incremented)
  }

  /** `k` calls in a row: the final counter and the ids in the order handed out. */
  function Run(counter: Counter, k: nat): (res: (Counter, seq<SeqId>))
    ensures |res.1| == k
    decreases k
  {
    if k == 0 then (counter, [])
    else
      var (c1, id) := Generate(counter);
      var (c2, ids) := Run(c1, k - 1);
      (c2, [id] + ids)
  }

  /** The `i`-th id after `counter` in closed form: ids cycle through 1..MAX_VALUE. */
  lemma {:induction false} RunClosedForm(counter: Counter, k: nat)
    ensures Run(counter, k).0 == (counter + k) % INT_MAX
    ensures forall i :: 0 <= i < k ==> Run(counter, k).1[i] == (counter + i) % INT_MAX + 1
    decreases k
  {
    if k > 0 {
      var (c1, id) := Generate(counter);
      assert c1 == (counter + 1) % INT_MAX;
      RunClosedForm(c1, k - 1);
      var ids := Run(counter, k).1;
      forall i | 0 <= i < k
        ensures ids[i] == (counter + i) % INT_MAX + 1
      {
        if i > 0 {
          assert ids[i] == Run(c1, k - 1).1[i - 1];
          ModShift(counter, i);
        }
      }
      ModShift(counter, k);
    }
  }

  lemma ModShift(c: Counter, i: nat)
    requires i >= 1
    ensures ((c + 1) % INT_MAX + (i - 1)) % INT_MAX == (c + i) % INT_MAX
  {
    if c + 1 == INT_MAX {
      assert (c + 1) % INT_MAX == 0;
      assert c + i == INT_MAX + (i - 1);
    }
  }

  /** Ids never repeat within any MAX_VALUE consecutive requests. */
  lemma IdsDistinct(counter: Counter, k: nat, i: nat, j: nat)
    requires k <= INT_MAX && i < j < k
    ensures Run(counter, k).1[i] != Run(counter, k).1[j]
  {
    RunClosedForm(counter, k);
  }

  /** The id handed out after MAX_VALUE is 1. */
  lemma AfterMaxComesOne(counter: Counter)
    requires Generate(counter).1 == INT_MAX
    ensures Generate(Generate(counter).0).1 == 1
  {
  }
}

=== FILE: simonconfig.dfy ===
/** The static side of `Simon`: the runtime-wide settings, the list of published
    remote objects with its publish service, and the helpers that inspect
    proxies.

    Threads and executors are outside the model: the executor a pool size
    selects is a value, and the thread a call runs on is an input.
 */
module SimonStatics {
  import opened Errors
  import opened JavaInt
  import opened Lists
  import Proxies
  import Lookups

  /** A reflected `Method`, identified by its signature. */
  type Method = string

  /** `Statics.DEFAULT_IDLE_TIME` (seconds), the worker pool size, and the custom
      invoke timeouts. */
  datatype Settings = Settings(idleTime: Int32, poolSize: Int32, customTimeouts: map<Method, Int32>)

  /** Every stored custom timeout is positive. */
  ghost predicate Valid(s: Settings) {
    forall m :: m in s.customTimeouts ==> s.customTimeouts[m] > 0
  }

  // ---------------------------------------------------------------------------
  // Custom invoke timeouts

  /** `setCustomInvokeTimeout`: a positive timeout is stored; any other value
      removes the method's entry, so the default applies again. */
  function SetCustomInvokeTimeout(s: Settings, m: Method, timeout: Int32): (r: Settings)
    ensures r.idleTime == s.idleTime && r.poolSize == s.poolSize
    ensures timeout > 0 ==> m in r.customTimeouts && r.customTimeouts[m] == timeout
    ensures timeout <= 0 ==> m !in r.customTimeouts
    ensures forall k :: k != m ==> (k in r.customTimeouts <==> k in s.customTimeouts)
                                   && (k in s.customTimeouts ==> r.customTimeouts[k] == s.customTimeouts[k])
    ensures Valid(s) ==> Valid(r)
  {
    if timeout > 0 then s.(customTimeouts := s.customTimeouts[m := timeout])
    else s.(customTimeouts := s.customTimeouts - {m})
  }

  /** `getCustomInvokeTimeout`: the stored positive timeout, or 0 for "use the
      default". */
  function GetCustomInvokeTimeout(s: Settings, m: Method): (t: Int32)
    ensures t >= 0
    ensures t > 0 <==> m in s.customTimeouts && s.customTimeouts[m] > 0
    ensures t > 0 ==> t == s.customTimeouts[m]
  {
    if m !in s.customTimeouts || s.customTimeouts[m] <= 0 then 0 else s.customTimeouts[m]
  }

  /** What is set is what is read back, a non-positive timeout reading as 0, and no
      other method's timeout moves. */
  lemma CustomTimeoutRoundTrip(s: Settings, m: Method, timeout: Int32, other: Method)
    requires other != m
    ensures GetCustomInvokeTimeout(SetCustomInvokeTimeout(s, m, timeout), m) == (if timeout > 0 then timeout else 0)
    ensures GetCustomInvokeTimeout(SetCustomInvokeTimeout(s, m, timeout), other) == GetCustomInvokeTimeout(s, other)
  {
  }

  // ---------------------------------------------------------------------------
  // Worker pool

  /** The executor `getThreadPool` builds. */
  datatype Executor = CachedPool | SingleThread | FixedPool(threads: nat)

  /** `getThreadPool`: -1 selects a cached pool, 1 a single thread, any other size a
      fixed pool of that many threads, which the JDK refuses for a size below 1. */
  function GetThreadPool(poolSize: Int32): (r: Result<Executor>)
    ensures r.Ok? <==> poolSize == -1 || poolSize >= 1
    ensures r == Ok(CachedPool) <==> poolSize == -1
    ensures r == Ok(SingleThread) <==> poolSize == 1
    ensures r.Ok? && r.value.FixedPool? ==> r.value.threads == poolSize >= 2
    ensures r.Err? ==> r.error == IllegalArgument
  {
    if poolSize == -1 then Ok(CachedPool)
    else if poolSize == 1 then Ok(SingleThread)
    else if poolSize > 0 then Ok(FixedPool(poolSize))
    else Err(IllegalArgument)
  }

  // ---------------------------------------------------------------------------
  // DGC interval

  /** `setDgcInterval`: milliseconds stored as whole seconds, Java's `/` truncating
      toward zero. */
  function SetDgcInterval(s: Settings, milliseconds: Int32): (r: Settings)
    ensures r == s.(idleTime := r.idleTime)
    ensures milliseconds >= 0 ==> 0 <= milliseconds - r.idleTime * 1000 < 1000
    ensures milliseconds < 0 ==> -1000 < milliseconds - r.idleTime * 1000 <= 0
  {
    var q := JavaDiv(milliseconds, 1000);
    assert INT_MIN <= q <= INT_MAX;
    s.(idleTime := q)
  }

  /** `getDgcInterval`: the stored seconds times 1000, in 32-bit arithmetic. */
  function GetDgcInterval(s: Settings): (ms: Int32)
    ensures (ms - s.idleTime * 1000) % TWO_32 == 0
  {
    Wrap32(s.idleTime * 1000)
  }

  /** Reading the interval back gives the milliseconds rounded toward zero to whole
      seconds; the multiplication never wraps on this path. */
  lemma DgcIntervalRoundTrip(s: Settings, milliseconds: Int32)
    ensures var ms := GetDgcInterval(SetDgcInterval(s, milliseconds));
            && ms == SetDgcInterval(s, milliseconds).idleTime * 1000
            && (milliseconds >= 0 ==> 0 <= milliseconds - ms < 1000)
            && (milliseconds < 0 ==> -1000 < milliseconds - ms <= 0)
  {
    var q := SetDgcInterval(s, milliseconds).idleTime;
    assert -2147484 < q < 2147484;
    assert INT_MIN <= q * 1000 <= INT_MAX;
  }

  /** A keep-alive interval set in seconds beyond what 32 bits can hold in
      milliseconds reads back wrapped. */
  lemma DgcIntervalWraps(s: Settings)
    ensures GetDgcInterval(s.(idleTime := 3000000)) == 3000000000 - TWO_32
  {
  }

  // ---------------------------------------------------------------------------
  // Marking plain objects as remote

  /** A `SimonRemoteMarker` proxy around an object, exposing its interfaces. */
  datatype Marked = Marked(obj: nat, interfaces: seq<string>)

  /** `markAsRemote`: refused for an object whose class implements no interface. */
  function MarkAsRemote(obj: nat, interfaces: seq<string>): (r: Result<Marked>)
    ensures r.Err? <==> |interfaces| == 0
    ensures r.Err? ==> r.error == IllegalRemoteObject
    ensures r.Ok? ==> r.value.obj == obj && r.value.interfaces == interfaces
  {
    if |interfaces| == 0 then Err(IllegalRemoteObject) else Ok(Marked(obj, interfaces))
  }

  // ---------------------------------------------------------------------------
  // Publications

  /** A `SimonPublication`: where a remote object can be found. */
  datatype Publication = Publication(address: string, port: Int32, name: string)

  /** `publishments`, whether the publish service runs, and how many were started. */
  datatype Publishing = Publishing(list: seq<Publication>, serviceAlive: bool, servicesStarted: nat)

  /** The service runs exactly while something is published. */
  ghost predicate ServiceMatches(p: Publishing) {
    p.serviceAlive <==> |p.list| > 0
  }

  /** `publish`: the first publication starts a new publish service (whose socket
      may fail to open); then the publication is appended. */
  function Publish(p: Publishing, pub: Publication, serviceOpens: bool): (r: (Publishing, Result<()>))
    ensures |p.list| == 0 && !serviceOpens ==> r == (p, Err(InputOutput))
    ensures r.1.Ok? ==> r.0.list == p.list + [pub]
    ensures r.1.Ok? && |p.list| == 0 ==> r.0.serviceAlive && r.0.servicesStarted == p.servicesStarted + 1
    ensures |p.list| > 0 ==> r == (p.(list := p.list + [pub]), Ok(()))
    ensures ServiceMatches(p) ==> ServiceMatches(r.0)
  {
    if |p.list| == 0 then
      if !serviceOpens then (p, Err(InputOutput))
      else (Publishing(p.list + [pub], true, p.servicesStarted + 1), Ok(()))
    else (p.(list := p.list + [pub]), Ok(()))
  }

  /** `unpublish`: the first equal publication leaves the list, and the service is
      shut down once the list is empty. The result says whether one was there. */
  function Unpublish(p: Publishing, pub: Publication): (r: (Publishing, bool))
    ensures r.1 <==> pub in p.list
    ensures multiset(r.0.list) == multiset(p.list) - multiset{pub}
    ensures r.0.servicesStarted == p.servicesStarted
    ensures r.0.serviceAlive <==> p.serviceAlive && |r.0.list| > 0
    ensures ServiceMatches(p) ==> ServiceMatches(r.0)
  {
    var list := RemoveFirst(p.list, pub);
    (Publishing(list, p.serviceAlive && |list| > 0, p.servicesStarted), pub in p.list)
  }

  /** Publishing something new and unpublishing it again restores the list and stops
      a service that only it kept running. */
  lemma PublishUnpublishRoundTrip(p: Publishing, pub: Publication, serviceOpens: bool)
    requires ServiceMatches(p) && pub !in p.list
    requires (Publish(p, pub, serviceOpens).1).Ok?
    ensures var (q, removed) := Unpublish(Publish(p, pub, serviceOpens).0, pub);
            removed && q.list == p.list && ServiceMatches(q) && (|p.list| == 0 ==> !q.serviceAlive)
  {
    RemoveFirstAppended(p.list, pub);
  }

  // ---------------------------------------------------------------------------
  // Proxies

  /** `getSimonProxy` followed by `getSessionId`: the proxy's session; anything that
      is not a proxy is refused. */
  function SessionIdOf(o: Lookups.Releasable): (r: Result<nat>)
    ensures r.Ok? <==> o.ProxyObject?
    ensures r.Ok? ==> r.value == o.proxy.session
    ensures r.Err? ==> r.error == IllegalArgument
  {
    if o.ProxyObject? then Ok(o.proxy.session) else Err(IllegalArgument)
  }

  /** The thread a call runs on: a message-processing thread knows its session. */
  datatype CallingThread = ProcessMessageThread(session: nat) | OtherThread

  /** `getSessionId()`: only inside a remote call. */
  function CurrentSessionId(t: CallingThread): (r: Result<nat>)
    ensures r.Ok? <==> t.ProcessMessageThread?
    ensures r.Ok? ==> r.value == t.session
    ensures r.Err? ==> r.error == IllegalState
  {
    match t
    case ProcessMessageThread(s) => Ok(s)
    case OtherThread => Err(IllegalState)
  }

  /** `denoteSameRemoteObjekt` as written: the first proxy's name is compared with
      `equals`, which throws once that proxy has been released. */
  function DenoteSameAsWritten(a: Lookups.Releasable, b: Lookups.Releasable): (r: Result<bool>)
    ensures r.Err? <==> a.ProxyObject? && b.ProxyObject? && a.proxy.remoteObjectName.None?
    ensures r.Err? ==> r.error == NullPointer
    ensures r.Ok? ==> r == Ok(DenoteSame(a, b))
  {
    if a.ProxyObject? && b.ProxyObject? then
      if a.proxy.remoteObjectName.None? then Err(NullPointer)
      else Ok(Some(a.proxy.remoteObjectName.value) == b.proxy.remoteObjectName && a.proxy.session == b.proxy.session)
    else Ok(false)
  }

  /** A released proxy compared with any other proxy throws instead of answering
      false. */
  lemma DenoteSameReleasedThrows(p: Proxies.Proxy, q: Proxies.Proxy)
    ensures DenoteSameAsWritten(Lookups.ProxyObject(Proxies.Release(p).0), Lookups.ProxyObject(q)) == Err(NullPointer)
  {
  }

  /** `denoteSameRemoteObjekt` as its documentation promises: true exactly for two
      proxies naming the same remote object over the same session, false in any
      other case. */
  function DenoteSame(a: Lookups.Releasable, b: Lookups.Releasable): (same: bool)
    ensures same <==> a.ProxyObject? && b.ProxyObject? && a.proxy.remoteObjectName.Some?
                      && a.proxy.remoteObjectName == b.proxy.remoteObjectName
                      && a.proxy.session == b.proxy.session
  {
    match (a, b)
    case (ProxyObject(x), ProxyObject(y)) =>
      x.remoteObjectName.Some? && x.remoteObjectName == y.remoteObjectName && x.session == y.session
    case _ => false
  }

  /** The corrected comparison is symmetric and never holds for a released proxy. */
  lemma DenoteSameSymmetric(a: Lookups.Releasable, b: Lookups.Releasable)
    ensures DenoteSame(a, b) == DenoteSame(b, a)
    ensures a.ProxyObject? ==> !DenoteSame(Lookups.ProxyObject(Proxies.Release(a.proxy).0), b)
  {
  }
}

=== FILE: utils.dfy ===
/** The small pure helpers of `Utils`: boolean bytes, hex formatting, the
    supplemental hash, the root-cause walk and the method-hash packing.
 */
module Utils {
  import opened Errors
  import opened JavaInt
  import Numerals

  // ---------------------------------------------------------------------------
  // Boolean <-> byte

  /** `booleanToByte`: the wire form of a boolean. */
  function BooleanToByte(b: bool): (x: Byte)
    ensures x == 0xFF || x == 0x00
    ensures b <==> x != 0x00
  {
    if b then 0xFF else 0x00
  }

  /** `byteToBoolean`: only 0xFF and 0x00 are booleans, anything else is rejected. */
  function ByteToBoolean(x: Byte): (r: Result<bool>)
    ensures r.Ok? <==> (x == 0xFF || x == 0x00)
    ensures r.Ok? ==> (r.value <==> x == 0xFF)
    ensures r.Err? ==> r.error == IllegalArgument
  {
    if x == 0xFF then Ok(true)
    else if x == 0x00 then Ok(false)
    else Err(IllegalArgument)
  }

  /** A boolean survives a trip over the wire. */
  lemma BooleanByteRoundTrip(b: bool)
    ensures ByteToBoolean(BooleanToByte(b)) == Ok(b)
  {
  }

  /** Every byte that decodes to a boolean is that boolean's wire form. */
  lemma ByteBooleanRoundTrip(x: Byte)
    requires ByteToBoolean(x).Ok?
    ensures BooleanToByte(ByteToBoolean(x).value) == x
  {
  }

  // ---------------------------------------------------------------------------
  // Hex formatting

  /** Prepends '0' until `s` has at least `width` characters. */
  function PadZeros(s: string, width: nat): (r: string)
    ensures |r| == if |s| < width then width else |s|
    ensures r[|r| - |s|..] == s
    ensures forall i :: 0 <= i < |r| - |s| ==> r[i] == '0'
  {
    var zeros := if |s| < width then width - |s| else 0;
    seq(zeros, _ => '0') + s
  }

  /** `longToHexString`: "0x", then the upper-case hex digits of the 64 bits of `l`
      (as `Long.toHexString` prints them), left-padded with zeros to eight digits. */
  function LongToHexString(l: Int64): (s: string)
    ensures |s| >= 10 && s[..2] == "0x"
    ensures forall i :: 2 <= i < |s| ==> s[i] in Numerals.DIGIT_CHARS
    ensures |s| > 10 ==> s[2] != '0'
  {
    var digits := Numerals.Render(Numerals.Digits(Unsigned64(l), 16));
    "0x" + PadZeros(digits, 8)
  }

  /** The session id 1 as the runtime prints it. */
  lemma HexOfOne()
    ensures LongToHexString(1) == "0x00000001"
  {
    assert Unsigned64(1) == 1;
    assert Numerals.Digits(1, 16) == [1];
    assert Numerals.Render([1]) == "1";
    assert PadZeros("1", 8) == "00000001";
  }

  /** A leading zero digit does not change a value. */
  lemma {:induction false} ValueLeadingZero(ds: seq<nat>, base: nat)
    ensures Numerals.Value([0] + ds, base) == Numerals.Value(ds, base)
    decreases |ds|
  {
    if |ds| > 0 {
      var ext := [0] + ds;
      assert ext[..|ext| - 1] == [0] + ds[..|ds| - 1];
      ValueLeadingZero(ds[..|ds| - 1], base);
    }
  }

  /** `k` leading zero digits do not change a value. */
  lemma {:induction false} ValueLeadingZeros(k: nat, ds: seq<nat>, base: nat)
    ensures Numerals.Value(seq(k, _ => 0) + ds, base) == Numerals.Value(ds, base)
    decreases k
  {
    if k > 0 {
      var rest: seq<nat> := seq(k - 1, _ => 0) + ds;
      assert seq(k, _ => 0) + ds == [0] + rest;
      ValueLeadingZero(rest, base);
      ValueLeadingZeros(k - 1, ds, base);
    } else {
      assert seq(k, _ => 0) + ds == ds;
    }
  }

  /** Leading zero characters do not change the parsed value. */
  lemma ValueOfPadded(s: string, width: nat)
    requires forall i :: 0 <= i < |s| ==> s[i] in Numerals.DIGIT_CHARS
    ensures forall i :: 0 <= i < |PadZeros(s, width)| ==> PadZeros(s, width)[i] in Numerals.DIGIT_CHARS
    ensures Numerals.Value(Numerals.Parse(PadZeros(s, width)), 16) == Numerals.Value(Numerals.Parse(s), 16)
  {
    var p := PadZeros(s, width);
    var k := |p| - |s|;
    assert p == seq(k, _ => '0') + s;
    assert Numerals.DIGIT_CHARS[0] == '0';
    var zeros: seq<nat> := seq(k, _ => 0);
    assert Numerals.Parse(p) == zeros + Numerals.Parse(s);
    ValueLeadingZeros(k, Numerals.Parse(s), 16);
  }

  /** Parsing the hex string gives back the unsigned 64-bit value of `l`:
      the formatting loses nothing, so different longs print differently. */
  lemma HexStringRoundTrip(l: Int64)
    ensures var s := LongToHexString(l);
      Numerals.Value(Numerals.Parse(s[2..]), 16) == Unsigned64(l)
  {
    var ds := Numerals.Digits(Unsigned64(l), 16);
    var digits := Numerals.Render(ds);
    var s := LongToHexString(l);
    assert s == "0x" + PadZeros(digits, 8);
    assert s[2..] == PadZeros(digits, 8);
    forall i | 0 <= i < |digits|
      ensures digits[i] in Numerals.DIGIT_CHARS
    {
      assert digits[i] == Numerals.DIGIT_CHARS[ds[i]];
    }
    ValueOfPadded(digits, 8);
    Numerals.ParseRender(ds);
    Numerals.ValueOfDigits(Unsigned64(l), 16);
  }

  lemma HexStringInjective(a: Int64, b: Int64)
    requires LongToHexString(a) == LongToHexString(b)
    ensures a == b
  {
    HexStringRoundTrip(a);
    HexStringRoundTrip(b);
  }

  // ---------------------------------------------------------------------------
  // Supplemental hash

  /** The two xor-shift stages of `hash(Object)` on the 32 bits of a hash code
      (`>>` on `bv32` is Java's unsigned `>>>`). */
  function Spread(h: bv32): bv32 {
    h ^ ((h >> 20) ^ (h >> 12))
  }

  function Fold(h: bv32): bv32 {
    h ^ (h >> 7) ^ (h >> 4)
  }

  function Mix(h: bv32): bv32 {
    Fold(Spread(h))
  }

  /** `hash`: 0 for null, otherwise the mixed hash code of the object. Only null
      and the hash code 0 land on 0. */
  function Hash(hashCode: Option<bv32>): (r: bv32)
    ensures hashCode.None? ==> r == 0
    ensures hashCode.Some? && hashCode.value < 16 ==> r == hashCode.value
    ensures r == 0 <==> hashCode.None? || hashCode == Some(0)
  {
    match hashCode
    case None => 0
    case Some(h) => MixZeroOnlyAtZero(h); Mix(h)
  }

  lemma MixZeroOnlyAtZero(h: bv32)
    ensures Mix(h) == 0 <==> h == 0
  {
    assert Mix(0) == 0;
    if Mix(h) == 0 {
      MixInjective(h, 0);
    }
  }

  /** Distinct hash codes stay distinct: each xor-shift stage is linear over the
      bits, so two codes with the same image differ by a `d` that the stage maps
      to 0, and such a `d` is 0. */
  lemma MixInjective(a: bv32, b: bv32)
    requires Mix(a) == Mix(b)
    ensures a == b
  {
    FoldInjective(Spread(a), Spread(b));
    SpreadInjective(a, b);
  }

  lemma HashInjective(a: Option<bv32>, b: Option<bv32>)
    requires a.Some? && b.Some? && Hash(a) == Hash(b)
    ensures a == b
  {
    MixInjective(a.value, b.value);
  }

  lemma FoldInjective(a: bv32, b: bv32)
    requires Fold(a) == Fold(b)
    ensures a == b
  {
    FoldLinear(a, b);
    FoldKernel(a ^ b);
  }

  lemma FoldLinear(a: bv32, b: bv32)
    ensures var d := a ^ b;
            (a ^ (a >> 7) ^ (a >> 4)) ^ (b ^ (b >> 7) ^ (b >> 4)) == d ^ (d >> 7) ^ (d >> 4)
  {
  }

  lemma SpreadInjective(a: bv32, b: bv32)
    requires Spread(a) == Spread(b)
    ensures a == b
  {
    SpreadLinear(a, b);
    SpreadKernel(a ^ b);
  }

  lemma SpreadLinear(a: bv32, b: bv32)
    ensures var d := a ^ b;
            (a ^ ((a >> 20) ^ (a >> 12))) ^ (b ^ ((b >> 20) ^ (b >> 12))) == d ^ ((d >> 20) ^ (d >> 12))
  {
  }

  /** A `d` equal to its own `(d >> 7) ^ (d >> 4)` has its top four bits clear
      (the shifted terms do), then the next four, and so on down to 0. */
  lemma FoldKernel(d: bv32)
    requires d == (d >> 7) ^ (d >> 4)
    ensures d == 0
  {
    FoldKernelStep(d, 0xFFFF_FFFF);
    FoldKernelStep(d, 0x0FFF_FFFF);
    FoldKernelStep(d, 0x00FF_FFFF);
    FoldKernelStep(d, 0x000F_FFFF);
    FoldKernelStep(d, 0x0000_FFFF);
    FoldKernelStep(d, 0x0000_0FFF);
    FoldKernelStep(d, 0x0000_00FF);
    FoldKernelStep(d, 0x0000_000F);
  }

  /** `m` is a mask of low bits: clearing its top bit by shifting keeps it inside. */
  predicate LowMask(m: bv32) {
    (m >> 1) & m == m >> 1
  }

  lemma FoldKernelStep(d: bv32, m: bv32)
    requires d == (d >> 7) ^ (d >> 4) && d & m == d && LowMask(m)
    ensures d & (m >> 4) == d
  {
  }

  lemma SpreadKernel(d: bv32)
    requires d == (d >> 20) ^ (d >> 12)
    ensures d == 0
  {
    SpreadKernelStep(d, 0xFFFF_FFFF);
    SpreadKernelStep(d, 0x000F_FFFF);
    SpreadKernelStep(d, 0x0000_00FF);
  }

  lemma SpreadKernelStep(d: bv32, m: bv32)
    requires d == (d >> 20) ^ (d >> 12) && d & m == d && LowMask(m)
    ensures d & (m >> 12) == d
  {
  }

  // ---------------------------------------------------------------------------
  // Root cause

  /** The throwable classes `getRootCause` distinguishes. */
  datatype ThrowableKind = SaxException | SqlException | OtherThrowable

  /** A throwable with its links: `wrapped` is `getException` of a SAX exception or
      `getNextException` of an SQL exception, `cause` is `getCause`. */
  datatype Throwable = Throwable(kind: ThrowableKind, id: nat,
                                 wrapped: Option<Throwable>, cause: Option<Throwable>)

  /** The link `getRootCause` follows from `t`, if any. */
  function Next(t: Throwable): Option<Throwable> {
    match t.kind
    case SaxException => t.wrapped
    case SqlException => t.wrapped
    case OtherThrowable => t.cause
  }

  /** The throwables visited from `t`, in order. */
  function Chain(t: Throwable): (c: seq<Throwable>)
    ensures |c| >= 1 && c[0] == t
  {
    match Next(t)
    case None => [t]
    case Some(n) => [t] + Chain(n)
  }

  /** `getRootCause`: the last throwable on the chain, `t` itself when it has no link. */
  function GetRootCause(t: Throwable): (r: Throwable)
    ensures Next(r).None?
    ensures Next(t).None? ==> r == t
    ensures r == Chain(t)[|Chain(t)| - 1]
  {
    match Next(t)
    case None => t
    case Some(n) => GetRootCause(n)
  }

  /** Asking for the root cause of a root cause changes nothing. */
  lemma RootCauseIdempotent(t: Throwable)
    ensures GetRootCause(GetRootCause(t)) == GetRootCause(t)
  {
  }

  // ---------------------------------------------------------------------------
  // Method hash

  /** Powers of 256. */
  function Pow256(i: nat): (p: nat)
    ensures p >= 1
  {
    if i == 0 then 1 else 0x100 * Pow256(i - 1)
  }

  /** The unsigned value of bytes read least significant first. */
  function LittleEndian(bs: seq<Byte>): (v: nat)
    ensures v < Pow256(|bs|)
  {
    if |bs| == 0 then 0 else bs[0] + 0x100 * LittleEndian(bs[1..])
  }

  /** Byte `i` (counting from the least significant) of `n`. */
  function ByteAt(n: nat, i: nat): nat {
    if i == 0 then n % 0x100 else ByteAt(n / 0x100, i - 1)
  }

  /** The packing of the first eight digest bytes into a long:
      byte i contributes bits 8i..8i+7, summed in Java `long` arithmetic. */
  function PackDigest(digest: seq<Byte>): (h: Int64)
  {
    var k := if |digest| < 8 then |digest| else 8;
    Wrap64(LittleEndian(digest[..k]))
  }

  lemma Pow256Mono(i: nat, j: nat)
    requires i <= j
    ensures Pow256(i) <= Pow256(j)
    decreases j
  {
    if i < j {
      Pow256Mono(i, j - 1);
    }
  }

  /** Each byte of a little-endian value sits where it was put. */
  lemma {:induction false} ByteAtLittleEndian(bs: seq<Byte>, i: nat)
    ensures ByteAt(LittleEndian(bs), i) == if i < |bs| then bs[i] else 0
    decreases i
  {
    if |bs| == 0 {
      ByteAtZero(i);
    } else {
      var rest := LittleEndian(bs[1..]);
      assert LittleEndian(bs) == bs[0] + 0x100 * rest;
      if i > 0 {
        assert LittleEndian(bs) / 0x100 == rest;
        ByteAtLittleEndian(bs[1..], i - 1);
      }
    }
  }

  lemma {:induction false} ByteAtZero(i: nat)
    ensures ByteAt(0, i) == 0
  {
    if i > 0 {
      ByteAtZero(i - 1);
    }
  }

  /** The long's 64 bits hold the first eight digest bytes, byte i at bits 8i..8i+7,
      and zero bytes above a short digest. */
  lemma PackDigestBytes(digest: seq<Byte>, i: nat)
    requires i < 8
    ensures ByteAt(Unsigned64(PackDigest(digest)), i) == if i < |digest| then digest[i] else 0
  {
    var k := if |digest| < 8 then |digest| else 8;
    var bs := digest[..k];
    Pow256Mono(k, 8);
    assert Pow256(8) == TWO_64;
    var v := LittleEndian(bs);
    assert Unsigned64(Wrap64(v)) == v;
    ByteAtLittleEndian(bs, i);
  }

  /** What computing a digest can give: the digest bytes, or an I/O failure. */
  datatype DigestOutcome = Digest(bytes: seq<Byte>) | DigestIoFailure

  /** `computeMethodHash`: a memoised hash per method; a miss packs the digest
      (or gives -1 on an I/O failure) and records it. */
  function ComputeMethodHash<M>(cache: map<M, Int64>, m: M, digest: DigestOutcome)
    : (res: (map<M, Int64>, Int64))
    ensures m in res.0 && res.0[m] == res.1
    ensures m in cache ==> res == (cache, cache[m])
    ensures m !in cache ==> res.0 == cache[m := res.1]
    ensures m !in cache && digest.DigestIoFailure? ==> res.1 == -1
    ensures m !in cache && digest.Digest? ==>
      forall i :: 0 <= i < 8 ==>
        ByteAt(Unsigned64(res.1), i) == if i < |digest.bytes| then digest.bytes[i] else 0
  {
    if m in cache then (cache, cache[m])
    else
      var h := match digest
        case Digest(bs) => PackDigest(bs)
        case DigestIoFailure => -1;
      assert digest.Digest? ==> forall i :: 0 <= i < 8 ==>
        ByteAt(Unsigned64(h), i) == if i < |digest.bytes| then digest.bytes[i] else 0 by {
        if digest.Digest? {
          forall i | 0 <= i < 8 {
            PackDigestBytes(digest.bytes, i);
          }
        }
      }
      (cache[m := h], h)
  }

  /** Once a method's hash is known, later requests return it whatever they would digest. */
  lemma MethodHashStable<M>(cache: map<M, Int64>, m: M, d1: DigestOutcome, d2: DigestOutcome)
    ensures var (c1, h1) := ComputeMethodHash(cache, m, d1);
            ComputeMethodHash(c1, m, d2) == (c1, h1)
  {
  }
}

=== FILE: wire.dfy ===
/** The byte-level primitives the message bodies are built from: Java strings
    as UTF-16 code units, MINA's `putPrefixedString` / `getPrefixedString`
    with a two-byte length prefix, and `putObject` / `getObject` for a
    serialized object, which stays an opaque payload.

    The charset encoding is abstract: every code unit takes two bytes, and a
    string containing an unpaired surrogate cannot be encoded, as with a
    strict UTF-8 encoder. What matters to the model is that the encoding is
    injective, self-delimiting, and fails exactly where the real one does.
 */
module Wire {
  import opened Errors
  import opened JavaInt

  /** A UTF-16 code unit, the element of a Java `String`. */
  type Unit = x: int | 0 <= x < 0x1_0000

  /** A Java `String`. */
  type JString = seq<Unit>

  /** A Java serialized object, as the bytes `ObjectOutputStream` produced. */
  type Payload = p: seq<Byte> | |p| <= INT_MAX

  /** The outcome of reading one field from a buffer: the value and the bytes
      after it; a CharacterCodingException, with the bytes after the field the
      decoder gave up on; or any other exception. */
  datatype Read<+T> = Got(value: T, rest: seq<Byte>) | Malformed(rest: seq<Byte>) | Failed(error: Exception)

  /** The largest body `putPrefixedString` accepts behind a two-byte prefix. */
  const PREFIX_MAX: nat := 0xFFFF

  predicate IsHighSurrogate(u: Unit) { 0xD800 <= u < 0xDC00 }
  predicate IsLowSurrogate(u: Unit) { 0xDC00 <= u < 0xE000 }

  /** Every surrogate in `s` is half of a high-low pair. */
  predicate WellFormed(s: JString) {
    (forall i :: 0 <= i < |s| && IsHighSurrogate(s[i]) ==> i + 1 < |s| && IsLowSurrogate(s[i + 1])) &&
    (forall i :: 0 <= i < |s| && IsLowSurrogate(s[i]) ==> 0 < i && IsHighSurrogate(s[i - 1]))
  }

  /** An ASCII literal as a Java string. */
  function Text(s: string): (r: JString)
    ensures |r| == |s|
    ensures forall i :: 0 <= i < |r| ==> !IsHighSurrogate(r[i]) && !IsLowSurrogate(r[i])
    ensures WellFormed(r)
  {
    seq(|s|, i requires 0 <= i < |s| => if s[i] as int < 0x1_0000 then s[i] as int else 0xFFFD)
  }

  /** The bytes of the string's content, two per code unit. */
  function Units(s: JString): (bs: seq<Byte>)
    ensures |bs| == 2 * |s|
  {
    if s == [] then [] else [s[0] / 0x100, s[0] % 0x100] + Units(s[1..])
  }

  /** The code units of an even number of content bytes. */
  function FromUnits(bs: seq<Byte>): (s: JString)
    requires |bs| % 2 == 0
    ensures 2 * |s| == |bs|
  {
    if bs == [] then [] else [bs[0] as int * 0x100 + bs[1]] + FromUnits(bs[2..])
  }

  lemma {:induction false} FromUnitsUnits(s: JString)
    ensures FromUnits(Units(s)) == s
  {
    if s != [] {
      assert Units(s)[2..] == Units(s[1..]);
      FromUnitsUnits(s[1..]);
    }
  }

  /** `putPrefixedString(s, encoder)`: an unsigned 16-bit byte count, then the
      encoded string. A string of more code units than the prefix can count is
      refused with IllegalArgumentException before any encoding is tried; an
      unencodable string throws CharacterCodingException; a string whose
      encoding exceeds the prefix throws IllegalArgumentException. */
  function PutPrefixed(s: JString): (r: Result<seq<Byte>>)
    ensures r.Err? <==> !WellFormed(s) || 2 * |s| > PREFIX_MAX
    ensures |s| > PREFIX_MAX ==> r == Err(IllegalArgument)
    ensures r.Err? ==> (r.error == CharacterCoding <==> !WellFormed(s) && |s| <= PREFIX_MAX)
    ensures r.Err? ==> r.error in {CharacterCoding, IllegalArgument}
    ensures r.Ok? ==> |r.value| == 2 + 2 * |s|
  {
    if |s| > PREFIX_MAX then Err(IllegalArgument)
    else if !WellFormed(s) then Err(CharacterCoding)
    else if 2 * |s| > PREFIX_MAX then Err(IllegalArgument)
    else Ok([(2 * |s|) / 0x100, (2 * |s|) % 0x100] + Units(s))
  }

  /** `getPrefixedString(decoder)`. Too few bytes throw BufferUnderflowException;
      an odd count or an unpaired surrogate throws CharacterCodingException. The
      `rest` of a `Malformed` read is the bytes after the field, a simplification:
      MINA leaves the buffer at the offending byte. */
  function GetPrefixed(bs: seq<Byte>): (r: Read<JString>)
    ensures r.Failed? ==> r.error == BufferUnderflow
    ensures r.Failed? <==> |bs| < 2 || |bs| < 2 + (bs[0] as int * 0x100 + bs[1])
    ensures !r.Failed? ==> |r.rest| < |bs| && bs[|bs| - |r.rest|..] == r.rest
    ensures r.Got? ==> WellFormed(r.value) && PutPrefixed(r.value) == Ok(bs[..|bs| - |r.rest|])
  {
    if |bs| < 2 then Failed(BufferUnderflow)
    else
      var n := bs[0] as int * 0x100 + bs[1];
      if |bs| < 2 + n then Failed(BufferUnderflow)
      else if n % 2 != 0 then Malformed(bs[2 + n..])
      else
        var s := FromUnits(bs[2..2 + n]);
        if !WellFormed(s) then Malformed(bs[2 + n..])
        else
          UnitsFromUnits(bs[2..2 + n]);
          assert [n / 0x100, n % 0x100] == bs[..2];
          assert bs[..2 + n] == bs[..2] + bs[2..2 + n];
          Got(s, bs[2 + n..])
  }

  lemma {:induction false} UnitsFromUnits(bs: seq<Byte>)
    requires |bs| % 2 == 0
    ensures Units(FromUnits(bs)) == bs
  {
    if bs != [] {
      var s := FromUnits(bs);
      assert s[1..] == FromUnits(bs[2..]);
      UnitsFromUnits(bs[2..]);
    }
  }

  /** A prefixed string reads back as itself, whatever follows it. */
  lemma PrefixedRoundTrip(s: JString, rest: seq<Byte>)
    requires PutPrefixed(s).Ok?
    ensures GetPrefixed(PutPrefixed(s).value + rest) == Got(s, rest)
  {
    var bs := PutPrefixed(s).value + rest;
    var n := 2 * |s|;
    assert bs[0] as int * 0x100 + bs[1] == n;
    assert bs[2..2 + n] == Units(s);
    assert bs[2 + n..] == rest;
    FromUnitsUnits(s);
  }

  /** Two strings with the same encoding are the same string. */
  lemma PrefixedInjective(s: JString, t: JString)
    requires PutPrefixed(s).Ok? && PutPrefixed(s) == PutPrefixed(t)
    ensures s == t
  {
    PrefixedRoundTrip(s, []);
    PrefixedRoundTrip(t, []);
    assert PutPrefixed(s).value + [] == PutPrefixed(s).value;
  }

  /** `putObject`: a four-byte length, then the serialized bytes. */
  function PutObject(p: Payload): (bs: seq<Byte>)
    ensures |bs| == 4 + |p| && bs[4..] == p
  {
    IntBytes(|p|) + p
  }

  /** `getObject`: the payload and the bytes after it. */
  function GetObject(bs: seq<Byte>): (r: Result<(Payload, seq<Byte>)>)
    ensures r.Err? ==> r.error == BufferUnderflow
    ensures r.Ok? ==> |r.value.1| < |bs| && bs == PutObject(r.value.0) + r.value.1
  {
    if |bs| < 4 then Err(BufferUnderflow)
    else
      var n := ReadInt(bs);
      if n < 0 || |bs| < 4 + n then Err(BufferUnderflow)
      else
        IntBytesRead(bs[..4]);
        ReadIntPrefix(bs);
        assert bs == bs[..4] + bs[4..4 + n] + bs[4 + n..];
        Ok((bs[4..4 + n], bs[4 + n..]))
  }

  lemma ObjectRoundTrip(p: Payload, rest: seq<Byte>)
    ensures GetObject(PutObject(p) + rest) == Ok((p, rest))
  {
    var bs := PutObject(p) + rest;
    ReadIntBytes(|p|, p + rest);
    assert bs == IntBytes(|p|) + (p + rest);
    assert bs[4..4 + |p|] == p;
    assert bs[4 + |p|..] == rest;
  }

  /** `getInt`: the int and the bytes after it. */
  function GetInt(bs: seq<Byte>): (r: Result<(Int32, seq<Byte>)>)
    ensures r.Err? <==> |bs| < 4
    ensures r.Err? ==> r.error == BufferUnderflow
    ensures r.Ok? ==> bs == IntBytes(r.value.0) + r.value.1
  {
    if |bs| < 4 then Err(BufferUnderflow)
    else
      IntBytesRead(bs[..4]);
      ReadIntPrefix(bs);
      assert bs == bs[..4] + bs[4..];
      Ok((ReadInt(bs), bs[4..]))
  }

  lemma IntRoundTrip(x: Int32, rest: seq<Byte>)
    ensures GetInt(IntBytes(x) + rest) == Ok((x, rest))
  {
    ReadIntBytes(x, rest);
    assert (IntBytes(x) + rest)[4..] == rest;
  }

  /** `get`: one byte and the bytes after it. */
  function GetByte(bs: seq<Byte>): (r: Result<(Byte, seq<Byte>)>)
    ensures r.Err? <==> bs == []
    ensures r.Err? ==> r.error == BufferUnderflow
    ensures r.Ok? ==> bs == [r.value.0] + r.value.1
  {
    if bs == [] then Err(BufferUnderflow) else Ok((bs[0], bs[1..]))
  }
}
